=== FILE: README.md ===
# Connect-Server core in Dafny

This project models the core of Fairfood's Connect server, a Django REST
service that supply-chain companies and their mobile apps use. The model
covers:

- **Session and authentication state machine.**
  - Password login and token refresh with an entity switch.
  - The device handshake, with its one-time client nonces, and device registration.
  - The user, company, membership and device tables.
  - The validation-token lifecycle and its validity table.
  - The single-sign-on access token, with its expiry, id and blacklist checks.
  - The SSO authentication pipeline: nonce headers, the optional HMAC signature and the device gate.
  - Dispatch by the Auth-Type header.
  - The request-local identity store.
  - The OAuth2 client gates.
- **Domain rules.**
  - Payments and product transactions, their parent checks and soft delete.
  - Entity cards, of which at most one per card is active.
  - Company products and premium ownership.
  - Forms and submissions, the notification managers and the access-scoping filter sets.
- **Validators and string helpers.**
  - The semantic-version check and the GeoJSON polygon validators.
  - The URL builder and the general utility functions.
  - The response envelope and the serializer fields.
  - The model helpers `clean_dict`, numbering and upload paths.

How the model is built:

- **Tables.** Each database table is a `seq` or `map` of records. A class holds the tables an operation changes, and its methods update them the way the source saves rows; their contracts state the new tables.
- **Pure parts.** Queries, checks and filters are functions over those values.
- **Parameters for what cannot be computed here.** These are passed in as values or functions:
  - the clock (`now` and `today`, integers);
  - random draws and UUIDs;
  - JWT decoding and signing;
  - HMAC-SHA256 with base64;
  - TOTP (RFC 6238) verification;
  - Hashid decoding;
  - phone-number parsing;
  - IDNA host encoding and percent-quoting;
  - JSON parsing;
  - password hashing;
  - the OAuth toolkit's own answers.
- **Query order.** Rows are kept in creation order. `.first()` follows each model's ordering. Models that inherit the base model's newest-first ordering take the newest match: for SSO sessions the last one, while the payments of one transaction share its creation time and tie, so the choice among them is an input (see `Transactions.BasePayment` under "## Left out"). Models that declare their own Meta without an ordering take the lowest id: companies, users, devices and entity cards.
- **Random usernames.** Saving a user without an email draws a fresh 32-character username. Every method that saves a user takes that draw as the parameter `draw`.
- **Failures.** An operation that raises returns `Err` with the exception as a value. An uncaught Python error keeps its class name, e.g. `Uncaught("AttributeError")`.
- **Findings.** Where the code evidently does not do what it means to, the model keeps the behaviour as written. Beside it, a corrected version carries the intended property; see "## Findings".

## Model

| member | source | states |
|---|---|---|
| `AccountConstants.Language.Tag` | v1/accounts/constants.py:13-22 | each supported language is stored as a two-letter code |
| `AccountConstants.UserType.Code` | v1/accounts/constants.py:25-33 | user types are stored as the integer codes 101, 111 and 121 |
| `AccountConstants.UserStatus.Code` | v1/accounts/constants.py:36-43 | a user status is stored as 101 (created) or 111 (active) |
| `AccountConstants.TokenStatus.Code` | v1/accounts/constants.py:46-53 | a validation-token status is stored as 101 (used) or 111 (unused) |
| `AccountConstants.TokenType.Code` | v1/accounts/constants.py:56-69 | the seven validation-token types are stored as the codes 101 to 107 |
| `AccountConstants.DeviceType.Code` | v1/accounts/constants.py:72-80 | the device types are stored as 101, 102 and 103 |
| `AccountConstants.TokenTypeFromCode` | v1/accounts/constants.py:56-69 | a stored code reads back as a token type exactly when it is in 101..107, and that type has the code |
| `AccountConstants.UserStatusFromCode` | v1/accounts/constants.py:36-43 | a stored code reads back as a user status exactly when it is 101 or 111, and that status has the code |
| `AccountConstants.TokenStatusFromCode` | v1/accounts/constants.py:46-53 | a stored code reads back as a token status exactly when it is 101 or 111, and that status has the code |
| `AccountConstants.TokenTypeCodeRoundTrip` | v1/accounts/constants.py:56-69 | the token-type codes are distinct: reading back a type's code gives the type |
| `AccountConstants.StatusCodesRoundTrip` | v1/accounts/constants.py:36-53 | the user-status and token-status codes are distinct within each enumeration |
| `AccountConstants.MobileDeviceTypesExactly` | v1/accounts/constants.py:83 | the mobile device types are Android and iOS and not web |
| `AccountConstants.ValidityMinutes` | v1/accounts/constants.py:86-95 | every token type is a key of the validity table; OTP lives 30 minutes, password reset and magic login two days, the others 365 days |
| `AccountConstants.ValidityTableTotal` | v1/accounts/constants.py:86-95 | the table covers every type, and every validity lies between 30 minutes and 365 days |
| `Accounts.NewDevice` | v1/accounts/models.py:426-457 | a device made by get_or_create has the user and registration id asked for, is active, has type Android and no name or location |
| `Accounts.IsAdmin` | v1/accounts/models.py:128-134 | a user is an admin exactly when their type code is ADMIN (111) or SUPER_ADMIN (101) |
| `Accounts.SavedUsername` | v1/accounts/models.py:120-126 | the saved username is the email when it is non-empty, otherwise a 32-character random string |
| `Accounts.SavedUser` | v1/accounts/models.py:120-126 | a saved row keeps every field except the username, which becomes the email, or the fresh 32-character draw for a user without one |
| `Accounts.ResolvedDefault` | v1/accounts/models.py:149-155 | a default still among the user's entities is kept; otherwise the entity with the lowest id becomes the default (`.first()` on the unordered Company queryset); None exactly when the user has no entity |
| `Accounts.LowestIdIsDefault` | v1/accounts/models.py:149-155 | a user who joined company 5 and then company 3, with no stored default, gets company 3 |
| `Accounts.DefaultResolvedRow` | v1/accounts/models.py:149-155 | the user row is untouched while the stored default is still valid; otherwise it is saved (username drawn anew when there is no email) with the resolved default |
| `Accounts.PrefFor` | v1/accounts/models.py:213-222 | a preference without "__all__" raises; otherwise it is on exactly for ENABLED, or for IF_USER_ACTIVE when the user is ACTIVE |
| `Accounts.NotificationPref` | v1/accounts/models.py:209-230 | the four channel preferences succeed exactly when all four carry "__all__", and each is that channel's preference |
| `Accounts.DefaultPrefs` | v1/accounts/models.py:209-230 | with the default channel settings an ACTIVE user gets visibility, push and email but no sms; any other user gets visibility only |
| `Accounts.ActiveDevices` | v1/accounts/models.py:470-476 | the active devices of a user are exactly the devices of that user with the active flag set |
| `Accounts.IsDeviceActive` | v1/accounts/models.py:232-238 | a registration id is active for a user exactly when one of that user's active devices carries it |
| `Accounts.DeviceWithDeviceId` | v1/accounts/models.py:485-488 | the device found is the first with that registration id and user; None when there is none |
| `Accounts.DeactivatedLeavesNoActive` | v1/accounts/models.py:478-483 | after deactivate_devices the user has no active device, other users' devices are unchanged and only the active flag moves |
| `Accounts.CurrentPrivacyPolicy` | v1/accounts/models.py:527-534 | the current policy exists exactly when some policy is in force, is in force, and has the highest version among those in force |
| `Accounts.Directory.constructor` | v1/accounts/models.py:22-109 | the tables start empty and consistent |
| `Accounts.Directory.GetDefaultEntity` | v1/accounts/models.py:149-155 | returns the resolved default; the users map changes only at u, to DefaultResolvedRow (saved, with a fresh username for an email-less user, only when the default was re-resolved) |
| `Accounts.Directory.SetDefaultEntity` | v1/accounts/models.py:157-164 | the default is always set to the entity and the row saved (fresh username for an email-less user); no other user changes and, since Entity declares no status column, no entity row changes; the result is the entity |
| `Accounts.Directory.SetActive` | v1/accounts/models.py:181-188 | the user row becomes one save of ACTIVE with the resolved default (fresh username for an email-less user); no entity row changes; it succeeds exactly when the user has an entity, i.e. exactly when a default was resolved |
| `Accounts.Directory.MarkActive` | v1/accounts/models.py:183-184 | the user row is saved with status ACTIVE (username drawn anew for an email-less user); no other user changes |
| `Accounts.Directory.MakeForceLogout` | v1/accounts/models.py:197-201 | the user row is saved with force_logout set (username drawn anew for an email-less user); no other user changes; returns true |
| `Accounts.Directory.DisableForceLogout` | v1/accounts/models.py:203-207 | the user row is saved with force_logout cleared (username drawn anew for an email-less user); no other user changes; returns true |
| `Accounts.Directory.DeactivateDevices` | v1/accounts/models.py:478-483 | the device table becomes the deactivated table: the user has no active device left |
| `Accounts.Directory.DeactivateDevice` | v1/accounts/models.py:465-468 | only that device's active flag changes, to false |
| `Accounts.Directory.GetOrCreateDevice` | v1/apiauth/serializers.py:104-106 | returns the user's device with the registration id; a new Android device is appended exactly when none existed |
| `Accounts.Directory.SaveDevice` | v1/apiauth/serializers.py:107-113 | writes back one device, keeping the table consistent |
| `PasswordGates.FirstWithKey` | v1/apiauth/serializers.py:225 | the index found holds the key; None exactly when no token holds it |
| `PasswordGates.GetByKey` | v1/apiauth/serializers.py:225 | `objects.get(key=…)`: not found exactly when no token holds the key, found at the only token holding it, multiple exactly when two tokens hold it |
| `PasswordGates.ValidateValidationToken` | v1/apiauth/serializers.py:216-237 | an unknown key or a token that is not valid is reported with "Invalid validation token", not raised; a key held twice raises MultipleObjectsReturned; the value is echoed and set_password starts false |
| `PasswordGates.ValidateEmail` | v1/apiauth/serializers.py:239-249 | the email is reported taken exactly when some user has it |
| `PasswordGates.ValidatePassword` | v1/apiauth/serializers.py:251-263 | the password is valid exactly when the validators raise nothing; otherwise the message is the exception text |
| `PasswordGates.TokenForUser` | v1/apiauth/serializers.py:284-293 | set_password is raised when the user has no usable password or the token is a reset token; a token of another user is reported invalid with value "-" |
| `PasswordGates.ValidateGate` | v1/apiauth/serializers.py:265-294 | as written: no user raises AttributeError (`user.id.id`); an unknown token raises KeyError on "object"; any entity is refused; otherwise the token check is completed for the user |
| `PasswordGates.GateReportsForeignTokens` | v1/apiauth/serializers.py:265-294 | a gate that passes reports a token valid only when the stored token is valid and belongs to the user |
| `PasswordGates.ValidateGateIntended` | v1/apiauth/serializers.py:271-283 | corrected gate: an entity is refused exactly when the user is not its member; a token without a user gives the "User ID is required" error |
| `PasswordGates.EntityGateRefusesMembers` | v1/apiauth/serializers.py:267-274 | a member of the company named is refused as written (AttributeError) and let through by the corrected gate |
| `PasswordGates.PasswordFieldValue` | v1/apiauth/serializers.py:309-311 | a password field is required, non-blank, trimmed, and at most 128 characters |
| `PasswordGates.ValidateResetFields` | v1/apiauth/serializers.py:308-311 | the field pass succeeds exactly when token, both new passwords and the optional old password are valid fields; errors are collected |
| `PasswordGates.ValidateReset` | v1/apiauth/serializers.py:313-338 | the gate's error comes first; an unknown token is "Token does not exist."; success needs the user to have no usable password or a reset token, a matching old password when given, and equal new passwords |
| `PasswordGates.ResetUser` | v1/apiauth/serializers.py:340-350 | the user gets the new password hash, accepts the current policy only for an invitation token, and is saved with the username rule; nothing else changes |
| `PasswordGates.ConfirmReset` | v1/apiauth/serializers.py:340-350 | stores the reset user and invalidates the token; afterwards the new password matches and the token is no longer valid |
| `PasswordGates.CheckPassword` | v1/apiauth/serializers.py:362-371 | with no current user AttributeError escapes; a wrong password gives "Password is incorrect"; success exactly when the password matches, answering "Password is correct" |
| `Handshake.TrimStart` | v1/apiauth/serializers.py:377-382 | the leading whitespace (every character `str.isspace` accepts, Unicode spaces included) is removed and only whitespace is removed |
| `Handshake.TrimEnd` | v1/apiauth/serializers.py:377-382 | the trailing whitespace (every character `str.isspace` accepts) is removed and only whitespace is removed |
| `Handshake.Trim` | v1/apiauth/serializers.py:377-382 | the trimmed text is a slice of the input with no Python whitespace at either end; text without such whitespace is kept |
| `Handshake.CharFieldValue` | v1/apiauth/serializers.py:377-382 | a required CharField: missing is "required", blank after trimming is "blank", otherwise the trimmed text |
| `Handshake.UnicodeSpaceIsBlank` | v1/apiauth/serializers.py:377-382 | a value of no-break and ideographic spaces is blank to the CharField |
| `Handshake.DeviceTypeFromText` | v1/apiauth/serializers.py:378 | a device-type choice is accepted exactly for the keys "101", "102" and "103" |
| `Handshake.ChoiceValue` | v1/apiauth/serializers.py:378 | a missing choice is required; a given one is accepted exactly when it is a DeviceType key, otherwise "is not a valid choice" |
| `Handshake.ValidateNonce` | v1/apiauth/serializers.py:406-415 | a nonce is accepted exactly when no stored session, expired or not, has used it |
| `Handshake.ErrorOf` | v1/apiauth/serializers.py:377-382 | a field contributes its error exactly when it failed |
| `Handshake.ValidateHandshakeFields` | v1/apiauth/serializers.py:377-415 | the version validator's ValueError escapes exactly when a present version is refused by it; on success each field holds its validated value |
| `Handshake.HandshakeFieldsSound` | v1/apiauth/serializers.py:377-415 | an accepted handshake carries a semantic version and a nonce no session has used |
| `Handshake.AcceptedTrimmedIsVersion` | base/drf/utils.py:9-22 | a string the validator accepts and that does not end in whitespace is a version of the grammar |
| `Handshake.UsedNonceReported` | v1/apiauth/serializers.py:406-415 | a used nonce always fails the handshake and is reported against the nonce field |
| `Handshake.GetDeviceInfoAsWritten` | v1/apiauth/serializers.py:391-395 | as written: the filter names `version`, which UserDevice does not have, so the lookup raises FieldError whatever the table holds |
| `Handshake.FindDevice` | v1/apiauth/serializers.py:391-395 | corrected (no version): the first device, over all users, matching registration id and type |
| `Handshake.GetDeviceInfo` | v1/apiauth/serializers.py:384-404 | corrected (no version): registered exactly when some device matches id and type; status is "active" or "deactivated" from that device, "not_registered" otherwise |
| `Handshake.NewSession` | v1/apiauth/serializers.py:429-434 | the stored session binds the client nonce and device and expires one day after now |
| `Handshake.SessionTable.constructor` | v1/apiauth/models.py:9-19 | the session table starts empty |
| `Handshake.SessionTable.GenerateSession` | v1/apiauth/serializers.py:417-440 | fails, storing nothing, exactly when the token or the nonce is already taken (unique constraints); otherwise exactly one session is appended and its token, server nonce and expiry are returned |
| `Handshake.NonceUsedForever` | v1/apiauth/models.py:15 | sessions are never deleted, so a used nonce is refused in every later handshake |
| `Handshake.NewSessionValidates` | v1/apiauth/models.py:30-54 | a new session validates exactly for its own nonce and before it expires |
| `Handshake.PerformHandshake` | v1/apiauth/serializers.py:442-452 | as written: field errors pass through; every request that passes validation fails with FieldError from get_device_info before generate_session, so no session is stored (the method changes nothing) |
| `Handshake.PerformHandshakeIntended` | v1/apiauth/serializers.py:442-452 | corrected: field errors store nothing; success appends one session and answers with the device info (looked up without version), the server version and the session grant; valid fields with a fresh token always succeed |
| `ApiLogin.ExpiresIn` | v1/apiauth/serializers.py:65-66 | expires_in is 0 once the access token's exp has passed, otherwise the whole seconds left, truncated |
| `ApiLogin.ForceLogoutClearsOtherDevices` | v1/apiauth/serializers.py:116-128 | after force_logout has deactivated the user's devices no other active device remains, so the soft-deny cannot trigger |
| `ApiLogin.LoginDevice` | v1/apiauth/serializers.py:102-114 | the saved login device is active with its name and location overwritten; user, id and type are kept (the version attribute has no column and is not saved) |
| `ApiLogin.Login` | v1/apiauth/serializers.py:47-72 | a missing device id or failed credentials change nothing; no entity or no active membership fail with only the default resolved; on success users change only at u (LoggedInUser), the devices become the upsert after the optional force-logout deactivation, and the tokens are blanked exactly when multi-login denies |
| `ApiLogin.LoggedInUser` | v1/apiauth/serializers.py:74-100 | after get_token the row is ACTIVE, force_logout cleared, default e, username as the last save drew it; every other field is kept |
| `ApiLogin.GetToken` | v1/apiauth/serializers.py:74-100 | the default is resolved and stored; no entity fails with "no entities", no active membership with invalid_entity, each leaving only the resolved row; on success the users map changes only at u, to LoggedInUser, and the default is a stored company the user is an active member of |
| `ApiLogin.CheckMultipleLogin` | v1/apiauth/serializers.py:116-128 | with force_logout the user's devices are deactivated first; the login is blocked exactly when another device of the user stays active; never blocked after force_logout |
| `ApiLogin.UpsertLoginDevice` | v1/apiauth/serializers.py:102-114 | the device of (user, registration id) is updated in place or appended, and ends active with the given name and location; no version is stored |
| `ApiLogin.DeviceFoundAt` | v1/accounts/models.py:485-488 | with unique (user, registration id) pairs the lookup finds the one device holding the pair |
| `ApiLogin.PolicyAccepted` | v1/accounts/models.py:190-195 | policy_accepted holds exactly when the accepted policy is the current one (none accepted when none is current) |
| `ApiLogin.CurrentPolicyId` | v1/apiauth/serializers.py:176-177 | the current policy's id, None exactly when no policy is in force |
| `ApiLogin.Refresh` | v1/apiauth/serializers.py:136-178 | an unknown entity, an invalid refresh token, a user not ACTIVE or forced out (no_active_account) and a non-member (invalid_entity) fail and change nothing; on success the session's entity becomes the target, the user's default is set to it, expires_in is clamped and the member type and policy fields are returned |
| `DeviceRegistration.ValidateRegistrationFields` | v1/apiauth/serializers.py:455-494 | the version validator's ValueError escapes exactly when a present version is refused; on success each field holds its validated, trimmed value and device_loc is optional |
| `DeviceRegistration.RegistrationFieldsSound` | v1/apiauth/serializers.py:455-494 | an accepted registration has a non-blank device id and name and a version of the grammar |
| `DeviceRegistration.Register` | v1/apiauth/serializers.py:496-528 | corrected: with the handshake session's device as input, another device is refused and changes nothing; no user or default entity fails; otherwise users change only at u (the resolved default), the login-time multi-login rule applies, and the devices become exactly the upsert (after the optional force-logout deactivation); the response's version is the request's, held on the object only |
| `DeviceRegistration.RegisterAsWritten` | v1/apiauth/serializers.py:496-500 | as written: after the current user is read, the call to the undefined `auth_utils.get_session_device` raises AttributeError, so every registration fails and only the request store's user slot changes |
| `AuthViews.Logout` | v1/apiauth/views.py:34-40 | the current device (the session's device id for the current user) is the only device deactivated; with no current device nothing changes; the reply is the success body with "Logged out successfully." |
| `AuthViews.LogoutDeactivatesOnlyCurrent` | v1/accounts/models.py:465-476 | deactivating one device leaves it inactive with its registration id, leaves every other device unchanged and removes exactly that device from the user's active set |
| `AuthViews.TraceSync` | v1/apiauth/views.py:111-125 | a missing or falsy task id is "Task id is required."; a task lookup that fails is "Check your task id."; otherwise the success body holds the task id, status and result |
| `AuthDispatch.AuthType` | base/authentication/custom_authentication.py:105-106 | an absent header gives password_grant; a present one is lower-cased character by character |
| `AuthDispatch.GetAuthClass` | base/authentication/custom_authentication.py:65-90 | an unconfigured or empty auth type is refused as unsupported; the result is found exactly when the configured path has a dot and names a registered class, and then it is that class |
| `AuthDispatch.JwtAuthenticate` | base/authentication/custom_authentication.py:50-56 | errors and a missing token pass through and record no section; a validated token records the section for its user and is returned with it |
| `AuthDispatch.OAuthRequest.constructor` | base/authentication/custom_authentication.py:40 | a fresh request carries no OAuth2 error |
| `AuthDispatch.OAuthAuthenticate` | base/authentication/custom_authentication.py:28-41 | a valid verdict records the section and returns user and access token; an invalid one returns nothing and stores the verdict's error (empty object when absent) on the request |
| `AuthDispatch.DynamicAuthenticate` | base/authentication/custom_authentication.py:92-111 | an unsupported auth type fails before any strategy runs and records nothing; otherwise the result is exactly the selected strategy's; a success appends exactly that strategy's section (JWT claims, OAuth token, or SSO claims with the session device) to the log and a failure appends none; only a failed OAuth check writes the request's oauth2_error |
| `AuthSessions.SessionIsValid` | v1/apiauth/models.py:21-25 | a session without an expiry raises (comparison with None); otherwise it is valid exactly when now is before the expiry |
| `AuthSessions.FindByToken` | v1/apiauth/models.py:42 | a found index holds the token; none means no session holds it |
| `AuthSessions.ParseUuid` | v1/apiauth/models.py:14 | lookup text the UUIDField accepts becomes the 32 lower-case hex digits of a UUID |
| `AuthSessions.UuidHexParsesToItself` | v1/apiauth/models.py:14 | a stored token's own text parses back to itself, so lookups by it reach its session |
| `AuthSessions.ShortTextRefused` | v1/apiauth/models.py:14 | text shorter than 32 characters is never accepted as a UUID |
| `AuthSessions.ValidateSessionToken` | v1/apiauth/models.py:30-54 | text that is not a UUID raises ValidationError (only DoesNotExist is caught); an unknown token is False; True exactly when the token's session is unexpired and its client nonce matches; a session with no expiry raises TypeError |
| `AuthSessions.ValidateUniqueSession` | v1/apiauth/models.py:30-54 | with unique tokens, validating a session's own (UUID) token gives "unexpired and nonce matches" |
| `AuthSessions.FindUnique` | v1/apiauth/models.py:14-42 | with unique tokens, the lookup of a session's token finds that session |
| `AuthUtilities.UserLookup` | base/authentication/utilities.py:16-18 | a user is found exactly when the stored user id is an existing user's id, and it is that user |
| `AuthUtilities.CompanyLookup` | base/authentication/utilities.py:35-37 | an entity is found exactly when the stored entity id names an existing company |
| `AuthUtilities.GetCurrentUser` | base/authentication/utilities.py:5-23 | the result is the user named by the stored user id (None when absent), and the "user" slot is refreshed with it and nothing else changes |
| `AuthUtilities.GetCurrentEntity` | base/authentication/utilities.py:26-42 | the result is the company named by the stored entity id, and the "entity" slot is refreshed with it and nothing else changes |
| `AuthUtilities.CurrentDeviceOf` | v1/accounts/models.py:485-488 | a device found belongs to the current user and carries the stored device id; an active such device is always found |
| `AuthUtilities.GetCurrentDevice` | base/authentication/utilities.py:45-59 | the result is the current user's device with the stored device id; only the "user" slot is refreshed |
| `LocalSession.LocalStore.constructor` | base/authentication/session.py:3 | the store starts empty |
| `LocalSession.LocalStore.SetToLocal` | base/authentication/session.py:6-9 | returns True; the key now reads back the value and every other key is unchanged |
| `LocalSession.LocalStore.GetFromLocal` | base/authentication/session.py:12-14 | a stored key gives its value, an absent key the default |
| `Catalogs.FindCardId` | v1/catalogs/serializers/products.py:80 | a found index is the first card with the id; none is found exactly when no card carries it |
| `Catalogs.NewCard` | v1/catalogs/models/product_models.py:43-60 | a created card carries the given card id and is active unless is_active=False was sent |
| `Catalogs.UpdatedCard` | v1/catalogs/serializers/products.py:81 | an update sets the card id and keeps every field the request did not send |
| `Catalogs.CardTable.constructor` | v1/catalogs/models/product_models.py:43-60 | the card table starts empty |
| `Catalogs.CardTable.Upsert` | v1/catalogs/serializers/products.py:63-83 | an unknown card id appends a new card; exactly one match updates that card in place; more than one match is MultipleObjectsReturned and changes nothing; afterwards the id is held by exactly one card |
| `Catalogs.UpsertTwiceKeepsOne` | v1/catalogs/serializers/products.py:63-83 | after the first upsert of a card id, the second finds the appended card and re-applying the same data leaves the table unchanged |
| `Catalogs.LinkedOptions` | v1/catalogs/serializers/products.py:124-128 | one option row per sent option, in order, each pointing at the new premium with its name and amount |
| `Catalogs.PremiumTables.constructor` | v1/catalogs/models/product_models.py:67-160 | no premiums and no options |
| `Catalogs.PremiumTables.CreatePremium` | v1/catalogs/serializers/products.py:110-129 | the premium is appended under the next id and exactly its options are appended, linked to it |
| `Catalogs.OptionsOf` | v1/catalogs/models/product_models.py:138-160 | the options of a premium are the option rows pointing at it |
| `Catalogs.NewPremiumOptions` | v1/catalogs/serializers/products.py:110-129 | after creation, the new premium's options are exactly the ones sent with it |
| `Catalogs.AllCurrencies` | v1/catalogs/filters.py:25-30 | all=true gives every currency, otherwise the filtered query is kept |
| `Catalogs.AllCurrenciesWidens` | v1/catalogs/filters.py:25-30 | the result lies between the filtered query and all currencies |
| `Catalogs.PremiumFilter` | v1/catalogs/filters.py:77-84 | a premium is listed exactly when it is in the query and owned by the current entity or by that entity's buyer |
| `Catalogs.NoEntityNoPremiums` | v1/catalogs/filters.py:77-84 | with no current entity no premium is listed |
| `Catalogs.UpdatedAfter` | v1/catalogs/filters.py:57-61 | the updated_after filter of the product and premium filter sets keeps a row exactly when it is in the queryset and its stamp is at or after the bound |
| `Catalogs.ProductStamps` | v1/catalogs/filters.py:57-61 | one stamp per product, its updated_on |
| `Catalogs.PremiumStamps` | v1/catalogs/filters.py:86-90 | one stamp per premium, its updated_on |
| `Catalogs.UpdatedAtBoundKept` | v1/catalogs/filters.py:57-61 | the bound is inclusive: a row updated exactly at it is kept, and a later bound never keeps more |
| `CompanyProducts.CanBeEditedByAsWritten` | v1/supply_chains/models/company_models.py:92-117 | every call raises AttributeError: without a company the missing get_current_company, with one the undeclared `status` attribute |
| `CompanyProducts.CanBeEditedBy` | v1/supply_chains/models/company_models.py:92-117 | corrected, over the invitation state the docstring describes: editable exactly when a company (given, else current) exists, the entity is INACTIVE and that company invited it |
| `CompanyProducts.OnlyInviterEdits` | v1/supply_chains/models/company_models.py:110-116 | corrected rule: an active entity, or one another company invited, is never editable |
| `CompanyProducts.NoCompanyNoEdit` | v1/supply_chains/models/company_models.py:109-111 | with no company at all the intended rule refuses and the code as written raises |
| `CompanyProducts.InviterRefusedAsWritten` | v1/supply_chains/models/company_models.py:110-113 | the inviting company, given explicitly, gets AttributeError from the code as written and permission from the corrected rule |
| `CompanyProducts.OwnedPremiums` | v1/catalogs/models/product_models.py:96-104 | a company's owned premiums are exactly the premiums whose owner it is |
| `CompanyProducts.PremiumErrors` | v1/supply_chains/models/company_models.py:274-284 | at most one message per linked premium, and none exactly when every linked premium is owned by the company |
| `CompanyProducts.PremiumCheck` | v1/supply_chains/models/company_models.py:274-284 | passes when there are no messages, otherwise raises a ValidationError holding all of them |
| `CompanyProducts.PremiumCheckPassesIffOwned` | v1/supply_chains/models/company_models.py:274-284 | the premium check passes exactly when every linked premium is among the company's owned premiums |
| `CompanyProducts.FormCheckAsWritten` | v1/supply_chains/models/company_models.py:265-272 | compares the form object with a string, so any linked form raises ValueError |
| `CompanyProducts.FormCheck` | v1/supply_chains/models/company_models.py:265-272 | passes exactly when every linked form is a product form; otherwise ValueError |
| `CompanyProducts.ProductFormRefusedAsWritten` | v1/supply_chains/models/company_models.py:265-272 | a product form is refused by the code as written and accepted by the intended check |
| `CompanyProducts.PremiumsChangedAsWritten` | v1/supply_chains/models/company_models.py:286-300 | compared with the saved row's own premiums, no change is ever seen |
| `CompanyProducts.RemovalUnseenAsWritten` | v1/supply_chains/models/company_models.py:286-300 | adding a premium to a saved row is a change the as-written check misses |
| `CompanyProducts.ProductStore.constructor` | v1/supply_chains/models/company_models.py:202-246 | no links; the given products |
| `CompanyProducts.ProductStore.Save` | v1/supply_chains/models/company_models.py:251-263 | as written: any stored form makes `_form_check` raise ValueError; otherwise a failing premium check raises its errors; a failure leaves the links unchanged (atomic); otherwise the row is inserted or replaced under its id |
| `CompanyProducts.ProductStore.SaveIntended` | v1/supply_chains/models/company_models.py:251-272 | corrected: the same save with the form check that accepts PRODUCT forms; a failing check leaves the links unchanged, otherwise the row is written |
| `CompanyProducts.ProductStore.SaveThenSetRelations` | v1/supply_chains/serializers.py:305-307 | a new row is saved without relations and then given the submitted forms and premiums unchecked: exactly that row is appended, and it is the only link of the company to the product |
| `CompanyProducts.ProductStore.SetRelations` | v1/supply_chains/models/company_models.py:286-300 | the link's forms and premiums are replaced; the product's updated_on is set to now exactly when the premium set changed |
| `CompanyProducts.SavedRow` | v1/supply_chains/models/company_models.py:251-263 | a new row has no forms and no premiums; a saved row keeps its relations |
| `CompanyProducts.NewRowPassesChecks` | v1/supply_chains/models/company_models.py:251-284 | a freshly inserted link always passes both checks |
| `CompanyProducts.FindLink` | v1/supply_chains/serializers.py:299-304 | a found link has that company and product; none exactly when no link has both |
| `CompanyProducts.ValidateCompanyProduct` | v1/supply_chains/serializers.py:266-277 | valid exactly when a product or a non-empty product_id is given; otherwise "Either product or product_id is required." |
| `CompanyProducts.ResolveProduct` | v1/supply_chains/serializers.py:286-296 | a product_id that names a product resolves to it, an unknown one fails with "Product with id … does not exist."; without an id the nested product is created |
| `CompanyProducts.CreateCompanyProduct` | v1/supply_chains/serializers.py:279-307 | an unresolved product changes nothing; a product_id links the product it decodes to and leaves the products as they were, otherwise the nested product is appended and linked; an existing single link is returned unchanged; otherwise exactly one row is appended, holding the submitted forms and premiums set after the save without the checks; the result is the company's only link to the product; failures change nothing |
| `CompanyProducts.CountLinksKeepRelations` | v1/supply_chains/serializers.py:279-307 | setting a row's forms and premiums does not change how many rows link a company and a product |
| `CompanyProducts.UnownedPremiumLinkedOnCreate` | v1/supply_chains/serializers.py:279-307 | a premium the company does not own would fail the premium check, yet the row created with it holds it |
| `CompanyProducts.SecondCreateReturnsFirst` | v1/supply_chains/serializers.py:299-305 | once a company has one link to a product, the lookup finds it |
| `CompanyProducts.CompanyProductOf` | v1/catalogs/serializers/products.py:21-29 | no entity or no link gives None, several links raise MultipleObjectsReturned, one link is found |
| `CompanyProducts.GetPremiums` | v1/catalogs/serializers/products.py:31-42 | the linked premiums of the current company's link, empty without one |
| `CompanyProducts.GetIsActive` | v1/catalogs/serializers/products.py:44-51 | False without a link; with exactly one link, True exactly when the current company's link is active; a true answer always has an active link |
| `CompanyProducts.OnlyLinkFound` | v1/catalogs/serializers/products.py:21-29 | when exactly one row links the company and the product, the lookup finds that row |
| `CompanyProducts.ProductFilter` | v1/catalogs/filters.py:50-55 | a product is listed exactly when the current company links it; with no entity, exactly the products no company links |
| `CompanyProducts.ListedProductHasRow` | v1/catalogs/filters.py:50-55 | a listed product has a link, so its premiums and is_active lookups find it |
| `CompanyProducts.FormProducts` | v1/forms/models.py:41-55 | a form's products are exactly the products of the links that hold the form |
| `CountryData.CountryList` | utilities/country_data/__init__.py:36 | the country names in file order |
| `CountryData.CountryWithProvince` | utilities/country_data/__init__.py:37-39 | keyed by every country name, each mapped to its sub-divisions |
| `CountryData.DialCodes` | utilities/country_data/__init__.py:40 | one "+"-prefixed dial code per country, in order |
| `CountryData.DialCodeNameMap` | utilities/country_data/__init__.py:42-45 | keyed by every "+"-prefixed dial code |
| `CountryData.LastCountryWins` | utilities/country_data/__init__.py:42-45 | a dial code maps to the label of the last country that has it |
| `CountryData.SharedCodeOverwritten` | utilities/country_data/__init__.py:42-46 | two countries sharing a dial code leave one entry, the later country's |
| `DbModels.TrackedRow.constructor` | base/db/models.py:22-46 | an unsaved row has no key, the given creator and no updater |
| `DbModels.TrackedRow.Save` | base/db/models.py:54-62 | new_instance holds exactly when the row had no key; a current user becomes the creator of a new row without one and is always the updater; without a current user creator and updater are kept |
| `DbModels.DisplayNumber` | base/db/models.py:126-127 | a decimal string of at least four digits whose value is the id plus 1000 |
| `DbModels.NumberedRow.constructor` | base/db/models.py:114-118 | an unsaved row with the given number |
| `DbModels.NumberedRow.Save` | base/db/models.py:123-128 | a row without a number (or with an empty one) is saved twice and gets its display number; a row with one is saved once and keeps it |
| `DbModels.DataAfterClean` | base/db/models.py:82-89 | the caller's dict loses a falsy image and keeps a truthy one |
| `DbModels.CleanDict` | base/db/models.py:69-92 | the result holds exactly the needed keys (model fields and extras) that the data has, with their values; the caller's dict is changed only by the image patch |
| `DbModels.CleanedIdempotent` | base/db/models.py:69-92 | cleaning twice gives what cleaning once gives |
| `DbModels.FilePath` | base/db/utilities.py:4-21 | an unsaved instance (no id) raises AttributeError; otherwise the path is the lower-cased class name, "/", the id, "_", the ten random characters, ":" and the file name |
| `DbModels.FilePathId` | base/db/utilities.py:14-20 | the id can be read back from its place in the path |
| `DrfFields.RoundHalfEven` | base/drf/fields.py:105 | the quotient is within half a unit of the exact value and is even on a tie |
| `DrfFields.Quantize` | base/drf/fields.py:105 | the result has exactly `places` decimals and the input's sign; it is exact when no digits are dropped and otherwise within half a unit; a result beyond the context precision is InvalidOperation |
| `DrfFields.QuantizeIdempotent` | base/drf/fields.py:105 | quantizing a quantized value changes nothing |
| `DrfFields.RoundDecimal` | base/drf/fields.py:90-106 | None passes through; a finite value is quantized to `places` decimals; NaN is kept; an infinity raises InvalidOperation |
| `DrfFields.RoundingToInternal` | base/drf/fields.py:108-152 | trims Python whitespace, then parses; the stored value is rounded half-even to the field's places |
| `DrfFields.RemovableImage` | base/drf/fields.py:64-79 | an empty input is returned as is; anything else goes to the file field |
| `DrfFields.RemovableImageKeepsEmpty` | base/drf/fields.py:64-79 | empty input never reaches the file field, whatever it does; with a file field that keeps its input every input is kept |
| `DrfFields.SingleToRepresentation` | base/drf/fields.py:181-195 | a falsy object is None, a hashid is itself, any other object its primary key |
| `DrfFields.ManyToRepresentation` | base/drf/fields.py:211-212 | one representation per related object, in order |
| `DrfFields.ToRepresentation` | base/drf/fields.py:197-213 | with a serializer its output is used; without one, many values give a list and one value its own representation; iterating a single object raises TypeError |
| `DrfFields.ManyIsSingleEach` | base/drf/fields.py:197-213 | without a serializer, many values render as the list of what the single field renders for each |
| `DrfFields.PhoneToInternal` | base/drf/fields.py:224-236 | a parse is returned as is; a validation error becomes None; other errors escape |
| `DrfFields.PhoneToInternalFailsIff` | base/drf/fields.py:224-236 | the field fails exactly when the library fails with an error that is not a validation error |
| `DrfFields.PhoneToRepresentation` | base/drf/fields.py:238-255 | no phone or an empty one is None; a string is parsed (None when unparsable); a phone object gives its international form |
| `DrfFields.PhoneObjectRendersAsText` | base/drf/fields.py:238-255 | a parsed phone object renders like its international text when the library reads that text back as the same number |
| `Entities.MemberType.Label` | v1/supply_chains/constants.py:16-24 | each member type has a non-empty stored code |
| `Entities.NewMember` | v1/supply_chains/models/company_models.py:137-157 | a new membership is ADMIN and active, for the given company and user |
| `Entities.FarmerName` | v1/supply_chains/models/farmer_models.py:99-102 | first name, a space, then the last name as an f-string prints it ("None" when missing) |
| `Entities.Name` | v1/supply_chains/models/base_models.py:65-71 | a company's name, a farmer's full name, or None for an entity that is neither |
| `Entities.EntitiesOf` | v1/supply_chains/models/company_models.py:49-55 | a company is among the user's entities exactly when a membership links them |
| `Entities.FirstEntity` | v1/accounts/models.py:153 | `.first()` of the user's companies: none exactly when there is none, otherwise the lowest company id |
| `Entities.FirstEntityIgnoresOrder` | v1/accounts/models.py:153 | the first entity depends only on which companies the user belongs to, not on the order of the memberships |
| `Entities.ActiveMembership` | v1/apiauth/serializers.py:82-84 | a found membership is the user's active one in that company; none means every such membership is inactive |
| `EntityCards.DeactivatedUpTo` | v1/supply_chains/managers.py:18-21 | every row of the card among the first n is made inactive and every other row is unchanged |
| `EntityCards.ClearedUpTo` | v1/supply_chains/models/base_models.py:145-152 | each entity that held one of those rows loses its default card; every other entity is unchanged |
| `EntityCards.CardStore.constructor` | v1/supply_chains/models/base_models.py:74-118 | no entity cards; the given entities |
| `EntityCards.CardStore.DeactivateOtherEntities` | v1/supply_chains/managers.py:8-22 | every row of the card becomes inactive and each saved row clears its entity's default card (EntityCard.save of an inactive row); afterwards no row of the card is active |
| `EntityCards.CardStore.Save` | v1/supply_chains/models/base_models.py:123-152 | an active row first deactivates the card's rows; a duplicate (entity, card) pair then fails the unique constraint with the deactivation kept; otherwise the row is written and its entity's default card is set to it when active and cleared when not |
| `EntityCards.SaveResult` | v1/supply_chains/models/base_models.py:123-152 | the save fails with the unique-pair IntegrityError exactly when another row has the pair, keeping the deactivations; otherwise the row is written under its id and its entity's default card set or cleared |
| `EntityCards.DeactivateKeepsValid` | v1/supply_chains/managers.py:20-21 | deactivating one row keeps the (entity, card) pairs unique and at most one active row per card |
| `EntityCards.DeactivateKeepsTablesValid` | v1/supply_chains/managers.py:20-21 | deactivating a row and clearing its entity's default card keeps every row's entity stored, the pairs unique and at most one active row per card |
| `EntityCards.DeactivateStep` | v1/supply_chains/managers.py:19-21 | one loop step deactivates the next row of the card and clears its entity's default |
| `EntityCards.WriteKeepsValid` | v1/supply_chains/models/base_models.py:123-134 | a row written after the deactivation keeps pairs unique and at most one active row per card |
| `EntityCards.ActiveSaveIsOnlyActive` | v1/supply_chains/models/base_models.py:126-129 | after saving an active row it is the only active row of its card |
| `EntityCards.DeactivationReach` | v1/supply_chains/managers.py:8-22 | every entity that held a row of the card loses its default; rows of other cards are untouched |
| `EntityCards.FirstActive` | v1/supply_chains/serializers.py:47-49 | the first active row of the entity, or none when it has no active row |
| `EntityCards.CreateEntityCard` | v1/supply_chains/serializers.py:42-67 | the card table becomes the upsert by card id; the entity cards and entities become exactly CreateOutcome (nothing on MultipleObjectsReturned); on success the returned row is the entity's active default and the card's only active row, the existing one when it already held the card |
| `EntityCards.UpsertedCardId` | v1/supply_chains/serializers.py:50-53 | the card the upsert leaves: a new one exactly when no card had the id |
| `EntityCards.UpsertedCards` | v1/supply_chains/serializers.py:50-53 | the upserted card table holds a card with the id at UpsertedCardId |
| `EntityCards.CreateSucceedsIff` | v1/supply_chains/serializers.py:42-67 | the create succeeds exactly when the card lookup does not raise and either the entity's active row already holds the card or the entity has no row for it |
| `EntityCards.FailedCreateLeavesNoDefault` | v1/supply_chains/serializers.py:42-67 | a create refused by the unique constraint is not rolled back: the entity is left without a default card and the card without an active row |
| `EntityCards.VisibleCards` | v1/supply_chains/filters.py:112-120 | admins see every card; others exactly the cards of their current entity |
| `EntityCards.VisibleCardsOwnOnly` | v1/supply_chains/filters.py:112-120 | a non-admin never sees another entity's card, sees none without a current entity, and sees a subset of what an admin sees |
| `EntityCards.VisibleCardsCommuteWithDates` | v1/supply_chains/filters.py:112-134 | the visibility rule and the date filter give the same rows in either order |
| `EntityCards.StrictlyAfter` | v1/supply_chains/filters.py:130-134 | a card is kept exactly when its timestamp is strictly after the bound |
| `EntityCards.StampAtBoundDropped` | v1/supply_chains/filters.py:130-134 | the bound is exclusive: a card stamped exactly at it is dropped |
| `EntityCards.CardsOfLinked` | v1/supply_chains/filters.py:136-150 | an undecodable entity id raises ValueError; otherwise exactly the active cards of entities linked to the decoded entity as buyer or as supplier |
| `EntityCards.DeactivatedCardNotLinked` | v1/supply_chains/filters.py:136-150 | once a card's rows are deactivated, the linked-entity filter lists none of them |
| `EntityCards.SkipOnlyConnectCards` | v1/supply_chains/filters.py:122-128 | false keeps everything; true keeps exactly cards of non-only-connect entities with a non-only-connect buyer |
| `EntityCards.SkipOnlyConnectCardsProperties` | v1/supply_chains/filters.py:122-128 | the rows of an only-connect entity are always skipped, and skipping twice is skipping once |
| `Farmers.Saved` | v1/supply_chains/models/farmer_models.py:90-97 | a missing last name is stored as "" and nothing else changes |
| `Farmers.SavedIdempotent` | v1/supply_chains/models/farmer_models.py:90-97 | saving twice stores what saving once stores |
| `Farmers.Name` | v1/supply_chains/models/farmer_models.py:99-102 | the farmer's entity display name |
| `Farmers.SavedName` | v1/supply_chains/models/farmer_models.py:95-102 | a saved farmer's name never shows "None"; an unsaved one with no last name ends in " None" |
| `Farmers.FarmerTransactions` | v1/supply_chains/models/farmer_models.py:107-109 | exactly the undeleted transactions the farmer is source or destination of |
| `Farmers.ListingLength` | v1/supply_chains/models/farmer_models.py:110 | a duplicate-free listing of the set has the set's size |
| `Farmers.PremiumTotalIgnoresOthers` | v1/supply_chains/models/farmer_models.py:114-119 | payments without a premium, or of another transaction, add nothing |
| `Farmers.Totals` | v1/supply_chains/models/farmer_models.py:111-119 | sums as transaction_count does, with the unused language argument left out; income reads each transaction's amount through Transactions.Amount with that transaction's choice among tied base payments; the only exceptions the loop can raise are TypeError and AttributeError |
| `Farmers.TotalsErrorStays` | v1/supply_chains/models/farmer_models.py:111-119 | once a prefix of the loop raises, the whole loop raises the same error |
| `Farmers.AddStep` | v1/supply_chains/models/farmer_models.py:114-119 | one pass: an earlier exception is kept; on success the premium sum grows by exactly this transaction's premium payments; a missing quantity raises TypeError before the amount is read |
| `Farmers.AddStepOk` | v1/supply_chains/models/farmer_models.py:114-119 | a pass gets through exactly when the loop got this far, the transaction has a quantity and it has a TRANSACTION payment |
| `Farmers.TotalsLast` | v1/supply_chains/models/farmer_models.py:111-119 | the loop over a non-empty listing ends with a pass over its last transaction |
| `Farmers.TotalsOkAll` | v1/supply_chains/models/farmer_models.py:111-119 | the loop gets through exactly when each listed transaction, checked from the last back, is summable |
| `Farmers.AllSummableIff` | v1/supply_chains/models/farmer_models.py:111-119 | the check from the last back holds exactly when every index of the listing is summable |
| `Farmers.TotalsOkIff` | v1/supply_chains/models/farmer_models.py:111-119 | the loop raises nothing exactly when every listed transaction has a quantity and a TRANSACTION payment, whatever the choices among ties |
| `Farmers.TotalsStep` | v1/supply_chains/models/farmer_models.py:114-119 | the loop over one more listed transaction is one more pass (AddStep) over the sums so far |
| `Farmers.FirstCurrency` | v1/supply_chains/models/farmer_models.py:120-122 | the currency of the first listed transaction (newest first), read through Transactions.BasePayment with the given choice among tied rows |
| `Farmers.FirstHasBasePayment` | v1/supply_chains/models/farmer_models.py:111-122 | when the sums succeed the first transaction's currency lookup succeeds |
| `Farmers.SumPremiums` | v1/supply_chains/models/farmer_models.py:114-119 | the loop adds up the premium payments of one transaction |
| `Farmers.SumTransactions` | v1/supply_chains/models/farmer_models.py:111-119 | the loop adds volume, income and premium per listed transaction; income goes through Transactions.Amount |
| `Farmers.AddTransaction` | v1/supply_chains/models/farmer_models.py:114-119 | one pass of the loop on the sums so far gives exactly AddStep's result: the three sums grown, or its error |
| `Farmers.TransactionCount` | v1/supply_chains/models/farmer_models.py:104-123 | count is the number of the farmer's transactions, the sums and currency are the loop's; the error is the loop's, else the currency lookup's |
| `Farmers.ValidateLocation` | v1/supply_chains/serializers.py:373-382 | an unknown country is "Invalid country."; an accepted location has a listed country and, when given, one of its provinces |
| `Farmers.ValidateLink` | v1/supply_chains/serializers.py:134-137 | a missing entity or buyer is a KeyError; otherwise refused exactly when the pair already exists |
| `Farmers.ValidatedLinkKeepsUnique` | v1/supply_chains/serializers.py:134-137 | a link that passes the check keeps (entity, buyer) pairs unique |
| `Farmers.ReplaceAbsent` | v1/supply_chains/serializers.py:321-323 | replacing an absent pattern leaves the text unchanged |
| `Farmers.ReplaceAfterPlainPrefix` | v1/supply_chains/serializers.py:321-323 | a prefix that cannot start the pattern is kept and replacement acts on the rest |
| `Farmers.ServiceLink` | v1/supply_chains/serializers.py:321-323 | a URL without the placeholder is returned unchanged |
| `Farmers.TemplateLink` | v1/supply_chains/serializers.py:321-323 | a URL with one placeholder gets the reference id in its place and is otherwise unchanged |
| `Farmers.FarmerStore.constructor` | v1/supply_chains/models/farmer_models.py:163-193 | no farmers, services or links |
| `Farmers.FarmerStore.SaveService` | v1/supply_chains/models/farmer_models.py:198-202 | the service row is written and its farmer is saved again with updated_on set to now |
| `Farmers.FarmerStore.Create` | v1/supply_chains/serializers.py:384-404 | a failure changes nothing (atomic); no current user fails; a non-admin's farmer is linked to the current entity, if any; an admin without sync_from_trace raises ValueError; an admin with it links to the decoded existing buyer |
| `Farmers.SuppliersOf` | v1/supply_chains/filters.py:55-58 | exactly the entities linked to the buyer |
| `Farmers.VisibleFarmers` | v1/supply_chains/filters.py:46-58 | admins see every farmer; others exactly the suppliers of their current entity |
| `Farmers.CreatedFarmerVisible` | v1/supply_chains/serializers.py:394-403 | a farmer a non-admin creates is visible to that user's entity |
| `Farmers.SkipOnlyConnectFarmers` | v1/supply_chains/filters.py:60-67 | false keeps everything; true keeps farmers with a link to a non-only-connect buyer |
| `Farmers.OnlyConnectFarmerSkipped` | v1/supply_chains/filters.py:60-67 | a farmer is skipped exactly when every one of its buyers is only-connect |
| `Farmers.SkipOnlyConnectFarmersIdempotent` | v1/supply_chains/filters.py:60-67 | skipping twice is skipping once |
| `Farmers.AfterFarmer` | v1/supply_chains/filters.py:75-77 | farmers with a strictly larger id than the decoded one |
| `Farmers.AfterSelfExcludesSelf` | v1/supply_chains/filters.py:75-77 | the bound farmer itself is not listed |
| `Farmers.FarmersOfBuyer` | v1/supply_chains/filters.py:79-86 | an undecodable id raises ValueError; otherwise exactly the listed suppliers of the decoded buyer |
| `Farmers.OwnEntityFilterKeepsAll` | v1/supply_chains/filters.py:46-86 | filtering a non-admin's listing by their own entity removes nothing |
| `Forms.FormType.Label` | v1/forms/constants.py:18-21 | each form type has a non-empty stored code |
| `Forms.LabelsDistinct` | v1/forms/constants.py:18-21 | different form types are stored as different codes |
| `Forms.NewForm` | v1/forms/models.py:25-36 | a new form has the given owner and type, TRANSACTION when none is given |
| `Forms.NewField` | v1/forms/models.py:72-95 | a new field belongs to the form, keeps the label and key sent and is required unless required=False was sent |
| `Forms.NewConfig` | v1/forms/models.py:118-129 | a new config is visible unless visibility=False was sent and required only when required=True was sent |
| `Forms.UpdatedConfig` | v1/forms/serializers.py:36 | an update keeps the form, sets key and label, and keeps each flag the request did not send |
| `Forms.Clean` | v1/forms/models.py:207-218 | a value is clean exactly when its field belongs to the submission's form |
| `FormSerializers.FindConfig` | v1/forms/serializers.py:35 | a found config has the form and key; none means no config has both |
| `FormSerializers.UpsertConfig` | v1/forms/serializers.py:30-38 | an unknown (form, key) appends a new config, a known one is updated in place; (form, key) stays unique and is present afterwards |
| `FormSerializers.UpsertConfigIdempotent` | v1/forms/serializers.py:30-38 | sending the same config twice gives what sending it once gives |
| `FormSerializers.UpsertConfigFormsBelow` | v1/forms/models.py:118-124 | an upsert for an existing form only refers to existing forms |
| `FormSerializers.UniqueFind` | v1/forms/models.py:131-136 | under the unique constraint the config found is the only one with that form and key |
| `FormSerializers.UpsertConfigs` | v1/forms/serializers.py:80-82 | the configs of one form, upserted in order, keep (form, key) unique |
| `FormSerializers.UpsertConfigsKeeps` | v1/forms/serializers.py:80-82 | no config is removed or re-keyed and configs of other forms are untouched |
| `FormSerializers.UpsertConfigsCovers` | v1/forms/serializers.py:80-82 | every key sent has a config for the form afterwards |
| `FormSerializers.NewFields` | v1/forms/serializers.py:77-79 | one new field per field sent, in order, each belonging to the form |
| `FormSerializers.AttachForm` | v1/forms/serializers.py:83-87 | every link of the owner company gets the form added; other links are unchanged |
| `FormSerializers.ProductFormProducts` | v1/forms/models.py:41-55 | after attaching a new product form, its products are exactly the owner's linked products |
| `FormSerializers.FindKey` | v1/forms/serializers.py:125 | a found field has the key; none exactly when no field has it |
| `FormSerializers.ResolveField` | v1/forms/serializers.py:121-126 | text naming a field id gives that field; otherwise the key lookup: no match is DoesNotExist, several are MultipleObjectsReturned, one is that field |
| `FormSerializers.InsertValuesShape` | v1/forms/serializers.py:167-169 | successful inserts append one value per item, all for the new submission and existing fields, keeping (submission, field) unique |
| `FormSerializers.FormStore.constructor` | v1/forms/models.py:11-205 | all tables empty |
| `FormSerializers.FormStore.SaveConfig` | v1/forms/serializers.py:30-38 | the config table becomes the upsert of the sent config; the returned row has the form and key; an update does not grow the table |
| `FormSerializers.FormStore.CreateForm` | v1/forms/serializers.py:65-88 | the form is appended with its new fields and upserted configs; a product form is attached to every link of its owner, any other form leaves the links unchanged |
| `FormSerializers.FormStore.AddForm` | v1/forms/serializers.py:76 | the form row is appended under the next id |
| `FormSerializers.FormStore.AddFields` | v1/forms/serializers.py:77-79 | the loop appends the fields sent, for the form |
| `FormSerializers.FormStore.AddConfigs` | v1/forms/serializers.py:80-82 | the loop upserts the configs sent, for the form |
| `FormSerializers.FormStore.CreateSubmission` | v1/forms/serializers.py:153-170 | a failing value leaves both tables unchanged (atomic); otherwise the submission is appended and the values are inserted for it |
| `FormSerializers.NoValuesOfNew` | v1/forms/models.py:200-205 | a new submission has no values yet |
| `FormSerializers.AppendUnique` | v1/forms/models.py:200-205 | a value for an unused (submission, field) pair keeps the constraint |
| `FormSerializers.KeyLookupCrossesForms` | v1/forms/serializers.py:121-126 | a key lookup may pick a field of another form, which clean() would refuse |
| `UtilityFunctions.CommaJoinShape` | utilities/functions.py:114 | the ", "-join of the words has their total length plus two per separator and starts with the first word |
| `UtilityFunctions.ListToSentence` | utilities/functions.py:109-114 | no words give "", one word itself; two or more give all but the last comma-joined, then " and " and the last word |
| `UtilityFunctions.TwoWords` | utilities/functions.py:109-114 | two words give "a and b" |
| `UtilityFunctions.GetIpFromRequest` | utilities/functions.py:205-210 | a non-empty X-Forwarded-For gives its first comma-separated entry, untrimmed; otherwise REMOTE_ADDR, None when absent |
| `UtilityFunctions.FirstPartIsPrefix` | utilities/functions.py:209 | the first part of a comma split is the text up to the first comma |
| `UtilityFunctions.DigitCountRange` | utilities/functions.py:360-370 | a number between 10^(d-1) and 10^d - 1 has d digits |
| `UtilityFunctions.GenerateRandomNumber` | utilities/functions.py:360-370 | for d ≥ 1 the number lies in [10^(d-1), 10^d - 1]; below 1 the empty range raises ValueError |
| `UtilityFunctions.RandomNumberDigits` | utilities/functions.py:360-370 | the number has exactly d digits |
| `UtilityFunctions.SerializePromises` | utilities/functions.py:133-146 | lists stay lists and dicts keep their keys, tuples become generators of the same length, lazy strings become str, other leaves are unchanged; no lazy string is left |
| `UtilityFunctions.SerializeAll` | utilities/functions.py:136 | each element serialized in place |
| `UtilityFunctions.PromiseFreeUnchanged` | utilities/functions.py:133-146 | a value without lists, tuples, dicts or lazy strings to rewrite is returned unchanged |
| `UtilityFunctions.SerializeIdempotent` | utilities/functions.py:133-146 | serializing twice gives what serializing once gives |
| `UtilityFunctions.Weekday` | utilities/functions.py:269 | Monday is 0 and Sunday 6 |
| `UtilityFunctions.WeekStartEnd` | utilities/functions.py:262-271 | the start is a Monday, the end six days later, and today lies between them |
| `UtilityFunctions.DaysInMonth` | utilities/functions.py:282 | a month has 28 to 31 days |
| `UtilityFunctions.MonthStartEnd` | utilities/functions.py:274-284 | day 1 and the last valid day of today's month and year, with today between them |
| `GeoJson.Iterated` | v1/supply_chains/validators.py:65 | a list is iterated as its items; any failure is a TypeError |
| `GeoJson.RingErrors` | v1/supply_chains/validators.py:65-69 | at most one "Each coordinate should be a list of length 2" message per ring |
| `GeoJson.RingErrorsEmptyIff` | v1/supply_chains/validators.py:65-69 | no ring message exactly when every ring is a list of two-element lists |
| `GeoJson.WellFormedPolygonPasses` | v1/supply_chains/validators.py:28-75 | a Feature with a Polygon geometry of well-formed rings has no errors |
| `GeoJson.OtherGeometryReported` | v1/supply_chains/validators.py:50-54 | another geometry type with well-formed rings gives exactly the geometry-type message |
| `GeoJson.FeatureHead` | v1/supply_chains/validators.py:39-62 | a Feature gets only the geometry-type message from the head checks and its coordinates are iterated |
| `GeoJson.MissingGeometryRaises` | v1/supply_chains/validators.py:47-51 | a missing geometry is recorded and then indexing it raises KeyError |
| `GeoJson.AsWrittenOutcome` | v1/supply_chains/validators.py:74-75 | an exception escapes; no errors return None; errors are returned, not raised |
| `GeoJson.ValidateGeojsonPolygonAsWritten` | v1/supply_chains/validators.py:6-75 | empty data is returned; otherwise the collected errors are returned as a ValidationError value rather than raised |
| `GeoJson.CollectRingErrors` | v1/supply_chains/validators.py:65-69 | the loop collects the ring messages |
| `GeoJson.WrongGeometryAcceptedAsWritten` | v1/supply_chains/validators.py:50-75 | a Point geometry is only returned as an error value, so the field accepts it |
| `GeoJson.RaisingOutcome` | v1/supply_chains/validators.py:74-75 | any error, or any collected message, raises |
| `GeoJson.ValidateGeojsonPolygon` | v1/supply_chains/validators.py:6-75 | empty data is returned; otherwise it raises exactly when the checks fail, with all collected messages |
| `GeoJson.WrongGeometryRefused` | v1/supply_chains/validators.py:50-54 | a Point geometry is refused with the geometry-type message |
| `GeoJson.Numeric` | v1/supply_chains/validators.py:98-101 | ints, floats and booleans compare with numbers |
| `GeoJson.Unpack` | v1/supply_chains/validators.py:96 | a two-element list unpacks into longitude and latitude |
| `GeoJson.ReadPoint` | v1/supply_chains/validators.py:96-101 | a read point carries the numeric values of its longitude and latitude |
| `GeoJson.PointError` | v1/supply_chains/validators.py:96-107 | a point is checked without raising exactly when it unpacks into two numbers |
| `GeoJson.PointErrorIffOutOfRange` | v1/supply_chains/validators.py:97-107 | a numeric point has no message exactly when latitude is within ±90 and longitude within ±180; otherwise the message names both |
| `GeoJson.PointErrors` | v1/supply_chains/validators.py:95-107 | at most one message per point |
| `GeoJson.PointErrorsErrorStays` | v1/supply_chains/validators.py:96 | once a point raises, the whole loop raises the same error |
| `GeoJson.PointErrorsOkIff` | v1/supply_chains/validators.py:96-107 | the loop finishes exactly when every point is numeric |
| `GeoJson.NoErrorsIffInRange` | v1/supply_chains/validators.py:96-109 | over numeric points, no messages exactly when every point is in range |
| `GeoJson.FirstRing` | v1/supply_chains/validators.py:93-96 | only the first ring is iterated |
| `GeoJson.HasCoordinates` | v1/supply_chains/validators.py:90 | a dict geometry has coordinates exactly when the key is present |
| `GeoJson.CoordinatesHead` | v1/supply_chains/validators.py:88-93 | a missing geometry returns the data unchecked |
| `GeoJson.CoordinatesOutcome` | v1/supply_chains/validators.py:88-109 | a missing geometry returns the data unchecked |
| `GeoJson.ValidateCoordinates` | v1/supply_chains/validators.py:77-109 | empty data is returned; unparsable text raises JSONDecodeError; a non-dict is returned; a dict goes through the coordinate checks |
| `GeoJson.CollectPointErrors` | v1/supply_chains/validators.py:95-107 | the loop computes the point messages or the first failure |
| `GeoJson.OnlyFirstRingChecked` | v1/supply_chains/validators.py:93-96 | rings after the first never change the outcome |
| `GeoJson.RaisesIffOutOfRange` | v1/supply_chains/validators.py:95-109 | over numeric points of the first ring, it raises exactly when some point is out of range |
| `Notifications.FirstMissing` | v1/notifications/manager.py:166-172 | the first member type without a preference, none exactly when every type has one |
| `Notifications.CheckPref` | v1/notifications/manager.py:158-173 | accepted (True) exactly when the dict is "__all__" alone or names every member type; "__all__" with others raises the mixed-keys assertion; otherwise the assertion names a missing member type |
| `Notifications.DefaultChannelsValid` | v1/notifications/manager.py:23-26 | the base manager's four "__all__" dicts pass the check |
| `Notifications.PerMemberTypePrefValid` | v1/notifications/manager.py:166-173 | a dict naming all three member types passes |
| `Notifications.MixedPrefRefused` | v1/notifications/manager.py:160-165 | "__all__" together with a member type is refused |
| `Notifications.CheckDecl` | v1/notifications/manager.py:175-194 | a manager class passes exactly when its four dicts pass, its uid is non-blank and not yet registered |
| `Notifications.UidsSnoc` | v1/notifications/manager.py:175-195 | the uids of the classes grow by the last class's uid |
| `Notifications.RegisteredContents` | v1/notifications/manager.py:175-195 | after a successful run the registry holds the earlier entries plus exactly the classes' uids, each mapped to its class |
| `Notifications.RegisteredSnoc` | v1/notifications/manager.py:175-195 | a successful run registers the last class under a uid new to the registry built before it |
| `Notifications.RegisteredKeys` | v1/notifications/manager.py:195 | the registry's keys are the earlier keys plus the classes' uids |
| `Notifications.RegisteredHolds` | v1/notifications/manager.py:195 | each class is registered under its uid |
| `Notifications.RegisteredKeepsOld` | v1/notifications/manager.py:195 | earlier entries under other uids are untouched |
| `Notifications.RegistrableSnoc` | v1/notifications/manager.py:175-194 | a run succeeds on n+1 classes exactly when it succeeds on n and the last class passes with a fresh uid |
| `Notifications.RegisteredIff` | v1/notifications/manager.py:175-195 | the run succeeds exactly when every class passes and all uids are distinct and new |
| `Notifications.RegisteredErrorStays` | v1/notifications/manager.py:175-195 | once a class fails, the run stops with that error and the classes registered before it stay registered |
| `Notifications.Registry.constructor` | v1/notifications/manager.py:8 | NOTIFICATION_TYPES starts empty |
| `Notifications.Registry.ValidateNotifications` | v1/notifications/manager.py:147-195 | the loop leaves the registry and error the specification run gives |
| `Notifications.MatchIndices` | v1/notifications/manager.py:57-66 | exactly the rows matching every lookup field |
| `Notifications.FreshRow` | v1/notifications/manager.py:57-66 | a created row matches the lookup, has the next id and is unread |
| `Notifications.GetOrCreate` | v1/notifications/manager.py:57-66 | no match creates one row, one match returns it unchanged, several raise; the returned row matches |
| `Notifications.GetOrCreateIdempotent` | v1/notifications/manager.py:57-66 | a second get_or_create with the same fields returns the same row and changes nothing |
| `Notifications.ManagerPrefs` | v1/notifications/manager.py:45-53 | a member of the target company hits the commented-out CompanyMember.get_notification_pref (AttributeError); otherwise the user's preferences for the manager's channels |
| `Notifications.ActionUrl` | v1/notifications/manager.py:90-104 | a missing root URL or path is a TypeError that gives ""; otherwise add_params on a str raises AttributeError |
| `Notifications.Gate` | v1/notifications/manager.py:45-66 | a row is looked up exactly when the target resolves, preferences resolve and any channel is on; the lookup carries user, uid, the four channels, event id and token |
| `Notifications.Filled` | v1/notifications/manager.py:72-80 | the fill sets action URL, actor, target, recipient and redirect type and changes nothing else |
| `Notifications.ValidateRead` | v1/notifications/serializers.py:69-75 | valid exactly when non-empty ids are given or all is true; otherwise the "Either 'ids' … or 'all' …" error |
| `Notifications.MarkRead` | v1/notifications/serializers.py:94-97 | a row is read afterwards exactly when it was read or the request selects it; nothing else changes |
| `Notifications.MarkReadIdempotent` | v1/notifications/serializers.py:94-97 | marking twice gives what marking once gives |
| `Notifications.ReadAllMarksEveryUser` | v1/notifications/serializers.py:94-97 | all=true with no ids marks every row, of every user |
| `Notifications.NotificationTable.constructor` | v1/notifications/models.py:1-256 | no notification rows |
| `Notifications.NotificationTable.Notify` | v1/notifications/manager.py:30-81 | gate errors escape and change nothing; a closed gate changes nothing; otherwise the result and the rows are exactly RecordedRows (every other row kept), and the returned row matches the lookup and is sent to the user's email |
| `Notifications.NotificationTable.Record` | v1/notifications/manager.py:57-80 | the result and the rows are exactly RecordedRows: every row but the one got or created is kept, and that one is filled on success or kept as created on failure |
| `Notifications.RecordedRows` | v1/notifications/manager.py:57-80 | a failed get_or_create changes nothing; otherwise the table is what it gives, success needs a URL and an actor, every other row is kept, and the row is filled with recipient, actor and target |
| `Notifications.FailedRecordKeepsFreshRow` | v1/notifications/manager.py:57-80 | no rollback: when nothing matched and the action URL fails, the freshly created row stays, unfilled |
| `Notifications.NotificationTable.GetOrCreateRow` | v1/notifications/manager.py:57-66 | the table becomes what get_or_create gives, or is unchanged on failure |
| `Notifications.NotificationTable.ReadNotifications` | v1/notifications/serializers.py:77-98 | the rows become the marked rows; the reply is {} |
| `Notifications.SameIdsKeepValid` | v1/notifications/manager.py:80 | rewriting rows without changing ids keeps ids unique and below the next id |
| `Notifications.FreshKeepsValid` | v1/notifications/manager.py:57-66 | appending a fresh row keeps ids unique and below the next id |
| `Notifications.DefaultManagerNotifies` | v1/notifications/manager.py:23-54 | with the default channels a non-member's preferences resolve and visibility is on, so a row is always made |
| `OAuthClients.CompanyAllowed` | v1/oauth/models.py:125-132 | allowed exactly when the token's company is linked to its client server |
| `OAuthClients.AllowScopes` | v1/oauth/models.py:106-123 | no scopes are refused, exactly the auth scope is allowed, anything else is the toolkit's answer |
| `OAuthClients.IsValid` | v1/oauth/models.py:93-104 | a valid token is unexpired, asks for some scope and has an allowed company; for the auth scope alone, valid exactly when unexpired and the company is allowed |
| `OAuthClients.UnlinkedCompanyInvalid` | v1/oauth/models.py:93-132 | a token for a company not linked to its client server is never valid |
| `OAuthClients.MemberIndex` | v1/oauth/models.py:191-193 | a found membership has the company and user; none means no membership has both |
| `OAuthClients.SameKeysSameIndex` | v1/oauth/models.py:191-195 | changing a membership's type does not change which membership the lookup finds |
| `OAuthClients.IsValidEntity` | v1/oauth/validators.py:27-44 | valid exactly when an entity id is given and the client's user has an active membership in it |
| `OAuthClients.GetDefaultScopes` | v1/oauth/validators.py:85-105 | a non-empty intersection of the backend defaults and the application's scopes, or else the backend defaults, which then share no scope with the application |
| `OAuthClients.OAuthTables.constructor` | v1/oauth/models.py:18-196 | no client servers, links or tokens |
| `OAuthClients.OAuthTables.SaveLink` | v1/oauth/models.py:173-195 | the client's user becomes an ADMIN member of the company (get_or_create, then type set) before the link is written; a duplicate (client, company) link is refused by the unique constraint with the membership change kept; other memberships are unchanged |
| `OAuthClients.OAuthTables.CreateAccessToken` | v1/oauth/validators.py:46-83 | an entity the client's user is not an active member of is refused with "Invalid entity ID. Or entity is not active." and no token is stored; otherwise the token is appended bound to that company and the client's user |
| `OAuthClients.SavedToken` | v1/oauth/models.py:78-91 | a new token without a user takes its client server's user; otherwise it is unchanged |
| `Permissions.PermissionFor` | base/permissions.py:53-73 | IsAuthenticated exactly for simple JWT token classes, or SSO token classes when SSO is enabled; anything else gets the OAuth scope check |
| `Permissions.HasPermission` | base/permissions.py:23-35 | the answer is authentication for JWT and enabled SSO tokens and the scope match otherwise |
| `Permissions.SsoTokenNeedsSso` | base/permissions.py:65-73 | an SSO token is judged by authentication only when SSO_ENABLED is "1" |
| `Permissions.ViewKwargs.constructor` | base/permissions.py:124 | the view's kwargs as given |
| `Permissions.MetaValue` | base/permissions.py:118 | a header present gives its text, an absent one None |
| `Permissions.HasTotpPermission` | base/permissions.py:102-129 | the local environment always passes; no secret fails with "Failed OTP."; no OTP header is a bad request; then a failing timezone or language activation raises before anything is written; otherwise the view's language kwarg is set and it passes exactly when the OTP verifies within one step, else "Invalid OTP." |
| `Permissions.ActivationFailure` | base/permissions.py:117-122 | a non-empty Timezone header is activated first and its failure wins; then a non-empty Language header; absent or empty headers are not activated, and no failure means both activations passed |
| `RequestViews.LowerChar` | base/request_handler/views.py:61 | upper-case ASCII letters are lowered, other characters kept |
| `RequestViews.Lowered` | base/request_handler/views.py:61 | lower() applied to every character |
| `RequestViews.Underscored` | base/request_handler/views.py:59-60 | inserting underscores never shortens the name |
| `RequestViews.ChoiceName` | base/request_handler/views.py:59-61 | the choice name has no upper-case letter |
| `RequestViews.StripUnderscores` | base/request_handler/views.py:59-61 | the name without underscores |
| `RequestViews.StripLoweredCommute` | base/request_handler/views.py:59-60 | `.lower()` neither makes nor removes underscores, so removing them and lowering commute |
| `RequestViews.StripUnderscored` | base/request_handler/views.py:59 | the substitution changes nothing but the underscores it inserts |
| `RequestViews.UnderscoredOnlyInserts` | base/request_handler/views.py:59-60 | the substitution only inserts underscores |
| `RequestViews.ChoiceNameOnlyInserts` | base/request_handler/views.py:59-61 | the snake-case name is the lowered class name with underscores inserted |
| `RequestViews.Split` | base/request_handler/views.py:58 | the parts contain no separator and join back to the text |
| `RequestViews.AppName` | base/request_handler/views.py:58 | a module path without a dot raises IndexError; otherwise the second dotted part |
| `RequestViews.SplitMany` | base/request_handler/views.py:58 | a split into two or more parts means the separator occurs |
| `RequestViews.Entries` | base/request_handler/views.py:62-65 | one {name, id} entry per choice, in order |
| `RequestViews.GetConstants` | base/request_handler/views.py:53-66 | the loop builds the configuration the specification function gives |
| `RequestViews.ConfigErrPersists` | base/request_handler/views.py:57-58 | once a class raises, the endpoint raises the same error |
| `RequestViews.ConfigErrIffBadModule` | base/request_handler/views.py:57-58 | the endpoint fails exactly when some class's module path has no dot |
| `RequestViews.ConfigListsClass` | base/request_handler/views.py:57-65 | a class not overwritten by a later class of the same app and name is listed with its entries |
| `RequestViews.LookupKwargs` | base/request_handler/views.py:19-30 | the lookup kwargs reach get_object unchanged |
| `ApiResponse.Envelope` | base/request_handler/response.py:64-69 | exactly the keys success (True), detail, code and data |
| `ApiResponse.Render` | base/request_handler/response.py:57-75 | data with a success key is passed through; anything else is wrapped with detail "Success" and the response status |
| `ApiResponse.RenderIdempotent` | base/request_handler/response.py:57-75 | rendering a rendered body changes nothing |
| `ApiResponse.SuccessBody` | base/request_handler/response.py:81-100 | success True and the status; falsy data becomes {}; a missing or empty message becomes "Success." |
| `ApiResponse.SuccessBodyRendersAsIs` | base/request_handler/response.py:57-100 | the renderer passes a SuccessResponse body through unchanged |
| `ApiResponse.EncodeDefault` | base/request_handler/response.py:37-49 | exactly Hashid objects are encoded, as their string form |
| `SemVer.MatchCoreIsVersion` | base/drf/utils.py:13-15 | the pattern's core (anchored at the start, without the end anchor) matches exactly the strings of the MAJOR.MINOR.PATCH[-(alpha\|beta\|rc).N] grammar, numbers without leading zeros |
| `SemVer.ValidateSemanticVersion` | base/drf/utils.py:9-20 | accepted iff the string is a version, or a version followed by one trailing newline (what `$` admits under `re.match`); any other string raises ValueError |
| `SemVer.SemVerMatchesGrammar` | base/drf/utils.py:13-17 | the search the source performs accepts exactly versions and versions with one trailing newline |
| `SemVer.FullMatchIsVersion` | base/drf/utils.py:13-17 | a full match of the pattern accepts exactly the version grammar |
| `SemVer.TrailingNewlineAccepted` | base/drf/utils.py:13-17 | "1.0.0\n" is accepted though it is not a version and a full match would refuse it |
| `SemVer.RemoveAll` | base/drf/utils.py:58-61 | removing every occurrence never lengthens the string and introduces no new character |
| `SemVer.RemoveAllAbsent` | base/drf/utils.py:58-61 | removing a pattern that never occurs leaves the string as it was |
| `SemVer.RemoveCharGone` | base/drf/utils.py:58 | after removing a one-character pattern that character no longer occurs |
| `SemVer.ServerVersion` | base/drf/utils.py:47-62 | the server version derived from the branch name holds no 'V' and is no longer than the branch name |
| `SsoAuthentication.AccessTokenClass` | base/sso/tokens.py:84-123 | the access token class has type "access" and builds a token from exactly the raw strings the token constructor accepts |
| `SsoAuthentication.MessagesInOrder` | base/sso/authentication.py:76-87 | when the first n classes fail, one message per failed class is collected, in class order |
| `SsoAuthentication.GetValidatedToken` | base/sso/authentication.py:71-94 | the first class whose construction is not a token error decides the result; if every class fails, InvalidToken carries all their messages |
| `SsoAuthentication.TokenVerdict` | base/sso/authentication.py:71-94 | when every class refuses, the verdict is InvalidToken with every class's message |
| `SsoAuthentication.TokenVerdictFromClass` | base/sso/authentication.py:76-87 | an accepting verdict comes from a class that accepts after every class before it refused |
| `SsoAuthentication.ClassDecidesVerdict` | base/sso/authentication.py:76-87 | a class that accepts after every class before it refused decides the verdict |
| `SsoAuthentication.UserField` | base/sso/authentication.py:118 | a user exposes exactly the lookup fields id, email, username and phone |
| `SsoAuthentication.Matching` | base/sso/authentication.py:118 | the users matched are exactly those whose field equals the claimed value |
| `SsoAuthentication.GetUser` | base/sso/authentication.py:109-124 | a missing user claim, no match and an inactive match each give their own error; success iff exactly one active user matches, and it is that user |
| `SsoAuthentication.ValidateHmacSignatureAsWritten` | base/sso/authentication.py:146-164 | as written: the session token is a uuid.UUID with no `encode`, the AttributeError is caught by `except Exception`, and every call is the HMAC failure |
| `SsoAuthentication.ValidateHmacSignatureIntended` | base/sso/authentication.py:126-164 | corrected (keyed by the token's text): succeeds (with True) iff the received signature equals the computed one; every failure, mismatch or unexpected error, is the one HMAC failure |
| `SsoAuthentication.SessionFor` | base/sso/authentication.py:181-183 | `.first()` under AuthSession's inherited newest-first ordering: the most recently created session with both nonces, or none when no session has them |
| `SsoAuthentication.GetUserSession` | base/sso/authentication.py:167-206 | as written: missing nonces and an unknown pair are refused; with HMAC validation on a GET returns the bare True shortcut; other verbs need the signature header, and succeed only for views that do not ask for the signature check |
| `SsoAuthentication.GetUserSessionIntended` | base/sso/authentication.py:167-206 | corrected: as above, but a view that asks for the check lets through exactly the requests whose signature the intended check accepts |
| `SsoAuthentication.SignatureCheckOnlyDifference` | base/sso/authentication.py:200-204 | the two lookups agree except for a signed request to a view that checks payloads, where the code as written answers HMAC failure even when the intended check passes |
| `SsoAuthentication.SignedRequestsRefused` | base/sso/authentication.py:146-204 | as written, with HMAC validation on, no request other than a GET to a view that checks payloads gets a session, and one with a matching session fails with the HMAC failure |
| `SsoAuthentication.IntendedSignedAccepted` | base/sso/authentication.py:200-205 | as intended, such a request with a known session and an accepted signature gets that session |
| `SsoAuthentication.SessionExpiryIgnored` | base/sso/authentication.py:181-206 | the session lookup is the same whatever the sessions' expiry times |
| `SsoAuthentication.SessionForIgnoresExpiry` | base/sso/authentication.py:181-183 | the nonce match does not look at expiry |
| `SsoAuthentication.GetDevice` | base/sso/authentication.py:208-218 | a session row yields its device id; the GET shortcut (True) has no device_id and raises AttributeError |
| `SsoAuthentication.ValidateDevice` | base/sso/authentication.py:220-251 | an excluding view skips the check; otherwise success iff the user's device with that id exists and is active, failing with "Device authentication failed" or "Device deactivated" |
| `SsoAuthentication.SessionDevice` | base/sso/authentication.py:59-65 | as written: a session lookup error escapes; the GET shortcut raises AttributeError; with a session row the result is Ok exactly when its device passes validation, and then it is that device id |
| `SsoAuthentication.GetRequestsRefused` | base/sso/authentication.py:189-218 | with HMAC validation on, every GET request fails, with AttributeError once the nonces match |
| `SsoAuthentication.SessionDeviceIntended` | base/sso/authentication.py:167-251 | corrected (GET goes on with its session, intended signature check): a session lookup error escapes; otherwise the matched session's device is validated, and the result is Ok (that device id) exactly when validation passes, else its error |
| `SsoAuthentication.IntendedGetAccepted` | base/sso/authentication.py:189-192 | a well-formed GET with a known session and an active device is accepted by the intended flow and refused by the flow as written |
| `SsoAuthentication.SectionLog.constructor` | base/sso/authentication.py:68 | no section recorded yet |
| `SsoAuthentication.SectionLog.SetSection` | base/sso/authentication.py:68 | records exactly one more section |
| `SsoAuthentication.Authenticate` | base/sso/authentication.py:41-69 | the answer is exactly AuthenticateResult; no header or no raw token gives None with nothing recorded; an accepted request records one section, any other records nothing |
| `SsoAuthentication.AfterToken` | base/sso/authentication.py:55-66 | Ok exactly when the token was accepted, its claims name an active user and the session device passes; then the user and the claims |
| `SsoAuthentication.AcceptedIff` | base/sso/authentication.py:41-94 | a request is let through with user u and claims p exactly when it carries a token some class accepts with claims p (after every earlier class refused), the claims name u, and u's session device passes |
| `SsoAuthentication.FirstAccepting` | base/sso/authentication.py:77-79 | when not every class fails, some class accepts after all earlier ones failed |
| `SsoTokens.TokenText` | base/sso/tokens.py:125-131 | the text of a token is its encoded form; a freshly built token has none, and str() then raises TypeError |
| `SsoTokens.CheckBlacklist` | base/sso/tokens.py:35-42 | a missing jti claim raises KeyError; otherwise the check fails, with "Token is blacklisted", iff a blacklist row points at an outstanding token with that jti |
| `SsoTokens.EpochSeconds` | base/sso/tokens.py:57 | datetime_from_epoch reads an int, a float or a bool (as 0 or 1) as seconds, exactly; any other claim value is refused (TypeError) |
| `SsoTokens.CheckExp` | base/sso/tokens.py:147-151 | passes iff the token carries an int, float or bool exp later than now; a missing exp, another kind of value and an expired exp each have their own error |
| `SsoTokens.CheckType` | base/sso/tokens.py:162-163 | passes iff the type claim is present and says "access" |
| `SsoTokens.Verify` | base/sso/tokens.py:141-165 | expiry first, then the jti claim, then the type, then the blacklist; passes iff all of them hold |
| `SsoTokens.NewPayload` | base/sso/tokens.py:114-123 | a new token carries exactly the type, exp, iat and jti claims |
| `SsoTokens.MakeToken` | base/sso/tokens.py:89-123 | no lifetime is an error; an undecodable token is "invalid or expired"; a decoded token is accepted iff verification is off or passes, and keeps its payload; no encoded token gives a fresh payload |
| `SsoTokens.NewTokenVerifies` | base/sso/tokens.py:114-165 | a fresh token verifies until its lifetime runs out and reports expiry exactly then |
| `SsoTokens.UserIdClaim` | base/sso/tokens.py:173-175 | integer user ids stay integers; any other id becomes its string |
| `SsoTokens.ForUser` | base/sso/tokens.py:167-180 | fails iff there is no lifetime; otherwise the fresh payload plus the user id claim, with no encoded form |
| `SsoTokens.Ledger.constructor` | base/sso/tokens.py:20-30 | no outstanding and no blacklisted tokens |
| `SsoTokens.Ledger.OutstandingRow` | base/sso/tokens.py:52-59 | returns the existing outstanding row with that jti, else appends exactly one new row and returns it |
| `SsoTokens.Ledger.FindJti` | base/sso/tokens.py:53-54 | finds a row with the jti, or reports that none has it |
| `SsoTokens.Ledger.Blacklist` | base/sso/tokens.py:44-61 | on success the token's jti is blacklisted; an already blacklisted token changes nothing and reports not created; an exp that is not a number raises TypeError and changes nothing; the ledger only grows, by at most one row each |
| `SsoTokens.Ledger.RecordIssued` | base/sso/tokens.py:63-81 | appends one outstanding row for the user, created now, and keeps the rest; str() of a fresh token fails first and changes nothing |
| `SsoTokens.FindJtiIn` | base/sso/tokens.py:53-54 | finds an outstanding row with the jti, or reports that none has it |
| `SsoTokens.FindRow` | base/sso/tokens.py:61 | finds the blacklist entry for a row, or reports that none exists |
| `SsoTokens.BlacklistedByRow` | base/sso/tokens.py:41 | a blacklist entry pointing at a row with the jti makes that jti blacklisted |
| `Transactions.MethodFor` | v1/transactions/models/payment_models.py:117-124 | CARD exactly when a card is set, INVOICE exactly when there is no card but an invoice, NONE exactly when neither |
| `Transactions.PaymentTypeFor` | v1/transactions/models/payment_models.py:105-115 | TRANSACTION_PREMIUM iff both relations, TRANSACTION iff only a transaction, PREMIUM iff only a premium; neither raises "Payment type can not determined." |
| `Transactions.FromTransaction` | v1/transactions/models/payment_models.py:84-103 | with a transaction the payment runs from its destination to its source and takes its card, keeping its own invoice when it has one, its premium, amount and currency; without one nothing changes |
| `Transactions.SavedPayment` | v1/transactions/models/payment_models.py:77-82 | the stored row has the type and verification method derived from its relations, reverses its transaction, and keeps amount, premium and currency; only a payment with neither relation fails |
| `Transactions.PaymentReversesTransaction` | v1/transactions/models/payment_models.py:84-124 | a payment of a transaction runs opposite to it, is never a bare PREMIUM payment, and is verified by card iff the transaction has a card |
| `Transactions.TransactionStore.constructor` | v1/transactions/models/payment_models.py:11 | no transactions and no payments |
| `Transactions.Payment.constructor` | v1/transactions/models/payment_models.py:36-41 | holds the caller's draft, with the TRANSACTION_PREMIUM default type and no method yet |
| `Transactions.Payment.UpdateFromTransaction` | v1/transactions/models/payment_models.py:84-103 | the object's fields become exactly the draft FromTransaction gives |
| `Transactions.Payment.UpdatePaymentStatus` | v1/transactions/models/payment_models.py:105-115 | sets the type PaymentTypeFor gives, or raises and leaves the type alone |
| `Transactions.Payment.UpdateVerificationMethod` | v1/transactions/models/payment_models.py:117-124 | sets the method MethodFor gives |
| `Transactions.Payment.Save` | v1/transactions/models/payment_models.py:77-82 | appends exactly the SavedPayment row and returns its id, or fails with its error and stores nothing |
| `Transactions.Children` | v1/transactions/models/transaction_models.py:43-49 | the children of a transaction are exactly the rows that list it as a parent |
| `Transactions.CurrentQuantity` | v1/transactions/models/transaction_models.py:114-118 | 0 once any transaction uses it as a parent, its own quantity otherwise |
| `Transactions.SumQuantities` | v1/transactions/models/transaction_models.py:109-111 | the sum is NULL exactly when every quantity is NULL |
| `Transactions.SumOfNonNegative` | v1/transactions/models/transaction_models.py:109-111 | a sum of non-negative quantities is non-negative, and zero only when every present quantity is zero |
| `Transactions.ParentQuantities` | v1/transactions/models/transaction_models.py:109 | the parents' quantities, in order |
| `Transactions.SourceQuantity` | v1/transactions/models/transaction_models.py:105-112 | the parents' total, unless it is NULL or zero, then the transaction's own quantity |
| `Transactions.NewestCreated` | v1/transactions/models/transaction_models.py:79-83 | the newest creation time among the transaction's TRANSACTION payments: none exactly when there are none, otherwise an upper bound of them all |
| `Transactions.NewestCreatedAttained` | v1/transactions/models/transaction_models.py:79-83 | the newest creation time is the time of one of those payments |
| `Transactions.CreatedAtComplete` | v1/transactions/models/transaction_models.py:79-83 | every TRANSACTION payment of the transaction created at the time is among the tied rows |
| `Transactions.NewestListed` | v1/transactions/models/transaction_models.py:79-83 | some row is tied at the newest time whenever there is a TRANSACTION payment |
| `Transactions.BasePayment` | v1/transactions/models/transaction_models.py:79-83 | `.first()` under the inherited newest-first ordering: a TRANSACTION payment of the transaction created no earlier than any other, none exactly when it has none; `pick` chooses among the rows tied at the newest time |
| `Transactions.BasePaymentAmongNewest` | v1/transactions/models/transaction_models.py:79-83 | the base payment is the pick-th (cyclically) of the rows tied at the newest time |
| `Transactions.BasePaymentExists` | v1/transactions/models/transaction_models.py:79-83 | a base payment exists, whatever the choice among ties, exactly when the transaction has a TRANSACTION payment |
| `Transactions.NewestCanBeFirst` | v1/transactions/models/transaction_models.py:79-83 | every TRANSACTION payment created no earlier than the others is the base payment for some choice among ties |
| `Transactions.SoleIsBase` | v1/transactions/models/transaction_models.py:79-83 | a transaction's only TRANSACTION payment is its base payment whatever the choice |
| `Transactions.Amount` | v1/transactions/models/transaction_models.py:85-90 | succeeds exactly when there is a base payment and then is its amount; without one an AttributeError |
| `Transactions.Currency` | v1/transactions/models/transaction_models.py:92-97 | succeeds exactly when there is a base payment and then is its currency; without one an AttributeError |
| `Transactions.SavedTransaction` | v1/transactions/models/transaction_models.py:70-77 | saving rewrites only the verification method, to the one MethodFor gives |
| `Transactions.ParentsOneWay` | v1/transactions/models/transaction_models.py:43-49 | making p a parent of c makes c a child of p and leaves p's own parents alone (the relation is not symmetrical) |
| `Transactions.GetType` | v1/transactions/serializers.py:140-151 | OUTGOING iff the row's source is the current entity, INCOMING otherwise; no current entity is an error |
| `Transactions.FirstForeignParent` | v1/transactions/serializers.py:176-177 | the first parent delivered elsewhere than the source, or none |
| `Transactions.CheckParents` | v1/transactions/serializers.py:168-185 | missing or empty parents are refused; otherwise passes iff every parent was delivered to the source, naming the first that was not |
| `Transactions.Validate` | v1/transactions/serializers.py:103-113 | parents are checked only when the source is the current entity; no source passes; a source without a current entity raises AttributeError |
| `Transactions.FindByCode` | v1/transactions/serializers.py:131 | a row with the code, found iff one exists |
| `Transactions.FindById` | v1/transactions/serializers.py:129 | a row with the id, found iff one exists |
| `Transactions.LookupCurrency` | v1/transactions/serializers.py:128-131 | an id that names a currency wins; otherwise no row with the code is DoesNotExist, several are MultipleObjectsReturned, exactly one is that row |
| `Transactions.PaymentCurrency` | v1/transactions/serializers.py:41-47 | no or an empty currency leaves it unset; otherwise the lookup decides |
| `Transactions.CreatePayments` | v1/transactions/serializers.py:153-166 | appends one saved payment per item, in order, then the TRANSACTION payment carrying the amount, and keeps the earlier payments |
| `Transactions.SaveItemPayments` | v1/transactions/serializers.py:155-160 | the loop appends exactly the item payments, in order, after the existing ones |
| `Transactions.CreatedPaymentsShape` | v1/transactions/serializers.py:153-166 | the amount-carrying payment is a TRANSACTION payment in the given currency running opposite to the transaction; each item payment is of the transaction, in that currency, TRANSACTION iff it has no premium |
| `Transactions.CurrencyReadsBack` | v1/transactions/serializers.py:153-166 | with no earlier payment of the transaction, the currency reads back as the one given to create, whatever the item list and the choice among ties |
| `Transactions.AmountReadsBackAmong` | v1/transactions/serializers.py:153-166 | with no earlier payment of the transaction, the amount reads back either as the one given to create or as the amount of an item without a premium, since those payments tie with the base payment |
| `Transactions.AmountReadsBack` | v1/transactions/serializers.py:153-166 | when every item carries a premium and no earlier payment belongs to the transaction, the amount reads back as the one given to create, whatever the choice among ties |
| `Transactions.ItemWithoutPremiumTies` | v1/transactions/serializers.py:153-166 | an item without a premium (amount 5) ties with the base payment (amount 100): one choice among ties reads 5, another 100 |
| `Transactions.ItemPayments` | v1/transactions/serializers.py:155-160 | one saved payment per item, in order |
| `Transactions.NewTransaction` | v1/transactions/serializers.py:126 | the inserted row keeps the input's parties and parents, is numbered from its id, is not deleted, and has the method MethodFor gives |
| `Transactions.CreateTransaction` | v1/transactions/serializers.py:115-138 | no currency is a KeyError; a failing currency lookup fails; every failure changes nothing; on success the row is inserted, the payments become the old ones, then the item payments, then the base payment; for every choice among ties the currency reads back, the amount is the given one or an item amount without a premium, and exactly the given one when every item has a premium |
| `Transactions.Queryset` | v1/transactions/views.py:31-40 | with a reverse_sync flag every row, otherwise exactly the rows not deleted |
| `Transactions.SoftDeleted` | v1/transactions/views.py:78-80 | the row is marked deleted and saved again |
| `Transactions.PerformDestroy` | v1/transactions/views.py:68-84 | a row with children is refused and kept; otherwise exactly that row is soft-deleted |
| `Transactions.Destroy` | v1/transactions/views.py:86-98 | a row outside the view's queryset is 404; otherwise PerformDestroy decides, answering 200 |
| `Transactions.DeletedHiddenUnlessReverseSync` | v1/transactions/views.py:31-84 | a soft-deleted row leaves the default queryset and stays visible to reverse sync |
| `Transactions.Update` | v1/transactions/views.py:100-101 | update is always refused as method not allowed |
| `Transactions.ProductFilter` | v1/transactions/filters.py:36-50 | admins see the whole queryset; others see exactly the rows they created with the current entity as source or destination |
| `Transactions.NoEntityNoTransactions` | v1/transactions/filters.py:36-50 | without a current entity a non-admin sees no transaction |
| `Transactions.ProductFilterCommutesWithDates` | v1/transactions/filters.py:36-60 | the scoping rule and the created_after filter give the same rows in either order |
| `Transactions.ProductFilterWithinAdmin` | v1/transactions/filters.py:36-50 | a non-admin sees a subset of what an admin sees |
| `Transactions.CreatedAfter` | v1/transactions/filters.py:52-56 | exactly the rows created at or after the instant |
| `Transactions.CreatedBefore` | v1/transactions/filters.py:58-62 | exactly the rows created strictly before the instant |
| `Transactions.AfterBeforePartition` | v1/transactions/filters.py:52-62 | the two filters at one instant split the queryset into disjoint halves |
| `Transactions.QuantityAvailable` | v1/transactions/filters.py:64-71 | when set, exactly the rows without children delivered to the current entity with positive quantity; otherwise all |
| `Transactions.AvailableHasStock` | v1/transactions/filters.py:64-71 | a row the filter keeps has current quantity equal to its positive quantity |
| `Transactions.PaymentFilter` | v1/transactions/filters.py:88-99 | only PREMIUM payments; non-admins only those with the current entity as source or destination |
| `Transactions.BasePaymentNeverListed` | v1/transactions/filters.py:88-99 | a base payment is never listed, since the filter keeps only PREMIUM payments |
| `Transactions.PaymentFilterWithinAdmin` | v1/transactions/filters.py:88-99 | a non-admin sees a subset of what an admin sees, and nothing without a current entity |
| `Urls.ToUnicode` | utilities/url_utils.py:19-41 | None stays None, a non-bytes value becomes its text, bytes are decoded and decoding errors propagate |
| `Urls.ToUnicodeFixedPoint` | utilities/url_utils.py:19-41 | converting the converted text again gives the same text |
| `Urls.StripStart` | utilities/url_utils.py:81 | removes exactly the leading run of the character |
| `Urls.StripEnd` | utilities/url_utils.py:81 | removes exactly the trailing run of the character |
| `Urls.Strip` | utilities/url_utils.py:81 | the result is a piece of the input with the character at neither end; an input without it at either end is unchanged |
| `Urls.StripIdempotent` | utilities/url_utils.py:81 | stripping twice is stripping once |
| `Urls.WithScheme` | utilities/url_utils.py:83-84 | a host containing "http" is kept; any other gets the scheme and "://" in front |
| `Urls.SchemeAddedOnce` | utilities/url_utils.py:83-84 | with an http scheme the result contains "http", so adding the scheme again changes nothing |
| `Urls.Lookup` | utilities/url_utils.py:121 | a key's value is found iff the key is present, and the pair is present |
| `Urls.Put` | utilities/url_utils.py:121 | setting a key gives it the new value and leaves every other key's value alone, adding at most one entry |
| `Urls.PutKeepsUnique` | utilities/url_utils.py:121 | setting a key keeps the keys unique |
| `Urls.UpdateAll` | utilities/url_utils.py:115-121 | updating keeps the keys unique |
| `Urls.UpdateAllLookup` | utilities/url_utils.py:115-121 | after an update a key given in the keyword arguments has their value; any other key keeps its old value |
| `Urls.EncodedPairs` | utilities/url_utils.py:113 | each parameter becomes its quoted key, "=" and its quoted value, in order |
| `Urls.UrlEncode` | utilities/url_utils.py:113 | the query string is empty exactly when there are no parameters |
| `Urls.SplitJoin` | utilities/url_utils.py:113 | splitting pieces joined by a separator none of them holds gives the pieces back |
| `Urls.QueryRoundTrip` | utilities/url_utils.py:113 | splitting the query string at "&" gives back each encoded pair, and splitting a pair at "=" gives the quoted key and value |
| `Urls.Url.constructor` | utilities/url_utils.py:65-84 | the full URL is the host stripped of slashes, with the default "https" scheme added unless it holds "http"; no query parameters |
| `Urls.Url.Append` | utilities/url_utils.py:86-97 | appends "/" and the stripped segment to this same URL and returns it |
| `Urls.Url.AddParams` | utilities/url_utils.py:115-121 | the parameters become exactly the old ones updated with the keyword arguments |
| `Urls.Url.ToString` | utilities/url_utils.py:99-113 | the full URL, then "?", then the encoded parameters; nothing after "?" exactly when there are none |
| `Urls.NewUrl` | utilities/url_utils.py:65-84 | any explicit scheme raises TypeError in `str.__new__`; otherwise a None host or one IDNA cannot encode raises ValueError, and any other host gives a fresh URL as the constructor builds it |
| `UserSerializer.CurrentPolicyId` | v1/accounts/models.py:527-534 | a policy exists iff one is already in force today, and it is one of the highest version among those |
| `UserSerializer.FirstOf` | v1/accounts/serializers/user.py:62-72 | the first user of a non-empty match, by id |
| `UserSerializer.WithContact` | v1/accounts/serializers/user.py:62-70 | exactly the users whose email (or phone) column holds the value |
| `UserSerializer.ContactName` | v1/accounts/serializers/user.py:75-77 | a truthy contact name wins, else the name, else a single space |
| `UserSerializer.NameParts` | v1/accounts/serializers/user.py:79-82 | the first name has no space; first name, a space and the last name give back the name with its Python whitespace stripped, or the last name is empty when it has no space |
| `UserSerializer.CreateUpdateUser` | v1/accounts/serializers/user.py:57-88 | without an instance a truthy email, else a truthy phone, picks the lowest-id matching user, and a contact that matches no user prepares the data; neither contact gives None; a result is Matched exactly when such a lookup matched; otherwise the cleaned data with the contact name split |
| `ValidationTokens.ExpiryFor` | v1/accounts/models.py:315-322 | the expiry lies the type's validity period after now, between 30 minutes and 365 days |
| `ValidationTokens.SavedBy` | base/db/models.py:54-60 | a save records the signed-in user as updater when there is one and leaves the updater otherwise; nothing else changes |
| `ValidationTokens.Invalidated` | v1/accounts/models.py:399-405 | the token is used, expires now and is no longer valid; the updater becomes the signed-in user if any; nothing else changes |
| `ValidationTokens.ValidatedAsWritten` | v1/accounts/models.py:339-350 | as written the answer is always True (the method object is never falsy); the token becomes used, with the signed-in user as updater, or its own user when no one is signed in |
| `ValidationTokens.ValidatedIntended` | v1/accounts/models.py:339-350 | corrected: the answer is True iff the token was valid; the token becomes used (updater as in the source) and is then invalid |
| `ValidationTokens.ValidateVersionsAgree` | v1/accounts/models.py:339-350 | both versions leave the same token; their answers agree exactly when the token was valid |
| `ValidationTokens.ValidateAcceptsExpiredToken` | v1/accounts/models.py:339-397 | an expired token is accepted as written and refused by the intended check |
| `ValidationTokens.RefreshedAsWritten` | v1/accounts/models.py:352-360 | as written the key and the status are always kept and only the expiry and the updater (signed-in user, else the token's user) change, so the token is valid afterwards exactly when it was UNUSED |
| `ValidationTokens.RefreshKeepsExpiredKey` | v1/accounts/models.py:352-360 | an expired UNUSED token is renewed under its old key |
| `ValidationTokens.RefreshLeavesUsedInvalid` | v1/accounts/models.py:352-360 | a USED token stays invalid after refresh as written, at any later time |
| `ValidationTokens.TokenTable.constructor` | v1/accounts/models.py:253-288 | no tokens |
| `ValidationTokens.TokenTable.GenerateUniqueKey` | v1/accounts/models.py:324-337 | the first drawn key not held by an UNUSED token of the same type, or none when every draw is taken |
| `ValidationTokens.TokenTable.Initialize` | v1/accounts/models.py:367-379 | appends one UNUSED token for the user and type, with a key no UNUSED token of that type holds, the expiry ExpiryFor gives, the ip, location and device, and the signed-in user as updater; it is valid now |
| `ValidationTokens.TokenTable.Validate` | v1/accounts/models.py:339-350 | stores the ValidatedAsWritten token and answers True |
| `ValidationTokens.TokenTable.Refresh` | v1/accounts/models.py:352-360 | stores the RefreshedAsWritten token (status kept) in place, changes no other token, and answers True |
| `ValidationTokens.TokenTable.RefreshIntended` | v1/accounts/models.py:352-360 | corrected: on success only token k changes: UNUSED, expiry from the validity table, updater the signed-in user (else its user), and a key no UNUSED token of its type held when it was invalid (kept when valid); it fails, changing nothing, exactly when it was invalid and every draw is taken |
| `ValidationTokens.TokenTable.MarkAsUsed` | v1/accounts/models.py:362-365 | only that token changes: to used, saved by the signed-in user if any |
| `ValidationTokens.TokenTable.Invalidate` | v1/accounts/models.py:399-405 | stores the Invalidated token, which is no longer valid |

## Left out

- Persistence and framework plumbing are not part of this model: the Django ORM, migrations, admin modules, app and URL configuration, settings and the Swagger machinery. Tables are in-memory collections, one request is served at a time, and a database transaction is modelled by checking before writing.
- Cryptography and randomness are parameters whose results are only compared: JWT signing and signature checks, HMAC-SHA256, base64, UUIDs, `get_random_string`, `randint` and TOTP.
- Foreign libraries are parameters or plain inputs: Hashids encoding and decoding, phonenumbers parsing, `read_date`, pendulum and timezone localisation, `unix_to_datetime` (the identity on integer times), ua_parser and `redirect_to_uri_allowed`.
- I/O is not part of this model: the IP-geolocation call, email and SMS delivery, Celery's `AsyncResult` (the task store is an input), the git call behind `get_branch_name` (the branch name is an input) and the import scripts.
- The SSO key file and settings (base/sso/state.py, base/sso/settings.py) are a settings value passed in.
- Concurrency is not part of this model: the per-thread separation of the `asgiref` Local store and races between concurrent logins.
- Code the repository references but does not contain follows one rule. A name needed while a module is imported (`from base.authentication.utilities import AuthMixin` at base/authentication/custom_authentication.py:15, the base class `auth_utils.AuthMixin` at base/sso/authentication.py:34, the views named by v1/apiauth/urls.py:11-13) is taken to exist, because without it the module could not be imported and none of its code would run; `AuthMixin.set_section` is kept as an append-only log of sections. A name looked up only when a function body runs (`auth_utils.get_current_company()`, `auth_utils.get_session_device()`) is modelled as raising AttributeError at that call, because the module imports and the failure comes only on that path; the two findings that rest on this say so. Also not part of this model: `DynamicModelSerializer`, `IDDEcodeScopeViewset`, the project's exception classes (failures are values carrying the message and code) and `utilities/translations`.
- Thin views and tests are not part of this model: the accounts, catalogs, forms and supply-chain view modules, notification summaries and `utilities/function_generators.py`.
- Floating-point arithmetic is modelled with exact reals: quantities, amounts, the farmer summary sums and premium amounts. Rounding errors of float addition are not captured.
- Notification titles and bodies, and their translations, are not modelled. Sending a notification (`send_notification`) changes no table here, because delivery is I/O.
- The nested submission a farmer create may carry is not part of this model.
- `Farmers.Totals`: the `language` argument of `transaction_count` is not modelled, because the source never uses it.
- `GeoJson.ValidateCoordinates`: a dictionary iterated in a loop gives its keys, and the model stands for every key by the empty string. Only the number of keys is kept, since no check looks at their text.
- `SemVer.ServerVersion`: states only that no "V" remains and that the result is no longer than the branch name. The removal of every "-staging" is stated by `SemVer.RemoveAll` and `SemVer.RemoveAllAbsent`, not by ServerVersion itself.
- `OAuthClients.AllowScopes`: for any scopes other than exactly the authentication scope, the answer is the OAuth toolkit's own check, passed in as a value.
- `UtilityFunctions.GenerateRandomNumber`: the random draw is an arbitrary integer folded into the range, so only the range is stated, not a distribution.
- `ValidationTokens.TokenTable.GenerateUniqueKey`: the source recurses until a free key is drawn. The model draws from a finite list of random keys and reports None when every draw is taken.
- `Transactions.BasePayment`: payments copy their transaction's creation time when saved, so a transaction's TRANSACTION payments tie under the newest-first ordering, and the database may return any of them from `.first()`. The model takes the choice as the input `pick`, and states Amount, Currency, CreateTransaction, Farmers.Totals and Farmers.FirstCurrency for every choice.
- `Accounts.Directory.SetActive`: `set_active` and `set_default_entity` write a status and a join time on the entity. Entity declares neither column, so the entity's save stores only what AbstractBaseModel tracks (updater and update time), and entity rows here carry no such tracking columns.
- `Permissions.HasTotpPermission`: activating the timezone and the language switches per-thread settings. Only whether activation raises is modelled, as an input.
- `SsoTokens.Ledger.Blacklist`: the stored expiry is the exact number of seconds. A datetime's microsecond precision is not modelled.
- `RequestViews.Lowered`: Python's `lower()` is modelled on ASCII letters only.
- `AuthSessions.ParseUuid`: `int(hex, 16)` also accepts surrounding whitespace, underscores between digits and a "0x" prefix, so 32-character text written with those is refused here and may be read as a UUID by the source.
- `SsoAuthentication.GetUserSession`: `server_nonce` is a UUIDField too, so a Server-Nonce header that is not UUID text makes the filter raise ValidationError, and the same UUID in another spelling matches. The model compares the header text with the stored nonce as it stands.
- `SemVer.ValidateSemanticVersion`: `\d` in the pattern matches every Unicode decimal digit, while `SemVer.IsDigit` accepts only "0" to "9". Versions written with other decimal digits, such as Arabic-Indic ones, are refused here and accepted by the source.

Where the code and its own comments or documentation disagree, the model follows the code:

- The handshake session lives one day (v1/apiauth/serializers.py:429), although the comment above that line says 15 minutes.
- An admin creating a farmer without `sync_from_trace` keeps the buyer as the submitted mapping. Creating the EntityBuyer link with that mapping raises ValueError, and the whole create rolls back (v1/supply_chains/serializers.py:384-403).
- `CompanyMember.get_notification_pref` is commented out, so a notification manager that reaches it for a company member gets an AttributeError.
- `get_action_url` adds a path to the front-end root as a plain string, and then calls `add_params` on that string, which raises AttributeError. It returns "" only when an operand is None, which raises TypeError and is caught.
- `get_or_create` finding more than one matching notification row raises MultipleObjectsReturned.
- Marking notifications read with `all` set and no ids marks every row of every user, not only the requesting user's rows.
- `validate_notifications` registers manager classes one by one, so the classes registered before a failing one stay registered.

## Findings

| source | as written | input that shows it | evidently intended | confidence | as-written member | corrected member |
|---|---|---|---|---|---|---|
| v1/accounts/models.py:339-350 | `validate` tests `not self.is_valid` without calling the method, so it always answers True | an expired UNUSED token: `validate` answers True | answer whether the token was valid before using it up | high, not executed | `ValidationTokens.ValidatedAsWritten`, `ValidationTokens.ValidateAcceptsExpiredToken` | `ValidationTokens.ValidatedIntended` |
| v1/accounts/models.py:352-360 | `refresh` has the same uncalled `is_valid`, so the branch that draws a new key and resets the status never runs; only the expiry and the updater change | an expired UNUSED token is renewed under its old key, and a USED token stays invalid after refresh | give a token that is no longer valid a fresh unique key and make it UNUSED | high, not executed | `ValidationTokens.RefreshedAsWritten`, `ValidationTokens.RefreshKeepsExpiredKey`, `ValidationTokens.RefreshLeavesUsedInvalid` | `ValidationTokens.TokenTable.RefreshIntended` |
| base/drf/utils.py:13-17 | `re.match` with a pattern ending in `$` also accepts a version followed by one newline | "1.0.0\n" is accepted | accept exactly MAJOR.MINOR.PATCH with the optional pre-release suffix | medium, not executed | `SemVer.ValidateSemanticVersion`, `SemVer.TrailingNewlineAccepted` | `SemVer.FullMatchIsVersion` |
| v1/supply_chains/models/company_models.py:265-272 | `_form_check` compares each Form object with the text "PRODUCT", so it never matches, and `save` runs it | saving a company product that holds one PRODUCT form raises ValueError | refuse only forms whose type is not PRODUCT | high, not executed | `CompanyProducts.FormCheckAsWritten`, `CompanyProducts.ProductFormRefusedAsWritten`, `CompanyProducts.ProductStore.Save` | `CompanyProducts.FormCheck`, `CompanyProducts.ProductStore.SaveIntended` |
| v1/supply_chains/models/company_models.py:286-300 | `_check_premium_removal` reads the "old" and the "new" premiums from the same stored relation | replacing a saved row's premiums never touches the product's updated_on | touch the product when the premium set changes | high, not executed | `CompanyProducts.PremiumsChangedAsWritten`, `CompanyProducts.RemovalUnseenAsWritten` | `CompanyProducts.ProductStore.SetRelations` |
| v1/supply_chains/models/company_models.py:109 | `can_be_edited_by()` without a company calls `get_current_company`, which the utilities module does not define | any call without a company raises AttributeError | fall back to the request's current company | medium, rests on base/authentication/utilities.py as shipped; not executed | `CompanyProducts.CanBeEditedByAsWritten`, `CompanyProducts.NoCompanyNoEdit` | `CompanyProducts.CanBeEditedBy`, `CompanyProducts.OnlyInviterEdits` |
| v1/supply_chains/models/company_models.py:110-113 | the checks read `self.status` and `self.invited_by`, which Entity names in its docstring but does not declare (v1/supply_chains/models/base_models.py:30-60) | the inviting company passed explicitly: AttributeError instead of permission | allow exactly the inviting company to edit an entity that has not joined yet | medium, not executed | `CompanyProducts.CanBeEditedByAsWritten`, `CompanyProducts.InviterRefusedAsWritten` | `CompanyProducts.CanBeEditedBy`, `CompanyProducts.OnlyInviterEdits` |
| v1/supply_chains/validators.py:70-75 | `validate_geojson_polygon` returns its ValidationError instead of raising it | a Feature whose geometry is a Point passes validation | raise the collected errors | high, not executed | `GeoJson.ValidateGeojsonPolygonAsWritten`, `GeoJson.WrongGeometryAcceptedAsWritten` | `GeoJson.ValidateGeojsonPolygon`, `GeoJson.WrongGeometryRefused` |
| v1/apiauth/serializers.py:265-274 | the gate reads `entity.entity_members`, but a Company's members are `company_members` (v1/supply_chains/models/company_models.py:145); `user.id.id` also fails when no user is given | any request naming an entity raises AttributeError, even from a member | refuse exactly users who are not members, and report a missing user | medium, not executed | `PasswordGates.ValidateGate`, `PasswordGates.EntityGateRefusesMembers` | `PasswordGates.ValidateGateIntended` |
| base/sso/authentication.py:189-218 | with HMAC validation on, a GET returns True instead of the session, and `get_device` then reads `device_id` from True | every authenticated GET fails with AttributeError | skip only the signature check for GET and go on with the session | high, not executed | `SsoAuthentication.SessionDevice`, `SsoAuthentication.GetRequestsRefused` | `SsoAuthentication.SessionDeviceIntended`, `SsoAuthentication.IntendedGetAccepted` |
| v1/apiauth/serializers.py:496-500 | `validate` calls `auth_utils.get_session_device()`, which base/authentication/utilities.py does not define | every device registration raises AttributeError once the current user is read | compare the device id with the device bound to the request's handshake session | medium, rests on base/authentication/utilities.py as shipped; not executed | `DeviceRegistration.RegisterAsWritten` | `DeviceRegistration.Register` |
| v1/apiauth/serializers.py:391-395 | `get_device_info` filters UserDevice on `version`, a field the model does not declare (v1/accounts/models.py:426-457) | any handshake with valid fields raises FieldError in `to_representation`, before `generate_session`, so no session is ever created | look the device up by registration id and type | high, not executed | `Handshake.GetDeviceInfoAsWritten`, `Handshake.PerformHandshake` | `Handshake.GetDeviceInfo`, `Handshake.PerformHandshakeIntended` |
| base/sso/authentication.py:148 | the HMAC key is `auth_session.session_token.encode()`, but the token is a UUIDField value (v1/apiauth/models.py:14) and a UUID has no `encode`; the `except Exception` turns the AttributeError into the generic HMAC failure | any POST, correctly signed, to a view with `validate_payload_signature` while HMAC validation is on is refused | key the HMAC with the token's text | high, not executed | `SsoAuthentication.ValidateHmacSignatureAsWritten`, `SsoAuthentication.SignedRequestsRefused` | `SsoAuthentication.ValidateHmacSignatureIntended`, `SsoAuthentication.GetUserSessionIntended`, `SsoAuthentication.IntendedSignedAccepted` |

=== FILE: account_constants.dfy ===
/** Enumerations and the token validity table of the accounts app
    (v1/accounts/constants.py). Each enumeration carries the integer code the
    database stores, and `FromCode` reads a stored code back. */
module AccountConstants {
  import opened Wrappers

  /** Validity periods, in minutes. */
  const MINUTES_30: nat := 30
  const MINUTES_PER_DAY: nat := 1440
  const DAYS_2: nat := 2880
  const DAYS_365: nat := 525600

  datatype Language = English | Dutch | German | French
  {
    function Tag(): (s: string)
      ensures |s| == 2
    {
      match this
      case English => "en"
      case Dutch => "nl"
      case German => "de"
      case French => "fr"
    }
  }

  datatype UserType = SuperAdmin | Admin | EntityUser
  {
    function Code(): (c: int)
      ensures 101 <= c <= 121
    {
      match this
      case SuperAdmin => 101
      case Admin => 111
      case EntityUser => 121
    }
  }

  datatype UserStatus = Created | Active
  {
    function Code(): (c: int)
      ensures c == 101 || c == 111
    {
      match this
      case Created => 101
      case Active => 111
    }
  }

  datatype TokenStatus = Used | Unused
  {
    function Code(): (c: int)
      ensures c == 101 || c == 111
    {
      match this
      case Used => 101
      case Unused => 111
    }
  }

  datatype TokenType =
    | VerifyEmail | ChangeEmail | ResetPass | Otp | MagicLogin | Invite | Notification
  {
    function Code(): (c: int)
      ensures 101 <= c <= 107
    {
      match this
      case VerifyEmail => 101
      case ChangeEmail => 102
      case ResetPass => 103
      case Otp => 104
      case MagicLogin => 105
      case Invite => 106
      case Notification => 107
    }
  }

  datatype DeviceType = Android | Ios | Web
  {
    function Code(): (c: int)
      ensures 101 <= c <= 103
    {
      match this
      case Android => 101
      case Ios => 102
      case Web => 103
    }
  }

  /** Reads a stored token-type code back; unknown codes give None. */
  function TokenTypeFromCode(c: int): (r: Option<TokenType>)
    ensures r.Some? <==> 101 <= c <= 107
    ensures r.Some? ==> r.value.Code() == c
  {
    if c == 101 then Some(VerifyEmail)
    else if c == 102 then Some(ChangeEmail)
    else if c == 103 then Some(ResetPass)
    else if c == 104 then Some(Otp)
    else if c == 105 then Some(MagicLogin)
    else if c == 106 then Some(Invite)
    else if c == 107 then Some(Notification)
    else None
  }

  /** Reads a stored user-status code back. */
  function UserStatusFromCode(c: int): (r: Option<UserStatus>)
    ensures r.Some? <==> (c == 101 || c == 111)
    ensures r.Some? ==> r.value.Code() == c
  {
    if c == 101 then Some(Created) else if c == 111 then Some(Active) else None
  }

  /** Reads a stored token-status code back. */
  function TokenStatusFromCode(c: int): (r: Option<TokenStatus>)
    ensures r.Some? <==> (c == 101 || c == 111)
    ensures r.Some? ==> r.value.Code() == c
  {
    if c == 101 then Some(Used) else if c == 111 then Some(Unused) else None
  }

  /** Codes of one enumeration identify their members. */
  lemma TokenTypeCodeRoundTrip(t: TokenType)
    ensures TokenTypeFromCode(t.Code()) == Some(t)
  {
  }

  lemma StatusCodesRoundTrip(s: UserStatus, k: TokenStatus)
    ensures UserStatusFromCode(s.Code()) == Some(s)
    ensures TokenStatusFromCode(k.Code()) == Some(k)
  {
  }

  /** MOBILE_DEVICE_TYPES */
  const MOBILE_DEVICE_TYPES: seq<DeviceType> := [Android, Ios]

  lemma MobileDeviceTypesExactly(d: DeviceType)
    ensures d in MOBILE_DEVICE_TYPES <==> d != Web
  {
  }

  /** TOKEN_VALIDITY, as the dictionary the source declares. */
  const TOKEN_VALIDITY: map<TokenType, nat> := map[
    VerifyEmail := DAYS_365,
    ChangeEmail := DAYS_365,
    ResetPass := DAYS_2,
    Otp := MINUTES_30,
    MagicLogin := DAYS_2,
    Invite := DAYS_365,
    Notification := DAYS_365
  ]

  /** The validity lookup `TOKEN_VALIDITY[type]`; it never misses a key. */
  function ValidityMinutes(t: TokenType): (m: nat)
    ensures t in TOKEN_VALIDITY && m == TOKEN_VALIDITY[t]
    ensures t == Otp ==> m == 30
    ensures (t == ResetPass || t == MagicLogin) ==> m == 2 * MINUTES_PER_DAY
    ensures (t == VerifyEmail || t == ChangeEmail || t == Invite || t == Notification)
              ==> m == 365 * MINUTES_PER_DAY
  {
    match t
    case VerifyEmail => TOKEN_VALIDITY[VerifyEmail]
    case ChangeEmail => TOKEN_VALIDITY[ChangeEmail]
    case ResetPass => TOKEN_VALIDITY[ResetPass]
    case Otp => TOKEN_VALIDITY[Otp]
    case MagicLogin => TOKEN_VALIDITY[MagicLogin]
    case Invite => TOKEN_VALIDITY[Invite]
    case Notification => TOKEN_VALIDITY[Notification]
  }

  /** Every token type has an entry, and no token lives for less than
      30 minutes or more than a year. */
  lemma ValidityTableTotal()
    ensures forall t: TokenType :: t in TOKEN_VALIDITY
    ensures forall t: TokenType :: MINUTES_30 <= ValidityMinutes(t) <= DAYS_365
  {
    forall t: TokenType ensures t in TOKEN_VALIDITY && MINUTES_30 <= ValidityMinutes(t) <= DAYS_365 {
      match t
      case VerifyEmail =>
      case ChangeEmail =>
      case ResetPass =>
      case Otp =>
      case MagicLogin =>
      case Invite =>
      case Notification =>
    }
  }
}

=== FILE: accounts.dfy ===
/** Users, devices and privacy policies of the accounts app
    (v1/accounts/models.py). The user, company, membership, device and policy
    tables live in one `Directory` object whose methods update them the way
    the model methods update and save rows. */
module Accounts {
  import opened Wrappers
  import opened AccountConstants
  import opened Entities
  import opened NotificationConstants

  type UserId = nat

  /** What `password` / `has_usable_password()` tell about a user. */
  datatype PasswordState = NoPassword | UnusablePassword | UsablePassword(hash: string)

  datatype User = User(
    email: string,
    phone: string,
    username: string,
    kind: UserType,
    status: UserStatus,
    isActive: bool,
    defaultEntity: Option<EntityId>,
    acceptedPolicy: Option<nat>,
    forceLogout: bool,
    password: PasswordState,
    language: Language)

  /** UserDevice. The table has no version column: the `version` the login
      and registration code assign to a device is an attribute of the
      in-memory object only, which saving does not write. */
  datatype Device = Device(
    user: UserId,
    kind: DeviceType,
    registrationId: string,
    active: bool,
    name: Option<string>,
    loc: Option<string>)

  /** A fresh UserDevice as `get_or_create(registration_id=r, user=u)` makes
      it: type ANDROID, active, no name or location. */
  function NewDevice(u: UserId, r: string): (d: Device)
    ensures d.user == u && d.registrationId == r && d.active
    ensures d.kind == Android && d.name.None? && d.loc.None?
  {
    Device(u, Android, r, true, None, None)
  }

  /** PrivacyPolicy; `since` is a day number, and versions are unique. */
  datatype Policy = Policy(id: nat, version: nat, since: Option<int>)

  /** CustomUser.is_admin */
  function IsAdmin(u: User): (b: bool)
    ensures b <==> u.kind.Code() in {101, 111}
  {
    match u.kind
    case SuperAdmin => true
    case Admin => true
    case EntityUser => false
  }

  /** CustomUser.save: the username is the email when there is one, and a
      fresh random 32-character string otherwise. */
  function SavedUsername(email: string, random32: string): (r: string)
    requires |random32| == 32
    ensures email != "" ==> r == email
    ensures email == "" ==> |r| == 32
  {
    if email != "" then email else random32
  }

  /** The row CustomUser.save writes: the username becomes the email, or,
      for a user without one, `draw`, the fresh 32-character string of
      get_random_string (a new one on every save). */
  function SavedUser(row: User, draw: string): (r: User)
    requires |draw| == 32
    ensures row.email != "" ==> r.username == row.email
    ensures row.email == "" ==> r.username == draw
    ensures r.(username := row.username) == row
  {
    row.(username := SavedUsername(row.email, draw))
  }

  /** Whether the stored default is still one of the user's entities, so
      that `get_default_entity` keeps it without saving. */
  predicate DefaultStillValid(d: Option<EntityId>, entities: seq<EntityId>)
  {
    d.Some? && d.value in entities
  }

  /** The default entity after `get_default_entity`: the stored one when it
      is still among the user's entities, else the entity with the lowest
      id, else None. */
  function ResolvedDefault(d: Option<EntityId>, entities: seq<EntityId>): (r: Option<EntityId>)
    ensures r.Some? <==> |entities| > 0
    ensures r.Some? ==> r.value in entities
    ensures DefaultStillValid(d, entities) ==> r == d
    ensures !DefaultStillValid(d, entities) && r.Some? ==> forall e :: e in entities ==> r.value <= e
  {
    if DefaultStillValid(d, entities) then d
    else FirstEntity(entities)
  }

  /** A user who joined company 5 and then company 3, with no stored
      default, gets company 3. */
  lemma LowestIdIsDefault()
    ensures ResolvedDefault(None, [5, 3]) == Some(3)
  {
    assert 3 in [5, 3];
  }

  /** The user row after `get_default_entity`: untouched while the stored
      default is still valid, else saved with the resolved default. */
  function DefaultResolvedRow(row: User, entities: seq<EntityId>, draw: string): (r: User)
    requires |draw| == 32
    ensures r.defaultEntity == ResolvedDefault(row.defaultEntity, entities)
    ensures DefaultStillValid(row.defaultEntity, entities) ==> r == row
  {
    if DefaultStillValid(row.defaultEntity, entities) then row
    else SavedUser(row.(defaultEntity := ResolvedDefault(row.defaultEntity, entities)), draw)
  }

  /** `get_pref` of get_notification_pref: "__all__" must be configured;
      ENABLED gives true, IF_USER_ACTIVE gives whether the user is ACTIVE,
      DISABLED and any other code give false. */
  function PrefFor(config: map<string, int>, status: UserStatus): (r: Result<bool, string>)
    ensures r.Err? <==> ALL_KEY !in config
    ensures r.Ok? ==> (r.value <==>
      (config[ALL_KEY] == ENABLED || (config[ALL_KEY] == IF_USER_ACTIVE && status == Active)))
  {
    if ALL_KEY !in config then Err("Config not defined.")
    else if config[ALL_KEY] == ENABLED then Ok(true)
    else if config[ALL_KEY] == DISABLED then Ok(false)
    else if config[ALL_KEY] == IF_USER_ACTIVE then Ok(status == Active)
    else Ok(false)
  }

  /** CustomUser.get_notification_pref: all four channels, raising
      ValueError when one of them lacks "__all__". */
  function NotificationPref(c: Channels, status: UserStatus): (r: Result<Prefs, string>)
    ensures r.Ok? <==> (ALL_KEY in c.visibility && ALL_KEY in c.push
                        && ALL_KEY in c.email && ALL_KEY in c.sms)
    ensures r.Ok? ==> (r.value.visibility == PrefFor(c.visibility, status).value
                       && r.value.push == PrefFor(c.push, status).value
                       && r.value.email == PrefFor(c.email, status).value
                       && r.value.sms == PrefFor(c.sms, status).value)
  {
    var v := PrefFor(c.visibility, status);
    var p := PrefFor(c.push, status);
    var e := PrefFor(c.email, status);
    var s := PrefFor(c.sms, status);
    if v.Err? then Err(v.error)
    else if p.Err? then Err(p.error)
    else if e.Err? then Err(e.error)
    else if s.Err? then Err(s.error)
    else Ok(Prefs(v.value, p.value, e.value, s.value))
  }

  /** With the default channels an ACTIVE user gets visibility, push and
      email but no sms; any other user gets only visibility. */
  lemma DefaultPrefs(status: UserStatus)
    ensures NotificationPref(DEFAULT_CHANNELS, status)
         == Ok(Prefs(true, status == Active, status == Active, false))
  {
  }

  /** UserDevice.active_devices(u): the positions of u's active devices. */
  function ActiveDevices(ds: seq<Device>, u: UserId): (r: set<nat>)
    ensures forall i :: i in r <==> 0 <= i < |ds| && ds[i].user == u && ds[i].active
  {
    set i | 0 <= i < |ds| && ds[i].user == u && ds[i].active
  }

  /** CustomUser.is_device_active(r) */
  function IsDeviceActive(ds: seq<Device>, u: UserId, r: string): (b: bool)
    ensures b <==> exists i :: i in ActiveDevices(ds, u) && ds[i].registrationId == r
  {
    exists i :: 0 <= i < |ds| && ds[i].user == u && ds[i].active && ds[i].registrationId == r
  }

  /** UserDevice.get_device_with_device_id: the first device of u with
      registration id r. */
  function DeviceWithDeviceId(ds: seq<Device>, r: string, u: UserId): (k: Option<nat>)
    ensures k.Some? ==> k.value < |ds| && ds[k.value].registrationId == r && ds[k.value].user == u
    ensures k.Some? ==> forall j :: 0 <= j < k.value ==> !(ds[j].registrationId == r && ds[j].user == u)
    ensures k.None? ==> forall j :: 0 <= j < |ds| ==> !(ds[j].registrationId == r && ds[j].user == u)
  {
    if ds == [] then None
    else if ds[0].registrationId == r && ds[0].user == u then Some(0)
    else
      match DeviceWithDeviceId(ds[1..], r, u)
      case None => None
      case Some(k) => Some(k + 1)
  }

  /** The device table after `deactivate_devices(u)`. */
  function DevicesDeactivated(ds: seq<Device>, u: UserId): (r: seq<Device>)
  {
    seq(|ds|, i requires 0 <= i < |ds| =>
      if ds[i].user == u && ds[i].active then ds[i].(active := false) else ds[i])
  }

  /** deactivate_devices leaves u with no active device and changes no other
      user's device; only the `active` flag moves. */
  lemma DeactivatedLeavesNoActive(ds: seq<Device>, u: UserId)
    ensures |DevicesDeactivated(ds, u)| == |ds|
    ensures ActiveDevices(DevicesDeactivated(ds, u), u) == {}
    ensures forall i :: 0 <= i < |ds| && ds[i].user != u ==> DevicesDeactivated(ds, u)[i] == ds[i]
    ensures forall i :: 0 <= i < |ds| ==> DevicesDeactivated(ds, u)[i] == ds[i].(active := DevicesDeactivated(ds, u)[i].active)
  {
  }

  /** No two devices share (user, registration id): every insert goes
      through get_or_create on that pair. */
  ghost predicate DevicesUnique(ds: seq<Device>)
  {
    forall i, j :: 0 <= i < j < |ds| ==>
      ds[i].user != ds[j].user || ds[i].registrationId != ds[j].registrationId
  }

  /** Eligible for `current_privacy_policy`: not starting after today (rows
      with no start date are not excluded). */
  predicate PolicyInForce(p: Policy, today: int)
  {
    p.since.None? || p.since.value <= today
  }

  /** PrivacyPolicy.current_privacy_policy: among policies in force, the one
      with the highest version; None when no policy is in force. */
  function CurrentPrivacyPolicy(ps: seq<Policy>, today: int): (r: Option<Policy>)
    ensures r.Some? <==> exists p :: p in ps && PolicyInForce(p, today)
    ensures r.Some? ==> r.value in ps && PolicyInForce(r.value, today)
    ensures r.Some? ==> forall p :: p in ps && PolicyInForce(p, today) ==> p.version <= r.value.version
  {
    if ps == [] then None
    else
      var rest := CurrentPrivacyPolicy(ps[1..], today);
      assert forall p :: p in ps <==> p == ps[0] || p in ps[1..];
      if !PolicyInForce(ps[0], today) then rest
      else if rest.Some? && rest.value.version > ps[0].version then rest
      else Some(ps[0])
  }

  /** The database tables the account and login code reads and writes. */
  class Directory {
    var users: map<UserId, User>
    var entities: map<EntityId, Entity>
    var members: seq<Member>
    var devices: seq<Device>
    var policies: seq<Policy>

    /** The membership and device constraints, the foreign keys of
        memberships, and the username rule of CustomUser.save. */
    ghost predicate Valid()
      reads this
    {
      MembersUnique(members)
      && (forall m :: m in members ==>
            m.company in entities && entities[m.company].kind.CompanyEntity? && m.user in users)
      && DevicesUnique(devices)
      && (forall u :: u in users && users[u].email != "" ==> users[u].username == users[u].email)
    }

    constructor ()
      ensures Valid()
      ensures users == map[] && entities == map[] && members == [] && devices == [] && policies == []
    {
      users, entities, members, devices, policies := map[], map[], [], [], [];
    }

    /** CustomUser.get_default_entity, which saves the user when the stored
        default had to be resolved anew. Every method that saves a user row
        takes the 32-character `draw` that save gives a user without an
        email; where a call saves the row more than once, `draw` is the
        last save's, which overwrites the earlier ones. */
    method GetDefaultEntity(u: UserId, draw: string) returns (r: Option<EntityId>)
      requires Valid() && u in users && |draw| == 32
      modifies this`users
      ensures Valid()
      ensures r == ResolvedDefault(old(users[u].defaultEntity), EntitiesOf(members, u))
      ensures users == old(users)[u := DefaultResolvedRow(old(users[u]), EntitiesOf(members, u), draw)]
    {
      r := ResolvedDefault(users[u].defaultEntity, EntitiesOf(members, u));
      if !DefaultStillValid(users[u].defaultEntity, EntitiesOf(members, u)) {
        users := users[u := SavedUser(users[u].(defaultEntity := r), draw)];
      }
    }

    /** CustomUser.set_default_entity: the default is set and the user
        saved. When the user is ACTIVE the entity is first given an ACTIVE
        status and saved, but Entity declares no status column, so that
        save stores nothing the entity table keeps. */
    method SetDefaultEntity(u: UserId, e: EntityId, draw: string) returns (r: Option<EntityId>)
      requires Valid() && u in users && e in entities && |draw| == 32
      modifies this`users
      ensures Valid()
      ensures r == Some(e)
      ensures users == old(users)[u := SavedUser(old(users[u]).(defaultEntity := Some(e)), draw)]
      ensures users[u].defaultEntity == Some(e)
    {
      users := users[u := SavedUser(users[u].(defaultEntity := Some(e)), draw)];
      r := Some(e);
    }

    /** CustomUser.set_active: the user becomes ACTIVE and is saved, then the
        default entity is resolved. The status and join time then written on
        the entity are attributes Entity does not declare, so its save keeps
        the entity rows as they were. With no entity at all the source fails
        on `None.status` after the user was saved; `ok` is false then. */
    method SetActive(u: UserId, draw: string) returns (ok: bool)
      requires Valid() && u in users && |draw| == 32
      modifies this`users
      ensures Valid()
      ensures var d := ResolvedDefault(old(users[u].defaultEntity), EntitiesOf(members, u));
              users == old(users)[u := SavedUser(old(users[u]).(status := Active, defaultEntity := d), draw)]
      ensures u in users && users[u].status == Active
      ensures ok <==> EntitiesOf(members, u) != []
      ensures ok <==> users[u].defaultEntity.Some?
    {
      ghost var es := EntitiesOf(members, u);
      ghost var orig := users[u];
      MarkActive(u, draw);
      var d := GetDefaultEntity(u, draw);
      ActiveThenResolved(orig, d, draw, es);
      ok := d.Some?;
    }

    /** Saving a row ACTIVE and then resolving its default leaves the row
        one save of both fields would. */
    static lemma ActiveThenResolved(orig: User, d: Option<EntityId>, draw: string, es: seq<EntityId>)
      requires |draw| == 32 && d == ResolvedDefault(orig.defaultEntity, es)
      ensures DefaultResolvedRow(SavedUser(orig.(status := Active), draw), es, draw)
           == SavedUser(orig.(status := Active, defaultEntity := d), draw)
    {
    }

    /** The user row saved with status ACTIVE. */
    method MarkActive(u: UserId, draw: string)
      requires Valid() && u in users && |draw| == 32
      modifies this`users
      ensures Valid()
      ensures users == old(users)[u := SavedUser(old(users[u]).(status := Active), draw)]
    {
      users := users[u := SavedUser(users[u].(status := Active), draw)];
    }

    /** Every entity a user is a member of is a stored company. */
    lemma MemberEntityStored(u: UserId, e: EntityId)
      requires Valid() && e in EntitiesOf(members, u)
      ensures e in entities && entities[e].kind.CompanyEntity?
    {
      var m :| m in members && m.user == u && m.company == e;
    }

    /** CustomUser.make_force_logout */
    method MakeForceLogout(u: UserId, draw: string) returns (b: bool)
      requires Valid() && u in users && |draw| == 32
      modifies this`users
      ensures Valid() && b
      ensures users == old(users)[u := SavedUser(old(users[u]).(forceLogout := true), draw)]
    {
      users := users[u := SavedUser(users[u].(forceLogout := true), draw)];
      b := true;
    }

    /** CustomUser.disable_force_logout */
    method DisableForceLogout(u: UserId, draw: string) returns (b: bool)
      requires Valid() && u in users && |draw| == 32
      modifies this`users
      ensures Valid() && b
      ensures users == old(users)[u := SavedUser(old(users[u]).(forceLogout := false), draw)]
    {
      users := users[u := SavedUser(users[u].(forceLogout := false), draw)];
      b := true;
    }

    /** UserDevice.deactivate_devices: each active device of u is
        deactivated and saved, one at a time. */
    method DeactivateDevices(u: UserId)
      requires Valid()
      modifies this`devices
      ensures Valid()
      ensures devices == DevicesDeactivated(old(devices), u)
      ensures ActiveDevices(devices, u) == {}
    {
      var i := 0;
      while i < |devices|
        invariant 0 <= i <= |devices| == |old(devices)|
        invariant forall k :: 0 <= k < i ==> devices[k] == DevicesDeactivated(old(devices), u)[k]
        invariant forall k :: i <= k < |devices| ==> devices[k] == old(devices)[k]
        invariant DevicesUnique(devices)
      {
        if devices[i].user == u && devices[i].active {
          devices := devices[i := devices[i].(active := false)];
        }
        i := i + 1;
      }
      DeactivatedLeavesNoActive(old(devices), u);
    }

    /** UserDevice.deactivate: one device is switched off and saved. */
    method DeactivateDevice(k: nat)
      requires Valid() && k < |devices|
      modifies this`devices
      ensures Valid()
      ensures devices == old(devices)[k := old(devices[k]).(active := false)]
    {
      devices := devices[k := devices[k].(active := false)];
    }

    /** `user.devices.get_or_create(registration_id=r, user=u)`: the existing
        device, or a new one appended. The uniqueness invariant rules out
        the MultipleObjectsReturned case. */
    method GetOrCreateDevice(u: UserId, r: string) returns (k: nat, created: bool)
      requires Valid()
      modifies this`devices
      ensures Valid()
      ensures k < |devices| && devices[k].user == u && devices[k].registrationId == r
      ensures created <==> DeviceWithDeviceId(old(devices), r, u).None?
      ensures created ==> devices == old(devices) + [NewDevice(u, r)] && k == |old(devices)|
      ensures !created ==> devices == old(devices) && Some(k) == DeviceWithDeviceId(old(devices), r, u)
    {
      var found := DeviceWithDeviceId(devices, r, u);
      if found.Some? {
        k, created := found.value, false;
      } else {
        devices := devices + [NewDevice(u, r)];
        k, created := |devices| - 1, true;
      }
    }

    /** Writes one device back, as `device.save()` after field updates that
        keep its user and registration id. */
    method SaveDevice(k: nat, d: Device)
      requires Valid() && k < |devices|
      requires d.user == devices[k].user && d.registrationId == devices[k].registrationId
      modifies this`devices
      ensures Valid()
      ensures devices == old(devices)[k := d]
    {
      devices := devices[k := d];
    }
  }
}

=== FILE: apiauth_gates.dfy ===
/** The token, email and password gates of v1/apiauth/serializers.py:
    ValidationSerializer, which reports each supplied value as valid or not
    instead of raising; PasswordResetConfirmSerializer, which sets a new
    password against a validation token; and CheckPasswordSerializer.
    Password hashing is a parameter (`hasher`), and Django's password
    validators are represented by the message they raise, if any. */
module PasswordGates {
  import opened Wrappers
  import opened Failures
  import opened AccountConstants
  import opened Entities
  import opened Accounts
  import opened ValidationTokens
  import opened LocalSession
  import opened AuthUtilities
  import opened Handshake

  const INVALID_TOKEN: string := "Invalid validation token"
  const EMAIL_TAKEN: string := "Email already taken."
  const NOT_A_MEMBER: Failure := ValidationError("Member is removed or not available, please contact admin.")
  const USER_ID_REQUIRED: Failure := FieldError("validation_token", "User ID is required to validate Validation Token")
  const TOKEN_MISSING: Failure := BadRequest("Token does not exist.")
  const USER_MISSING: Failure := BadRequest("User does not exist")
  const PASSWORD_SET: Failure := ValidationError("Password already set. User reset password to change password.")
  const PASSWORD_WRONG: Failure := ValidationError("Password is incorrect.")
  const PASSWORDS_DIFFER: Failure := ValidationError("Your passwords didn't match.")
  const MAX_PASSWORD_LENGTH: nat := 128
  const TOO_LONG: string := "Ensure this field has no more than 128 characters."

  /** The first token holding the key, if any. */
  function FirstWithKey(ts: seq<Token>, key: string): (k: Option<nat>)
    ensures k.Some? ==> k.value < |ts| && ts[k.value].key == key
    ensures k.None? ==> forall j :: 0 <= j < |ts| ==> ts[j].key != key
  {
    if ts == [] then None
    else if ts[0].key == key then Some(0)
    else
      match FirstWithKey(ts[1..], key)
      case None => None
      case Some(k) => Some(k + 1)
  }

  /** The outcome of `ValidationToken.objects.get(key=...)`: keys are
      unique only among UNUSED tokens of one type, so a key can be held
      more than once. */
  datatype Lookup = NotFound | Found(index: nat) | Multiple

  predicate KeyHeldTwice(ts: seq<Token>, key: string)
  {
    exists a, b :: 0 <= a < b < |ts| && ts[a].key == key && ts[b].key == key
  }

  function GetByKey(ts: seq<Token>, key: string): (r: Lookup)
    ensures r.NotFound? <==> forall j :: 0 <= j < |ts| ==> ts[j].key != key
    ensures r.Found? ==> r.index < |ts| && ts[r.index].key == key
                         && forall j :: 0 <= j < |ts| && ts[j].key == key ==> j == r.index
    ensures r.Multiple? <==> KeyHeldTwice(ts, key)
  {
    if KeyHeldTwice(ts, key) then Multiple
    else
      match FirstWithKey(ts, key)
      case None => NotFound
      case Some(k) =>
        Found(k)
  }

  /** The dictionary validate_validation_token builds; `token` is its
      "object" entry, present exactly when one token has the key. */
  datatype TokenCheck = TokenCheck(valid: bool, value: string, message: string, setPassword: bool, token: Option<nat>)

  /** validate_validation_token: an unknown key or a token that is no
      longer valid is reported, not raised; a key held twice raises. */
  function ValidateValidationToken(ts: seq<Token>, value: string, now: int): (r: Result<TokenCheck, Failure>)
    ensures r.Err? <==> KeyHeldTwice(ts, value)
    ensures r.Err? ==> r.error == Uncaught("MultipleObjectsReturned")
    ensures r.Ok? ==> r.value.value == value && !r.value.setPassword
    ensures r.Ok? ==> (r.value.token.Some? <==> exists j :: 0 <= j < |ts| && ts[j].key == value)
    ensures r.Ok? && r.value.token.Some? ==> r.value.token.value < |ts| && ts[r.value.token.value].key == value
    ensures r.Ok? ==> (r.value.valid <==> r.value.token.Some? && IsValid(ts[r.value.token.value], now))
    ensures r.Ok? ==> r.value.message == (if r.value.valid then "" else INVALID_TOKEN)
  {
    match GetByKey(ts, value)
    case Multiple => Err(Uncaught("MultipleObjectsReturned"))
    case NotFound => Ok(TokenCheck(false, value, INVALID_TOKEN, false, None))
    case Found(k) =>
      if IsValid(ts[k], now) then Ok(TokenCheck(true, value, "", false, Some(k)))
      else Ok(TokenCheck(false, value, INVALID_TOKEN, false, Some(k)))
  }

  /** The {valid, value, message} dictionary of the email and password
      checks. */
  datatype Check = Check(valid: bool, value: string, message: string)

  /** validate_email: an email some user already has is reported taken. */
  function ValidateEmail(users: map<UserId, User>, value: string): (r: Check)
    ensures r.value == value
    ensures r.valid <==> forall u :: u in users ==> users[u].email != value
    ensures !r.valid ==> r.message == EMAIL_TAKEN
    ensures r.valid ==> r.message == ""
  {
    if exists u :: u in users && users[u].email == value then Check(false, value, EMAIL_TAKEN)
    else Check(true, value, "")
  }

  /** validate_password: `validatorError` is the text of the exception
      Django's password validators raise for this value, if they raise. */
  function ValidatePassword(value: string, validatorError: Option<string>): (r: Check)
    ensures r.value == value
    ensures r.valid <==> validatorError.None?
    ensures !r.valid ==> r.message == validatorError.value
  {
    match validatorError
    case None => Check(true, value, "")
    case Some(m) => Check(false, value, m)
  }

  /** The validated fields that reach `validate`: the token check, the user
      and company the related fields resolved, and the email and password
      checks. */
  datatype GateInput = GateInput(
    tokenCheck: Option<TokenCheck>,
    user: Option<UserId>,
    email: Option<Check>,
    password: Option<Check>,
    entity: Option<EntityId>)

  /** What the field pass guarantees: a resolved user exists and a token
      check points into the table. */
  predicate GateInputResolved(users: map<UserId, User>, ts: seq<Token>, a: GateInput)
  {
    (a.user.Some? ==> a.user.value in users)
    && (a.tokenCheck.Some? && a.tokenCheck.value.token.Some? ==> a.tokenCheck.value.token.value < |ts|)
  }

  /** The attributes `validate` returns: the user as its integer id, the
      company removed, and the token check without its "object" entry. */
  datatype GateOutput = GateOutput(tokenCheck: Option<TokenCheck>, user: UserId, email: Option<Check>, password: Option<Check>)

  /** The token check once the user is known: a password must be set when
      the user has none usable or the token is a reset token, and a token
      of another user is reported invalid with value "-". */
  function TokenForUser(c: TokenCheck, t: Token, u: UserId, user: User): (r: TokenCheck)
    ensures r.token.None?
    ensures r.setPassword <==> c.setPassword || !user.password.UsablePassword? || t.kind == ResetPass
    ensures t.user == Some(u) ==> r.valid == c.valid && r.value == c.value && r.message == c.message
    ensures t.user != Some(u) ==> !r.valid && r.value == "-" && r.message == INVALID_TOKEN
  {
    var setPassword := c.setPassword || !user.password.UsablePassword? || t.kind == ResetPass;
    if t.user != Some(u) then TokenCheck(false, "-", INVALID_TOKEN, setPassword, None)
    else c.(setPassword := setPassword, token := None)
  }

  /** ValidationSerializer.validate as written. `user.id.id` raises
      AttributeError when no user was given; a token check without its
      "object" entry (an unknown key) makes `pop("object")` raise KeyError;
      and any company makes `entity.entity_members` raise AttributeError,
      since Company has no such relation (its members are
      `company_members`). */
  function ValidateGate(users: map<UserId, User>, ts: seq<Token>, a: GateInput): (r: Result<GateOutput, Failure>)
    requires GateInputResolved(users, ts, a)
    ensures a.user.None? ==> r == Err(Uncaught("AttributeError"))
    ensures a.user.Some? && a.tokenCheck.Some? && a.tokenCheck.value.token.None? ==> r == Err(Uncaught("KeyError"))
    ensures r.Ok? <==> a.user.Some? && a.entity.None? && (a.tokenCheck.Some? ==> a.tokenCheck.value.token.Some?)
    ensures r.Ok? ==> r.value.user == a.user.value && r.value.email == a.email && r.value.password == a.password
    ensures r.Ok? ==> (r.value.tokenCheck.Some? <==> a.tokenCheck.Some?)
    ensures r.Ok? && a.tokenCheck.Some? ==>
              var k := a.tokenCheck.value.token.value;
              r.value.tokenCheck == Some(TokenForUser(a.tokenCheck.value, ts[k], a.user.value, users[a.user.value]))
  {
    if a.user.None? then Err(Uncaught("AttributeError"))
    else if a.tokenCheck.Some? && a.tokenCheck.value.token.None? then Err(Uncaught("KeyError"))
    else if a.entity.Some? then Err(Uncaught("AttributeError"))
    else
      var u := a.user.value;
      var t := if a.tokenCheck.Some?
               then Some(TokenForUser(a.tokenCheck.value, ts[a.tokenCheck.value.token.value], u, users[u]))
               else None;
      Ok(GateOutput(t, u, a.email, a.password))
  }

  /** A gate that passes reports a token valid only when the token is valid
      and belongs to the user. */
  lemma GateReportsForeignTokens(users: map<UserId, User>, ts: seq<Token>, value: string, now: int, a: GateInput)
    requires GateInputResolved(users, ts, a)
    requires !KeyHeldTwice(ts, value) && a.tokenCheck == Some(ValidateValidationToken(ts, value, now).value)
    ensures var r := ValidateGate(users, ts, a);
            r.Ok? && r.value.tokenCheck.value.valid ==>
              exists j :: 0 <= j < |ts| && ts[j].key == value && IsValid(ts[j], now) && ts[j].user == a.user
  {
    var r := ValidateGate(users, ts, a);
    if r.Ok? && r.value.tokenCheck.value.valid {
      var k := a.tokenCheck.value.token.value;
      assert ts[k].key == value && IsValid(ts[k], now) && ts[k].user == a.user;
    }
  }

  /** The same gate with the membership test on the relation Company does
      have, and the missing-user message the code means to give: a company
      is refused only when the user is not among its members. */
  function ValidateGateIntended(users: map<UserId, User>, members: seq<Member>, ts: seq<Token>, a: GateInput)
    : (r: Result<GateOutput, Failure>)
    requires GateInputResolved(users, ts, a)
    ensures a.entity.Some? && a.user.Some? && a.tokenCheck.None? ==>
              (r == Err(NOT_A_MEMBER) <==> a.entity.value !in EntitiesOf(members, a.user.value))
    ensures a.user.None? && a.entity.None? && a.tokenCheck.Some? && a.tokenCheck.value.token.Some? ==>
              r == Err(USER_ID_REQUIRED)
    ensures r.Ok? ==> a.user.Some? && (a.entity.Some? ==> a.entity.value in EntitiesOf(members, a.user.value))
  {
    if a.tokenCheck.Some? && a.tokenCheck.value.token.None? then Err(Uncaught("KeyError"))
    else if a.entity.Some? && (a.user.None? || a.entity.value !in EntitiesOf(members, a.user.value)) then Err(NOT_A_MEMBER)
    else if a.user.None? then
      (if a.tokenCheck.Some? then Err(USER_ID_REQUIRED) else Err(Uncaught("AttributeError")))
    else
      var u := a.user.value;
      var t := if a.tokenCheck.Some?
               then Some(TokenForUser(a.tokenCheck.value, ts[a.tokenCheck.value.token.value], u, users[u]))
               else None;
      Ok(GateOutput(t, u, a.email, a.password))
  }

  /** As written, a member of the company it names is still refused; the
      intended gate lets that member through. */
  lemma EntityGateRefusesMembers()
    ensures var users := map[0 := User("a@b.c", "", "a@b.c", EntityUser, Active, true, None, None, false, NoPassword, English)];
            var members := [NewMember(7, 0)];
            var a := GateInput(None, Some(0), None, None, Some(7));
            ValidateGate(users, [], a) == Err(Uncaught("AttributeError"))
            && ValidateGateIntended(users, members, [], a).Ok?
  {
    var members := [NewMember(7, 0)];
    assert EntitiesOf(members, 0) == [7];
  }

  /** A CharField(max_length=128): required, not blank, trimmed, and at
      most 128 characters once trimmed. */
  function PasswordFieldValue(v: Option<string>): (r: Result<string, string>)
    ensures r.Ok? <==> CharFieldValue(v).Ok? && |CharFieldValue(v).value| <= MAX_PASSWORD_LENGTH
    ensures r.Ok? ==> r.value == CharFieldValue(v).value
    ensures CharFieldValue(v).Err? ==> r == CharFieldValue(v)
  {
    match CharFieldValue(v)
    case Err(e) => Err(e)
    case Ok(p) => if |p| > MAX_PASSWORD_LENGTH then Err(TOO_LONG) else Ok(p)
  }

  /** The request fields PasswordResetConfirmSerializer adds to the gate's. */
  datatype ResetInput = ResetInput(token: Option<string>, new1: Option<string>, new2: Option<string>, oldPassword: Option<string>)

  datatype ResetFields = ResetFields(tokenKey: string, new1: string, new2: string, oldPassword: Option<string>)

  /** The field pass over token, new_password1, new_password2 and the
      optional old_password, errors collected in that order. */
  function ValidateResetFields(input: ResetInput): (r: Result<ResetFields, Failure>)
    ensures r.Ok? <==> CharFieldValue(input.token).Ok? && PasswordFieldValue(input.new1).Ok?
                       && PasswordFieldValue(input.new2).Ok?
                       && (input.oldPassword.Some? ==> PasswordFieldValue(input.oldPassword).Ok?)
    ensures r.Ok? ==> r.value.tokenKey == CharFieldValue(input.token).value
                      && r.value.new1 == PasswordFieldValue(input.new1).value
                      && r.value.new2 == PasswordFieldValue(input.new2).value
    ensures r.Ok? ==> (r.value.oldPassword.Some? <==> input.oldPassword.Some?)
    ensures r.Ok? && input.oldPassword.Some? ==>
              r.value.oldPassword.value == PasswordFieldValue(input.oldPassword).value && r.value.oldPassword.value != ""
    ensures r.Err? ==> r.error.FieldErrors? && r.error.errors != []
  {
    var t := CharFieldValue(input.token);
    var n1 := PasswordFieldValue(input.new1);
    var n2 := PasswordFieldValue(input.new2);
    var o: Result<Option<string>, string> :=
      if input.oldPassword.None? then Ok(None)
      else match PasswordFieldValue(input.oldPassword)
           case Ok(p) => Ok(Some(p))
           case Err(e) => Err(e);
    var errors := ErrorOf("token", t) + ErrorOf("new_password1", n1) + ErrorOf("new_password2", n2)
                  + ErrorOf("old_password", o);
    if t.Err? || n1.Err? || n2.Err? || o.Err? then Err(FieldErrors(errors))
    else Ok(ResetFields(t.value, n1.value, n2.value, o.value))
  }

  /** CustomUser.check_password: only a usable password can match, and it
      matches when the hash of the raw text is the stored one. */
  predicate PasswordMatches(p: PasswordState, raw: string, hasher: string -> string)
  {
    p.UsablePassword? && hasher(raw) == p.hash
  }

  /** What `create` needs: the user, the token row and the new password. */
  datatype ResetConfirmed = ResetConfirmed(user: UserId, token: nat, newPassword: string)

  /** PasswordResetConfirmSerializer.validate: the gate first, then the
      token by key, the user by id, then the password checks in order. */
  function ValidateReset(users: map<UserId, User>, ts: seq<Token>, a: GateInput, f: ResetFields, hasher: string -> string)
    : (r: Result<ResetConfirmed, Failure>)
    requires GateInputResolved(users, ts, a)
    ensures ValidateGate(users, ts, a).Err? ==> r == Err(ValidateGate(users, ts, a).error)
    ensures ValidateGate(users, ts, a).Ok? && GetByKey(ts, f.tokenKey).NotFound? ==> r == Err(TOKEN_MISSING)
    ensures r.Ok? ==> ValidateGate(users, ts, a).Ok? && GetByKey(ts, f.tokenKey) == Found(r.value.token)
    ensures r.Ok? ==> r.value.user == a.user.value && r.value.user in users
    ensures r.Ok? ==> var p := users[r.value.user].password;
                      !p.UsablePassword? || ts[r.value.token].kind == ResetPass
    ensures r.Ok? && f.oldPassword.Some? && f.oldPassword.value != "" ==>
              PasswordMatches(users[r.value.user].password, f.oldPassword.value, hasher)
    ensures r.Ok? ==> r.value.newPassword == f.new1 == f.new2
  {
    match ValidateGate(users, ts, a)
    case Err(e) => Err(e)
    case Ok(g) =>
      match GetByKey(ts, f.tokenKey)
      case NotFound => Err(TOKEN_MISSING)
      case Multiple => Err(Uncaught("MultipleObjectsReturned"))
      case Found(k) =>
        if g.user !in users then Err(USER_MISSING)
        else
          var user := users[g.user];
          if user.password.UsablePassword? && ts[k].kind != ResetPass then Err(PASSWORD_SET)
          else if f.oldPassword.Some? && f.oldPassword.value != "" && !PasswordMatches(user.password, f.oldPassword.value, hasher)
          then Err(PASSWORD_WRONG)
          else if f.new1 != f.new2 then Err(PASSWORDS_DIFFER)
          else Ok(ResetConfirmed(g.user, k, f.new1))
  }

  /** The stored user after `create`: the new password hash, the current
      privacy policy accepted for an invitation token, and the username
      rule of CustomUser.save. */
  function ResetUser(user: User, newHash: string, invite: bool, policy: Option<Policy>, random32: string): (r: User)
    requires |random32| == 32
    ensures r.password == UsablePassword(newHash)
    ensures invite ==> r.acceptedPolicy == (if policy.Some? then Some(policy.value.id) else None)
    ensures !invite ==> r.acceptedPolicy == user.acceptedPolicy
    ensures r.username == SavedUsername(user.email, random32)
    ensures r == user.(password := r.password, acceptedPolicy := r.acceptedPolicy, username := r.username)
  {
    var accepted := if invite then (if policy.Some? then Some(policy.value.id) else None) else user.acceptedPolicy;
    user.(password := UsablePassword(newHash), acceptedPolicy := accepted, username := SavedUsername(user.email, random32))
  }

  /** PasswordResetConfirmSerializer.create: sets the password, accepts the
      current policy for an invitation, saves the user and invalidates the
      token, which can then not be used again. The response body is {}. */
  method ConfirmReset(dir: Directory, table: TokenTable, c: ResetConfirmed, hasher: string -> string,
                      random32: string, today: int, now: int, current: Option<UserId>)
    requires dir.Valid() && table.Valid()
    requires c.user in dir.users && c.token < |table.tokens|
    requires |random32| == 32
    modifies dir`users, table
    ensures dir.Valid() && table.Valid()
    ensures dir.users == old(dir.users)[c.user := ResetUser(old(dir.users[c.user]), hasher(c.newPassword),
                                                             old(table.tokens[c.token]).kind == Invite,
                                                             CurrentPrivacyPolicy(dir.policies, today), random32)]
    ensures table.tokens == old(table.tokens)[c.token := Invalidated(old(table.tokens[c.token]), now, current)]
    ensures PasswordMatches(dir.users[c.user].password, c.newPassword, hasher)
    ensures !IsValid(table.tokens[c.token], now)
  {
    var invite := table.tokens[c.token].kind == Invite;
    var policy := CurrentPrivacyPolicy(dir.policies, today);
    dir.users := dir.users[c.user := ResetUser(dir.users[c.user], hasher(c.newPassword), invite, policy, random32)];
    var _ := table.Invalidate(c.token, now, current);
  }

  /** CheckPasswordSerializer.create: the current user's password must
      match; there is no user check, so a request without one raises
      AttributeError. The response is {"message": "Password is correct"}. */
  method CheckPassword(store: LocalStore, dir: Directory, password: string, hasher: string -> string)
    returns (r: Result<string, Failure>)
    modifies store
    ensures var u := UserLookup(dir.users, old(store.GetFromLocal("user_id", NoneValue)));
            && (u.None? ==> r == Err(Uncaught("AttributeError")))
            && (u.Some? && !PasswordMatches(dir.users[u.value].password, password, hasher) ==>
                  r == Err(NoValueResponse("Password is incorrect")))
            && (r.Ok? <==> u.Some? && PasswordMatches(dir.users[u.value].password, password, hasher))
    ensures r.Ok? ==> r.value == "Password is correct"
    ensures store.slots == old(store.slots)["user" := UserSlot(UserLookup(dir.users, old(store.GetFromLocal("user_id", NoneValue))))]
  {
    var u := GetCurrentUser(store, dir);
    if u.None? {
      return Err(Uncaught("AttributeError"));
    }
    if !PasswordMatches(dir.users[u.value].password, password, hasher) {
      return Err(NoValueResponse("Password is incorrect"));
    }
    r := Ok("Password is correct");
  }
}

=== FILE: apiauth_handshake.dfy ===
/** The device handshake (AuthHandshakeSerializer in
    v1/apiauth/serializers.py): the request fields are checked the way the
    serializer's fields check them, a client nonce is accepted only if no
    session ever stored it, and a new session bound to the nonce and the
    device is stored. Session tokens and server nonces (fresh UUIDs in the
    source), the clock and the git branch name are inputs. */
module Handshake {
  import opened Wrappers
  import opened Failures
  import opened AccountConstants
  import opened Accounts
  import opened AuthSessions
  import opened SemVer

  /** `timedelta(days=1)` in seconds. */
  const SESSION_LIFETIME: int := 86400

  const REQUIRED: string := "This field is required."
  const BLANK: string := "This field may not be blank."
  const NONCE_USED: string := "The provided nonce value is invalid. This nonce has already been used."

  /** The whitespace `str.strip()` removes: the characters Python's
      `str.isspace` accepts, namely tab to carriage return, the four
      separators U+1C to U+1F, space, U+85, U+A0, U+1680, U+2000 to U+200A,
      the line and paragraph separators, U+202F, U+205F and U+3000. */
  predicate IsSpace(c: char)
  {
    c == ' ' || ('\t' <= c <= '\r') || ('\U{1c}' <= c <= '\U{1f}')
    || c == '\U{85}' || c == '\U{a0}' || c == '\U{1680}'
    || ('\U{2000}' <= c <= '\U{200a}') || c == '\U{2028}' || c == '\U{2029}'
    || c == '\U{202f}' || c == '\U{205f}' || c == '\U{3000}'
  }

  /** A value of no-break and ideographic spaces is whitespace to
      `str.strip()`, so the field holding it is blank. */
  lemma UnicodeSpaceIsBlank()
    ensures CharFieldValue(Some("\U{a0}\U{3000}")) == Err(BLANK)
  {
    var s := "\U{a0}\U{3000}";
    assert IsSpace(s[0]) && s[1..] == "\U{3000}";
    assert IsSpace(s[1..][0]) && s[1..][1..] == "";
    assert TrimStart(s[1..]) == TrimStart("") == "";
    assert Trim(s) == TrimEnd(TrimStart(s)) == "";
  }

  function TrimStart(s: string): (r: string)
    ensures |r| <= |s| && r == s[|s| - |r|..]
    ensures r == [] || !IsSpace(r[0])
    ensures forall i :: 0 <= i < |s| - |r| ==> IsSpace(s[i])
  {
    if s != [] && IsSpace(s[0]) then TrimStart(s[1..]) else s
  }

  function TrimEnd(s: string): (r: string)
    ensures |r| <= |s| && r == s[..|r|]
    ensures r == [] || !IsSpace(r[|r| - 1])
    ensures forall i :: |r| <= i < |s| ==> IsSpace(s[i])
  {
    if s != [] && IsSpace(s[|s| - 1]) then TrimEnd(s[..|s| - 1]) else s
  }

  /** r occurs in s starting at i. */
  predicate SliceAt(s: string, r: string, i: nat)
  {
    i + |r| <= |s| && s[i..i + |r|] == r
  }

  /** `str.strip()`: r is the part of s between leading and trailing
      whitespace; a string without such whitespace is kept. */
  function Trim(s: string): (r: string)
    ensures r == [] || (!IsSpace(r[0]) && !IsSpace(r[|r| - 1]))
    ensures exists i: nat :: SliceAt(s, r, i)
    ensures s == [] || (!IsSpace(s[0]) && !IsSpace(s[|s| - 1])) ==> r == s
  {
    var t := TrimStart(s);
    var r := TrimEnd(t);
    assert s[|s| - |t|..][..|r|] == r;
    assert SliceAt(s, r, |s| - |t|);
    assert s != [] && !IsSpace(s[0]) && !IsSpace(s[|s| - 1]) ==> |t| == |s| && t[|t| - 1] == s[|s| - 1];
    r
  }

  /** A required CharField (blank not allowed, whitespace trimmed): a
      missing value and a value that is empty after trimming are errors. */
  function CharFieldValue(v: Option<string>): (r: Result<string, string>)
    ensures v.None? ==> r == Err(REQUIRED)
    ensures v.Some? && Trim(v.value) == "" ==> r == Err(BLANK)
    ensures v.Some? && Trim(v.value) != "" ==> r == Ok(Trim(v.value))
  {
    if v.None? then Err(REQUIRED)
    else if Trim(v.value) == "" then Err(BLANK)
    else Ok(Trim(v.value))
  }

  /** The DeviceType choice whose key is the given text. */
  function DeviceTypeFromText(s: string): (r: Option<DeviceType>)
    ensures r.Some? <==> s in {"101", "102", "103"}
  {
    if s == "101" then Some(Android)
    else if s == "102" then Some(Ios)
    else if s == "103" then Some(Web)
    else None
  }

  /** A required ChoiceField over DeviceType. */
  function ChoiceValue(v: Option<string>): (r: Result<DeviceType, string>)
    ensures v.None? ==> r == Err(REQUIRED)
    ensures v.Some? ==> (r.Ok? <==> DeviceTypeFromText(v.value).Some?)
    ensures r.Ok? ==> v.Some? && DeviceTypeFromText(v.value) == Some(r.value)
    ensures v.Some? && r.Err? ==> r.error == "\"" + v.value + "\" is not a valid choice."
  {
    if v.None? then Err(REQUIRED)
    else match DeviceTypeFromText(v.value)
      case Some(t) => Ok(t)
      case None => Err("\"" + v.value + "\" is not a valid choice.")
  }

  /** Some stored session, expired or not, has this client nonce. */
  predicate NonceUsed(ss: seq<AuthSession>, nonce: string)
  {
    exists i :: 0 <= i < |ss| && ss[i].clientNonce == nonce
  }

  predicate TokenTaken(ss: seq<AuthSession>, token: string)
  {
    exists i :: 0 <= i < |ss| && ss[i].sessionToken == token
  }

  /** AuthHandshakeSerializer.validate_nonce */
  function ValidateNonce(ss: seq<AuthSession>, nonce: string): (r: Result<string, string>)
    ensures r.Ok? <==> !NonceUsed(ss, nonce)
    ensures r.Ok? ==> r.value == nonce
    ensures r.Err? ==> r.error == NONCE_USED
  {
    if NonceUsed(ss, nonce) then Err(NONCE_USED) else Ok(nonce)
  }

  datatype HandshakeInput = HandshakeInput(
    deviceId: Option<string>, typeText: Option<string>, version: Option<string>, nonce: Option<string>)

  datatype HandshakeFields = HandshakeFields(deviceId: string, kind: DeviceType, version: string, nonce: string)

  /** The error of one field, if it has one. */
  function ErrorOf<T>(field: string, r: Result<T, string>): (es: seq<(string, string)>)
    ensures r.Err? ==> es == [(field, r.error)]
    ensures r.Ok? <==> es == []
  {
    if r.Err? then [(field, r.error)] else []
  }

  /** The field pass of the serializer, in declared order device_id, type,
      version, nonce. Field errors are collected; the version validator's
      ValueError is not a validation error and escapes at once. The nonce
      check runs on the trimmed nonce. */
  function ValidateHandshakeFields(ss: seq<AuthSession>, input: HandshakeInput): (r: Result<HandshakeFields, Failure>)
    ensures var v := CharFieldValue(input.version);
            v.Ok? && ValidateSemanticVersion(v.value).Err? <==> r == Err(Uncaught("ValueError"))
    ensures r.Ok? ==> CharFieldValue(input.deviceId) == Ok(r.value.deviceId)
                      && CharFieldValue(input.version) == Ok(r.value.version)
                      && CharFieldValue(input.nonce) == Ok(r.value.nonce)
                      && ChoiceValue(input.typeText) == Ok(r.value.kind)
  {
    var d := CharFieldValue(input.deviceId);
    var t := ChoiceValue(input.typeText);
    var v := CharFieldValue(input.version);
    if v.Ok? && ValidateSemanticVersion(v.value).Err? then Err(Uncaught("ValueError"))
    else
      var n0 := CharFieldValue(input.nonce);
      var n := if n0.Ok? then ValidateNonce(ss, n0.value) else n0;
      var errors := ErrorOf("device_id", d) + ErrorOf("type", t) + ErrorOf("version", v) + ErrorOf("nonce", n);
      if d.Err? || t.Err? || v.Err? || n.Err? then Err(FieldErrors(errors))
      else Ok(HandshakeFields(d.value, t.value, v.value, n.value))
  }

  /** What the field pass guarantees: the version is a version (a trimmed
      string never ends in a newline, so the validator's tolerance of one
      cannot show here) and the nonce was never used. */
  lemma HandshakeFieldsSound(ss: seq<AuthSession>, input: HandshakeInput)
    ensures var r := ValidateHandshakeFields(ss, input);
            r.Ok? ==> IsVersion(r.value.version) && !NonceUsed(ss, r.value.nonce)
  {
    var r := ValidateHandshakeFields(ss, input);
    if r.Ok? {
      var v := r.value.version;
      assert CharFieldValue(input.version) == Ok(v);
      assert ValidateSemanticVersion(v).Ok?;
      AcceptedTrimmedIsVersion(v);
    }
  }

  /** A string the validator accepts and that does not end in whitespace
      is a version. */
  lemma AcceptedTrimmedIsVersion(v: string)
    requires v == [] || !IsSpace(v[|v| - 1])
    requires ValidateSemanticVersion(v).Ok?
    ensures IsVersion(v)
  {
    assert !(|v| > 0 && v[|v| - 1] == '\n');
  }

  /** A used nonce is refused, and reported against the nonce field
      whenever the field errors are collected. */
  lemma UsedNonceReported(ss: seq<AuthSession>, input: HandshakeInput)
    ensures var r := ValidateHandshakeFields(ss, input);
            var n := CharFieldValue(input.nonce);
            n.Ok? && NonceUsed(ss, n.value) ==> r.Err? && (r.error.FieldErrors? ==> ("nonce", NONCE_USED) in r.error.errors)
  {
  }

  /** What `device_info` reports. */
  datatype DeviceInfo = DeviceInfo(isRegistered: bool, deviceId: string, kind: DeviceType, status: string)

  /** get_device_info as written: the filter names `version`, which is not
      a field of UserDevice, so building the query raises FieldError
      whatever the device table holds. */
  function GetDeviceInfoAsWritten(ds: seq<Device>, f: HandshakeFields): (r: Result<DeviceInfo, Failure>)
    ensures r == Err(Uncaught("FieldError"))
  {
    Err(Uncaught("FieldError"))
  }

  /** The lookup as intended matches on the fields UserDevice has: the
      registration id and the type. */
  predicate DeviceMatches(d: Device, f: HandshakeFields)
  {
    d.registrationId == f.deviceId && d.kind == f.kind
  }

  /** `filter(registration_id=…, type=…).first()`, over every user's
      devices; UserDevice's own Meta sets no ordering, so this is the
      matching device with the lowest id. */
  function FindDevice(ds: seq<Device>, f: HandshakeFields): (k: Option<nat>)
    ensures k.Some? ==> k.value < |ds| && DeviceMatches(ds[k.value], f)
    ensures k.Some? ==> forall j :: 0 <= j < k.value ==> !DeviceMatches(ds[j], f)
    ensures k.None? ==> forall j :: 0 <= j < |ds| ==> !DeviceMatches(ds[j], f)
  {
    if ds == [] then None
    else if DeviceMatches(ds[0], f) then Some(0)
    else match FindDevice(ds[1..], f)
      case None => None
      case Some(k) => Some(k + 1)
  }

  /** AuthHandshakeSerializer.get_device_info as intended: registered iff
      some device matches the id and type; the status is that device's. */
  function GetDeviceInfo(ds: seq<Device>, f: HandshakeFields): (info: DeviceInfo)
    ensures info.isRegistered <==> exists j :: 0 <= j < |ds| && DeviceMatches(ds[j], f)
    ensures info.deviceId == f.deviceId && info.kind == f.kind
    ensures !info.isRegistered ==> info.status == "not_registered"
    ensures info.isRegistered ==>
              var k := FindDevice(ds, f).value;
              (ds[k].active ==> info.status == "active") && (!ds[k].active ==> info.status == "deactivated")
  {
    match FindDevice(ds, f)
    case Some(k) => DeviceInfo(true, ds[k].registrationId, ds[k].kind, if ds[k].active then "active" else "deactivated")
    case None => DeviceInfo(false, f.deviceId, f.kind, "not_registered")
  }

  /** The session fields of the handshake response. */
  datatype SessionGrant = SessionGrant(sessionToken: string, serverNonce: string, expiresAt: int)

  /** The session row generate_session stores. */
  function NewSession(token: string, clientNonce: string, serverNonce: string, deviceId: string, now: int)
    : (s: AuthSession)
    ensures s.clientNonce == clientNonce && s.deviceId == Some(deviceId)
    ensures s.expiresAt == Some(now + SESSION_LIFETIME) && s.createdAt == now
  {
    AuthSession(token, clientNonce, serverNonce, Some(deviceId), now, Some(now + SESSION_LIFETIME))
  }

  /** The AuthSession table. */
  class SessionTable {
    var sessions: seq<AuthSession>

    /** The unique constraints on session_token and client_nonce. */
    ghost predicate Valid()
      reads this
    {
      SessionsUnique(sessions)
    }

    constructor ()
      ensures Valid() && sessions == []
    {
      sessions := [];
    }

    /** AuthHandshakeSerializer.generate_session: one new session expiring
        a day from now. A clashing token or nonce violates a unique
        constraint and the atomic block stores nothing. */
    method GenerateSession(clientNonce: string, deviceId: string, now: int, token: string, serverNonce: string)
      returns (r: Result<SessionGrant, Failure>)
      requires Valid()
      modifies this
      ensures Valid()
      ensures r.Err? <==> TokenTaken(old(sessions), token) || NonceUsed(old(sessions), clientNonce)
      ensures r.Err? ==> sessions == old(sessions)
      ensures r.Ok? ==> sessions == old(sessions) + [NewSession(token, clientNonce, serverNonce, deviceId, now)]
      ensures r.Ok? ==> r.value == SessionGrant(token, serverNonce, now + SESSION_LIFETIME)
    {
      if TokenTaken(sessions, token) {
        return Err(IntegrityError("session_token"));
      }
      if NonceUsed(sessions, clientNonce) {
        return Err(IntegrityError("client_nonce"));
      }
      var s := NewSession(token, clientNonce, serverNonce, deviceId, now);
      sessions := sessions + [s];
      assert forall i :: 0 <= i < |old(sessions)| ==> sessions[i] == old(sessions)[i];
      r := Ok(SessionGrant(token, serverNonce, now + SESSION_LIFETIME));
    }
  }

  /** Sessions are never deleted, so a nonce used once stays used: the
      nonce check rejects it in every later handshake. */
  lemma NonceUsedForever(ss: seq<AuthSession>, later: seq<AuthSession>, nonce: string)
    requires NonceUsed(ss, nonce)
    ensures NonceUsed(ss + later, nonce)
    ensures ValidateNonce(ss + later, nonce).Err?
  {
    var i :| 0 <= i < |ss| && ss[i].clientNonce == nonce;
    assert (ss + later)[i] == ss[i];
  }

  /** A new session validates for its own nonce until it expires, and for
      no other nonce. */
  lemma {:induction false} NewSessionValidates(ss: seq<AuthSession>, token: string, clientNonce: string,
                                               serverNonce: string, deviceId: string, now: int, nonce: string, t: int)
    requires SessionsUnique(ss + [NewSession(token, clientNonce, serverNonce, deviceId, now)]) && IsUuidHex(token)
    ensures ValidateSessionToken(ss + [NewSession(token, clientNonce, serverNonce, deviceId, now)], token, nonce, t)
            == Ok(t < now + SESSION_LIFETIME && nonce == clientNonce)
  {
    var all := ss + [NewSession(token, clientNonce, serverNonce, deviceId, now)];
    ValidateUniqueSession(all, |ss|, nonce, t);
  }

  datatype HandshakeResponse = HandshakeResponse(deviceInfo: DeviceInfo, serverVersion: string, session: SessionGrant)

  /** A handshake request as written: field validation, then
      to_representation, whose first step (get_device_info) raises
      FieldError. generate_session is never reached, so every request that
      passes validation fails and no session is ever stored. */
  method PerformHandshake(table: SessionTable, devices: seq<Device>, input: HandshakeInput, now: int,
                          token: string, serverNonce: string, branch: string)
    returns (r: Result<HandshakeResponse, Failure>)
    ensures ValidateHandshakeFields(table.sessions, input).Err? ==>
              r == Err(ValidateHandshakeFields(table.sessions, input).error)
    ensures ValidateHandshakeFields(table.sessions, input).Ok? ==> r == Err(Uncaught("FieldError"))
  {
    var fields := ValidateHandshakeFields(table.sessions, input);
    if fields.Err? {
      return Err(fields.error);
    }
    var info := GetDeviceInfoAsWritten(devices, fields.value);
    r := Err(info.error);
  }

  /** A handshake request as intended: field validation, then the response
      with the device info (looked up without the version), the server
      version and a new session. */
  method PerformHandshakeIntended(table: SessionTable, devices: seq<Device>, input: HandshakeInput, now: int,
                          token: string, serverNonce: string, branch: string)
    returns (r: Result<HandshakeResponse, Failure>)
    requires table.Valid()
    modifies table
    ensures table.Valid()
    ensures ValidateHandshakeFields(old(table.sessions), input).Err? ==>
              r == Err(ValidateHandshakeFields(old(table.sessions), input).error) && table.sessions == old(table.sessions)
    ensures r.Ok? ==>
              var f := ValidateHandshakeFields(old(table.sessions), input).value;
              && ValidateHandshakeFields(old(table.sessions), input).Ok?
              && table.sessions == old(table.sessions) + [NewSession(token, f.nonce, serverNonce, f.deviceId, now)]
              && r.value == HandshakeResponse(GetDeviceInfo(devices, f), ServerVersion(branch),
                                              SessionGrant(token, serverNonce, now + SESSION_LIFETIME))
    ensures ValidateHandshakeFields(old(table.sessions), input).Ok? && !TokenTaken(old(table.sessions), token) ==> r.Ok?
  {
    var fields := ValidateHandshakeFields(table.sessions, input);
    if fields.Err? {
      return Err(fields.error);
    }
    var f := fields.value;
    var info := GetDeviceInfo(devices, f);
    var grant := table.GenerateSession(f.nonce, f.deviceId, now, token, serverNonce);
    if grant.Err? {
      return Err(grant.error);
    }
    r := Ok(HandshakeResponse(info, ServerVersion(branch), grant.value));
  }
}

=== FILE: apiauth_login.dfy ===
/** Login and token refresh (APILoginSerializer and TokenRefreshSerializer in
    v1/apiauth/serializers.py) over the account directory. Credential checks,
    token signing and the clock are inputs: `authenticated` is what the
    authentication backend returned, the token strings and the access
    token's `exp` are what the token library produced, and `now` is the
    current timestamp in seconds. */
module ApiLogin {
  import opened Wrappers
  import opened Failures
  import opened Entities
  import opened AccountConstants
  import opened Accounts

  /** The `session_data` claim of a login token. */
  datatype SessionData = SessionData(userId: UserId, entityId: EntityId, memberType: MemberType, device: string)

  /** The login request fields; the optional ones carry their defaults
      (force_logout false, device name, location and version ""). */
  datatype LoginRequest = LoginRequest(
    deviceId: Option<string>,
    forceLogout: bool,
    deviceName: string,
    deviceLoc: string,
    version: string)

  /** The login response: the token pair with user, entity, lifetime and
      whether the login was granted, and the claim stored in the token. */
  datatype LoginData = LoginData(
    refresh: string,
    access: string,
    userId: UserId,
    entityId: EntityId,
    expiresIn: nat,
    isGranted: bool,
    session: SessionData)

  /** The refresh response. */
  datatype RefreshData = RefreshData(
    refresh: string,
    access: string,
    userId: UserId,
    entityId: EntityId,
    expiresIn: nat,
    memberType: MemberType,
    policyAccepted: bool,
    currentPolicy: Option<nat>,
    session: SessionData)

  const DEVICE_ID_REQUIRED: Failure := AuthenticationFailed("Device ID is required", "device_id_required")
  const NO_ACTIVE_ACCOUNT: Failure :=
    AuthenticationFailed("No active account found with the given credentials", "no_active_account")
  const NO_ENTITIES: Failure := AuthenticationFailed("User does not have access any Entities", "authentication_failed")
  const INVALID_ENTITY: Failure :=
    AuthenticationFailed("Invalid Entity or User does not have access.", "invalid_entity")
  const UNKNOWN_ENTITY: Failure := FieldError("entity", "does_not_exist")
  const INVALID_REFRESH: Failure := InvalidToken(["Token is invalid or expired"])

  /** `int(exp - now if exp - now > 0 else 0)`: the whole seconds left on the
      access token, never negative. */
  function ExpiresIn(exp: int, now: real): (r: nat)
    ensures exp as real <= now ==> r == 0
    ensures exp as real > now ==> r as real <= exp as real - now < r as real + 1.0
  {
    var left := exp as real - now;
    if left > 0.0 then left.Floor else 0
  }

  predicate DeviceIdGiven(req: LoginRequest)
  {
    req.deviceId.Some? && req.deviceId.value != ""
  }

  /** `entity.company.allow_multiple_login` for a stored company. */
  predicate AllowsMultipleLogin(es: map<EntityId, Entity>, e: EntityId)
  {
    e in es && es[e].kind.CompanyEntity? && es[e].kind.allowMultipleLogin
  }

  /** `active_devices(u).exclude(registration_id=r).exists()`. */
  predicate OtherActiveDevice(ds: seq<Device>, u: UserId, r: string)
  {
    exists i :: i in ActiveDevices(ds, u) && ds[i].registrationId != r
  }

  /** After force_logout has deactivated all of u's devices, no other active
      device is left, so the soft-deny cannot trigger. */
  lemma ForceLogoutClearsOtherDevices(ds: seq<Device>, u: UserId, r: string)
    ensures !OtherActiveDevice(DevicesDeactivated(ds, u), u, r)
  {
    DeactivatedLeavesNoActive(ds, u);
  }

  /** The device after `_get_or_create_device`: active, name and location
      overwritten. A non-empty version is assigned to the object too, but
      UserDevice has no column for it, so the saved row does not change. */
  function LoginDevice(d: Device, name: string, loc: string): (r: Device)
    ensures r.active && r.name == Some(name) && r.loc == Some(loc)
    ensures r.user == d.user && r.registrationId == d.registrationId && r.kind == d.kind
  {
    d.(active := true, name := Some(name), loc := Some(loc))
  }

  /** The device table after `_get_or_create_device`: the device of (u, r)
      updated in place, or a new one appended. */
  function UpsertedDevices(ds: seq<Device>, u: UserId, r: string, name: string, loc: string)
    : (res: seq<Device>)
  {
    match DeviceWithDeviceId(ds, r, u)
    case Some(k) => ds[k := LoginDevice(ds[k], name, loc)]
    case None => ds + [LoginDevice(NewDevice(u, r), name, loc)]
  }

  /** The user row a successful get_token leaves: set_active made it ACTIVE
      with default e, disable_force_logout cleared the flag, and the last
      save drew `draw` when the user has no email. */
  function LoggedInUser(row: User, e: EntityId, draw: string): (r: User)
    requires |draw| == 32
    ensures r.status == Active && !r.forceLogout && r.defaultEntity == Some(e)
    ensures r.email == row.email && r.phone == row.phone && r.password == row.password
    ensures r.kind == row.kind && r.acceptedPolicy == row.acceptedPolicy && r.language == row.language
    ensures r.isActive == row.isActive
    ensures r.username == SavedUsername(row.email, draw)
  {
    SavedUser(row.(status := Active, defaultEntity := Some(e), forceLogout := false), draw)
  }

  /** The device table the multi-login check looks at: after deactivation
      when force_logout was requested. */
  function DevicesAtCheck(ds: seq<Device>, u: UserId, forceLogout: bool): seq<Device>
  {
    if forceLogout then DevicesDeactivated(ds, u) else ds
  }

  /** APILoginSerializer.validate with get_token, check_multiple_login and
      _get_or_create_device. The device id is checked before credentials;
      get_token resolves (and stores) the default entity and requires an
      active membership in it; the user is then made ACTIVE and force
      logout is cleared. When the entity does not allow multiple logins,
      another active device soft-denies the login (tokens blanked), and the
      device is upserted in every successful case. */
  method Login(dir: Directory, req: LoginRequest, authenticated: Option<UserId>,
               refresh: string, access: string, accessExp: int, now: real, draw: string)
    returns (r: Result<LoginData, Failure>)
    requires dir.Valid() && |draw| == 32
    requires authenticated.Some? ==> authenticated.value in dir.users
    modifies dir`users, dir`devices
    ensures dir.Valid()
    ensures !DeviceIdGiven(req) ==> r == Err(DEVICE_ID_REQUIRED)
    ensures DeviceIdGiven(req) && authenticated.None? ==> r == Err(NO_ACTIVE_ACCOUNT)
    ensures !DeviceIdGiven(req) || authenticated.None? ==>
              dir.users == old(dir.users) && dir.devices == old(dir.devices)
    ensures DeviceIdGiven(req) && authenticated.Some? ==>
              var u := authenticated.value;
              var d := ResolvedDefault(old(dir.users[u].defaultEntity), EntitiesOf(dir.members, u));
              (d.None? ==> r == Err(NO_ENTITIES))
              && (d.Some? && ActiveMembership(dir.members, d.value, u).None? ==> r == Err(INVALID_ENTITY))
              && (r.Ok? <==> d.Some? && ActiveMembership(dir.members, d.value, u).Some?)
              && (r.Err? ==> dir.users == old(dir.users)[u := DefaultResolvedRow(old(dir.users[u]), EntitiesOf(dir.members, u), draw)]
                             && dir.devices == old(dir.devices))
              && (r.Ok? ==>
                    var e := d.value;
                    var deactivate := req.forceLogout && !AllowsMultipleLogin(old(dir.entities), e);
                    dir.users == old(dir.users)[u := LoggedInUser(old(dir.users[u]), e, draw)]
                    && dir.devices == UpsertedDevices(DevicesAtCheck(old(dir.devices), u, deactivate), u,
                                                      req.deviceId.value, req.deviceName, req.deviceLoc))
    ensures r.Ok? ==>
              var u := authenticated.value;
              var e := r.value.entityId;
              var m := ActiveMembership(dir.members, e, u);
              var device := req.deviceId.value;
              u in dir.users && r.value.userId == u
              && Some(e) == ResolvedDefault(old(dir.users[u].defaultEntity), EntitiesOf(dir.members, u))
              && m.Some? && r.value.session == SessionData(u, e, m.value.kind, device)
              && r.value.expiresIn == ExpiresIn(accessExp, now)
              && dir.users[u].status == Active && !dir.users[u].forceLogout
              && dir.users[u].defaultEntity == Some(e)
              && (r.value.isGranted <==>
                    AllowsMultipleLogin(old(dir.entities), e)
                    || !OtherActiveDevice(DevicesAtCheck(old(dir.devices), u, req.forceLogout), u, device))
              && (r.value.isGranted ==> r.value.refresh == refresh && r.value.access == access)
              && (!r.value.isGranted ==> r.value.refresh == "" && r.value.access == "")
              && IsDeviceActive(dir.devices, u, device)
    ensures r.Ok? ==>
              var k := DeviceWithDeviceId(dir.devices, req.deviceId.value, authenticated.value);
              k.Some? && dir.devices[k.value].name == Some(req.deviceName)
              && dir.devices[k.value].loc == Some(req.deviceLoc)
  {
    if !DeviceIdGiven(req) {
      return Err(DEVICE_ID_REQUIRED);
    }
    if authenticated.None? {
      return Err(NO_ACTIVE_ACCOUNT);
    }
    var u := authenticated.value;
    var device := req.deviceId.value;
    var token := GetToken(dir, u, device, draw);
    if token.Err? {
      return Err(token.error);
    }
    var session := token.value;
    var e := session.entityId;
    var expiresIn := ExpiresIn(accessExp, now);
    var granted := true;
    if !AllowsMultipleLogin(dir.entities, e) {
      var blocked := CheckMultipleLogin(dir, u, device, req.forceLogout);
      granted := !blocked;
    }
    var k := UpsertLoginDevice(dir, u, device, req.deviceName, req.deviceLoc);
    r := Ok(LoginData(if granted then refresh else "", if granted then access else "",
                      u, e, expiresIn, granted, session));
  }

  /** get_token: the default entity is resolved and stored; without one,
      or without an active membership in it, the login fails. Otherwise the
      user is made ACTIVE (set_active's writes to the entity store nothing,
      see Directory.SetActive), force logout is cleared, and the session
      claim is built. */
  method GetToken(dir: Directory, u: UserId, device: string, draw: string)
    returns (r: Result<SessionData, Failure>)
    requires dir.Valid() && u in dir.users && |draw| == 32
    modifies dir`users
    ensures dir.Valid()
    ensures var d := ResolvedDefault(old(dir.users[u].defaultEntity), EntitiesOf(dir.members, u));
            && (d.None? ==> r == Err(NO_ENTITIES))
            && (d.Some? && ActiveMembership(dir.members, d.value, u).None? ==> r == Err(INVALID_ENTITY))
            && (r.Ok? <==> d.Some? && ActiveMembership(dir.members, d.value, u).Some?)
            && (r.Err? ==> dir.users == old(dir.users)[u := DefaultResolvedRow(old(dir.users[u]), EntitiesOf(dir.members, u), draw)])
            && (r.Ok? ==> r.value == SessionData(u, d.value, ActiveMembership(dir.members, d.value, u).value.kind, device))
    ensures r.Ok? ==>
              var e := r.value.entityId;
              && u in dir.users && dir.users[u].status == Active && !dir.users[u].forceLogout
              && dir.users == old(dir.users)[u := LoggedInUser(old(dir.users[u]), e, draw)]
              && e in dir.entities && dir.entities[e].kind.CompanyEntity?
  {
    ghost var orig := dir.users[u];
    var d := dir.GetDefaultEntity(u, draw);
    if d.None? {
      return Err(NO_ENTITIES);
    }
    var e := d.value;
    var m := ActiveMembership(dir.members, e, u);
    if m.None? {
      return Err(INVALID_ENTITY);
    }
    ghost var resolved := dir.users[u];
    var active := dir.SetActive(u, draw);
    var _ := dir.DisableForceLogout(u, draw);
    LoginSaves(orig, resolved, e, draw, EntitiesOf(dir.members, u));
    dir.MemberEntityStored(u, e);
    r := Ok(SessionData(u, e, m.value.kind, device));
  }

  /** The three saves of get_token (default resolved, set_active,
      disable_force_logout) leave the row LoggedInUser describes. */
  lemma LoginSaves(orig: User, resolved: User, e: EntityId, draw: string, es: seq<EntityId>)
    requires |draw| == 32 && e in es
    requires resolved == DefaultResolvedRow(orig, es, draw) && resolved.defaultEntity == Some(e)
    ensures SavedUser(SavedUser(resolved.(status := Active, defaultEntity := ResolvedDefault(resolved.defaultEntity, es)), draw)
                        .(forceLogout := false), draw)
         == LoggedInUser(orig, e, draw)
  {
  }

  /** check_multiple_login: with force_logout all of u's devices are
      deactivated first; the login is blocked when another of u's devices
      is still active. */
  method CheckMultipleLogin(dir: Directory, u: UserId, device: string, forceLogout: bool) returns (blocked: bool)
    requires dir.Valid()
    modifies dir`devices
    ensures dir.Valid()
    ensures dir.devices == DevicesAtCheck(old(dir.devices), u, forceLogout)
    ensures blocked <==> OtherActiveDevice(dir.devices, u, device)
    ensures forceLogout ==> !blocked
  {
    if forceLogout {
      dir.DeactivateDevices(u);
      ForceLogoutClearsOtherDevices(old(dir.devices), u, device);
    }
    blocked := OtherActiveDevice(dir.devices, u, device);
  }

  /** _get_or_create_device: the device of (u, registration id) is found or
      created, then made active with the given name and location. The
      version the source assigns to the object is not a column of
      UserDevice and is not saved. */
  method UpsertLoginDevice(dir: Directory, u: UserId, device: string, name: string, loc: string)
    returns (k: nat)
    requires dir.Valid()
    modifies dir`devices
    ensures dir.Valid()
    ensures k < |dir.devices| && DeviceWithDeviceId(dir.devices, device, u) == Some(k)
    ensures DeviceWithDeviceId(old(dir.devices), device, u).Some? ==>
              k == DeviceWithDeviceId(old(dir.devices), device, u).value
              && dir.devices == old(dir.devices)[k := LoginDevice(old(dir.devices)[k], name, loc)]
    ensures DeviceWithDeviceId(old(dir.devices), device, u).None? ==>
              dir.devices == old(dir.devices) + [LoginDevice(NewDevice(u, device), name, loc)]
    ensures dir.devices == UpsertedDevices(old(dir.devices), u, device, name, loc)
    ensures IsDeviceActive(dir.devices, u, device)
    ensures dir.devices[k].active && dir.devices[k].name == Some(name) && dir.devices[k].loc == Some(loc)
  {
    var created;
    k, created := dir.GetOrCreateDevice(u, device);
    dir.SaveDevice(k, LoginDevice(dir.devices[k], name, loc));
    DeviceFoundAt(dir.devices, device, u, k);
  }

  /** With unique (user, registration id) pairs, the lookup finds the one
      device holding the pair. */
  lemma {:induction false} DeviceFoundAt(ds: seq<Device>, r: string, u: UserId, k: nat)
    requires DevicesUnique(ds) && k < |ds| && ds[k].registrationId == r && ds[k].user == u
    ensures DeviceWithDeviceId(ds, r, u) == Some(k)
  {
    if k > 0 {
      assert !(ds[0].registrationId == r && ds[0].user == u);
      assert DevicesUnique(ds[1..]) by {
        forall a, b | 0 <= a < b < |ds[1..]|
          ensures ds[1..][a].user != ds[1..][b].user || ds[1..][a].registrationId != ds[1..][b].registrationId
        {
          assert ds[1..][a] == ds[a + 1] && ds[1..][b] == ds[b + 1];
        }
      }
      DeviceFoundAt(ds[1..], r, u, k - 1);
      assert ds[1..][k - 1] == ds[k];
    }
  }

  /** `user.policy_accepted`: the accepted policy equals the current one;
      with no policy in force, a user who accepted none counts as accepted. */
  function PolicyAccepted(accepted: Option<nat>, current: Option<Policy>): (b: bool)
    ensures current.None? ==> (b <==> accepted.None?)
    ensures current.Some? ==> (b <==> accepted == Some(current.value.id))
  {
    match current
    case None => accepted.None?
    case Some(p) => accepted == Some(p.id)
  }

  /** `policy.id if policy else None` for the current privacy policy. */
  function CurrentPolicyId(ps: seq<Policy>, today: int): (r: Option<nat>)
    ensures r.Some? <==> CurrentPrivacyPolicy(ps, today).Some?
    ensures r.Some? ==> r.value == CurrentPrivacyPolicy(ps, today).value.id
  {
    match CurrentPrivacyPolicy(ps, today)
    case None => None
    case Some(p) => Some(p.id)
  }

  /** The user-lookup gate of the refresh: an ACTIVE user not forced out. */
  predicate RefreshableUser(users: map<UserId, User>, u: UserId)
  {
    u in users && users[u].status == Active && !users[u].forceLogout
  }

  /** TokenRefreshSerializer.validate: switches the session to `entity`.
      The entity field must name a company and the refresh token must be
      valid; the user of the token's session must be ACTIVE and not forced
      out, and an active member of the target. On success the session's
      entity becomes the target and the user's default entity is set to it
      (the status set_default_entity writes on the entity is not a stored
      column). `claims` is
      the decoded session_data; `refresh` and `access` the new tokens. */
  method Refresh(dir: Directory, entity: EntityId, refreshValid: bool, claims: SessionData,
                 refresh: string, access: string, accessExp: int, now: real, today: int, draw: string)
    returns (r: Result<RefreshData, Failure>)
    requires dir.Valid() && |draw| == 32
    modifies dir`users
    ensures dir.Valid()
    ensures !(entity in old(dir.entities) && old(dir.entities[entity]).kind.CompanyEntity?) ==> r == Err(UNKNOWN_ENTITY)
    ensures entity in old(dir.entities) && old(dir.entities[entity]).kind.CompanyEntity? ==>
              (!refreshValid ==> r == Err(INVALID_REFRESH))
              && (refreshValid && !RefreshableUser(old(dir.users), claims.userId) ==> r == Err(NO_ACTIVE_ACCOUNT))
              && ((refreshValid && RefreshableUser(old(dir.users), claims.userId)
                   && ActiveMembership(dir.members, entity, claims.userId).None?) ==> r == Err(INVALID_ENTITY))
    ensures r.Ok? <==>
              entity in old(dir.entities) && old(dir.entities[entity]).kind.CompanyEntity? && refreshValid
              && RefreshableUser(old(dir.users), claims.userId)
              && ActiveMembership(dir.members, entity, claims.userId).Some?
    ensures r.Err? ==> dir.users == old(dir.users)
    ensures r.Ok? ==>
              var u := claims.userId;
              r.value.session == claims.(entityId := entity)
              && r.value.userId == u && r.value.entityId == entity
              && r.value.refresh == refresh && r.value.access == access
              && r.value.expiresIn == ExpiresIn(accessExp, now)
              && r.value.memberType == ActiveMembership(dir.members, entity, u).value.kind
              && dir.users == old(dir.users)[u := SavedUser(old(dir.users[u]).(defaultEntity := Some(entity)), draw)]
              && r.value.policyAccepted == PolicyAccepted(old(dir.users[u].acceptedPolicy), CurrentPrivacyPolicy(dir.policies, today))
              && r.value.currentPolicy == CurrentPolicyId(dir.policies, today)
  {
    if !(entity in dir.entities && dir.entities[entity].kind.CompanyEntity?) {
      return Err(UNKNOWN_ENTITY);
    }
    if !refreshValid {
      return Err(INVALID_REFRESH);
    }
    var u := claims.userId;
    if !RefreshableUser(dir.users, u) {
      return Err(NO_ACTIVE_ACCOUNT);
    }
    var m := ActiveMembership(dir.members, entity, u);
    if m.None? {
      return Err(INVALID_ENTITY);
    }
    var session := claims.(entityId := entity);
    var _ := dir.SetDefaultEntity(u, entity, draw);
    var accepted := PolicyAccepted(dir.users[u].acceptedPolicy, CurrentPrivacyPolicy(dir.policies, today));
    r := Ok(RefreshData(refresh, access, u, entity, ExpiresIn(accessExp, now), m.value.kind,
                        accepted, CurrentPolicyId(dir.policies, today), session));
  }
}

=== FILE: apiauth_registration.dfy ===
/** Device registration after a handshake (AuthDeviceRegistrationSerializer in
    v1/apiauth/serializers.py): the device must be the one bound to the
    handshake session, the single-login rule of the user's default company
    applies, and the device is upserted. The device bound to the request's
    handshake session is an input of the intended registration; the source
    calls a helper for it that does not exist (see RegisterAsWritten). */
module DeviceRegistration {
  import opened Wrappers
  import opened Failures
  import opened AccountConstants
  import opened Entities
  import opened Accounts
  import opened LocalSession
  import opened AuthUtilities
  import opened ApiLogin
  import opened SemVer
  import opened Handshake

  const INVALID_DEVICE: Failure := FieldError("device_id", "Invalid device_id.")
  const ALREADY_LOGGED_IN: Failure := FieldError("device_id", "User is already logged in another device.")

  /** The request fields; a missing device_loc is None. */
  datatype RegistrationInput = RegistrationInput(
    typeText: Option<string>,
    deviceId: Option<string>,
    version: Option<string>,
    deviceName: Option<string>,
    deviceLoc: Option<string>,
    forceLogout: bool)

  datatype RegistrationFields = RegistrationFields(
    kind: DeviceType, deviceId: string, version: string, deviceName: string, deviceLoc: Option<string>, forceLogout: bool)

  /** The field pass, in declared order type, device_id, version,
      device_name; device_loc is optional and may be blank. */
  function ValidateRegistrationFields(input: RegistrationInput): (r: Result<RegistrationFields, Failure>)
    ensures var v := CharFieldValue(input.version);
            v.Ok? && ValidateSemanticVersion(v.value).Err? <==> r == Err(Uncaught("ValueError"))
    ensures r.Ok? ==> ChoiceValue(input.typeText) == Ok(r.value.kind)
                      && CharFieldValue(input.deviceId) == Ok(r.value.deviceId)
                      && CharFieldValue(input.version) == Ok(r.value.version)
                      && CharFieldValue(input.deviceName) == Ok(r.value.deviceName)
                      && r.value.forceLogout == input.forceLogout
    ensures r.Ok? && input.deviceLoc.Some? ==> r.value.deviceLoc == Some(Trim(input.deviceLoc.value))
    ensures r.Ok? && input.deviceLoc.None? ==> r.value.deviceLoc.None?
  {
    var t := ChoiceValue(input.typeText);
    var d := CharFieldValue(input.deviceId);
    var v := CharFieldValue(input.version);
    if v.Ok? && ValidateSemanticVersion(v.value).Err? then Err(Uncaught("ValueError"))
    else
      var n := CharFieldValue(input.deviceName);
      var loc := if input.deviceLoc.Some? then Some(Trim(input.deviceLoc.value)) else None;
      var errors := ErrorOf("type", t) + ErrorOf("device_id", d) + ErrorOf("version", v) + ErrorOf("device_name", n);
      if t.Err? || d.Err? || v.Err? || n.Err? then Err(FieldErrors(errors))
      else Ok(RegistrationFields(t.value, d.value, v.value, n.value, loc, input.forceLogout))
  }

  /** The field pass yields what `create` needs: a non-blank device id and
      name, and a version that is a version. */
  lemma RegistrationFieldsSound(input: RegistrationInput)
    ensures var r := ValidateRegistrationFields(input);
            r.Ok? ==> r.value.deviceId != "" && r.value.deviceName != "" && r.value.version != ""
                      && IsVersion(r.value.version)
  {
    var r := ValidateRegistrationFields(input);
    if r.Ok? {
      var v := r.value.version;
      assert CharFieldValue(input.version) == Ok(v);
      assert v == Trim(input.version.value) && v != [];
      assert !IsSpace(v[|v| - 1]);
      assert ValidateSemanticVersion(v).Ok?;
      assert v[|v| - 1] != '\n';
    }
  }

  /** The response: the saved device, the `version` the response shows
      (read from the in-memory object, where create assigned it; UserDevice
      has no column for it), the user and the default entity. */
  datatype RegistrationData = RegistrationData(device: Device, version: string, userId: UserId,
                                               entityId: Option<EntityId>)

  /** AuthDeviceRegistrationSerializer.validate as written: after the
      current user is read, `auth_utils.get_session_device()` is called, and
      base/authentication/utilities.py defines no such helper, so every
      registration ends in AttributeError with nothing saved. */
  method RegisterAsWritten(dir: Directory, store: LocalStore, f: RegistrationFields)
    returns (r: Result<RegistrationData, Failure>)
    requires dir.Valid()
    modifies store
    ensures r == Err(Uncaught("AttributeError"))
    ensures store.slots == old(store.slots)["user" := UserSlot(UserLookup(dir.users, old(store.GetFromLocal("user_id", NoneValue))))]
  {
    var user := GetCurrentUser(store, dir);
    r := Err(Uncaught("AttributeError"));
  }

  /** validate then create as intended, with `sessionDevice` the device
      bound to the request's handshake session. The current user is read
      from the request store; a device other than the session's is refused
      before anything else is looked at; a missing user or default entity
      raises AttributeError. Resolving the default may save the user (with
      `draw` as the username of a user without an email). Under single
      login, force_logout deactivates the user's devices (kept even when the
      request then fails) and another active device refuses the
      registration. Every default entity is a company, because every
      membership is of one, so `entity.company` is always found. */
  method Register(dir: Directory, store: LocalStore, f: RegistrationFields, sessionDevice: Option<string>,
                  draw: string)
    returns (r: Result<RegistrationData, Failure>)
    requires dir.Valid() && |draw| == 32
    modifies dir`users, dir`devices, store
    ensures dir.Valid()
    ensures store.slots == old(store.slots)["user" := UserSlot(UserLookup(old(dir.users), old(store.GetFromLocal("user_id", NoneValue))))]
    ensures sessionDevice != Some(f.deviceId) ==>
              r == Err(INVALID_DEVICE) && dir.users == old(dir.users) && dir.devices == old(dir.devices)
    ensures UserLookup(old(dir.users), old(store.GetFromLocal("user_id", NoneValue))).None? ==>
              r.Err? && dir.users == old(dir.users) && dir.devices == old(dir.devices)
    ensures var uo := UserLookup(old(dir.users), old(store.GetFromLocal("user_id", NoneValue)));
            sessionDevice == Some(f.deviceId) && uo.Some? ==>
              var u := uo.value;
              var es := EntitiesOf(dir.members, u);
              var d := ResolvedDefault(old(dir.users[u].defaultEntity), es);
              dir.users == old(dir.users)[u := DefaultResolvedRow(old(dir.users[u]), es, draw)]
              && (d.None? ==> r == Err(Uncaught("AttributeError")) && dir.devices == old(dir.devices))
              && (d.Some? ==>
                    var multi := AllowsMultipleLogin(dir.entities, d.value);
                    var checked := DevicesAtCheck(old(dir.devices), u, f.forceLogout && !multi);
                    var blocked := !multi && OtherActiveDevice(checked, u, f.deviceId);
                    (blocked ==> r == Err(ALREADY_LOGGED_IN) && dir.devices == checked)
                    && (!blocked ==> r.Ok? && dir.devices == UpsertedDevices(checked, u, f.deviceId, f.deviceName,
                                                                            f.deviceLoc.UnwrapOr(""))))
    ensures r.Ok? ==>
              var u := UserLookup(old(dir.users), old(store.GetFromLocal("user_id", NoneValue)));
              && sessionDevice == Some(f.deviceId)
              && u.Some? && r.value.userId == u.value
              && r.value.entityId == ResolvedDefault(old(dir.users[u.value].defaultEntity), EntitiesOf(dir.members, u.value))
              && r.value.entityId.Some?
              && (AllowsMultipleLogin(dir.entities, r.value.entityId.value)
                  || !OtherActiveDevice(DevicesAtCheck(old(dir.devices), u.value, f.forceLogout), u.value, f.deviceId))
              && DeviceWithDeviceId(dir.devices, f.deviceId, u.value).Some?
              && r.value.device == dir.devices[DeviceWithDeviceId(dir.devices, f.deviceId, u.value).value]
              && r.value.device.registrationId == f.deviceId && r.value.device.user == u.value
              && r.value.device.active && r.value.device.name == Some(f.deviceName)
              && r.value.device.loc == Some(f.deviceLoc.UnwrapOr(""))
              && r.value.version == f.version
  {
    var user := GetCurrentUser(store, dir);
    if sessionDevice != Some(f.deviceId) {
      return Err(INVALID_DEVICE);
    }
    if user.None? {
      return Err(Uncaught("AttributeError"));
    }
    var u := user.value;
    var entity := dir.GetDefaultEntity(u, draw);
    if entity.None? {
      return Err(Uncaught("AttributeError"));
    }
    var e := entity.value;
    if !AllowsMultipleLogin(dir.entities, e) {
      var blocked := CheckMultipleLogin(dir, u, f.deviceId, f.forceLogout);
      if blocked {
        return Err(ALREADY_LOGGED_IN);
      }
    }
    // create: the same upsert as at login, a missing location stored as "";
    // the version lives on the returned object only.
    var k := UpsertLoginDevice(dir, u, f.deviceId, f.deviceName, f.deviceLoc.UnwrapOr(""));
    r := Ok(RegistrationData(dir.devices[k], f.version, u, entity));
  }
}

=== FILE: apiauth_views.dfy ===
/** The logout and trace-sync endpoints of v1/apiauth/views.py. The
    framework session that `logout(request)` flushes is not part of this
    model, and the Celery task store is an input. */
module AuthViews {
  import opened Wrappers
  import opened Failures
  import opened JsonValues
  import opened ApiResponse
  import opened Accounts
  import LocalSession
  import opened AuthUtilities

  const LOGGED_OUT: string := "Logged out successfully."

  /** LogoutView.post: the request's current device, when one resolves, is
      deactivated; the response is a success whatever happened. The text is
      passed as SuccessResponse's first argument, so it is the response's
      data and the detail is the default "Success.". No token is touched. */
  method Logout(store: LocalSession.LocalStore, dir: Directory) returns (body: Json)
    requires dir.Valid()
    modifies store, dir`devices
    ensures dir.Valid()
    ensures var k := CurrentDeviceOf(old(dir.devices), old(store.GetFromLocal("device", LocalSession.NoneValue)),
                                     UserLookup(dir.users, old(store.GetFromLocal("user_id", LocalSession.NoneValue))));
            && (k.Some? ==> dir.devices == old(dir.devices)[k.value := old(dir.devices[k.value]).(active := false)])
            && (k.None? ==> dir.devices == old(dir.devices))
    ensures body == SuccessBody(JStr(LOGGED_OUT), None, HTTP_200_OK)
    ensures body.fields["data"] == JStr(LOGGED_OUT) && body.fields["detail"] == JStr("Success.")
  {
    var k := GetCurrentDevice(store, dir);
    if k.Some? {
      dir.DeactivateDevice(k.value);
    }
    body := SuccessBody(JStr(LOGGED_OUT), None, HTTP_200_OK);
  }

  /** After logout the device that was current is no longer active for its
      user, and no other device changed. */
  lemma LogoutDeactivatesOnlyCurrent(ds: seq<Device>, k: nat)
    requires k < |ds|
    ensures var after := ds[k := ds[k].(active := false)];
            && after[k].registrationId == ds[k].registrationId && !after[k].active
            && (forall j :: 0 <= j < |ds| && j != k ==> after[j] == ds[j])
            && ActiveDevices(after, ds[k].user) == ActiveDevices(ds, ds[k].user) - {k}
  {
    var after := ds[k := ds[k].(active := false)];
    assert forall i :: i in ActiveDevices(after, ds[k].user) <==> i in ActiveDevices(ds, ds[k].user) - {k};
  }

  /** What reading a task's state gives: its status and result, or the
      exception AsyncResult raises. */
  datatype TaskState = TaskState(status: Json, result: Json)

  /** TraceSyncView.post: a falsy or missing task_id is refused; any
      failure reading the task becomes a bad request; otherwise the task's
      id, status and result are returned. */
  function TraceSync(data: map<string, Json>, read: Json -> Result<TaskState, string>): (r: Result<Json, Failure>)
    ensures ("task_id" !in data || !Truthy(data["task_id"])) ==> r == Err(BadRequest("Task id is required."))
    ensures "task_id" in data && Truthy(data["task_id"]) && read(data["task_id"]).Err? ==>
              r == Err(BadRequest("Check your task id."))
    ensures r.Ok? <==> "task_id" in data && Truthy(data["task_id"]) && read(data["task_id"]).Ok?
    ensures r.Ok? ==>
              var t := read(data["task_id"]).value;
              r.value == SuccessBody(JObject(map["task_id" := data["task_id"], "status" := t.status, "result" := t.result]),
                                     None, HTTP_200_OK)
  {
    var taskId := if "task_id" in data then data["task_id"] else JNull;
    if !Truthy(taskId) then Err(BadRequest("Task id is required."))
    else
      match read(taskId)
      case Err(_) => Err(BadRequest("Check your task id."))
      case Ok(t) =>
        var payload := JObject(map["task_id" := taskId, "status" := t.status, "result" := t.result]);
        Ok(SuccessBody(payload, None, HTTP_200_OK))
  }
}

=== FILE: auth_dispatch.dfy ===
/** The authentication classes of base/authentication/custom_authentication.py:
    CustomDynamicAuthentication picks an authentication class by the
    Auth-Type header, and the JWT and OAuth2 classes record the
    authenticated session. The library parts (the simple-JWT base class,
    oauthlib's request verification) are inputs: what they return for the
    request. */
module AuthDispatch {
  import opened Wrappers
  import opened Failures
  import opened JsonValues
  import opened Accounts
  import opened RequestViews
  import opened SsoAuthentication

  const DEFAULT_AUTH_TYPE: string := "password_grant"

  /** The authentication classes a class path in AUTH_TYPE_CLASSES may name. */
  datatype Strategy = SimpleJwtAuth | SsoJwtAuth | OAuth2Auth

  /** What authenticated a request: a JWT's claims or an OAuth2 access token. */
  datatype Credential = JwtClaims(payload: map<string, Json>) | OAuthAccess(accessToken: nat)
  datatype Authenticated = Authenticated(user: Option<UserId>, credential: Credential)

  /** The Auth-Type header lowered, or "password_grant" without one. */
  function AuthType(header: Option<string>): (t: string)
    ensures header.None? ==> t == DEFAULT_AUTH_TYPE
    ensures header.Some? ==> |t| == |header.value| && forall i :: 0 <= i < |t| ==> t[i] == LowerChar(header.value[i])
  {
    if header.Some? then Lowered(header.value) else DEFAULT_AUTH_TYPE
  }

  function Unsupported(authType: string): Failure
  {
    AuthenticationFailed("Unsupported authentication type: " + authType, "authentication_failed")
  }

  /** get_auth_class: the class path configured for the type must be
      non-empty; splitting it at its last "." needs a "." (else
      ValueError), and importing it must resolve (`registry` maps the paths
      that do). */
  function GetAuthClass(authType: string, config: map<string, string>, registry: map<string, Strategy>)
    : (r: Result<Strategy, Failure>)
    ensures authType !in config || config[authType] == "" ==> r == Err(Unsupported(authType))
    ensures r.Ok? <==> authType in config && config[authType] != "" && '.' in config[authType] && config[authType] in registry
    ensures r.Ok? ==> r.value == registry[config[authType]]
  {
    if authType !in config || config[authType] == "" then Err(Unsupported(authType))
    else if '.' !in config[authType] then Err(Uncaught("ValueError"))
    else if config[authType] !in registry then Err(Uncaught("ImportError"))
    else Ok(registry[config[authType]])
  }

  /** JWTAuthentication.authenticate: a falsy result of the library class
      (None) is passed through; otherwise the session is recorded and the
      same user and token are returned. */
  method JwtAuthenticate(log: SectionLog, base: Result<Option<(UserId, map<string, Json>)>, Failure>)
    returns (r: Result<Option<Authenticated>, Failure>)
    modifies log
    ensures base.Err? ==> r == Err(base.error) && log.calls == old(log.calls)
    ensures base == Ok(None) ==> r == Ok(None) && log.calls == old(log.calls)
    ensures base.Ok? && base.value.Some? ==>
              var (u, t) := base.value.value;
              r == Ok(Some(Authenticated(Some(u), JwtClaims(t)))) && log.calls == old(log.calls) + [JwtSection(u, t)]
  {
    if base.Err? {
      return Err(base.error);
    }
    if base.value.None? {
      return Ok(None);
    }
    var (u, t) := base.value.value;
    log.SetSection(JwtSection(u, t));
    r := Ok(Some(Authenticated(Some(u), JwtClaims(t))));
  }

  /** What oauthlib's verify_request reports for the request and the
      default scope: validity, the request's user and access token, and the
      oauth2_error attribute if it set one. */
  datatype OAuthVerdict = OAuthVerdict(valid: bool, user: Option<UserId>, accessToken: nat, oauth2Error: Option<Json>)

  /** The request attribute OAuth2Authentication writes on failure. */
  class OAuthRequest {
    var oauth2Error: Option<Json>

    constructor ()
      ensures oauth2Error.None?
    {
      oauth2Error := None;
    }
  }

  /** OAuth2Authentication.authenticate: a valid request records the
      session and yields its user and access token; otherwise the result is
      None and the request carries the verifier's error, or {}. */
  method OAuthAuthenticate(log: SectionLog, request: OAuthRequest, v: OAuthVerdict) returns (r: Option<Authenticated>)
    modifies log, request
    ensures v.valid ==> r == Some(Authenticated(v.user, OAuthAccess(v.accessToken)))
                        && log.calls == old(log.calls) + [OAuthSection(v.user, v.accessToken)]
                        && request.oauth2Error == old(request.oauth2Error)
    ensures !v.valid ==> r.None? && log.calls == old(log.calls)
                         && request.oauth2Error == Some(v.oauth2Error.UnwrapOr(JObject(map[])))
  {
    if v.valid {
      log.SetSection(OAuthSection(v.user, v.accessToken));
      return Some(Authenticated(v.user, OAuthAccess(v.accessToken)));
    }
    request.oauth2Error := Some(v.oauth2Error.UnwrapOr(JObject(map[])));
    r := None;
  }

  /** The inputs the SSO class reads from the request and the tables. */
  datatype SsoCall = SsoCall(
    req: SsoRequest,
    header: Option<string>,
    rawTokenOf: string -> Result<Option<string>, Failure>,
    classes: seq<TokenClass>,
    settings: SsoTokens.SsoSettings,
    users: map<UserId, User>,
    sessions: seq<AuthSessions.AuthSession>,
    devices: seq<Device>,
    validateHmac: bool,
    hmacB64: (string, string) -> string)

  /** CustomDynamicAuthentication.authenticate: the class chosen by the
      Auth-Type header authenticates the request and its answer is
      returned as it is. */
  method DynamicAuthenticate(log: SectionLog, request: OAuthRequest, authTypeHeader: Option<string>,
                             config: map<string, string>, registry: map<string, Strategy>,
                             simpleJwtBase: Result<Option<(UserId, map<string, Json>)>, Failure>,
                             sso: SsoCall, oauth: OAuthVerdict)
    returns (r: Result<Option<Authenticated>, Failure>)
    modifies log, request
    ensures GetAuthClass(AuthType(authTypeHeader), config, registry).Err? ==>
              r == Err(GetAuthClass(AuthType(authTypeHeader), config, registry).error)
              && log.calls == old(log.calls) && request.oauth2Error == old(request.oauth2Error)
    ensures GetAuthClass(AuthType(authTypeHeader), config, registry) == Ok(SimpleJwtAuth) ==>
              && (simpleJwtBase.Err? ==> r == Err(simpleJwtBase.error))
              && (simpleJwtBase == Ok(None) ==> r == Ok(None))
              && (simpleJwtBase.Ok? && simpleJwtBase.value.Some? ==>
                    r == Ok(Some(Authenticated(Some(simpleJwtBase.value.value.0), JwtClaims(simpleJwtBase.value.value.1))))
                    && log.calls == old(log.calls) + [JwtSection(simpleJwtBase.value.value.0, simpleJwtBase.value.value.1)])
              && (!(simpleJwtBase.Ok? && simpleJwtBase.value.Some?) ==> log.calls == old(log.calls))
              && request.oauth2Error == old(request.oauth2Error)
    ensures GetAuthClass(AuthType(authTypeHeader), config, registry) == Ok(OAuth2Auth) ==>
              && (oauth.valid ==> r == Ok(Some(Authenticated(oauth.user, OAuthAccess(oauth.accessToken))))
                                  && log.calls == old(log.calls) + [OAuthSection(oauth.user, oauth.accessToken)]
                                  && request.oauth2Error == old(request.oauth2Error))
              && (!oauth.valid ==> r == Ok(None) && log.calls == old(log.calls)
                                   && request.oauth2Error == Some(oauth.oauth2Error.UnwrapOr(JObject(map[]))))
    ensures GetAuthClass(AuthType(authTypeHeader), config, registry) == Ok(SsoJwtAuth) ==>
              && (sso.header.None? ==> r == Ok(None))
              && (r.Ok? && r.value.Some? ==>
                    && r.value.value.user.Some? && r.value.value.credential.JwtClaims?
                    && var u := r.value.value.user.value;
                       var device := SessionDevice(sso.sessions, sso.devices, sso.req, u, sso.validateHmac, sso.hmacB64);
                       && device.Ok?
                       && log.calls == old(log.calls) + [SsoSection(u, r.value.value.credential.payload, device.value)])
              && (!(r.Ok? && r.value.Some?) ==> log.calls == old(log.calls))
              && request.oauth2Error == old(request.oauth2Error)
    ensures GetAuthClass(AuthType(authTypeHeader), config, registry) == Ok(SsoJwtAuth) ==>
              var a := AuthenticateResult(sso.req, sso.header, sso.rawTokenOf, sso.classes, sso.settings, sso.users,
                                          sso.sessions, sso.devices, sso.validateHmac, sso.hmacB64);
              r == (if a.Err? then Err(a.error)
                    else if a.value.None? then Ok(None)
                    else Ok(Some(Authenticated(Some(a.value.value.0), JwtClaims(a.value.value.1)))))
  {
    var chosen := GetAuthClass(AuthType(authTypeHeader), config, registry);
    if chosen.Err? {
      return Err(chosen.error);
    }
    match chosen.value {
      case SimpleJwtAuth =>
        r := JwtAuthenticate(log, simpleJwtBase);
      case OAuth2Auth =>
        var o := OAuthAuthenticate(log, request, oauth);
        r := Ok(o);
      case SsoJwtAuth =>
        var s := Authenticate(log, sso.req, sso.header, sso.rawTokenOf, sso.classes, sso.settings, sso.users,
                              sso.sessions, sso.devices, sso.validateHmac, sso.hmacB64);
        if s.Err? {
          r := Err(s.error);
        } else if s.value.None? {
          r := Ok(None);
        } else {
          r := Ok(Some(Authenticated(Some(s.value.value.0), JwtClaims(s.value.value.1))));
        }
    }
  }
}

=== FILE: auth_sessions.dfy ===
/** Handshake sessions (AuthSession in v1/apiauth/models.py): a session token
    and a server nonce issued for a client nonce, bound to a device, with an
    expiry time. Times are seconds. */
module AuthSessions {
  import opened Wrappers
  import opened Failures

  datatype AuthSession = AuthSession(
    sessionToken: string,
    clientNonce: string,
    serverNonce: string,
    deviceId: Option<string>,
    createdAt: int,
    expiresAt: Option<int>)

  /** AuthSession.is_valid: `now < expires_at`; comparing with a missing
      expiry raises TypeError. */
  function SessionIsValid(s: AuthSession, now: int): (r: Result<bool, Failure>)
    ensures r.Err? <==> s.expiresAt.None?
    ensures r.Ok? ==> (r.value <==> now < s.expiresAt.value)
  {
    if s.expiresAt.None? then Err(Uncaught("TypeError"))
    else Ok(now < s.expiresAt.value)
  }

  /** The `unique=True` constraints on session_token and client_nonce. */
  ghost predicate SessionsUnique(ss: seq<AuthSession>)
  {
    forall i, j :: 0 <= i < j < |ss| ==>
      ss[i].sessionToken != ss[j].sessionToken && ss[i].clientNonce != ss[j].clientNonce
  }

  predicate IsHexDigit(c: char)
  {
    '0' <= c <= '9' || 'a' <= c <= 'f' || 'A' <= c <= 'F'
  }

  /** A UUID as the table holds it: its 32 hexadecimal digits, lower case. */
  predicate IsUuidHex(s: string)
  {
    |s| == 32 && forall i :: 0 <= i < |s| ==> '0' <= s[i] <= '9' || 'a' <= s[i] <= 'f'
  }

  /** `s.replace(p, "")`: every occurrence of p, scanning left to right. */
  function RemoveAll(s: string, p: string): (r: string)
    requires p != []
    ensures |r| <= |s|
    decreases |s|
  {
    if |s| < |p| then s
    else if s[..|p|] == p then RemoveAll(s[|p|..], p)
    else [s[0]] + RemoveAll(s[1..], p)
  }

  /** `s.strip('{}')`. */
  function StripBraces(s: string): (r: string)
    ensures |r| <= |s|
  {
    if s != [] && (s[0] == '{' || s[0] == '}') then StripBraces(s[1..])
    else if s != [] && (s[|s| - 1] == '{' || s[|s| - 1] == '}') then StripBraces(s[..|s| - 1])
    else s
  }

  /** `s.replace('-', '')`. */
  function WithoutHyphens(s: string): (r: string)
    ensures |r| <= |s|
  {
    if s == [] then []
    else if s[0] == '-' then WithoutHyphens(s[1..])
    else [s[0]] + WithoutHyphens(s[1..])
  }

  function LowerHexDigit(c: char): char
  {
    if 'A' <= c <= 'F' then (c as int + 32) as char else c
  }

  /** How UUIDField turns lookup text into a UUID (`uuid.UUID(hex=t)`):
      "urn:" and "uuid:" removed, braces stripped from both ends, hyphens
      removed, then exactly 32 hexadecimal digits in either case; anything
      else is a ValidationError. */
  function ParseUuid(t: string): (r: Option<string>)
    ensures r.Some? ==> IsUuidHex(r.value)
  {
    var h := WithoutHyphens(StripBraces(RemoveAll(RemoveAll(t, "urn:"), "uuid:")));
    if |h| == 32 && forall i :: 0 <= i < |h| ==> IsHexDigit(h[i]) then
      Some(seq(|h|, i requires 0 <= i < |h| => LowerHexDigit(h[i])))
    else None
  }

  lemma {:induction false} RemoveAllAbsent(s: string, p: string)
    requires p != [] && p[|p| - 1] == ':' && forall i :: 0 <= i < |s| ==> s[i] != ':'
    ensures RemoveAll(s, p) == s
    decreases |s|
  {
    if |s| >= |p| {
      assert s[..|p|] != p by { assert s[..|p|][|p| - 1] == s[|p| - 1]; }
      RemoveAllAbsent(s[1..], p);
    }
  }

  lemma {:induction false} WithoutHyphensAbsent(s: string)
    requires forall i :: 0 <= i < |s| ==> s[i] != '-'
    ensures WithoutHyphens(s) == s
  {
    if s != [] {
      WithoutHyphensAbsent(s[1..]);
    }
  }

  /** A stored token reads back as itself: lookups by the table's own text
      find its session. */
  lemma UuidHexParsesToItself(s: string)
    requires IsUuidHex(s)
    ensures ParseUuid(s) == Some(s)
  {
    RemoveAllAbsent(s, "urn:");
    RemoveAllAbsent(s, "uuid:");
    assert StripBraces(s) == s;
    WithoutHyphensAbsent(s);
    assert seq(|s|, i requires 0 <= i < |s| => LowerHexDigit(s[i])) == s;
  }

  /** Text shorter than 32 characters is never a UUID. */
  lemma ShortTextRefused(t: string)
    requires |t| < 32
    ensures ParseUuid(t).None?
  {
  }

  /** `AuthSession.objects.get(session_token=t)`, by position. */
  function FindByToken(ss: seq<AuthSession>, t: string): (k: Option<nat>)
    ensures k.Some? ==> k.value < |ss| && ss[k.value].sessionToken == t
    ensures k.None? ==> forall i :: 0 <= i < |ss| ==> ss[i].sessionToken != t
  {
    if ss == [] then None
    else if ss[0].sessionToken == t then Some(0)
    else match FindByToken(ss[1..], t)
      case None => None
      case Some(k) => Some(k + 1)
  }

  /** validate_session_token: text that is not a UUID makes the lookup
      raise ValidationError, which escapes (only DoesNotExist is caught);
      False when no session has the token, False when it has expired, False
      when the client nonce differs, True otherwise. A session without an
      expiry makes is_valid raise TypeError, and that escapes too. */
  function ValidateSessionToken(ss: seq<AuthSession>, t: string, nonce: string, now: int)
    : (r: Result<bool, Failure>)
    ensures ParseUuid(t).None? <==> r == Err(Uncaught("ValidationError"))
    ensures ParseUuid(t).Some? && FindByToken(ss, ParseUuid(t).value).None? ==> r == Ok(false)
    ensures r == Ok(true) <==>
      ParseUuid(t).Some? &&
      exists i :: 0 <= i < |ss| && ss[i].sessionToken == ParseUuid(t).value && FindByToken(ss, ParseUuid(t).value) == Some(i)
        && ss[i].expiresAt.Some? && now < ss[i].expiresAt.value && ss[i].clientNonce == nonce
    ensures r == Err(Uncaught("TypeError")) <==>
      ParseUuid(t).Some? && FindByToken(ss, ParseUuid(t).value).Some?
      && ss[FindByToken(ss, ParseUuid(t).value).value].expiresAt.None?
  {
    match ParseUuid(t)
    case None => Err(Uncaught("ValidationError"))
    case Some(u) =>
      match FindByToken(ss, u)
      case None => Ok(false)
      case Some(k) =>
        match SessionIsValid(ss[k], now)
        case Err(e) => Err(e)
        case Ok(valid) =>
          if !valid then Ok(false)
          else if ss[k].clientNonce != nonce then Ok(false)
          else Ok(true)
  }

  /** With unique tokens the lookup finds the one session holding the token,
      so validation succeeds exactly for that session's nonce while it lives. */
  lemma {:induction false} ValidateUniqueSession(ss: seq<AuthSession>, i: nat, nonce: string, now: int)
    requires SessionsUnique(ss) && i < |ss| && IsUuidHex(ss[i].sessionToken) && ss[i].expiresAt.Some?
    ensures ValidateSessionToken(ss, ss[i].sessionToken, nonce, now) == Ok(now < ss[i].expiresAt.value && ss[i].clientNonce == nonce)
  {
    UuidHexParsesToItself(ss[i].sessionToken);
    FindUnique(ss, i);
  }

  lemma {:induction false} FindUnique(ss: seq<AuthSession>, i: nat)
    requires SessionsUnique(ss) && i < |ss|
    ensures FindByToken(ss, ss[i].sessionToken) == Some(i)
  {
    if i > 0 {
      assert ss[0].sessionToken != ss[i].sessionToken;
      assert SessionsUnique(ss[1..]) by {
        forall a, b | 0 <= a < b < |ss[1..]|
          ensures ss[1..][a].sessionToken != ss[1..][b].sessionToken && ss[1..][a].clientNonce != ss[1..][b].clientNonce
        {
          assert ss[1..][a] == ss[a + 1] && ss[1..][b] == ss[b + 1];
        }
      }
      FindUnique(ss[1..], i - 1);
      assert ss[1..][i - 1] == ss[i];
    }
  }
}

=== FILE: auth_utilities.dfy ===
/** The current-identity helpers of base/authentication/utilities.py: the
    user, company and device of the request being served, read from the ids
    in the request-local store and cached back into it. */
module AuthUtilities {
  import opened Wrappers
  import opened Entities
  import opened Accounts
  import opened LocalSession

  /** `UserModel.objects.filter(id=get_from_local("user_id")).first()`:
      the user whose primary key is the stored id, if any. */
  function UserLookup(users: map<UserId, User>, idSlot: LocalValue): (r: Option<UserId>)
    ensures r.Some? <==> idSlot.IntValue? && idSlot.i >= 0 && idSlot.i in users
    ensures r.Some? ==> r.value == idSlot.i
  {
    if idSlot.IntValue? && idSlot.i >= 0 && idSlot.i in users then Some(idSlot.i) else None
  }

  /** The same lookup for `Company.objects`: only entities that are
      companies are found. */
  function CompanyLookup(entities: map<EntityId, Entity>, idSlot: LocalValue): (r: Option<EntityId>)
    ensures r.Some? <==> idSlot.IntValue? && idSlot.i >= 0 && idSlot.i in entities
                         && entities[idSlot.i].kind.CompanyEntity?
    ensures r.Some? ==> r.value == idSlot.i
  {
    if idSlot.IntValue? && idSlot.i >= 0 && idSlot.i in entities && entities[idSlot.i].kind.CompanyEntity?
    then Some(idSlot.i) else None
  }

  /** What the helpers store back under "user". */
  function UserSlot(u: Option<UserId>): (v: LocalValue)
    ensures Truthy(v) <==> u.Some?
    ensures u.Some? ==> v == UserValue(u.value)
  {
    if u.Some? then UserValue(u.value) else NoneValue
  }

  /** What the helpers store back under "entity". */
  function EntitySlot(e: Option<EntityId>): (v: LocalValue)
    ensures Truthy(v) <==> e.Some?
    ensures e.Some? ==> v == EntityValue(e.value)
  {
    if e.Some? then EntityValue(e.value) else NoneValue
  }

  /** get_current_user: the fresh lookup. A cached user equal to it is
      returned as is; otherwise the cache is overwritten, so either way the
      "user" slot ends up holding the lookup's result. */
  method GetCurrentUser(store: LocalStore, dir: Directory) returns (u: Option<UserId>)
    modifies store
    ensures u == UserLookup(dir.users, old(store.GetFromLocal("user_id", NoneValue)))
    ensures store.slots == old(store.slots)["user" := UserSlot(u)]
  {
    var cached := store.GetFromLocal("user", NoneValue);
    var current := UserLookup(dir.users, store.GetFromLocal("user_id", NoneValue));
    if Truthy(cached) && cached == UserSlot(current) {
      u := Some(cached.userId);
      return;
    }
    u := current;
    var _ := store.SetToLocal("user", UserSlot(u));
  }

  /** get_current_entity: as get_current_user, for the company whose id is
      the stored "entity_id", cached under "entity". */
  method GetCurrentEntity(store: LocalStore, dir: Directory) returns (e: Option<EntityId>)
    modifies store
    ensures e == CompanyLookup(dir.entities, old(store.GetFromLocal("entity_id", NoneValue)))
    ensures store.slots == old(store.slots)["entity" := EntitySlot(e)]
  {
    var cached := store.GetFromLocal("entity", NoneValue);
    var current := CompanyLookup(dir.entities, store.GetFromLocal("entity_id", NoneValue));
    if Truthy(cached) && cached == EntitySlot(current) {
      e := Some(cached.entityId);
      return;
    }
    e := current;
    var _ := store.SetToLocal("entity", EntitySlot(e));
  }

  /** The device get_current_device finds: the current user's first device
      whose registration id is the stored "device"; nothing without a user
      or a stored device id. */
  function CurrentDeviceOf(devices: seq<Device>, deviceSlot: LocalValue, u: Option<UserId>): (k: Option<nat>)
    ensures k.Some? ==> deviceSlot.StrValue? && u.Some? && k.value < |devices|
                        && devices[k.value].registrationId == deviceSlot.s && devices[k.value].user == u.value
    ensures deviceSlot.StrValue? && u.Some? && IsDeviceActive(devices, u.value, deviceSlot.s) ==> k.Some?
  {
    if deviceSlot.StrValue? && u.Some? then DeviceWithDeviceId(devices, deviceSlot.s, u.value) else None
  }

  /** get_current_device, which also refreshes the cached user. */
  method GetCurrentDevice(store: LocalStore, dir: Directory) returns (k: Option<nat>)
    modifies store
    ensures k == CurrentDeviceOf(dir.devices, old(store.GetFromLocal("device", NoneValue)),
                                 UserLookup(dir.users, old(store.GetFromLocal("user_id", NoneValue))))
    ensures store.slots == old(store.slots)["user" := UserSlot(UserLookup(dir.users, old(store.GetFromLocal("user_id", NoneValue))))]
  {
    var device := store.GetFromLocal("device", NoneValue);
    var u := GetCurrentUser(store, dir);
    k := CurrentDeviceOf(dir.devices, device, u);
  }
}

=== FILE: catalogs.dfy ===
/** The catalog tables (v1/catalogs/models/product_models.py) and the
    catalog operations that need no supply-chain link: the connect-card
    upsert and premium creation of v1/catalogs/serializers/products.py and
    the currency and premium filters of v1/catalogs/filters.py. Rows are
    kept in id order; a row's id is its position. */
module Catalogs {
  import opened Wrappers
  import opened Failures
  import opened Entities

  datatype Product = Product(name: string, updatedOn: int)

  /** A ConnectCard: card_id is nullable and not unique. */
  datatype ConnectCard = ConnectCard(displayId: Option<string>, cardId: Option<string>, isActive: bool)

  /** A Premium: owned by a company, or by no one. */
  datatype Premium = Premium(name: string, owner: Option<EntityId>, updatedOn: int)

  datatype PremiumOption = PremiumOption(premium: nat, name: string, amount: real)

  /** The validated data of a ConnectCard: the card id is required; a
      display id or active flag left out of the request is None. */
  datatype CardData = CardData(cardId: string, displayId: Option<string>, isActive: Option<bool>)

  /** The number of cards with the card id. */
  function CountCardId(cs: seq<ConnectCard>, cardId: string): nat
  {
    if cs == [] then 0 else (if cs[0].cardId == Some(cardId) then 1 else 0) + CountCardId(cs[1..], cardId)
  }

  /** The first card with the card id. */
  function FindCardId(cs: seq<ConnectCard>, cardId: string): (k: Option<nat>)
    ensures k.Some? ==> k.value < |cs| && cs[k.value].cardId == Some(cardId)
                        && forall j :: 0 <= j < k.value ==> cs[j].cardId != Some(cardId)
    ensures k.None? <==> CountCardId(cs, cardId) == 0
  {
    if cs == [] then None
    else if cs[0].cardId == Some(cardId) then Some(0)
    else match FindCardId(cs[1..], cardId)
      case None => None
      case Some(k) => Some(k + 1)
  }

  /** The card `create` inserts: unset fields take the model defaults. */
  function NewCard(d: CardData): (c: ConnectCard)
    ensures c.cardId == Some(d.cardId)
    ensures c.isActive <==> d.isActive != Some(false)
  {
    ConnectCard(d.displayId, Some(d.cardId), d.isActive.UnwrapOr(true))
  }

  /** The card `update` leaves: the fields given replace the stored ones. */
  function UpdatedCard(c: ConnectCard, d: CardData): (r: ConnectCard)
    ensures r.cardId == Some(d.cardId)
    ensures d.displayId.None? ==> r.displayId == c.displayId
    ensures d.isActive.None? ==> r.isActive == c.isActive
  {
    ConnectCard(if d.displayId.Some? then d.displayId else c.displayId, Some(d.cardId),
                if d.isActive.Some? then d.isActive.value else c.isActive)
  }

  /** Counting over a sequence with one element replaced. */
  lemma {:induction false} CountAfterUpdate(cs: seq<ConnectCard>, k: nat, c: ConnectCard, cardId: string)
    requires k < |cs|
    ensures CountCardId(cs[k := c], cardId)
         == CountCardId(cs, cardId) - (if cs[k].cardId == Some(cardId) then 1 else 0)
                                    + (if c.cardId == Some(cardId) then 1 else 0)
  {
    if k > 0 {
      CountAfterUpdate(cs[1..], k - 1, c, cardId);
      assert cs[k := c][1..] == cs[1..][k - 1 := c];
    }
  }

  lemma {:induction false} CountAfterAppend(cs: seq<ConnectCard>, c: ConnectCard, cardId: string)
    ensures CountCardId(cs + [c], cardId) == CountCardId(cs, cardId) + (if c.cardId == Some(cardId) then 1 else 0)
  {
    if cs != [] {
      CountAfterAppend(cs[1..], c, cardId);
      assert (cs + [c])[1..] == cs[1..] + [c];
    }
  }

  /** The ConnectCard table. */
  class CardTable {
    var cards: seq<ConnectCard>

    constructor ()
      ensures cards == []
    {
      cards := [];
    }

    /** ConnectCardSerializer.create: `get(card_id=...)`; an existing card
        is updated with the data, a missing one is created, and several
        cards with the id make the lookup raise. The result is the card's
        id. */
    method Upsert(d: CardData) returns (r: Result<nat, Failure>)
      modifies this`cards
      ensures CountCardId(old(cards), d.cardId) == 0 ==>
                r == Ok(|old(cards)|) && cards == old(cards) + [NewCard(d)]
      ensures CountCardId(old(cards), d.cardId) == 1 ==>
                var k := FindCardId(old(cards), d.cardId).value;
                r == Ok(k) && cards == old(cards)[k := UpdatedCard(old(cards)[k], d)]
      ensures CountCardId(old(cards), d.cardId) > 1 ==>
                r == Err(Uncaught("MultipleObjectsReturned")) && cards == old(cards)
      ensures CountCardId(old(cards), d.cardId) <= 1 ==> CountCardId(cards, d.cardId) == 1
    {
      var n := CountCardId(cards, d.cardId);
      if n > 1 {
        return Err(Uncaught("MultipleObjectsReturned"));
      }
      if n == 0 {
        CountAfterAppend(cards, NewCard(d), d.cardId);
        cards := cards + [NewCard(d)];
        return Ok(|cards| - 1);
      }
      var k := FindCardId(cards, d.cardId).value;
      CountAfterUpdate(cards, k, UpdatedCard(cards[k], d), d.cardId);
      cards := cards[k := UpdatedCard(cards[k], d)];
      r := Ok(k);
    }
  }

  /** Sending the same card twice leaves one card with its id, updated by
      the second request: the upsert does not duplicate cards. */
  lemma UpsertTwiceKeepsOne(cs: seq<ConnectCard>, d: CardData)
    requires CountCardId(cs, d.cardId) == 0
    ensures var once := cs + [NewCard(d)];
            && CountCardId(once, d.cardId) == 1
            && FindCardId(once, d.cardId) == Some(|cs|)
            && once[|cs| := UpdatedCard(once[|cs|], d)] == once
  {
    CountAfterAppend(cs, NewCard(d), d.cardId);
    var once := cs + [NewCard(d)];
    assert once[|cs|] == NewCard(d);
    var k := FindCardId(once, d.cardId).value;
    if k < |cs| {
      assert once[k] == cs[k];
      CountedWhenPresent(cs, k, d.cardId);
    }
  }

  lemma {:induction false} CountedWhenPresent(cs: seq<ConnectCard>, k: nat, cardId: string)
    requires k < |cs| && cs[k].cardId == Some(cardId)
    ensures CountCardId(cs, cardId) >= 1
  {
    if k > 0 {
      CountedWhenPresent(cs[1..], k - 1, cardId);
    }
  }

  /** One item of a premium's `options`. */
  datatype OptionData = OptionData(name: string, amount: real)

  /** The options linked to premium p, in the order given. */
  function LinkedOptions(p: nat, opts: seq<OptionData>): (r: seq<PremiumOption>)
    ensures |r| == |opts|
    ensures forall i :: 0 <= i < |opts| ==> r[i] == PremiumOption(p, opts[i].name, opts[i].amount)
  {
    if opts == [] then [] else [PremiumOption(p, opts[0].name, opts[0].amount)] + LinkedOptions(p, opts[1..])
  }

  /** The premium tables. */
  class PremiumTables {
    var premiums: seq<Premium>
    var options: seq<PremiumOption>

    /** Every option belongs to a stored premium. */
    ghost predicate Valid()
      reads this
    {
      forall i :: 0 <= i < |options| ==> options[i].premium < |premiums|
    }

    constructor ()
      ensures Valid() && premiums == [] && options == []
    {
      premiums, options := [], [];
    }

    /** PremiumSerializer.create, in one database transaction: the premium
        is created, then each supplied option with the new premium set on
        it. */
    method CreatePremium(p: Premium, opts: seq<OptionData>) returns (id: nat)
      requires Valid()
      modifies this
      ensures Valid()
      ensures id == |old(premiums)| && premiums == old(premiums) + [p]
      ensures options == old(options) + LinkedOptions(id, opts)
    {
      premiums := premiums + [p];
      id := |premiums| - 1;
      var i := 0;
      while i < |opts|
        invariant 0 <= i <= |opts| && Valid()
        invariant premiums == old(premiums) + [p] && id == |old(premiums)|
        invariant options == old(options) + LinkedOptions(id, opts[..i])
      {
        assert opts[..i + 1] == opts[..i] + [opts[i]];
        LinkedOptionsAppend(id, opts[..i], opts[i]);
        options := options + [PremiumOption(id, opts[i].name, opts[i].amount)];
        i := i + 1;
      }
      assert opts[..|opts|] == opts;
    }
  }

  lemma {:induction false} LinkedOptionsAppend(p: nat, opts: seq<OptionData>, o: OptionData)
    ensures LinkedOptions(p, opts + [o]) == LinkedOptions(p, opts) + [PremiumOption(p, o.name, o.amount)]
  {
    if opts != [] {
      LinkedOptionsAppend(p, opts[1..], o);
      assert (opts + [o])[1..] == opts[1..] + [o];
    }
  }

  /** The options of premium p, as `premium.options.all()` lists them. */
  function OptionsOf(options: seq<PremiumOption>, p: nat): (r: seq<PremiumOption>)
    ensures |r| <= |options|
    ensures forall i :: 0 <= i < |r| ==> r[i].premium == p
  {
    if options == [] then []
    else
      var rest := OptionsOf(options[1..], p);
      if options[0].premium == p then [options[0]] + rest else rest
  }

  /** A new premium's options are exactly the ones supplied. */
  lemma NewPremiumOptions(before: seq<PremiumOption>, p: nat, opts: seq<OptionData>)
    requires forall i :: 0 <= i < |before| ==> before[i].premium < p
    ensures OptionsOf(before + LinkedOptions(p, opts), p) == LinkedOptions(p, opts)
  {
    OptionsOfAppend(before, LinkedOptions(p, opts), p);
    NoOptionsOf(before, p);
    OwnOptions(p, opts);
  }

  lemma {:induction false} OptionsOfAppend(a: seq<PremiumOption>, b: seq<PremiumOption>, p: nat)
    ensures OptionsOf(a + b, p) == OptionsOf(a, p) + OptionsOf(b, p)
  {
    if a != [] {
      OptionsOfAppend(a[1..], b, p);
      assert (a + b)[1..] == a[1..] + b;
    } else {
      assert a + b == b;
    }
  }

  lemma {:induction false} NoOptionsOf(a: seq<PremiumOption>, p: nat)
    requires forall i :: 0 <= i < |a| ==> a[i].premium != p
    ensures OptionsOf(a, p) == []
  {
    if a != [] {
      NoOptionsOf(a[1..], p);
    }
  }

  lemma {:induction false} OwnOptions(p: nat, opts: seq<OptionData>)
    ensures OptionsOf(LinkedOptions(p, opts), p) == LinkedOptions(p, opts)
  {
    if opts != [] {
      OwnOptions(p, opts[1..]);
      assert LinkedOptions(p, opts)[1..] == LinkedOptions(p, opts[1..]);
    }
  }

  /** CurrencyFilterSet.all_filter: `all=true` replaces the queryset by every
      currency; false leaves it as it is. */
  function AllCurrencies(everything: set<nat>, qs: set<nat>, all: bool): (r: set<nat>)
    ensures all ==> r == everything
    ensures !all ==> r == qs
  {
    if all then everything else qs
  }

  /** The `all` filter never hides a currency the queryset had, provided the
      queryset is drawn from the table. */
  lemma AllCurrenciesWidens(everything: set<nat>, qs: set<nat>, all: bool)
    requires qs <= everything
    ensures qs <= AllCurrencies(everything, qs, all) <= everything
  {
  }

  /** PremiumFilterSet.qs: `owner__in=[entity, entity.buyer]`. The SQL IN
      never matches NULL, so premiums without an owner are never listed,
      and with no current entity the list is empty. */
  function PremiumFilter(premiums: seq<Premium>, qs: set<nat>, entity: Option<EntityId>,
                         entities: map<EntityId, Entity>): (r: set<nat>)
    ensures forall k :: k in r <==>
              k in qs && k < |premiums| && premiums[k].owner.Some? && entity.Some?
              && (premiums[k].owner.value == entity.value
                  || (entity.value in entities && entities[entity.value].buyer == premiums[k].owner))
  {
    var buyer: Option<EntityId> := if entity.Some? && entity.value in entities then entities[entity.value].buyer else None;
    set k | k in qs && k < |premiums| && premiums[k].owner.Some? && entity.Some?
            && (premiums[k].owner.value == entity.value || buyer == premiums[k].owner)
  }

  /** Without a current entity no premium is listed. */
  lemma NoEntityNoPremiums(premiums: seq<Premium>, qs: set<nat>, entities: map<EntityId, Entity>)
    ensures PremiumFilter(premiums, qs, None, entities) == {}
  {
    if k :| k in PremiumFilter(premiums, qs, None, entities) {
      assert false;
    }
  }

  /** The updated_on stamps of the products and of the premiums, in id
      order. */
  function ProductStamps(products: seq<Product>): (s: seq<int>)
    ensures |s| == |products| && forall k :: 0 <= k < |products| ==> s[k] == products[k].updatedOn
  {
    seq(|products|, k requires 0 <= k < |products| => products[k].updatedOn)
  }

  function PremiumStamps(premiums: seq<Premium>): (s: seq<int>)
    ensures |s| == |premiums| && forall k :: 0 <= k < |premiums| ==> s[k] == premiums[k].updatedOn
  {
    seq(|premiums|, k requires 0 <= k < |premiums| => premiums[k].updatedOn)
  }

  /** The updated_after filter of the product and of the premium filter
      set (inclusive), over the rows' stamps. */
  function UpdatedAfter(stamps: seq<int>, qs: set<nat>, t: int): (r: set<nat>)
    ensures forall k :: k in r <==> k in qs && k < |stamps| && stamps[k] >= t
  {
    set k | k in qs && k < |stamps| && stamps[k] >= t
  }

  /** A row updated exactly at the bound is kept, and a later bound never
      keeps more. */
  lemma UpdatedAtBoundKept(stamps: seq<int>, qs: set<nat>, k: nat, later: int)
    requires k in qs && k < |stamps|
    ensures k in UpdatedAfter(stamps, qs, stamps[k])
    ensures later >= stamps[k] ==> UpdatedAfter(stamps, qs, later) <= UpdatedAfter(stamps, qs, stamps[k])
  {
  }
}

=== FILE: company_products.dfy ===
/** The company side of the catalog: Company.can_be_edited_by and the
    CompanyProduct link with its save checks
    (v1/supply_chains/models/company_models.py), the CompanyProduct and
    Product serializers (v1/supply_chains/serializers.py,
    v1/catalogs/serializers/products.py), ProductFilterSet.qs
    (v1/catalogs/filters.py) and Form.products (v1/forms/models.py). */
module CompanyProducts {
  import opened Wrappers
  import opened Failures
  import opened Entities
  import opened Catalogs
  import opened Forms

  /** EntityStatus of v1/supply_chains/constants.py. */
  datatype EntityStatus = EntityActive | EntityInactive

  /** The invitation state Entity's docstring describes: its status and
      the company that invited it. Entity declares neither column. */
  datatype Invitation = Invitation(status: EntityStatus, invitedBy: Option<EntityId>)

  /** Company.can_be_edited_by as written: without a company argument it
      calls `get_current_company`, which the authentication utilities do
      not define; with one, the checks read `self.status`, which Entity
      does not declare. Either way it raises AttributeError. */
  function CanBeEditedByAsWritten(e: Entity, company: Option<EntityId>): (r: Result<bool, Failure>)
    ensures r == Err(Uncaught("AttributeError"))
  {
    Err(Uncaught("AttributeError"))
  }

  /** can_be_edited_by as evidently intended, over the documented
      invitation state, with the current company taken from the request
      context: the company given, else the current one; editing needs that
      company, an INACTIVE entity, and that company as the inviter. */
  function CanBeEditedBy(inv: Invitation, company: Option<EntityId>, current: Option<EntityId>): (r: bool)
    ensures r <==> var c := if company.Some? then company else current;
                   c.Some? && inv.status == EntityInactive && inv.invitedBy == c
  {
    var c := if company.Some? then company else current;
    !(c.None? || inv.status != EntityInactive || inv.invitedBy != c)
  }

  /** Only the inviter edits, and only while the entity is inactive. */
  lemma OnlyInviterEdits(inv: Invitation, c: EntityId, current: Option<EntityId>)
    requires inv.status == EntityActive || inv.invitedBy != Some(c)
    ensures !CanBeEditedBy(inv, Some(c), current)
  {
  }

  /** Without a company argument the check needs a current company. */
  lemma NoCompanyNoEdit(e: Entity, inv: Invitation)
    ensures !CanBeEditedBy(inv, None, None)
    ensures CanBeEditedByAsWritten(e, None).Err?
  {
  }

  /** The inviting company is refused by the code as written, while the
      intended rule lets it edit the entity it invited. */
  lemma InviterRefusedAsWritten(e: Entity, c: EntityId)
    ensures CanBeEditedByAsWritten(e, Some(c)).Err?
    ensures CanBeEditedBy(Invitation(EntityInactive, Some(c)), Some(c), None)
  {
  }

  /** A CompanyProduct row with its forms and premiums relations; the
      premiums keep the order in which they were linked. */
  datatype CompanyProduct = CompanyProduct(company: EntityId, product: nat, forms: set<nat>,
                                           premiums: seq<nat>, isActive: bool)

  /** The premiums the company owns. */
  function OwnedPremiums(premiums: seq<Premium>, company: EntityId): (r: set<nat>)
    ensures forall k: nat :: k in r <==> k < |premiums| && premiums[k].owner == Some(company)
  {
    set k: nat | k < |premiums| && premiums[k].owner == Some(company)
  }

  /** The message of a premium the company does not own. */
  function NotOwnedMessage(premiumName: string, companyName: string): string
  {
    premiumName + " is not a premium of " + companyName + "."
  }

  /** The errors _premium_check collects, one per linked premium the company
      does not own, in link order. */
  function PremiumErrors(ids: seq<nat>, premiums: seq<Premium>, company: EntityId, companyName: string): (r: seq<string>)
    requires forall i :: 0 <= i < |ids| ==> ids[i] < |premiums|
    ensures |r| <= |ids|
    ensures r == [] <==> forall i :: 0 <= i < |ids| ==> premiums[ids[i]].owner == Some(company)
  {
    if ids == [] then []
    else
      var rest := PremiumErrors(ids[1..], premiums, company, companyName);
      assert forall i :: 1 <= i < |ids| ==> ids[i] == ids[1..][i - 1];
      if premiums[ids[0]].owner == Some(company) then rest
      else [NotOwnedMessage(premiums[ids[0]].name, companyName)] + rest
  }

  /** The errors for premiums p and then q are those of p followed by those
      of q: the messages follow the link order. */
  lemma {:induction false} PremiumErrorsAppend(p: seq<nat>, q: seq<nat>, premiums: seq<Premium>,
                                               company: EntityId, companyName: string)
    requires forall i :: 0 <= i < |p| ==> p[i] < |premiums|
    requires forall i :: 0 <= i < |q| ==> q[i] < |premiums|
    ensures forall i :: 0 <= i < |p + q| ==> (p + q)[i] < |premiums|
    ensures PremiumErrors(p + q, premiums, company, companyName)
         == PremiumErrors(p, premiums, company, companyName) + PremiumErrors(q, premiums, company, companyName)
  {
    if p != [] {
      assert (p + q)[1..] == p[1..] + q;
      PremiumErrorsAppend(p[1..], q, premiums, company, companyName);
    } else {
      assert p + q == q;
    }
  }

  /** _premium_check: the messages are collected in a loop and raised
      together. */
  method PremiumCheck(ids: seq<nat>, premiums: seq<Premium>, company: EntityId, companyName: string)
    returns (r: Result<(), Failure>)
    requires forall i :: 0 <= i < |ids| ==> ids[i] < |premiums|
    ensures var errs := PremiumErrors(ids, premiums, company, companyName);
            r == if errs == [] then Ok(()) else Err(ValidationErrors(errs))
  {
    var errors: seq<string> := [];
    var i := 0;
    while i < |ids|
      invariant 0 <= i <= |ids|
      invariant errors == PremiumErrors(ids[..i], premiums, company, companyName)
    {
      PremiumErrorsAppend(ids[..i], [ids[i]], premiums, company, companyName);
      assert ids[..i + 1] == ids[..i] + [ids[i]];
      if premiums[ids[i]].owner != Some(company) {
        errors := errors + [NotOwnedMessage(premiums[ids[i]].name, companyName)];
      }
      i := i + 1;
    }
    assert ids[..|ids|] == ids;
    if errors != [] {
      return Err(ValidationErrors(errors));
    }
    r := Ok(());
  }

  /** The check passes exactly when every linked premium is among the
      company's owned premiums (`company.owned_premiums`). */
  lemma PremiumCheckPassesIffOwned(ids: seq<nat>, premiums: seq<Premium>, company: EntityId, companyName: string)
    requires forall i :: 0 <= i < |ids| ==> ids[i] < |premiums|
    ensures PremiumErrors(ids, premiums, company, companyName) == []
            <==> forall i :: 0 <= i < |ids| ==> ids[i] in OwnedPremiums(premiums, company)
  {
  }

  /** _form_check as written: each Form object is compared with the text
      "PRODUCT", which it never equals, so any attached form raises. */
  function FormCheckAsWritten(formIds: set<nat>): (r: Result<(), Failure>)
    ensures r.Ok? <==> formIds == {}
    ensures r.Err? ==> r.error == Uncaught("ValueError")
  {
    if formIds != {} then Err(Uncaught("ValueError")) else Ok(())
  }

  /** _form_check as intended: every attached form is a PRODUCT form. */
  function FormCheck(formIds: set<nat>, forms: seq<Form>): (r: Result<(), Failure>)
    requires forall f :: f in formIds ==> f < |forms|
    ensures r.Ok? <==> forall f :: f in formIds ==> forms[f].formType == ProductForm
    ensures r.Err? ==> r.error == Uncaught("ValueError")
  {
    if exists f :: f in formIds && forms[f].formType != ProductForm then Err(Uncaught("ValueError")) else Ok(())
  }

  /** A product form attached to a company product is refused as written
      and accepted as intended. */
  lemma ProductFormRefusedAsWritten(forms: seq<Form>, f: nat)
    requires f < |forms| && forms[f].formType == ProductForm
    ensures FormCheckAsWritten({f}).Err?
    ensures FormCheck({f}, forms).Ok?
  {
  }

  /** _check_premium_removal as written: the "old" and the "new" premiums
      are both read from the stored relation of the same row, so they never
      differ. */
  function PremiumsChangedAsWritten(links: seq<CompanyProduct>, pk: Option<nat>): (r: bool)
    requires pk.Some? ==> pk.value < |links|
    ensures !r
  {
    if pk.None? then false
    else
      var before := links[pk.value].premiums;
      var after := links[pk.value].premiums;
      PremiumsChanged(before, after)
  }

  /** Whether two premium lists link different premiums. */
  predicate PremiumsChanged(before: seq<nat>, after: seq<nat>)
  {
    (exists p :: p in before && p !in after) || (exists p :: p in after && p !in before)
  }

  /** Replacing a row's premiums by a different set is a change that the
      check as written does not see. */
  lemma RemovalUnseenAsWritten(links: seq<CompanyProduct>, k: nat, p: nat)
    requires k < |links| && links[k].premiums == []
    ensures PremiumsChanged(links[k].premiums, [p])
    ensures !PremiumsChangedAsWritten(links, Some(k))
  {
    assert p in [p];
  }

  /** The rows are linked to products and forms that exist. */
  ghost predicate LinksValid(links: seq<CompanyProduct>, products: seq<Product>, forms: seq<Form>, premiums: seq<Premium>)
  {
    forall i :: 0 <= i < |links| ==>
      && links[i].product < |products|
      && (forall f :: f in links[i].forms ==> f < |forms|)
      && (forall j :: 0 <= j < |links[i].premiums| ==> links[i].premiums[j] < |premiums|)
  }

  /** The CompanyProduct and Product tables. */
  class ProductStore {
    var links: seq<CompanyProduct>
    var products: seq<Product>

    constructor (products0: seq<Product>)
      ensures links == [] && products == products0
    {
      links, products := [], products0;
    }

    /** CompanyProduct.save as written, in one database transaction. The
        premium removal check does not fire (PremiumsChangedAsWritten); the
        row is written, keeping its stored relations (a new row has none);
        the form check as written (FormCheckAsWritten) then refuses any
        stored form, the premium check reads the stored premiums, and a
        failing check rolls everything back. */
    method Save(pk: Option<nat>, company: EntityId, product: nat, isActive: bool,
                forms: seq<Form>, premiums: seq<Premium>, companyName: string)
      returns (r: Result<nat, Failure>)
      requires LinksValid(links, products, forms, premiums)
      requires pk.Some? ==> pk.value < |links|
      requires product < |products|
      modifies this`links
      ensures LinksValid(links, products, forms, premiums)
      ensures var row := SavedRow(old(links), pk, company, product, isActive);
              && (row.forms != {} ==> r == Err(Uncaught("ValueError")))
              && (row.forms == {} && PremiumErrors(row.premiums, premiums, company, companyName) != [] ==>
                    r == Err(ValidationErrors(PremiumErrors(row.premiums, premiums, company, companyName))))
              && (row.forms == {} && PremiumErrors(row.premiums, premiums, company, companyName) == [] ==> r.Ok?)
              && (r.Err? ==> links == old(links))
              && (r.Ok? ==> r.value == (if pk.Some? then pk.value else |old(links)|)
                            && links == (if pk.Some? then old(links)[pk.value := row] else old(links) + [row]))
    {
      var row := SavedRow(links, pk, company, product, isActive);
      var fc := FormCheckAsWritten(row.forms);
      if fc.Err? {
        return Err(fc.error);
      }
      var pc := PremiumCheck(row.premiums, premiums, company, companyName);
      if pc.Err? {
        return Err(pc.error);
      }
      if pk.Some? {
        links := links[pk.value := row];
        r := Ok(pk.value);
      } else {
        links := links + [row];
        r := Ok(|links| - 1);
      }
    }

    /** CompanyProduct.save as evidently intended: the same steps with the
        form check that accepts PRODUCT forms (FormCheck). */
    method SaveIntended(pk: Option<nat>, company: EntityId, product: nat, isActive: bool,
                        forms: seq<Form>, premiums: seq<Premium>, companyName: string)
      returns (r: Result<nat, Failure>)
      requires LinksValid(links, products, forms, premiums)
      requires pk.Some? ==> pk.value < |links|
      requires product < |products|
      modifies this`links
      ensures LinksValid(links, products, forms, premiums)
      ensures var row := SavedRow(old(links), pk, company, product, isActive);
              && (FormCheck(row.forms, forms).Err? ==> r == Err(FormCheck(row.forms, forms).error))
              && (FormCheck(row.forms, forms).Ok? && PremiumErrors(row.premiums, premiums, company, companyName) != [] ==>
                    r == Err(ValidationErrors(PremiumErrors(row.premiums, premiums, company, companyName))))
              && (FormCheck(row.forms, forms).Ok? && PremiumErrors(row.premiums, premiums, company, companyName) == [] ==> r.Ok?)
              && (r.Err? ==> links == old(links))
              && (r.Ok? ==> r.value == (if pk.Some? then pk.value else |old(links)|)
                            && links == (if pk.Some? then old(links)[pk.value := row] else old(links) + [row]))
    {
      var row := SavedRow(links, pk, company, product, isActive);
      var fc := FormCheck(row.forms, forms);
      if fc.Err? {
        return Err(fc.error);
      }
      var pc := PremiumCheck(row.premiums, premiums, company, companyName);
      if pc.Err? {
        return Err(pc.error);
      }
      if pk.Some? {
        links := links[pk.value := row];
        r := Ok(pk.value);
      } else {
        links := links + [row];
        r := Ok(|links| - 1);
      }
    }

    /** ModelSerializer.create for a new row: the row is saved without
        relations, so its checks pass, and the submitted forms and premiums
        are then set on it directly, without any check. */
    method SaveThenSetRelations(company: EntityId, product: nat, isActive: bool, fs: set<nat>, ps: seq<nat>,
                                forms: seq<Form>, premiums: seq<Premium>, companyName: string)
      returns (k: nat)
      requires LinksValid(links, products, forms, premiums) && product < |products|
      requires CountLinks(links, company, product) == 0
      requires (forall f :: f in fs ==> f < |forms|) && forall j :: 0 <= j < |ps| ==> ps[j] < |premiums|
      modifies this`links
      ensures LinksValid(links, products, forms, premiums)
      ensures k == |old(links)| && links == old(links) + [CompanyProduct(company, product, fs, ps, isActive)]
      ensures CountLinks(links, company, product) == 1
    {
      NewRowPassesChecks(forms, premiums, company, product, isActive, companyName);
      CountLinksAppend(links, SavedRow(links, None, company, product, isActive), company, product);
      var r := Save(None, company, product, isActive, forms, premiums, companyName);
      k := r.value;
      CountLinksKeepRelations(links, k, fs, ps, company, product);
      links := links[k := links[k].(forms := fs, premiums := ps)];
    }

    /** Setting a row's relations after a save, as the serializers do; the
        product's updated_on is touched when the premiums change, which is
        what _check_premium_removal is meant to do. */
    method SetRelations(k: nat, formIds: set<nat>, premiumIds: seq<nat>, now: int)
      requires k < |links| && links[k].product < |products|
      modifies this
      ensures links == old(links)[k := old(links)[k].(forms := formIds, premiums := premiumIds)]
      ensures var p := old(links)[k].product;
              products == if PremiumsChanged(old(links)[k].premiums, premiumIds)
                          then old(products)[p := old(products)[p].(updatedOn := now)]
                          else old(products)
    {
      var p := links[k].product;
      if PremiumsChanged(links[k].premiums, premiumIds) {
        products := products[p := products[p].(updatedOn := now)];
      }
      links := links[k := links[k].(forms := formIds, premiums := premiumIds)];
    }
  }

  /** The row save writes: a stored row with the new scalar fields, or a new
      row without relations. */
  function SavedRow(links: seq<CompanyProduct>, pk: Option<nat>, company: EntityId, product: nat, isActive: bool)
    : (row: CompanyProduct)
    requires pk.Some? ==> pk.value < |links|
    ensures row.company == company && row.product == product && row.isActive == isActive
    ensures pk.None? ==> row.forms == {} && row.premiums == []
    ensures pk.Some? ==> row.forms == links[pk.value].forms && row.premiums == links[pk.value].premiums
  {
    if pk.Some? then links[pk.value].(company := company, product := product, isActive := isActive)
    else CompanyProduct(company, product, {}, [], isActive)
  }

  /** A new row has no relations, so its checks always pass. */
  lemma NewRowPassesChecks(forms: seq<Form>, premiums: seq<Premium>, company: EntityId, product: nat,
                           isActive: bool, companyName: string)
    ensures var row := SavedRow([], None, company, product, isActive);
            FormCheck(row.forms, forms).Ok? && FormCheckAsWritten(row.forms).Ok?
            && PremiumErrors(row.premiums, premiums, company, companyName) == []
  {
  }

  /** The number of rows linking the company and the product. */
  function CountLinks(links: seq<CompanyProduct>, company: EntityId, product: nat): nat
  {
    if links == [] then 0
    else (if links[0].company == company && links[0].product == product then 1 else 0)
         + CountLinks(links[1..], company, product)
  }

  /** The first row linking the company and the product. */
  function FindLink(links: seq<CompanyProduct>, company: EntityId, product: nat): (k: Option<nat>)
    ensures k.Some? ==> k.value < |links| && links[k.value].company == company && links[k.value].product == product
    ensures k.None? <==> CountLinks(links, company, product) == 0
  {
    if links == [] then None
    else if links[0].company == company && links[0].product == product then Some(0)
    else match FindLink(links[1..], company, product)
      case None => None
      case Some(k) => Some(k + 1)
  }

  lemma {:induction false} CountLinksAppend(links: seq<CompanyProduct>, row: CompanyProduct, company: EntityId, product: nat)
    ensures CountLinks(links + [row], company, product)
         == CountLinks(links, company, product) + (if row.company == company && row.product == product then 1 else 0)
  {
    if links != [] {
      assert (links + [row])[1..] == links[1..] + [row];
      CountLinksAppend(links[1..], row, company, product);
    } else {
      assert links + [row] == [row];
    }
  }

  const PRODUCT_REQUIRED := ValidationError("Either product or product_id is required.")

  /** CompanyProductSerializer.validate: a product or a non-empty
      product_id is required. */
  function ValidateCompanyProduct(product: Option<Product>, productId: Option<string>): (r: Result<(), Failure>)
    ensures r.Ok? <==> product.Some? || (productId.Some? && productId.value != "")
    ensures r.Err? ==> r.error == PRODUCT_REQUIRED
  {
    if product.None? && (productId.None? || productId.value == "") then Err(PRODUCT_REQUIRED) else Ok(())
  }

  /** The product a validated request refers to: a non-empty product_id
      names an existing product (read as a Hashid) or fails with a
      ValidationError; otherwise the nested product is to be created. */
  function ResolveProduct(products: seq<Product>, product: Option<Product>, productId: Option<string>,
                          decodeId: string -> Option<nat>): (r: Result<Option<nat>, Failure>)
    requires ValidateCompanyProduct(product, productId).Ok?
    ensures productId.Some? && productId.value != "" ==>
              var d := decodeId(productId.value);
              && (d.Some? && d.value < |products| ==> r == Ok(Some(d.value)))
              && (!(d.Some? && d.value < |products|) ==>
                    r == Err(ValidationError("Product with id " + productId.value + " does not exist.")))
    ensures !(productId.Some? && productId.value != "") ==> r == Ok(None) && product.Some?
  {
    if productId.Some? && productId.value != "" then
      var d := decodeId(productId.value);
      if d.Some? && d.value < |products| then Ok(Some(d.value))
      else Err(ValidationError("Product with id " + productId.value + " does not exist."))
    else Ok(None)
  }

  /** CompanyProductSerializer.create, in one database transaction: the
      product is looked up or created, then an existing (product, company)
      row is returned as it is, several such rows make the lookup raise, and
      otherwise a new row is saved. The new row is saved without relations
      (ModelSerializer.create holds the many-to-many values back), so its
      checks pass; the submitted forms and premiums (`formIds`,
      `premiumIds`, None when left out) are then set on it directly, which
      runs neither the form check nor the premium check. */
  method CreateCompanyProduct(s: ProductStore, product: Option<Product>, productId: Option<string>,
                              company: EntityId, isActive: bool, decodeId: string -> Option<nat>,
                              formIds: Option<set<nat>>, premiumIds: Option<seq<nat>>,
                              forms: seq<Form>, premiums: seq<Premium>, companyName: string)
    returns (r: Result<nat, Failure>)
    requires ValidateCompanyProduct(product, productId).Ok?
    requires LinksValid(s.links, s.products, forms, premiums)
    // the related fields only let through ids of existing rows
    requires formIds.Some? ==> forall f :: f in formIds.value ==> f < |forms|
    requires premiumIds.Some? ==> forall j :: 0 <= j < |premiumIds.value| ==> premiumIds.value[j] < |premiums|
    modifies s
    ensures LinksValid(s.links, s.products, forms, premiums)
    ensures ResolveProduct(old(s.products), product, productId, decodeId).Err? ==>
              r == Err(ResolveProduct(old(s.products), product, productId, decodeId).error)
              && s.links == old(s.links) && s.products == old(s.products)
    ensures r.Ok? ==> r.value < |s.links| && s.links[r.value].company == company
                      && CountLinks(s.links, company, s.links[r.value].product) == 1
    ensures r.Ok? && CountLinks(old(s.links), company, s.links[r.value].product) == 1 ==>
              s.links == old(s.links) && s.links[r.value] == old(s.links)[r.value]
    ensures r.Ok? && CountLinks(old(s.links), company, s.links[r.value].product) == 0 ==>
              r.value == |old(s.links)|
              && s.links == old(s.links) + [CompanyProduct(company, s.links[r.value].product, formIds.UnwrapOr({}),
                                                           premiumIds.UnwrapOr([]), isActive)]
    ensures r.Err? ==> s.links == old(s.links) && s.products == old(s.products)
    // a product_id names the linked product; otherwise the nested product
    // is created as the next row and linked
    ensures r.Ok? && productId.Some? && productId.value != "" ==>
              decodeId(productId.value).Some? && s.links[r.value].product == decodeId(productId.value).value
              && s.products == old(s.products)
    ensures r.Ok? && !(productId.Some? && productId.value != "") ==>
              s.links[r.value].product == |old(s.products)| && s.products == old(s.products) + [product.value]
  {
    var resolved := ResolveProduct(s.products, product, productId, decodeId);
    if resolved.Err? {
      return Err(resolved.error);
    }
    var oldProducts := s.products;
    var p: nat;
    if resolved.value.Some? {
      p := resolved.value.value;
    } else {
      s.products := s.products + [product.value];
      p := |s.products| - 1;
      assert LinksValid(s.links, s.products, forms, premiums);
    }
    var n := CountLinks(s.links, company, p);
    if n == 1 {
      return Ok(FindLink(s.links, company, p).value);
    }
    if n > 1 {
      s.products := oldProducts;
      return Err(Uncaught("MultipleObjectsReturned"));
    }
    var k := s.SaveThenSetRelations(company, p, isActive, formIds.UnwrapOr({}), premiumIds.UnwrapOr([]),
                                    forms, premiums, companyName);
    r := Ok(k);
  }

  /** Setting a row's relations does not change which company and product
      it links. */
  lemma {:induction false} CountLinksKeepRelations(links: seq<CompanyProduct>, k: nat, fs: set<nat>, ps: seq<nat>,
                                                   company: EntityId, product: nat)
    requires k < |links|
    ensures CountLinks(links[k := links[k].(forms := fs, premiums := ps)], company, product) == CountLinks(links, company, product)
  {
    if k > 0 {
      CountLinksKeepRelations(links[1..], k - 1, fs, ps, company, product);
      assert links[k := links[k].(forms := fs, premiums := ps)][1..] == links[1..][k - 1 := links[k].(forms := fs, premiums := ps)];
    }
  }

  /** A premium the company does not own, submitted with a new company
      product, is linked all the same: the premium check that would refuse
      it (PremiumErrors) is never run on the relations set after the save. */
  lemma UnownedPremiumLinkedOnCreate(premiums: seq<Premium>, company: EntityId, companyName: string, q: nat)
    requires q < |premiums| && premiums[q].owner != Some(company)
    ensures PremiumErrors([q], premiums, company, companyName) != []
    ensures var row := CompanyProduct(company, 0, {}, Some([q]).UnwrapOr([]), true);
            q in row.premiums
  {
  }

  /** Creating the same link twice gives back the first row. */
  lemma SecondCreateReturnsFirst(links: seq<CompanyProduct>, company: EntityId, p: nat)
    requires CountLinks(links, company, p) == 1
    ensures FindLink(links, company, p).Some?
  {
  }

  /** ProductSerializer._get_company_product: the current entity's row for
      the product; none without an entity or without a row, and the lookup
      raises when there are several. */
  function CompanyProductOf(links: seq<CompanyProduct>, entity: Option<EntityId>, product: nat)
    : (r: Result<Option<nat>, Failure>)
    ensures entity.None? ==> r == Ok(None)
    ensures entity.Some? ==>
              && (CountLinks(links, entity.value, product) == 0 ==> r == Ok(None))
              && (CountLinks(links, entity.value, product) > 1 ==> r == Err(Uncaught("MultipleObjectsReturned")))
              && (CountLinks(links, entity.value, product) == 1 ==>
                    r.Ok? && r.value.Some? && r.value.value < |links|
                    && links[r.value.value].company == entity.value && links[r.value.value].product == product)
  {
    if entity.None? then Ok(None)
    else
      var n := CountLinks(links, entity.value, product);
      if n == 0 then Ok(None)
      else if n > 1 then Err(Uncaught("MultipleObjectsReturned"))
      else Ok(FindLink(links, entity.value, product))
  }

  /** get_premiums: the premium ids of that row, or none. */
  function GetPremiums(links: seq<CompanyProduct>, entity: Option<EntityId>, product: nat): (r: Result<seq<nat>, Failure>)
    ensures CompanyProductOf(links, entity, product).Err? ==> r.Err?
    ensures CompanyProductOf(links, entity, product) == Ok(None) ==> r == Ok([])
    ensures CompanyProductOf(links, entity, product).Ok? && CompanyProductOf(links, entity, product).value.Some? ==>
              r == Ok(links[CompanyProductOf(links, entity, product).value.value].premiums)
  {
    match CompanyProductOf(links, entity, product)
    case Err(e) => Err(e)
    case Ok(None) => Ok([])
    case Ok(Some(k)) => Ok(links[k].premiums)
  }

  /** get_is_active: that row's flag, or false. */
  function GetIsActive(links: seq<CompanyProduct>, entity: Option<EntityId>, product: nat): (r: Result<bool, Failure>)
    ensures CompanyProductOf(links, entity, product).Err? ==> r.Err?
    ensures CompanyProductOf(links, entity, product) == Ok(None) ==> r == Ok(false)
    ensures r == Ok(true) ==>
              entity.Some? && exists i :: 0 <= i < |links| && links[i].company == entity.value
                                          && links[i].product == product && links[i].isActive
    ensures entity.Some? && CountLinks(links, entity.value, product) == 1 ==>
              (r == Ok(true) <==> exists i :: 0 <= i < |links| && links[i].company == entity.value
                                               && links[i].product == product && links[i].isActive)
  {
    match CompanyProductOf(links, entity, product)
    case Err(e) => Err(e)
    case Ok(None) => Ok(false)
    case Ok(Some(k)) =>
      OnlyLinkFound(links, entity.value, product);
      Ok(links[k].isActive)
  }

  /** When exactly one row links the company and the product, the lookup
      finds that row. */
  lemma {:induction false} OnlyLinkFound(links: seq<CompanyProduct>, c: EntityId, p: nat)
    requires CountLinks(links, c, p) == 1
    ensures forall i :: 0 <= i < |links| && links[i].company == c && links[i].product == p ==> FindLink(links, c, p) == Some(i)
  {
    if links[0].company == c && links[0].product == p {
      forall i | 1 <= i < |links| && links[i].company == c && links[i].product == p
        ensures false
      {
        LinkCounted(links[1..], i - 1, c, p);
      }
    } else {
      OnlyLinkFound(links[1..], c, p);
    }
  }

  /** ProductFilterSet.qs: `companies=entity` keeps the products linked to
      the current entity; with no entity it becomes `companies=None`, which
      keeps the products linked to no company at all. */
  function ProductFilter(links: seq<CompanyProduct>, qs: set<nat>, entity: Option<EntityId>): (r: set<nat>)
    ensures entity.Some? ==> forall p :: p in r <==> p in qs && exists i :: 0 <= i < |links| && links[i].product == p
                                                                      && links[i].company == entity.value
    ensures entity.None? ==> forall p :: p in r <==> p in qs && forall i :: 0 <= i < |links| ==> links[i].product != p
  {
    if entity.Some? then set p | p in qs && exists i :: 0 <= i < |links| && links[i].product == p && links[i].company == entity.value
    else set p | p in qs && forall i :: 0 <= i < |links| ==> links[i].product != p
  }

  /** A product listed for a company has is_active from that company's
      row. */
  lemma ListedProductHasRow(links: seq<CompanyProduct>, qs: set<nat>, c: EntityId, p: nat)
    requires p in ProductFilter(links, qs, Some(c))
    ensures CountLinks(links, c, p) >= 1
    ensures CompanyProductOf(links, Some(c), p) != Ok(None)
  {
    var i :| 0 <= i < |links| && links[i].product == p && links[i].company == c;
    LinkCounted(links, i, c, p);
  }

  lemma {:induction false} LinkCounted(links: seq<CompanyProduct>, i: nat, c: EntityId, p: nat)
    requires i < |links| && links[i].company == c && links[i].product == p
    ensures CountLinks(links, c, p) >= 1
  {
    if i > 0 {
      LinkCounted(links[1..], i - 1, c, p);
    }
  }

  /** Form.products: the products of the rows the form is attached to. */
  function FormProducts(links: seq<CompanyProduct>, form: nat): (r: set<nat>)
    ensures forall p :: p in r <==> exists i :: 0 <= i < |links| && form in links[i].forms && links[i].product == p
  {
    set i | 0 <= i < |links| && form in links[i].forms :: links[i].product
  }
}

=== FILE: countries.dfy ===
/** The tables utilities/country_data/__init__.py derives from the country
    file: the file's object of countries, in file order, is the input. */
module CountryData {

  /** One country of the file: its dial code (without "+") and the names
      of its sub-divisions, in file order. */
  datatype Country = Country(name: string, dialCode: string, subDivisions: seq<string>)

  /** The file is a JSON object keyed by country name: no name twice. */
  predicate NamesUnique(cs: seq<Country>)
  {
    forall i, j :: 0 <= i < j < |cs| ==> cs[i].name != cs[j].name
  }

  /** COUNTRY_LIST: the names, in file order. */
  function CountryList(cs: seq<Country>): (r: seq<string>)
    ensures |r| == |cs|
    ensures forall i :: 0 <= i < |cs| ==> r[i] == cs[i].name
  {
    if cs == [] then [] else [cs[0].name] + CountryList(cs[1..])
  }

  /** COUNTRY_WITH_PROVINCE: each country's sub-division names. */
  function CountryWithProvince(cs: seq<Country>): (m: map<string, seq<string>>)
    requires NamesUnique(cs)
    ensures m.Keys == set i | 0 <= i < |cs| :: cs[i].name
    ensures forall i :: 0 <= i < |cs| ==> m[cs[i].name] == cs[i].subDivisions
  {
    map i | 0 <= i < |cs| :: cs[i].name := cs[i].subDivisions
  }

  /** DIAL_CODES: "+" and each country's code, in file order (repeats
      kept). */
  function DialCodes(cs: seq<Country>): (r: seq<string>)
    ensures |r| == |cs|
    ensures forall i :: 0 <= i < |cs| ==> r[i] == "+" + cs[i].dialCode
  {
    if cs == [] then [] else ["+" + cs[0].dialCode] + DialCodes(cs[1..])
  }

  /** The "Name (+code)" label of a country. */
  function DialLabel(c: Country): string
  {
    c.name + " (+" + c.dialCode + ")"
  }

  /** DIAL_CODE_NAME_MAP: the dictionary comprehension assigns "+code" to
      the label of each country in turn, so a later country overwrites an
      earlier one with the same code. */
  function DialCodeNameMap(cs: seq<Country>): (m: map<string, string>)
    ensures m.Keys == set i | 0 <= i < |cs| :: "+" + cs[i].dialCode
  {
    if cs == [] then map[]
    else
      var init := cs[..|cs| - 1];
      var last := cs[|cs| - 1];
      var m := DialCodeNameMap(init);
      assert (set i | 0 <= i < |cs| :: "+" + cs[i].dialCode)
          == (set i | 0 <= i < |init| :: "+" + init[i].dialCode) + {"+" + last.dialCode};
      m["+" + last.dialCode := DialLabel(last)]
  }

  /** Each code is labelled with the last country in the file that has
      it. */
  lemma {:induction false} LastCountryWins(cs: seq<Country>, i: nat)
    requires i < |cs|
    requires forall j :: i < j < |cs| ==> cs[j].dialCode != cs[i].dialCode
    ensures DialCodeNameMap(cs)["+" + cs[i].dialCode] == DialLabel(cs[i])
  {
    var init := cs[..|cs| - 1];
    if i < |cs| - 1 {
      assert "+" + cs[|cs| - 1].dialCode != "+" + cs[i].dialCode by {
        assert cs[|cs| - 1].dialCode != cs[i].dialCode;
        assert ("+" + cs[|cs| - 1].dialCode)[1..] == cs[|cs| - 1].dialCode;
        assert ("+" + cs[i].dialCode)[1..] == cs[i].dialCode;
      }
      LastCountryWins(init, i);
    }
  }

  /** Two countries sharing a code leave one entry, with the label of the
      later one. */
  lemma SharedCodeOverwritten(a: Country, b: Country)
    requires a.dialCode == b.dialCode && a.name != b.name
    ensures DialCodeNameMap([a, b]) == map["+" + b.dialCode := DialLabel(b)]
  {
    assert [a, b][..1] == [a];
    assert [a][..0] == [];
  }
}

=== FILE: db_models.dfy ===
/** The shared model behaviour of base/db/models.py and base/db/utilities.py:
    creator/updater tracking on save, the key filter `clean_dict`, the
    display number of numbered models, and upload paths. The current user is
    the value get_current_user gives; the primary key the database assigns
    and the random path segment are inputs. */
module DbModels {
  import opened Wrappers
  import opened JsonValues
  import opened Failures
  import opened Text
  import opened RequestViews

  /** The tracking columns of AbstractBaseModel. `newInstance` is the
      attribute save leaves on the object. */
  class TrackedRow {
    var pk: Option<nat>
    var creator: Option<nat>
    var updater: Option<nat>
    var newInstance: bool

    /** An unsaved object, possibly with a creator already set. */
    constructor (creator: Option<nat>)
      ensures pk.None? && this.creator == creator && updater.None? && !newInstance
    {
      pk := None;
      this.creator := creator;
      updater := None;
      newInstance := false;
    }

    /** AbstractBaseModel.save: with a current user, a new object without a
        creator gets that user as creator, and every save records the user
        as updater; without one, neither column changes. */
    method Save(current: Option<nat>, newPk: nat)
      modifies this
      ensures newInstance <==> old(pk).None?
      ensures pk == if old(pk).None? then Some(newPk) else old(pk)
      ensures creator == if current.Some? && old(pk).None? && old(creator).None? then current else old(creator)
      ensures updater == if current.Some? then current else old(updater)
    {
      if current.Some? {
        if pk.None? && creator.None? {
          creator := current;
        }
        updater := current;
      }
      newInstance := pk.None?;
      if pk.None? {
        pk := Some(newPk);
      }
    }
  }

  /** The display number of a numbered row: its id plus 1000, in decimal. */
  function DisplayNumber(id: nat): (s: string)
    ensures |s| >= 4 && forall i :: 0 <= i < |s| ==> IsDigitChar(s[i])
    ensures DecimalValue(s) == id + 1000
  {
    FourDigits(id + 1000);
    DecimalRoundTrip(id + 1000);
    NatToString(id + 1000)
  }

  /** A row of an AbstractNumberedModel; `writes` counts database writes. */
  class NumberedRow {
    var id: Option<nat>
    var number: Option<string>
    var writes: nat

    constructor (number: Option<string>)
      ensures id.None? && this.number == number && writes == 0
    {
      id := None;
      this.number := number;
      writes := 0;
    }

    /** AbstractNumberedModel.save: the row is saved, and when it has no
        number yet it gets DisplayNumber(id) and is saved a second time. */
    method Save(newPk: nat)
      modifies this
      ensures id.Some? && id == if old(id).None? then Some(newPk) else old(id)
      ensures old(number).None? || old(number) == Some("") ==>
                number == Some(DisplayNumber(id.value)) && writes == old(writes) + 2
      ensures old(number).Some? && old(number) != Some("") ==>
                number == old(number) && writes == old(writes) + 1
    {
      if id.None? {
        id := Some(newPk);
      }
      writes := writes + 1;
      if number.None? || number == Some("") {
        number := Some(DisplayNumber(id.value));
        writes := writes + 1;
      }
    }
  }

  /** The keys clean_dict keeps: model fields and extra keys, with an
      "image" entry kept only when truthy. */
  function Cleaned(data: map<string, Json>, needed: set<string>): map<string, Json>
  {
    map k | k in data && k in needed && (k != "image" || Truthy(data[k])) :: data[k]
  }

  /** The caller's dictionary after clean_dict: the image was popped and is
      put back only when truthy. */
  function DataAfterClean(data: map<string, Json>): (r: map<string, Json>)
    ensures "image" in data && !Truthy(data["image"]) ==> r == data - {"image"}
    ensures !("image" in data && !Truthy(data["image"])) ==> r == data
  {
    if "image" in data && !Truthy(data["image"]) then data - {"image"} else data
  }

  /** clean_dict: pops the image, copies the rest, pops every key in the
      symmetric difference of the needed keys and the copy's keys, and
      restores a truthy image. Returns the cleaned copy and the caller's
      dictionary as it is left. */
  method CleanDict(data: map<string, Json>, fieldNames: set<string>, extraKeys: set<string>)
    returns (n: map<string, Json>, dataAfter: map<string, Json>)
    ensures n == Cleaned(data, fieldNames + extraKeys)
    ensures dataAfter == DataAfterClean(data)
  {
    var image := if "image" in data then data["image"] else JNull;
    var rest := data - {"image"};
    n := rest;
    var needed := fieldNames + extraKeys;
    var toRemove := (needed - rest.Keys) + (rest.Keys - needed);
    var remaining := toRemove;
    while remaining != {}
      invariant remaining <= toRemove
      invariant n == map k | k in rest && !(k in toRemove && k !in remaining) :: rest[k]
      decreases remaining
    {
      var key :| key in remaining;
      n := n - {key};
      remaining := remaining - {key};
    }
    dataAfter := rest;
    if Truthy(image) {
      dataAfter := dataAfter["image" := image];
      if "image" in needed {
        n := n["image" := image];
      }
    }
  }

  /** Cleaning twice is cleaning once. */
  lemma CleanedIdempotent(data: map<string, Json>, needed: set<string>)
    ensures Cleaned(Cleaned(data, needed), needed) == Cleaned(data, needed)
  {
  }

  /** get_file_path: the lowered class name, "/", the id, "_", ten random
      characters, ":" and the uploaded file's name. The file field calls it
      before the row is first written, when an unsaved instance has no id
      (None) and `instance.id.id` raises AttributeError. */
  function FilePath(className: string, id: Option<nat>, random10: string, filename: string): (r: Result<string, Failure>)
    requires |random10| == 10
    ensures id.None? <==> r == Err(Uncaught("AttributeError"))
    ensures id.Some? ==> r.Ok?
    ensures id.Some? ==>
              var p := r.value;
              var c := |className|;
              var d := |NatToString(id.value)|;
              && |p| == c + 1 + d + 1 + 10 + 1 + |filename|
              && p[..c] == Lowered(className) && p[c] == '/'
              && p[c + 1..c + 1 + d] == NatToString(id.value) && p[c + 1 + d] == '_'
              && p[c + 2 + d..c + 12 + d] == random10 && p[c + 12 + d] == ':'
              && p[c + 13 + d..] == filename
  {
    if id.None? then Err(Uncaught("AttributeError"))
    else Ok(Lowered(className) + "/" + NatToString(id.value) + "_" + random10 + ":" + filename)
  }

  /** The id can be read back from the path of a saved instance. */
  lemma FilePathId(className: string, id: nat, random10: string, filename: string)
    requires |random10| == 10
    ensures var c := |className|;
            var p := FilePath(className, Some(id), random10, filename).value;
            var digits := p[c + 1..c + 1 + |NatToString(id)|];
            (forall i :: 0 <= i < |digits| ==> IsDigitChar(digits[i])) && DecimalValue(digits) == id
  {
    DecimalRoundTrip(id);
  }
}

=== FILE: drf_fields.dfy ===
/** The serializer fields of base/drf/fields.py. Decimals are Python
    Decimal values (sign, coefficient, exponent, or a NaN or infinity);
    parsing text into one, the framework's final precision check, and the
    phone-number library are parameters. */
module DrfFields {
  import opened Wrappers
  import opened Failures
  import opened JsonValues
  import opened Handshake
  import opened UtilityFunctions

  /** A Python Decimal: (-1)^negative * coefficient * 10^exponent, NaN,
      or an infinity. */
  datatype Decimal = Finite(negative: bool, coefficient: nat, exponent: int) | NaN | Infinity(negative: bool)

  /** The default decimal context: 28 significant digits. */
  const PRECISION: nat := 28

  /** coefficient / 10^k rounded to the nearest integer, ties to even (the
      default context's ROUND_HALF_EVEN). */
  function RoundHalfEven(c: nat, k: nat): (q: nat)
    ensures 2 * (c - q * Pow10(k)) <= Pow10(k) && 2 * (q * Pow10(k) - c) <= Pow10(k)
    ensures 2 * (c - q * Pow10(k)) == Pow10(k) || 2 * (q * Pow10(k) - c) == Pow10(k) ==> q % 2 == 0
  {
    var p := Pow10(k);
    var q := c / p;
    var rem := c % p;
    assert c == q * p + rem;
    assert (q + 1) * p == q * p + p;
    if 2 * rem > p then q + 1
    else if 2 * rem < p then q
    else if q % 2 == 0 then q
    else q + 1
  }

  /** `value.quantize(Decimal(10) ** -places)` on a finite value: the same
      value with exactly `places` decimal places, rounded half to even when
      digits are dropped; a result needing more than 28 digits raises
      InvalidOperation. */
  function Quantize(d: Decimal, places: nat): (r: Result<Decimal, Failure>)
    requires d.Finite?
    ensures r.Ok? ==> r.value.Finite? && r.value.exponent == -(places as int) && r.value.negative == d.negative
                      && r.value.coefficient < Pow10(PRECISION)
    ensures r.Err? ==> r.error == Uncaught("InvalidOperation")
    ensures r.Ok? && d.exponent >= -(places as int) ==> r.value.coefficient == d.coefficient * Pow10(d.exponent + places)
    ensures r.Ok? && d.exponent < -(places as int) ==>
              var k: nat := -(places as int) - d.exponent;
              && 2 * (d.coefficient - r.value.coefficient * Pow10(k)) <= Pow10(k)
              && 2 * (r.value.coefficient * Pow10(k) - d.coefficient) <= Pow10(k)
  {
    var c: nat :=
      if d.exponent >= -(places as int) then d.coefficient * Pow10(d.exponent + places)
      else RoundHalfEven(d.coefficient, -(places as int) - d.exponent);
    if c >= Pow10(PRECISION) then Err(Uncaught("InvalidOperation"))
    else Ok(Finite(d.negative, c, -(places as int)))
  }

  /** Quantizing twice to the same places is quantizing once. */
  lemma QuantizeIdempotent(d: Decimal, places: nat)
    requires d.Finite? && Quantize(d, places).Ok?
    ensures Quantize(Quantize(d, places).value, places) == Quantize(d, places)
  {
    var q := Quantize(d, places).value;
    assert Pow10(q.exponent + places) == 1;
  }

  /** round_decimal: None stays None; a NaN quantizes to itself and an
      infinity cannot be quantized. */
  function RoundDecimal(value: Option<Decimal>, places: nat): (r: Result<Option<Decimal>, Failure>)
    ensures value.None? ==> r == Ok(None)
    ensures value.Some? && value.value.Finite? ==>
              (r.Ok? <==> Quantize(value.value, places).Ok?)
              && (r.Ok? ==> r.value == Some(Quantize(value.value, places).value))
    ensures r.Ok? && value.Some? && value.value.Finite? ==> r.value.value.exponent == -(places as int)
    ensures value == Some(NaN) ==> r == Ok(Some(NaN))
    ensures value.Some? && value.value.Infinity? ==> r == Err(Uncaught("InvalidOperation"))
  {
    match value
    case None => Ok(None)
    case Some(NaN) => Ok(Some(NaN))
    case Some(Infinity(_)) => Err(Uncaught("InvalidOperation"))
    case Some(d) =>
      match Quantize(d, places)
      case Err(e) => Err(e)
      case Ok(q) => Ok(Some(q))
  }

  /** The framework's MAX_STRING_LENGTH and its two messages. */
  const MAX_STRING_LENGTH: nat := 1000
  const TOO_LARGE: Failure := ValidationError("String value too large.")
  const NOT_A_NUMBER: Failure := ValidationError("A valid number is required.")

  /** RoundingDecimalField.to_internal_value: the text is stripped (and,
      when localized, its separators normalised), then refused when longer
      than MAX_STRING_LENGTH, when it does not parse, and when it is NaN or
      an infinity; the value is rounded to the field's places and handed
      to the framework's precision check and quantization, `finish`. */
  function RoundingToInternal(data: string, localize: bool, sanitize: string -> string, parse: string -> Option<Decimal>,
                              places: nat, finish: Decimal -> Result<Decimal, Failure>): (r: Result<Decimal, Failure>)
    ensures var s := if localize then sanitize(Trim(data)) else Trim(data);
            && (|s| > MAX_STRING_LENGTH ==> r == Err(TOO_LARGE))
            && (|s| <= MAX_STRING_LENGTH && (parse(s).None? || !parse(s).value.Finite?) ==> r == Err(NOT_A_NUMBER))
            && (r.Ok? ==> |s| <= MAX_STRING_LENGTH && parse(s).Some? && parse(s).value.Finite?
                          && Quantize(parse(s).value, places).Ok?
                          && r == finish(Quantize(parse(s).value, places).value))
  {
    var s := if localize then sanitize(Trim(data)) else Trim(data);
    if |s| > MAX_STRING_LENGTH then Err(TOO_LARGE)
    else match parse(s)
      case None => Err(NOT_A_NUMBER)
      case Some(v) =>
        if v.NaN? || v.Infinity? then Err(NOT_A_NUMBER)
        else match RoundDecimal(Some(v), places)
          case Err(e) => Err(e)
          case Ok(rounded) => finish(rounded.value)
  }

  /** RemovableImageField.to_internal_value: empty input is kept as it is
      (so an image can be removed); anything else goes to the file field. */
  function RemovableImage(data: Json, fileField: Json -> Result<Json, Failure>): (r: Result<Json, Failure>)
    ensures !Truthy(data) ==> r == Ok(data)
    ensures Truthy(data) ==> r == fileField(data)
  {
    if !Truthy(data) then Ok(data) else fileField(data)
  }

  /** A related value: something falsy, a Hashid, or a model instance with
      its primary key. */
  datatype Related = Falsy | HashidValue(id: nat, text: string) | Instance(pk: Json)

  /** single_to_representation: None for a falsy value, a Hashid as it is,
      otherwise the primary key. */
  function SingleToRepresentation(v: Related): (j: Json)
    ensures v.Falsy? <==> j == JNull && !(v.Instance? && v.pk == JNull)
    ensures v.HashidValue? ==> j == JHashid(v.id, v.text)
    ensures v.Instance? ==> j == v.pk
  {
    match v
    case Falsy => JNull
    case HashidValue(id, text) => JHashid(id, text)
    case Instance(pk) => pk
  }

  /** The list a many=True field renders: each element represented on its
      own, in order. */
  function ManyToRepresentation(vs: seq<Related>): (r: seq<Json>)
    ensures |r| == |vs|
    ensures forall i :: 0 <= i < |vs| ==> r[i] == SingleToRepresentation(vs[i])
  {
    if vs == [] then [] else [SingleToRepresentation(vs[0])] + ManyToRepresentation(vs[1..])
  }

  /** The value a SerializableRelatedField renders: one related value or a
      list of them. */
  datatype RelatedInput = One(v: Related) | Many(vs: seq<Related>)

  /** to_representation: a configured serializer renders the value; else a
      many field renders its list element by element and a single field
      its one value. Iterating a single value fails, and a non-empty list
      has no primary key. */
  function ToRepresentation(serializer: Option<(RelatedInput, bool) -> Json>, many: bool, value: RelatedInput)
    : (r: Result<Json, Failure>)
    ensures serializer.Some? ==> r == Ok(serializer.value(value, many))
    ensures serializer.None? && many && value.Many? ==> r == Ok(JList(ManyToRepresentation(value.vs)))
    ensures serializer.None? && !many && value.One? ==> r == Ok(SingleToRepresentation(value.v))
    ensures serializer.None? && many && value.One? ==> r == Err(Uncaught("TypeError"))
    ensures serializer.None? && !many && value.Many? ==> (r.Ok? <==> value.vs == []) && (r.Ok? ==> r.value == JNull)
  {
    if serializer.Some? then Ok(serializer.value(value, many))
    else if many then
      match value
      case Many(vs) => Ok(JList(ManyToRepresentation(vs)))
      case One(_) => Err(Uncaught("TypeError"))
    else
      match value
      case One(v) => Ok(SingleToRepresentation(v))
      case Many(vs) => if vs == [] then Ok(JNull) else Err(Uncaught("AttributeError"))
  }

  /** The errors PhoneNumberField.to_internal_value swallows. */
  predicate IsValidationError(f: Failure)
  {
    f.ValidationError? || f.FieldError? || f.FieldErrors?
  }

  /** PhoneNumberField.to_internal_value: the library's value, or None
      where the library reports invalid input; other errors pass. */
  function PhoneToInternal(data: Json, parse: Json -> Result<Json, Failure>): (r: Result<Json, Failure>)
    ensures parse(data).Ok? ==> r == parse(data)
    ensures parse(data).Err? && IsValidationError(parse(data).error) ==> r == Ok(JNull)
    ensures parse(data).Err? && !IsValidationError(parse(data).error) ==> r == parse(data)
    ensures r.Err? ==> !IsValidationError(r.error)
  {
    match parse(data)
    case Ok(v) => Ok(v)
    case Err(e) => if IsValidationError(e) then Ok(JNull) else Err(e)
  }

  /** A stored phone number: none, text, or a parsed number with its
      international form. */
  datatype PhoneValue = NoPhone | PhoneText(text: string) | PhoneObject(international: string)

  /** PhoneNumberField.to_representation: empty values and text that does
      not parse give None; otherwise the international form. */
  function PhoneToRepresentation(v: PhoneValue, fromString: string -> Option<string>): (r: Option<string>)
    ensures v.NoPhone? || v == PhoneText("") ==> r.None?
    ensures v.PhoneText? && v.text != "" ==> r == fromString(v.text)
    ensures v.PhoneObject? ==> r == Some(v.international)
  {
    match v
    case NoPhone => None
    case PhoneText(t) => if t == "" then None else fromString(t)
    case PhoneObject(i) => Some(i)
  }

  /** Empty input never reaches the file field, whatever that field does,
      and with a file field that keeps its input the field keeps any
      input. */
  lemma RemovableImageKeepsEmpty(data: Json, f: Json -> Result<Json, Failure>, g: Json -> Result<Json, Failure>)
    ensures !Truthy(data) ==> RemovableImage(data, f) == RemovableImage(data, g) == Ok(data)
    ensures (forall x :: f(x) == Ok(x)) ==> RemovableImage(data, f) == Ok(data)
  {
  }

  /** Without a serializer, a many field renders the list that the single
      field would render element by element. */
  lemma ManyIsSingleEach(vs: seq<Related>)
    ensures var r := ToRepresentation(None, true, Many(vs));
            r.Ok? && r.value.JList? && |r.value.items| == |vs|
            && forall i :: 0 <= i < |vs| ==> Ok(r.value.items[i]) == ToRepresentation(None, false, One(vs[i]))
  {
  }

  /** The field fails exactly when the library fails with an error that is
      not a validation error. */
  lemma PhoneToInternalFailsIff(data: Json, parse: Json -> Result<Json, Failure>)
    ensures PhoneToInternal(data, parse).Err? <==> parse(data).Err? && !IsValidationError(parse(data).error)
  {
  }

  /** A number stored as a parsed object renders like its international
      text, when the library reads that text back as the same number. */
  lemma PhoneObjectRendersAsText(i: string, fromString: string -> Option<string>)
    requires i != "" && fromString(i) == Some(i)
    ensures PhoneToRepresentation(PhoneObject(i), fromString) == PhoneToRepresentation(PhoneText(i), fromString)
  {
  }
}

=== FILE: entities.dfy ===
/** Supply-chain entities (companies and farmers share one `Entity` row, as in
    v1/supply_chains/models/base_models.py) and company memberships
    (CompanyMember in v1/supply_chains/models/company_models.py), with the
    enumerations of v1/supply_chains/constants.py. */
module Entities {
  import opened Wrappers

  type EntityId = nat
  type UserRef = nat

  datatype MemberType = MemberSuperAdmin | MemberAdmin | MemberReporter
  {
    function Label(): (s: string)
      ensures |s| > 0
    {
      match this
      case MemberSuperAdmin => "SUPER_ADMIN"
      case MemberAdmin => "ADMIN"
      case MemberReporter => "REPORTER"
    }

    /** The human-readable label of the choice. */
    function DisplayName(): string
    {
      match this
      case MemberSuperAdmin => "Super Admin"
      case MemberAdmin => "Admin"
      case MemberReporter => "Reporter"
    }
  }

  /** The concrete model behind an Entity row: a Company, a Farmer, or
      neither (a bare row). */
  datatype EntityKind =
    | CompanyEntity(companyName: string, allowMultipleLogin: bool)
    | FarmerEntity(firstName: string, lastName: Option<string>)
    | BareEntity

  /** The columns Entity declares. Its docstring also lists status,
      invited_by and joined_on, but no such field is declared, so writing
      them sets plain attributes that a save does not store. */
  datatype Entity = Entity(
    kind: EntityKind,
    buyer: Option<EntityId>,
    entityCard: Option<nat>)

  /** CompanyMember: (company, user) is unique; `kind` defaults to ADMIN and
      `isActive` to true. */
  datatype Member = Member(company: EntityId, user: UserRef, kind: MemberType, isActive: bool)

  function NewMember(company: EntityId, user: UserRef): (m: Member)
    ensures m.company == company && m.user == user
    ensures m.kind == MemberAdmin && m.isActive
  {
    Member(company, user, MemberAdmin, true)
  }

  /** The text an f-string gives a farmer's last name: None prints as
      "None". */
  function LastNameText(lastName: Option<string>): string
  {
    if lastName.Some? then lastName.value else "None"
  }

  /** The farmer's display name (Farmer.name): first name, a space, then the
      last name as an f-string renders it. */
  function FarmerName(firstName: string, lastName: Option<string>): (r: string)
    ensures |r| == |firstName| + 1 + |LastNameText(lastName)|
    ensures r[..|firstName|] == firstName && r[|firstName|] == ' '
    ensures r[|firstName| + 1..] == LastNameText(lastName)
  {
    firstName + " " + LastNameText(lastName)
  }

  /** Entity.name: the company's name, else the farmer's name, else None. */
  function Name(e: Entity): (r: Option<string>)
    ensures e.kind.CompanyEntity? ==> r == Some(e.kind.companyName)
    ensures e.kind.FarmerEntity? ==> r.Some? && |r.value| > |e.kind.firstName|
    ensures r.None? <==> e.kind.BareEntity?
  {
    match e.kind
    case CompanyEntity(n, _) => Some(n)
    case FarmerEntity(f, l) => Some(FarmerName(f, l))
    case BareEntity => None
  }

  /** The unique_together ("company", "user") constraint. */
  ghost predicate MembersUnique(ms: seq<Member>)
  {
    forall i, j :: 0 <= i < j < |ms| ==>
      ms[i].company != ms[j].company || ms[i].user != ms[j].user
  }

  /** The companies a user belongs to (`user.entities.all()`), whether or
      not the membership is active. The sequence is in membership order,
      which the source never relies on: see FirstEntity. */
  function EntitiesOf(ms: seq<Member>, u: UserRef): (es: seq<EntityId>)
    ensures forall e :: e in es <==> exists m :: m in ms && m.user == u && m.company == e
  {
    if ms == [] then []
    else
      var rest := EntitiesOf(ms[1..], u);
      assert forall m :: m in ms <==> m == ms[0] || m in ms[1..];
      if ms[0].user == u then [ms[0].company] + rest else rest
  }

  /** `user.entities.all().first()`: Company declares no ordering of its own
      (the abstract AbstractCompanyModel comes before Entity, so Entity's
      ordering is not inherited), and `.first()` on an unordered queryset
      orders by primary key, so the first entity is the lowest id. */
  function FirstEntity(es: seq<EntityId>): (r: Option<EntityId>)
    ensures r.Some? <==> |es| > 0
    ensures r.Some? ==> r.value in es && forall e :: e in es ==> r.value <= e
  {
    if es == [] then None
    else
      var rest := FirstEntity(es[1..]);
      assert forall e :: e in es <==> e == es[0] || e in es[1..];
      if rest.Some? && rest.value < es[0] then rest else Some(es[0])
  }

  /** The first entity depends only on which entities there are, not on the
      order the memberships were made in. */
  lemma FirstEntityIgnoresOrder(es1: seq<EntityId>, es2: seq<EntityId>)
    requires forall e :: e in es1 <==> e in es2
    ensures FirstEntity(es1) == FirstEntity(es2)
  {
    var r1, r2 := FirstEntity(es1), FirstEntity(es2);
    if r1.Some? {
      assert r1.value in es2 && r2.value in es1;
    }
  }

  /** `CompanyMember.objects.get(company=c, user=u, is_active=True)`:
      the active membership of u in c, if any. */
  function ActiveMembership(ms: seq<Member>, c: EntityId, u: UserRef): (r: Option<Member>)
    ensures r.Some? ==> r.value in ms && r.value.company == c && r.value.user == u && r.value.isActive
    ensures r.None? ==> forall m :: m in ms && m.company == c && m.user == u ==> !m.isActive
  {
    if ms == [] then None
    else if ms[0].company == c && ms[0].user == u && ms[0].isActive then Some(ms[0])
    else
      var r := ActiveMembership(ms[1..], c, u);
      assert forall m :: m in ms <==> m == ms[0] || m in ms[1..];
      r
  }
}

=== FILE: entity_cards.dfy ===
/** Entity cards: EntityCard.save with set_default/remove_default
    (v1/supply_chains/models/base_models.py), the deactivation of
    v1/supply_chains/managers.py, EntityCardSerializer.create
    (v1/supply_chains/serializers.py) and EntityCardFilterSet
    (v1/supply_chains/filters.py). An EntityCard row's id is its position;
    an entity's `entityCard` holds such an id. None of these operations
    runs in a database transaction, so a failure keeps what was written
    before it. */
module EntityCards {
  import opened Wrappers
  import opened Failures
  import opened Entities
  import opened Catalogs

  /** An EntityCard row: a ConnectCard given to an entity. */
  datatype EntityCard = EntityCard(card: nat, entity: EntityId, isActive: bool)

  /** The "unique_entity_card" constraint on (card, entity). */
  predicate PairsUnique(cs: seq<EntityCard>)
  {
    forall i, j :: 0 <= i < j < |cs| ==> cs[i].card != cs[j].card || cs[i].entity != cs[j].entity
  }

  /** At most one active row per ConnectCard. */
  predicate OneActivePerCard(cs: seq<EntityCard>)
  {
    forall i, j :: 0 <= i < j < |cs| && cs[i].card == cs[j].card ==> !cs[i].isActive || !cs[j].isActive
  }

  /** The rows after deactivate_other_entities(card) has handled the first n
      of them: those with the card are inactive. */
  function DeactivatedUpTo(cs: seq<EntityCard>, card: nat, n: nat): (r: seq<EntityCard>)
    requires n <= |cs|
    ensures |r| == |cs|
    ensures forall i :: 0 <= i < |cs| ==>
              r[i] == if i < n && cs[i].card == card then cs[i].(isActive := false) else cs[i]
  {
    seq(|cs|, i requires 0 <= i < |cs| => if i < n && cs[i].card == card then cs[i].(isActive := false) else cs[i])
  }

  /** Whether one of the first n rows gives the card to the entity. */
  predicate HoldsCardUpTo(cs: seq<EntityCard>, card: nat, e: EntityId, n: nat)
  {
    exists i :: 0 <= i < n && i < |cs| && cs[i].card == card && cs[i].entity == e
  }

  /** The entities after the first n rows with the card were saved
      inactive: each such row's remove_default cleared its entity's default
      card, whatever that default was. */
  function ClearedUpTo(es: map<EntityId, Entity>, cs: seq<EntityCard>, card: nat, n: nat): (r: map<EntityId, Entity>)
    ensures r.Keys == es.Keys
    ensures forall e :: e in es ==>
              r[e] == if HoldsCardUpTo(cs, card, e, n) then es[e].(entityCard := None) else es[e]
  {
    map e | e in es :: if HoldsCardUpTo(cs, card, e, n) then es[e].(entityCard := None) else es[e]
  }

  /** Whether saving row as row k (or as a new row) breaks the unique
      constraint. */
  predicate Conflicts(cs: seq<EntityCard>, k: Option<nat>, row: EntityCard)
  {
    exists j :: 0 <= j < |cs| && k != Some(j) && cs[j].card == row.card && cs[j].entity == row.entity
  }

  /** The store's invariant on table values: rows belong to stored
      entities; pairs are unique and each card is active for at most one
      entity. */
  predicate TablesValid(cs: seq<EntityCard>, es: map<EntityId, Entity>)
  {
    && (forall i :: 0 <= i < |cs| ==> cs[i].entity in es)
    && PairsUnique(cs)
    && OneActivePerCard(cs)
  }

  /** Deactivating a row and clearing its entity's default card keeps the
      invariant. */
  lemma DeactivateKeepsTablesValid(cs: seq<EntityCard>, es: map<EntityId, Entity>, i: nat)
    requires i < |cs| && TablesValid(cs, es)
    ensures TablesValid(cs[i := cs[i].(isActive := false)], es[cs[i].entity := es[cs[i].entity].(entityCard := None)])
  {
    DeactivateKeepsValid(cs, i);
  }

  /** The EntityCard and Entity tables as values. */
  datatype CardState = CardState(cards: seq<EntityCard>, entities: map<EntityId, Entity>)

  /** What EntityCard.save of row as row k (None: a new row) leaves: an
      active row first deactivates every row of its card, clearing the
      default card of each entity holding one; a conflicting pair is then
      refused, keeping the deactivations; otherwise the row is written and
      its entity's default card set (active) or cleared (inactive). */
  function SaveResult(s: CardState, k: Option<nat>, row: EntityCard): (r: (Result<nat, Failure>, CardState))
    requires row.entity in s.entities && (k.Some? ==> k.value < |s.cards|)
    ensures r.1.entities.Keys == s.entities.Keys
    ensures |r.1.cards| == |s.cards| + (if r.0.Ok? && k.None? then 1 else 0)
    ensures r.0.Err? <==> Conflicts(s.cards, k, row)
    ensures r.0.Err? ==> r.0.error == IntegrityError("unique_entity_card")
    ensures r.0.Ok? ==> r.0.value < |r.1.cards| && r.1.cards[r.0.value] == row
                        && r.1.entities[row.entity].entityCard == (if row.isActive then Some(r.0.value) else None)
  {
    var c1 := if row.isActive then DeactivatedUpTo(s.cards, row.card, |s.cards|) else s.cards;
    var e1 := if row.isActive then ClearedUpTo(s.entities, s.cards, row.card, |s.cards|) else s.entities;
    var id := if k.Some? then k.value else |s.cards|;
    if Conflicts(s.cards, k, row) then (Err(IntegrityError("unique_entity_card")), CardState(c1, e1))
    else (Ok(id), CardState(if k.Some? then c1[k.value := row] else c1 + [row],
                            e1[row.entity := e1[row.entity].(entityCard := if row.isActive then Some(id) else None)]))
  }

  /** The EntityCard and Entity tables. */
  class CardStore {
    var cards: seq<EntityCard>
    var entities: map<EntityId, Entity>

    /** Rows belong to stored entities; pairs are unique and each card is
        active for at most one entity. */
    ghost predicate Valid()
      reads this
    {
      && (forall i :: 0 <= i < |cards| ==> cards[i].entity in entities)
      && PairsUnique(cards)
      && OneActivePerCard(cards)
    }

    constructor (entities0: map<EntityId, Entity>)
      ensures Valid() && cards == [] && entities == entities0
    {
      cards, entities := [], entities0;
    }

    /** deactivate_other_entities: every row with the card is saved
        inactive, one at a time; each of those saves runs remove_default on
        its entity. */
    method DeactivateOtherEntities(card: nat)
      requires Valid()
      modifies this`cards, this`entities
      ensures Valid()
      ensures cards == DeactivatedUpTo(old(cards), card, |old(cards)|)
      ensures entities == ClearedUpTo(old(entities), old(cards), card, |old(cards)|)
      ensures forall i :: 0 <= i < |cards| && cards[i].card == card ==> !cards[i].isActive
    {
      var i := 0;
      while i < |cards|
        invariant 0 <= i <= |cards| && |cards| == |old(cards)|
        invariant cards == DeactivatedUpTo(old(cards), card, i)
        invariant entities == ClearedUpTo(old(entities), old(cards), card, i)
        invariant TablesValid(cards, entities)
      {
        DeactivateStep(old(cards), old(entities), card, i);
        if cards[i].card == card {
          var e := cards[i].entity;
          DeactivateKeepsTablesValid(cards, entities, i);
          cards := cards[i := cards[i].(isActive := false)];
          entities := entities[e := entities[e].(entityCard := None)];
        }
        i := i + 1;
      }
    }

    /** EntityCard.save for row k (None: a new row). An active row first
        deactivates every row of its card; then the row is written, which
        the unique constraint may refuse (the deactivations stay); then
        set_default points the entity at the row, or remove_default clears
        the entity's default card. The result is the row's id. */
    method Save(k: Option<nat>, row: EntityCard) returns (r: Result<nat, Failure>)
      requires Valid() && row.entity in entities
      requires k.Some? ==> k.value < |cards|
      modifies this
      ensures Valid()
      ensures var c1 := if row.isActive then DeactivatedUpTo(old(cards), row.card, |old(cards)|) else old(cards);
              var e1 := if row.isActive then ClearedUpTo(old(entities), old(cards), row.card, |old(cards)|) else old(entities);
              var id := if k.Some? then k.value else |old(cards)|;
              && (Conflicts(old(cards), k, row) ==>
                    r == Err(IntegrityError("unique_entity_card")) && cards == c1 && entities == e1)
              && (!Conflicts(old(cards), k, row) ==>
                    && r == Ok(id)
                    && cards == (if k.Some? then c1[k.value := row] else c1 + [row])
                    && entities == e1[row.entity := e1[row.entity].(entityCard := if row.isActive then Some(id) else None)])
      ensures (r, CardState(cards, entities)) == SaveResult(CardState(old(cards), old(entities)), k, row)
    {
      if row.isActive {
        DeactivateOtherEntities(row.card);
      }
      assert forall j :: 0 <= j < |cards| ==> cards[j].card == old(cards)[j].card && cards[j].entity == old(cards)[j].entity;
      if exists j :: 0 <= j < |cards| && k != Some(j) && cards[j].card == row.card && cards[j].entity == row.entity {
        return Err(IntegrityError("unique_entity_card"));
      }
      var id := if k.Some? then k.value else |cards|;
      WriteKeepsValid(cards, k, row, entities);
      if k.Some? {
        cards := cards[k.value := row];
      } else {
        cards := cards + [row];
      }
      entities := entities[row.entity := entities[row.entity].(entityCard := if row.isActive then Some(id) else None)];
      r := Ok(id);
    }
  }

  /** One step of the deactivation loop. */
  /** Saving one row inactive keeps the pairs unique and at most one
      active row per card. */
  lemma DeactivateKeepsValid(cs: seq<EntityCard>, i: nat)
    requires i < |cs| && PairsUnique(cs) && OneActivePerCard(cs)
    ensures PairsUnique(cs[i := cs[i].(isActive := false)])
    ensures OneActivePerCard(cs[i := cs[i].(isActive := false)])
  {
  }

  lemma DeactivateStep(cs: seq<EntityCard>, es: map<EntityId, Entity>, card: nat, i: nat)
    requires i < |cs| && cs[i].entity in es
    ensures DeactivatedUpTo(cs, card, i + 1)
         == if cs[i].card == card then DeactivatedUpTo(cs, card, i)[i := cs[i].(isActive := false)]
            else DeactivatedUpTo(cs, card, i)
    ensures ClearedUpTo(es, cs, card, i + 1)
         == if cs[i].card == card
            then ClearedUpTo(es, cs, card, i)[cs[i].entity := ClearedUpTo(es, cs, card, i)[cs[i].entity].(entityCard := None)]
            else ClearedUpTo(es, cs, card, i)
  {
    var before := ClearedUpTo(es, cs, card, i);
    var after := ClearedUpTo(es, cs, card, i + 1);
    forall x | x in es
      ensures HoldsCardUpTo(cs, card, x, i + 1) <==> HoldsCardUpTo(cs, card, x, i) || (cs[i].card == card && cs[i].entity == x)
    {
      if cs[i].card == card && cs[i].entity == x {
        assert HoldsCardUpTo(cs, card, x, i + 1);
      }
    }
  }

  /** Writing a row that conflicts with no other pair keeps the table
      valid, provided an active row's card has no other active row. */
  lemma WriteKeepsValid(cs: seq<EntityCard>, k: Option<nat>, row: EntityCard, es: map<EntityId, Entity>)
    requires (forall i :: 0 <= i < |cs| ==> cs[i].entity in es) && PairsUnique(cs) && OneActivePerCard(cs)
    requires row.entity in es && (k.Some? ==> k.value < |cs|)
    requires !Conflicts(cs, k, row)
    requires row.isActive ==> forall i :: 0 <= i < |cs| && cs[i].card == row.card ==> !cs[i].isActive
    ensures var r := if k.Some? then cs[k.value := row] else cs + [row];
            (forall i :: 0 <= i < |r| ==> r[i].entity in es) && PairsUnique(r) && OneActivePerCard(r)
  {
  }

  /** After an active save, the saved row is the only active row of its
      card. */
  lemma ActiveSaveIsOnlyActive(c0: seq<EntityCard>, k: Option<nat>, row: EntityCard)
    requires row.isActive && (k.Some? ==> k.value < |c0|)
    ensures var c1 := DeactivatedUpTo(c0, row.card, |c0|);
            var id := if k.Some? then k.value else |c0|;
            var r := if k.Some? then c1[k.value := row] else c1 + [row];
            forall j :: 0 <= j < |r| && r[j].card == row.card && r[j].isActive ==> j == id
  {
  }

  /** Deactivation leaves the rows of other cards untouched, and clears the
      default card of every entity holding the card, even one whose default
      is a row of another card. */
  lemma DeactivationReach(es: map<EntityId, Entity>, cs: seq<EntityCard>, card: nat, e: EntityId)
    requires e in es && HoldsCardUpTo(cs, card, e, |cs|)
    ensures ClearedUpTo(es, cs, card, |cs|)[e].entityCard == None
    ensures forall i :: 0 <= i < |cs| && cs[i].card != card ==> DeactivatedUpTo(cs, card, |cs|)[i] == cs[i]
  {
  }

  /** The first active row of the entity, as `filter(entity, is_active)
      .first()` finds it: EntityCard's own Meta sets no ordering, so the
      rows come in primary-key order. */
  function FirstActive(cs: seq<EntityCard>, e: EntityId): (k: Option<nat>)
    ensures k.Some? ==> k.value < |cs| && cs[k.value].entity == e && cs[k.value].isActive
                        && forall j :: 0 <= j < k.value ==> cs[j].entity != e || !cs[j].isActive
    ensures k.None? ==> forall j :: 0 <= j < |cs| ==> cs[j].entity != e || !cs[j].isActive
  {
    if cs == [] then None
    else if cs[0].entity == e && cs[0].isActive then Some(0)
    else match FirstActive(cs[1..], e)
      case None => None
      case Some(k) => Some(k + 1)
  }

  /** The id of the ConnectCard the upsert by card id leaves: the new card
      when none had the id, else the one that had it. */
  function UpsertedCardId(ct: seq<ConnectCard>, d: CardData): (k: nat)
    requires CountCardId(ct, d.cardId) <= 1
    ensures k <= |ct|
    ensures k < |ct| <==> CountCardId(ct, d.cardId) == 1
  {
    if CountCardId(ct, d.cardId) == 0 then |ct| else FindCardId(ct, d.cardId).value
  }

  /** The ConnectCard table the upsert by card id leaves. */
  function UpsertedCards(ct: seq<ConnectCard>, d: CardData): (r: seq<ConnectCard>)
    ensures CountCardId(ct, d.cardId) <= 1 ==> UpsertedCardId(ct, d) < |r| && r[UpsertedCardId(ct, d)].cardId == Some(d.cardId)
  {
    if CountCardId(ct, d.cardId) > 1 then ct
    else if CountCardId(ct, d.cardId) == 0 then ct + [NewCard(d)]
    else var k := FindCardId(ct, d.cardId).value; ct[k := UpdatedCard(ct[k], d)]
  }

  /** What EntityCardSerializer.create leaves in the EntityCard and Entity
      tables, as a sequence of saves: nothing when the card lookup raises;
      the entity's active row saved active again when it already holds the
      card; otherwise that row (if any) saved inactive, then a new active
      row for the card. */
  function CreateOutcome(s: CardState, ct: seq<ConnectCard>, e: EntityId, d: CardData): (r: (Result<nat, Failure>, CardState))
    requires e in s.entities
  {
    if CountCardId(ct, d.cardId) > 1 then (Err(Uncaught("MultipleObjectsReturned")), s)
    else
      var card := UpsertedCardId(ct, d);
      var a := FirstActive(s.cards, e);
      if a.Some? && s.cards[a.value].card == card then SaveResult(s, a, s.cards[a.value].(isActive := true))
      else
        var s1 := if a.Some? then SaveResult(s, a, s.cards[a.value].(isActive := false)).1 else s;
        SaveResult(s1, None, EntityCard(card, e, true))
  }

  /** Whether some row gives the card to the entity, active or not. */
  predicate HasPair(cs: seq<EntityCard>, card: nat, e: EntityId)
  {
    exists j :: 0 <= j < |cs| && cs[j].card == card && cs[j].entity == e
  }

  /** The create fails only when the card lookup raises, or when the entity
      does not hold the card actively but already has an (inactive) row for
      it: the new row then breaks the unique pair constraint. */
  lemma CreateSucceedsIff(s: CardState, ct: seq<ConnectCard>, e: EntityId, d: CardData)
    requires e in s.entities && PairsUnique(s.cards)
    ensures var a := FirstActive(s.cards, e);
            CreateOutcome(s, ct, e, d).0.Ok?
            <==> CountCardId(ct, d.cardId) <= 1
                 && var card := UpsertedCardId(ct, d);
                    (a.Some? && s.cards[a.value].card == card) || !HasPair(s.cards, card, e)
  {
    if CountCardId(ct, d.cardId) <= 1 {
      var card := UpsertedCardId(ct, d);
      var a := FirstActive(s.cards, e);
      if a.Some? {
        var k := a.value;
        var row := s.cards[k].(isActive := s.cards[k].card == card);
        assert !Conflicts(s.cards, a, row);
        if s.cards[k].card != card {
          var s1 := SaveResult(s, a, row).1;
          assert s1.cards == s.cards[k := row];
          assert HasPair(s1.cards, card, e) ==> HasPair(s.cards, card, e);
          if HasPair(s.cards, card, e) {
            var j :| 0 <= j < |s.cards| && s.cards[j].card == card && s.cards[j].entity == e;
            assert s1.cards[j].card == card && s1.cards[j].entity == e;
          }
        }
      }
    }
  }

  /** A create that breaks the unique constraint is not rolled back: the
      entity is left with no default card and the card with no active
      row. */
  lemma FailedCreateLeavesNoDefault(s: CardState, ct: seq<ConnectCard>, e: EntityId, d: CardData)
    requires e in s.entities && PairsUnique(s.cards)
    requires CreateOutcome(s, ct, e, d).0 == Err(IntegrityError("unique_entity_card"))
    ensures var t := CreateOutcome(s, ct, e, d).1;
            e in t.entities && t.entities[e].entityCard.None?
            && forall j :: 0 <= j < |t.cards| && t.cards[j].card == UpsertedCardId(ct, d) ==> !t.cards[j].isActive
  {
    var card := UpsertedCardId(ct, d);
    var a := FirstActive(s.cards, e);
    var s1 := if a.Some? then SaveResult(s, a, s.cards[a.value].(isActive := false)).1 else s;
    assert !(a.Some? && s.cards[a.value].card == card);
    var t := CreateOutcome(s, ct, e, d).1;
    assert Conflicts(s1.cards, None, EntityCard(card, e, true));
    assert t.cards == DeactivatedUpTo(s1.cards, card, |s1.cards|);
    assert t.entities == ClearedUpTo(s1.entities, s1.cards, card, |s1.cards|);
    var j :| 0 <= j < |s1.cards| && s1.cards[j].card == card && s1.cards[j].entity == e;
    assert HoldsCardUpTo(s1.cards, card, e, |s1.cards|);
  }

  /** EntityCardSerializer.create: the ConnectCard is created or updated by
      its card id; when the entity's active row already holds that card it
      is saved active again and returned; otherwise that row (if any) is
      saved inactive and a new active row is created. None of it is rolled
      back when a later step fails. */
  method CreateEntityCard(store: CardStore, cardTable: CardTable, e: EntityId, d: CardData)
    returns (r: Result<nat, Failure>)
    requires store.Valid() && e in store.entities
    modifies store, cardTable`cards
    ensures store.Valid()
    ensures cardTable.cards == UpsertedCards(old(cardTable.cards), d)
    ensures (r, CardState(store.cards, store.entities)) == CreateOutcome(CardState(old(store.cards), old(store.entities)), old(cardTable.cards), e, d)
    ensures CountCardId(old(cardTable.cards), d.cardId) > 1 ==>
              r == Err(Uncaught("MultipleObjectsReturned")) && store.cards == old(store.cards)
              && store.entities == old(store.entities)
    ensures r.Ok? ==> r.value < |store.cards| && store.cards[r.value].entity == e && store.cards[r.value].isActive
                      && e in store.entities && store.entities[e].entityCard == Some(r.value)
                      && forall j :: (0 <= j < |store.cards| && store.cards[j].card == store.cards[r.value].card
                                      && store.cards[j].isActive) ==> j == r.value
    ensures var a := FirstActive(old(store.cards), e);
            (r.Ok? && a.Some? && CountCardId(old(cardTable.cards), d.cardId) == 1
             && old(store.cards)[a.value].card == FindCardId(old(cardTable.cards), d.cardId).value) ==> r == Ok(a.value)
  {
    var active := FirstActive(store.cards, e);
    var saved := cardTable.Upsert(d);
    if saved.Err? {
      return Err(saved.error);
    }
    var card := saved.value;
    if active.Some? {
      var k := active.value;
      if store.cards[k].card == card {
        r := store.Save(Some(k), store.cards[k].(isActive := true));
        if r.Ok? {
          ActiveSaveIsOnlyActive(old(store.cards), Some(k), old(store.cards)[k]);
        }
        return;
      }
      var _ := store.Save(Some(k), store.cards[k].(isActive := false));
    }
    ghost var before := store.cards;
    r := store.Save(None, EntityCard(card, e, true));
    if r.Ok? {
      ActiveSaveIsOnlyActive(before, None, EntityCard(card, e, true));
    }
  }

  /** EntityCardFilterSet.qs: an admin sees every row; anyone else the rows
      of the current entity (none without one). */
  function VisibleCards(cs: seq<EntityCard>, qs: set<nat>, isAdmin: bool, current: Option<EntityId>): (r: set<nat>)
    ensures isAdmin ==> r == qs
    ensures !isAdmin ==> forall k :: k in r <==> k in qs && k < |cs| && current == Some(cs[k].entity)
  {
    if isAdmin then qs else set k | k in qs && k < |cs| && current == Some(cs[k].entity)
  }

  /** The created_after/updated_after filters of the supply-chain filter
      sets: strictly after the given time. */
  function StrictlyAfter(stamps: map<nat, int>, qs: set<nat>, t: int): (r: set<nat>)
    ensures forall k :: k in r <==> k in qs && k in stamps && stamps[k] > t
  {
    set k | k in qs && k in stamps && stamps[k] > t
  }

  /** A row stamped exactly at the bound is not kept. */
  lemma StampAtBoundDropped(stamps: map<nat, int>, qs: set<nat>, k: nat)
    requires k in stamps
    ensures k !in StrictlyAfter(stamps, qs, stamps[k])
  {
  }

  /** An EntityBuyer link: the entity sells to the buyer. */
  datatype EntityBuyer = EntityBuyer(entity: EntityId, buyer: EntityId, isDefault: bool)

  /** EntityCardFilterSet.entity_filter: the value is decoded (undecodable
      text raises); the entities linked to it as buyer or as entity keep
      their active rows. */
  function CardsOfLinked(cs: seq<EntityCard>, links: seq<EntityBuyer>, qs: set<nat>, value: string,
                         decodeId: string -> Option<nat>): (r: Result<set<nat>, Failure>)
    ensures decodeId(value).None? <==> r.Err?
    ensures r.Err? ==> r.error == Uncaught("ValueError")
    ensures r.Ok? ==> forall k :: k in r.value <==>
              k in qs && k < |cs| && cs[k].isActive
              && exists j :: 0 <= j < |links| && links[j].entity == cs[k].entity
                             && (links[j].buyer == decodeId(value).value || links[j].entity == decodeId(value).value)
  {
    match decodeId(value)
    case None => Err(Uncaught("ValueError"))
    case Some(d) =>
      Ok(set k | k in qs && k < |cs| && cs[k].isActive
                 && exists j :: 0 <= j < |links| && links[j].entity == cs[k].entity
                                && (links[j].buyer == d || links[j].entity == d))
  }

  /** EntityCardFilterSet.skip_only_connect_filter: when set, rows whose
      entity is not only-connect and sells to some buyer that is not
      only-connect. */
  function SkipOnlyConnectCards(cs: seq<EntityCard>, links: seq<EntityBuyer>, qs: set<nat>,
                                onlyConnect: set<EntityId>, value: bool): (r: set<nat>)
    ensures !value ==> r == qs
    ensures value ==> forall k :: k in r <==>
              k in qs && k < |cs| && cs[k].entity !in onlyConnect
              && exists j :: 0 <= j < |links| && links[j].entity == cs[k].entity && links[j].buyer !in onlyConnect
  {
    if !value then qs
    else set k | k in qs && k < |cs| && cs[k].entity !in onlyConnect
                 && exists j :: 0 <= j < |links| && links[j].entity == cs[k].entity && links[j].buyer !in onlyConnect
  }

  /** A non-admin never sees another entity's card, sees nothing without a
      current entity, and sees a subset of what an admin sees. */
  lemma VisibleCardsOwnOnly(cs: seq<EntityCard>, qs: set<nat>, current: Option<EntityId>, k: nat)
    ensures k in VisibleCards(cs, qs, false, current) ==> current.Some? && cs[k].entity == current.value
    ensures VisibleCards(cs, qs, false, None) == {}
    ensures VisibleCards(cs, qs, false, current) <= VisibleCards(cs, qs, true, current)
  {
  }

  /** The visibility rule and the date filters are chained querysets: the
      order they run in does not matter. */
  lemma VisibleCardsCommuteWithDates(cs: seq<EntityCard>, stamps: map<nat, int>, qs: set<nat>, isAdmin: bool,
                                     current: Option<EntityId>, t: int)
    ensures VisibleCards(cs, StrictlyAfter(stamps, qs, t), isAdmin, current)
         == StrictlyAfter(stamps, VisibleCards(cs, qs, isAdmin, current), t)
  {
  }

  /** Once deactivate_other_entities has run for a card, the entity filter
      lists none of that card's rows, whatever the links. */
  lemma DeactivatedCardNotLinked(cs: seq<EntityCard>, links: seq<EntityBuyer>, qs: set<nat>, value: string,
                                 decodeId: string -> Option<nat>, card: nat, k: nat)
    requires k < |cs| && cs[k].card == card
    requires CardsOfLinked(DeactivatedUpTo(cs, card, |cs|), links, qs, value, decodeId).Ok?
    ensures k !in CardsOfLinked(DeactivatedUpTo(cs, card, |cs|), links, qs, value, decodeId).value
  {
  }

  /** The rows of an only-connect entity are always skipped, and skipping
      twice is skipping once. */
  lemma SkipOnlyConnectCardsProperties(cs: seq<EntityCard>, links: seq<EntityBuyer>, qs: set<nat>,
                                       onlyConnect: set<EntityId>, value: bool, k: nat)
    ensures value && k < |cs| && cs[k].entity in onlyConnect ==> k !in SkipOnlyConnectCards(cs, links, qs, onlyConnect, value)
    ensures var once := SkipOnlyConnectCards(cs, links, qs, onlyConnect, value);
            SkipOnlyConnectCards(cs, links, once, onlyConnect, value) == once
  {
  }
}

=== FILE: failures.dfy ===
/** The exceptions the server raises, as values. The project's own exception
    classes are not part of this model; each failure keeps the message and,
    where the source passes one, the error code. */
module Failures {

  datatype Failure =
    | AuthenticationFailed(detail: string, code: string)
    | InvalidToken(messages: seq<string>)
    /** The InvalidToken raised when no configured token class accepts the
        raw token: a detail and one message per class tried. */
    | TokenNotValid(detail: string, classMessages: seq<TokenMessage>)
    | TokenError(detail: string)
    | AccessForbidden(detail: string)
    | BadRequest(detail: string)
    | ValidationError(detail: string)
    /** A ValidationError raised with a list of messages. */
    | ValidationErrors(messages: seq<string>)
    | FieldError(field: string, detail: string)
    /** The per-field errors a serializer collects, in field order. */
    | FieldErrors(errors: seq<(string, string)>)
    | MethodNotAllowed
    /** Http404 from get_object: the row is not in the view's queryset. */
    | Http404(detail: string)
    | NoValueResponse(detail: string)
    | InvalidRequestFatal(detail: string)
    | IntegrityError(constraint: string)
    /** An AssertionError raised with a message. */
    | AssertionFailed(detail: string)
    /** A Python exception the code does not catch (AttributeError on None,
        KeyError, TypeError, ValueError, …), named by its class. */
    | Uncaught(exception: string)

  /** What a token class reported when it refused a raw token. */
  datatype TokenMessage = TokenMessage(tokenClass: string, tokenType: string, message: string)
}

=== FILE: farmers.dfy ===
/** Farmers (v1/supply_chains/models/farmer_models.py): the saved last
    name, the display name, the transaction summary, FarmerService.save;
    the farmer parts of v1/supply_chains/serializers.py (country and
    province validation, create, the EntityBuyer check, the service link)
    and FarmerFilterSet of v1/supply_chains/filters.py. A farmer is keyed
    by its entity id; the id a new row gets is an input. */
module Farmers {
  import opened Wrappers
  import opened Failures
  import opened Entities
  import opened EntityCards
  import CountryData
  import Transactions
  import SemVer
  import Urls

  /** The Farmer columns the model follows. */
  datatype Farmer = Farmer(
    firstName: string,
    lastName: Option<string>,
    referenceNumber: Option<string>,
    country: string,
    province: string,
    updatedOn: int)

  /** Farmer.save: a None last name is stored as "". */
  function Saved(f: Farmer): (r: Farmer)
    ensures r.lastName == Some(f.lastName.UnwrapOr(""))
    ensures r.(lastName := f.lastName) == f
  {
    if f.lastName.None? then f.(lastName := Some("")) else f
  }

  /** Saving twice stores what saving once does. */
  lemma SavedIdempotent(f: Farmer)
    ensures Saved(Saved(f)) == Saved(f)
  {
  }

  /** Farmer.name */
  function Name(f: Farmer): (r: string)
    ensures r == FarmerName(f.firstName, f.lastName)
  {
    FarmerName(f.firstName, f.lastName)
  }

  /** A saved farmer's name is its first name, a space and its last name,
      the space standing alone when the last name was None; before the
      save, such a name ends in "None". */
  lemma SavedName(f: Farmer)
    ensures Name(Saved(f)) == f.firstName + " " + f.lastName.UnwrapOr("")
    ensures f.lastName.None? ==> Name(f) == f.firstName + " None"
  {
  }

  // ---------------------------------------------------------------------
  // transaction_count

  type ProductTransaction = Transactions.ProductTransaction
  type PaymentRecord = Transactions.PaymentRecord
  type CurrencyRow = Transactions.CurrencyRow

  /** The transactions the summary counts: not deleted, with the farmer as
      source or destination. */
  function FarmerTransactions(txs: map<nat, ProductTransaction>, farmer: EntityId): (r: set<nat>)
    ensures forall id :: id in r <==> id in txs && !txs[id].isDeleted
                                      && (txs[id].source == farmer || txs[id].destination == farmer)
  {
    set id | id in txs && !txs[id].isDeleted && (txs[id].source == farmer || txs[id].destination == farmer)
  }

  /** The queryset as iterated: each row of s exactly once. */
  predicate ListsExactly(order: seq<nat>, s: set<nat>)
  {
    && (forall i, j :: 0 <= i < j < |order| ==> order[i] != order[j])
    && (forall i :: 0 <= i < |order| ==> order[i] in s)
    && (forall id :: id in s ==> id in order)
  }

  /** A listing without repeats is as long as the set it lists. */
  lemma {:induction false} ListingLength(order: seq<nat>, s: set<nat>)
    requires ListsExactly(order, s)
    ensures |order| == |s|
  {
    if order != [] {
      var rest := s - {order[0]};
      forall id | id in rest
        ensures id in order[1..]
      {
        var i :| 0 <= i < |order| && order[i] == id;
        assert i != 0;
      }
      ListingLength(order[1..], rest);
    }
  }

  /** The premium a transaction adds: the non-zero amounts of its payments
      that have a premium, in payment order. */
  function PremiumTotal(ps: seq<PaymentRecord>, t: nat): real
  {
    if ps == [] then 0.0
    else
      var p := ps[|ps| - 1];
      PremiumTotal(ps[..|ps| - 1], t)
      + (if p.transaction == Some(t) && p.premium.Some? && p.amount != 0.0 then p.amount else 0.0)
  }

  /** Payments of other transactions, and payments without a premium, add
      nothing. */
  lemma {:induction false} PremiumTotalIgnoresOthers(ps: seq<PaymentRecord>, t: nat)
    requires forall i :: 0 <= i < |ps| ==> ps[i].transaction != Some(t) || ps[i].premium.None?
    ensures PremiumTotal(ps, t) == 0.0
  {
    if ps != [] {
      PremiumTotalIgnoresOthers(ps[..|ps| - 1], t);
    }
  }

  /** Whether the loop gets through transaction t: float(quantity) needs a
      quantity, and the amount property a base payment. Whether there is
      one does not depend on the choice among ties. */
  predicate Summable(txs: map<nat, ProductTransaction>, ps: seq<PaymentRecord>, t: nat)
    requires t in txs
  {
    txs[t].quantity.Some? && Transactions.HasTransactionPayment(ps, t)
  }

  /** The volume, income and premium sums of the loop over the listed
      transactions, or the exception it stops at. `picks(t)` is the choice
      among t's tied TRANSACTION payments that its amount reads (see
      Transactions.BasePayment). */
  function Totals(txs: map<nat, ProductTransaction>, ps: seq<PaymentRecord>, order: seq<nat>, picks: nat -> nat)
    : (r: Result<(real, real, real), Failure>)
    requires forall i :: 0 <= i < |order| ==> order[i] in txs
    ensures r.Err? ==> r.error == Uncaught("TypeError") || r.error == Uncaught("AttributeError")
  {
    if order == [] then Ok((0.0, 0.0, 0.0))
    else
      var t := order[|order| - 1];
      AddStep(txs, ps, t, picks(t), Totals(txs, ps, order[..|order| - 1], picks))
  }

  /** One pass of the loop over transaction t: an exception raised before
      stays; float(quantity) raises TypeError without a quantity; the
      amount property raises without a base payment; otherwise the
      quantity, the amount and t's premiums are added to the sums. */
  function AddStep(txs: map<nat, ProductTransaction>, ps: seq<PaymentRecord>, t: nat, pick: nat,
                   acc: Result<(real, real, real), Failure>): (r: Result<(real, real, real), Failure>)
    requires t in txs
    ensures acc.Err? ==> r == acc
    ensures acc.Ok? && r.Ok? ==> r.value.2 == acc.value.2 + PremiumTotal(ps, t)
  {
    match acc
    case Err(e) => Err(e)
    case Ok(sums) =>
      if txs[t].quantity.None? then Err(Uncaught("TypeError"))
      else match Transactions.Amount(ps, t, pick)
        case Err(e) => Err(e)
        case Ok(a) => Ok((sums.0 + txs[t].quantity.value, sums.1 + a, sums.2 + PremiumTotal(ps, t)))
  }

  /** A pass gets through exactly when the loop got this far and the
      transaction is summable. */
  lemma AddStepOk(txs: map<nat, ProductTransaction>, ps: seq<PaymentRecord>, t: nat, picks: nat -> nat,
                  acc: Result<(real, real, real), Failure>)
    requires t in txs
    ensures AddStep(txs, ps, t, picks(t), acc).Ok? <==> acc.Ok? && Summable(txs, ps, t)
  {
    Transactions.BasePaymentExists(ps, t, picks(t));
  }

  /** The loop over a non-empty list ends with a pass over its last
      transaction. */
  lemma TotalsLast(txs: map<nat, ProductTransaction>, ps: seq<PaymentRecord>, order: seq<nat>, picks: nat -> nat)
    requires forall i :: 0 <= i < |order| ==> order[i] in txs
    requires order != []
    ensures Totals(txs, ps, order, picks)
            == AddStep(txs, ps, order[|order| - 1], picks(order[|order| - 1]), Totals(txs, ps, order[..|order| - 1], picks))
  {
  }

  /** Every listed transaction is summable, checked from the last one
      back. */
  predicate AllSummable(txs: map<nat, ProductTransaction>, ps: seq<PaymentRecord>, order: seq<nat>)
    requires forall i :: 0 <= i < |order| ==> order[i] in txs
  {
    order == [] || (AllSummable(txs, ps, order[..|order| - 1]) && Summable(txs, ps, order[|order| - 1]))
  }

  /** The recursive check agrees with "every index is summable". */
  lemma {:induction false} AllSummableIff(txs: map<nat, ProductTransaction>, ps: seq<PaymentRecord>, order: seq<nat>)
    requires forall i :: 0 <= i < |order| ==> order[i] in txs
    ensures AllSummable(txs, ps, order) <==> forall i :: 0 <= i < |order| ==> Summable(txs, ps, order[i])
  {
    if order != [] {
      var n := |order| - 1;
      var init := order[..n];
      assert forall i :: 0 <= i < n ==> init[i] == order[i];
      AllSummableIff(txs, ps, init);
    }
  }

  /** The loop gets through exactly when every listed transaction is
      summable. */
  lemma {:induction false} TotalsOkIff(txs: map<nat, ProductTransaction>, ps: seq<PaymentRecord>, order: seq<nat>,
                                       picks: nat -> nat)
    requires forall i :: 0 <= i < |order| ==> order[i] in txs
    ensures Totals(txs, ps, order, picks).Ok? <==> forall i :: 0 <= i < |order| ==> Summable(txs, ps, order[i])
  {
    TotalsOkAll(txs, ps, order, picks);
    AllSummableIff(txs, ps, order);
  }

  /** The loop gets through exactly when the recursive check holds. */
  lemma {:induction false} TotalsOkAll(txs: map<nat, ProductTransaction>, ps: seq<PaymentRecord>, order: seq<nat>,
                                       picks: nat -> nat)
    requires forall i :: 0 <= i < |order| ==> order[i] in txs
    ensures Totals(txs, ps, order, picks).Ok? <==> AllSummable(txs, ps, order)
  {
    if order != [] {
      var n := |order| - 1;
      TotalsOkAll(txs, ps, order[..n], picks);
      AddStepOk(txs, ps, order[n], picks, Totals(txs, ps, order[..n], picks));
      TotalsLast(txs, ps, order, picks);
    }
  }

  /** Once the loop has raised, later transactions do not change the
      exception. */
  lemma {:induction false} TotalsErrorStays(txs: map<nat, ProductTransaction>, ps: seq<PaymentRecord>,
                                            order: seq<nat>, picks: nat -> nat, n: nat)
    requires forall i :: 0 <= i < |order| ==> order[i] in txs
    requires n <= |order| && Totals(txs, ps, order[..n], picks).Err?
    ensures Totals(txs, ps, order, picks) == Totals(txs, ps, order[..n], picks)
    decreases |order| - n
  {
    if n < |order| {
      assert order[..n + 1][..n] == order[..n];
      TotalsErrorStays(txs, ps, order, picks, n + 1);
    } else {
      assert order[..n] == order;
    }
  }

  /** The currency entry: the code of the first listed transaction's
      currency, "" without transactions. The currency property needs a
      base payment (`pick` chooses among tied ones), and `.code` a
      currency. */
  function FirstCurrency(ps: seq<PaymentRecord>, currencies: seq<CurrencyRow>, order: seq<nat>, pick: nat)
    : (r: Result<Option<string>, Failure>)
    ensures order == [] ==> r == Ok(Some(""))
    ensures order != [] && r.Ok? ==>
              var b := Transactions.BasePayment(ps, order[0], pick);
              b.Some? && ps[b.value].currency.Some?
              && exists k :: 0 <= k < |currencies| && currencies[k].id == ps[b.value].currency.value
                             && r.value == currencies[k].code
    ensures order != [] && Transactions.BasePayment(ps, order[0], pick).None? ==> r == Err(Uncaught("AttributeError"))
  {
    if order == [] then Ok(Some(""))
    else match Transactions.Currency(ps, order[0], pick)
      case Err(e) => Err(e)
      case Ok(c) =>
        if c.None? then Err(Uncaught("AttributeError"))
        else match Transactions.FindById(currencies, c.value)
          case None => Err(Uncaught("DoesNotExist"))
          case Some(k) => Ok(currencies[k].code)
  }

  /** After a loop that got through, the first transaction has a base
      payment, so only its currency can still be missing. */
  lemma FirstHasBasePayment(txs: map<nat, ProductTransaction>, ps: seq<PaymentRecord>, order: seq<nat>,
                            picks: nat -> nat, pick: nat)
    requires forall i :: 0 <= i < |order| ==> order[i] in txs
    requires order != [] && Totals(txs, ps, order, picks).Ok?
    ensures Transactions.Currency(ps, order[0], pick).Ok?
  {
    TotalsOkIff(txs, ps, order, picks);
    assert Summable(txs, ps, order[0]);
    Transactions.BasePaymentExists(ps, order[0], pick);
  }

  /** The summary Farmer.transaction_count returns; `language` is unused
      by the source and left out. */
  datatype Summary = Summary(count: nat, volume: real, income: real, premium: real, currency: Option<string>)

  /** The premium sum of one transaction (the inner loop). */
  method SumPremiums(ps: seq<PaymentRecord>, t: nat) returns (total: real)
    ensures total == PremiumTotal(ps, t)
  {
    total := 0.0;
    var i := 0;
    while i < |ps|
      invariant 0 <= i <= |ps|
      invariant total == PremiumTotal(ps[..i], t)
    {
      assert ps[..i + 1][..i] == ps[..i];
      if ps[i].transaction == Some(t) && ps[i].premium.Some? && ps[i].amount != 0.0 {
        total := total + ps[i].amount;
      }
      i := i + 1;
    }
    assert ps[..i] == ps;
  }

  /** Farmer.transaction_count over the farmer's transactions listed in
      queryset order (ProductTransaction keeps the inherited ("-created_on",)
      ordering, so newest first, and `.first()` is the head of that list):
      the count, the sums, and the first one's currency
      code; an exception of the loop or of the currency lookup is the
      result. `picks` and `pick` are the choices among tied TRANSACTION
      payments that the amount and currency properties read. */
  method TransactionCount(txs: map<nat, ProductTransaction>, ps: seq<PaymentRecord>,
                          currencies: seq<CurrencyRow>, farmer: EntityId, order: seq<nat>,
                          picks: nat -> nat, pick: nat)
    returns (r: Result<Summary, Failure>)
    requires ListsExactly(order, FarmerTransactions(txs, farmer))
    ensures r.Ok? <==> Totals(txs, ps, order, picks).Ok? && FirstCurrency(ps, currencies, order, pick).Ok?
    ensures r.Ok? ==> r.value.count == |FarmerTransactions(txs, farmer)|
    ensures r.Ok? ==> (r.value.volume, r.value.income, r.value.premium) == Totals(txs, ps, order, picks).value
    ensures r.Ok? ==> r.value.currency == FirstCurrency(ps, currencies, order, pick).value
    ensures r.Err? ==> r.error == if Totals(txs, ps, order, picks).Err? then Totals(txs, ps, order, picks).error
                                  else FirstCurrency(ps, currencies, order, pick).error
  {
    ListingLength(order, FarmerTransactions(txs, farmer));
    var sums := SumTransactions(txs, ps, order, picks);
    if sums.Err? {
      return Err(sums.error);
    }
    var currency := FirstCurrency(ps, currencies, order, pick);
    if currency.Err? {
      return Err(currency.error);
    }
    var (volume, income, premium) := sums.value;
    r := Ok(Summary(|order|, volume, income, premium, currency.value));
  }

  /** The loop over one more listed transaction is one more pass. */
  lemma TotalsStep(txs: map<nat, ProductTransaction>, ps: seq<PaymentRecord>, order: seq<nat>, picks: nat -> nat, i: nat)
    requires forall k :: 0 <= k < |order| ==> order[k] in txs
    requires i < |order|
    ensures Totals(txs, ps, order[..i + 1], picks) == AddStep(txs, ps, order[i], picks(order[i]), Totals(txs, ps, order[..i], picks))
  {
    assert order[..i + 1][..i] == order[..i];
  }

  /** The summing loop of transaction_count over the listed transactions. */
  method SumTransactions(txs: map<nat, ProductTransaction>, ps: seq<PaymentRecord>, order: seq<nat>,
                         picks: nat -> nat)
    returns (r: Result<(real, real, real), Failure>)
    requires forall i :: 0 <= i < |order| ==> order[i] in txs
    ensures r == Totals(txs, ps, order, picks)
  {
    var sums := (0.0, 0.0, 0.0);
    var i := 0;
    while i < |order|
      invariant 0 <= i <= |order|
      invariant Totals(txs, ps, order[..i], picks) == Ok(sums)
    {
      TotalsStep(txs, ps, order, picks, i);
      var step := AddTransaction(txs, ps, order[i], picks(order[i]), sums);
      if step.Err? {
        TotalsErrorStays(txs, ps, order, picks, i + 1);
        return step;
      }
      sums := step.value;
      i := i + 1;
    }
    assert order[..i] == order;
    return Ok(sums);
  }

  /** One pass of the loop: transaction t's volume, income and premium
      added to the sums so far, or the exception it raises. */
  method AddTransaction(txs: map<nat, ProductTransaction>, ps: seq<PaymentRecord>, t: nat, pick: nat, sums: (real, real, real))
    returns (r: Result<(real, real, real), Failure>)
    requires t in txs
    ensures r == AddStep(txs, ps, t, pick, Ok(sums))
  {
    if txs[t].quantity.None? {
      return Err(Uncaught("TypeError"));
    }
    var amount := Transactions.Amount(ps, t, pick);
    if amount.Err? {
      return Err(amount.error);
    }
    var p := SumPremiums(ps, t);
    r := Ok((sums.0 + txs[t].quantity.value, sums.1 + amount.value, sums.2 + p));
  }

  // ---------------------------------------------------------------------
  // Serializers

  const INVALID_COUNTRY := ValidationError("Invalid country.")
  const INVALID_PROVINCE := FieldError("province", "Invalid province.")

  /** The country is listed, and so is the province (when given) among
      its provinces. */
  predicate LocationListed(cs: seq<CountryData.Country>, country: string, province: Option<string>)
    requires CountryData.NamesUnique(cs)
  {
    && country in CountryData.CountryList(cs)
    && (province.Some? ==> province.value in CountryData.CountryWithProvince(cs)[country])
  }

  /** FarmerSerializer.validate_country, then validate: a given country
      must be a listed country; when both are given, the province must be
      one of that country's provinces (looked up by key, which raises for
      an unlisted country). */
  function ValidateLocation(cs: seq<CountryData.Country>, country: Option<string>, province: Option<string>)
    : (r: Result<(), Failure>)
    requires CountryData.NamesUnique(cs)
    ensures country.Some? && country.value !in CountryData.CountryList(cs) ==> r == Err(INVALID_COUNTRY)
    ensures r.Ok? <==> (country.Some? ==> LocationListed(cs, country.value, province))
    ensures r.Err? ==> r.error == INVALID_COUNTRY || r.error == INVALID_PROVINCE
  {
    if country.Some? && country.value !in CountryData.CountryList(cs) then Err(INVALID_COUNTRY)
    else if province.Some? && country.Some? then
      var provinces := CountryData.CountryWithProvince(cs);
      if country.value !in provinces then Err(Uncaught("KeyError"))
      else if province.value !in provinces[country.value] then Err(INVALID_PROVINCE)
      else Ok(())
    else Ok(())
  }

  const LINK_EXISTS := FieldError("buyer", "buyer company relation already exist.")

  /** (entity, buyer) pairs of EntityBuyer rows are not repeated. */
  predicate LinksUnique(links: seq<EntityBuyer>)
  {
    forall i, j :: 0 <= i < j < |links| ==> links[i].entity != links[j].entity || links[i].buyer != links[j].buyer
  }

  /** EntityBuyerSerializer.validate: both keys must be present (a missing
      one raises KeyError), and the pair must not be linked yet. */
  function ValidateLink(links: seq<EntityBuyer>, entity: Option<EntityId>, buyer: Option<EntityId>)
    : (r: Result<(), Failure>)
    ensures entity.None? || buyer.None? ==> r == Err(Uncaught("KeyError"))
    ensures entity.Some? && buyer.Some? ==>
              (r.Ok? <==> forall j :: 0 <= j < |links| ==> links[j].entity != entity.value || links[j].buyer != buyer.value)
              && (r.Err? ==> r.error == LINK_EXISTS)
  {
    if entity.None? || buyer.None? then Err(Uncaught("KeyError"))
    else if exists j :: 0 <= j < |links| && links[j].entity == entity.value && links[j].buyer == buyer.value
    then Err(LINK_EXISTS)
    else Ok(())
  }

  /** A link created after validation keeps the pairs unique. */
  lemma ValidatedLinkKeepsUnique(links: seq<EntityBuyer>, entity: EntityId, buyer: EntityId, isDefault: bool)
    requires LinksUnique(links) && ValidateLink(links, Some(entity), Some(buyer)).Ok?
    ensures LinksUnique(links + [EntityBuyer(entity, buyer, isDefault)])
  {
  }

  /** The placeholder a service URL carries for the reference id. */
  const PLACEHOLDER := "{{refernce_id}}"

  /** str.replace: every occurrence of pat, scanning left to right without
      overlaps, becomes rep. */
  function ReplaceAll(s: string, pat: string, rep: string): (r: string)
    requires |pat| > 0
    decreases |s|
  {
    if |s| < |pat| then s
    else if s[..|pat|] == pat then rep + ReplaceAll(s[|pat|..], pat, rep)
    else [s[0]] + ReplaceAll(s[1..], pat, rep)
  }

  /** A text without the pattern is returned unchanged. */
  lemma {:induction false} ReplaceAbsent(s: string, pat: string, rep: string)
    requires |pat| > 0 && !Urls.Contains(s, pat)
    ensures ReplaceAll(s, pat, rep) == s
    decreases |s|
  {
    if |s| >= |pat| {
      assert !SemVer.OccursAt(s, pat, 0);
      forall i: nat | i <= |s[1..]|
        ensures !SemVer.OccursAt(s[1..], pat, i)
      {
        if i + |pat| <= |s[1..]| {
          assert s[1..][i..i + |pat|] == s[i + 1..i + 1 + |pat|];
          assert !SemVer.OccursAt(s, pat, i + 1);
        }
      }
      ReplaceAbsent(s[1..], pat, rep);
      assert s == [s[0]] + s[1..];
    }
  }

  /** A prefix without the pattern's first character is copied as it is. */
  lemma {:induction false} ReplaceAfterPlainPrefix(a: string, t: string, pat: string, rep: string)
    requires |pat| > 0 && forall i :: 0 <= i < |a| ==> a[i] != pat[0]
    ensures ReplaceAll(a + t, pat, rep) == a + ReplaceAll(t, pat, rep)
    decreases |a|
  {
    if a == [] {
      assert a + t == t;
    } else {
      var s := a + t;
      assert s[0] == a[0];
      if |s| < |pat| {
        ReplaceAbsentShort(s, pat, rep);
        ReplaceAbsentShort(t, pat, rep);
      } else {
        assert s[..|pat|] != pat by { assert s[..|pat|][0] == a[0]; }
        assert ReplaceAll(s, pat, rep) == [a[0]] + ReplaceAll(s[1..], pat, rep);
        assert s[1..] == a[1..] + t;
        ReplaceAfterPlainPrefix(a[1..], t, pat, rep);
        assert a == [a[0]] + a[1..];
        assert a + ReplaceAll(t, pat, rep) == [a[0]] + (a[1..] + ReplaceAll(t, pat, rep));
      }
    }
  }

  /** A text shorter than the pattern is returned unchanged. */
  lemma ReplaceAbsentShort(s: string, pat: string, rep: string)
    requires 0 < |pat| && |s| < |pat|
    ensures ReplaceAll(s, pat, rep) == s
  {
  }

  /** get_service_link */
  function ServiceLink(serviceUrl: string, referenceId: string): (r: string)
    ensures !Urls.Contains(serviceUrl, PLACEHOLDER) ==> r == serviceUrl
  {
    ReplaceAbsentFor(serviceUrl, referenceId);
    ReplaceAll(serviceUrl, PLACEHOLDER, referenceId)
  }

  lemma ReplaceAbsentFor(serviceUrl: string, referenceId: string)
    ensures !Urls.Contains(serviceUrl, PLACEHOLDER) ==> ReplaceAll(serviceUrl, PLACEHOLDER, referenceId) == serviceUrl
  {
    if !Urls.Contains(serviceUrl, PLACEHOLDER) {
      ReplaceAbsent(serviceUrl, PLACEHOLDER, referenceId);
    }
  }

  /** A URL with one placeholder after a part without "{" and before a part
      without the placeholder links to that part, the reference id and the
      rest. */
  lemma TemplateLink(before: string, after: string, referenceId: string)
    requires forall i :: 0 <= i < |before| ==> before[i] != '{'
    requires !Urls.Contains(after, PLACEHOLDER)
    ensures ServiceLink(before + PLACEHOLDER + after, referenceId) == before + referenceId + after
  {
    assert before + PLACEHOLDER + after == before + (PLACEHOLDER + after);
    ReplaceAfterPlainPrefix(before, PLACEHOLDER + after, PLACEHOLDER, referenceId);
    assert (PLACEHOLDER + after)[..|PLACEHOLDER|] == PLACEHOLDER;
    assert (PLACEHOLDER + after)[|PLACEHOLDER|..] == after;
    ReplaceAbsent(after, PLACEHOLDER, referenceId);
  }

  /** A FarmerService row. */
  datatype FarmerService = FarmerService(farmer: EntityId, service: nat, referenceId: string, isActive: bool)

  /** What FarmerSerializer.create holds as `buyer`: the serializer's
      dotted source makes the validated value a mapping {"id": …}; the
      sync_from_trace lookup or the current entity replace it by a row,
      or by None. */
  datatype BuyerValue = BuyerMapping(id: Option<string>) | BuyerRow(entity: EntityId) | NoBuyer

  /** The Farmer, FarmerService and EntityBuyer tables. */
  class FarmerStore {
    var farmers: map<EntityId, Farmer>
    var services: seq<FarmerService>
    var links: seq<EntityBuyer>

    /** Every service belongs to a stored farmer. */
    ghost predicate Valid()
      reads this
    {
      forall i :: 0 <= i < |services| ==> services[i].farmer in farmers
    }

    constructor ()
      ensures Valid() && farmers == map[] && services == [] && links == []
    {
      farmers, services, links := map[], [], [];
    }

    /** FarmerService.save for row k (None: a new row): the row is written,
        then its farmer is saved with updated_on set to now. */
    method SaveService(k: Option<nat>, s: FarmerService, now: int) returns (id: nat)
      requires Valid() && s.farmer in farmers
      requires k.Some? ==> k.value < |services|
      modifies this`services, this`farmers
      ensures Valid()
      ensures id == if k.Some? then k.value else |old(services)|
      ensures services == if k.Some? then old(services)[k.value := s] else old(services) + [s]
      ensures farmers == old(farmers)[s.farmer := Saved(old(farmers)[s.farmer].(updatedOn := now))]
      ensures farmers[s.farmer].updatedOn == now
    {
      if k.Some? {
        services := services[k.value := s];
        id := k.value;
      } else {
        services := services + [s];
        id := |services| - 1;
      }
      farmers := farmers[s.farmer := Saved(farmers[s.farmer].(updatedOn := now))];
    }

    /** FarmerSerializer.create, in one transaction. With sync_from_trace
        the buyer is the entity the mapping's id names (a missing one
        raises DoesNotExist); a user who is not an admin always gets the
        current entity as buyer; without a current user the admin check
        raises. The farmer is created and saved; a buyer row gets a default
        EntityBuyer link, while a buyer still held as the mapping cannot be
        assigned to the link (ValueError) and the whole create rolls back.
        The nested submission is not part of this model. */
    method Create(id: EntityId, f: Farmer, buyerId: Option<string>, syncFromTrace: bool, isAdmin: Option<bool>,
                  current: Option<EntityId>, entityIds: set<EntityId>, decodeId: string -> Option<nat>, now: int)
      returns (r: Result<EntityId, Failure>)
      requires Valid() && id !in farmers
      modifies this`farmers, this`links
      ensures Valid()
      ensures r.Err? ==> farmers == old(farmers) && links == old(links)
      ensures r.Ok? ==> r.value == id && farmers == old(farmers)[id := Saved(f.(updatedOn := now))]
      ensures r.Ok? ==> links == old(links) || (|links| == |old(links)| + 1 && links[..|old(links)|] == old(links)
                                              && links[|old(links)|].entity == id && links[|old(links)|].isDefault)
      ensures isAdmin.None? ==> r.Err?
      ensures isAdmin == Some(false) && !syncFromTrace ==>
                r.Ok? && links == old(links) + (if current.Some? then [EntityBuyer(id, current.value, true)] else [])
      ensures isAdmin == Some(true) && !syncFromTrace ==> r == Err(Uncaught("ValueError"))
      ensures isAdmin == Some(true) && syncFromTrace && r.Ok? ==>
                buyerId.Some? && decodeId(buyerId.value).Some? && decodeId(buyerId.value).value in entityIds
                && links == old(links) + [EntityBuyer(id, decodeId(buyerId.value).value, true)]
    {
      var buyer: BuyerValue := BuyerMapping(buyerId);
      if syncFromTrace {
        if buyerId.None? || decodeId(buyerId.value).None? || decodeId(buyerId.value).value !in entityIds {
          return Err(Uncaught("DoesNotExist"));
        }
        buyer := BuyerRow(decodeId(buyerId.value).value);
      }
      if isAdmin.None? {
        return Err(Uncaught("AttributeError"));
      }
      if !isAdmin.value {
        buyer := if current.Some? then BuyerRow(current.value) else NoBuyer;
      }
      if buyer.BuyerMapping? {
        return Err(Uncaught("ValueError"));
      }
      farmers := farmers[id := Saved(Saved(f.(updatedOn := now)))];
      SavedIdempotent(f.(updatedOn := now));
      if buyer.BuyerRow? {
        links := links + [EntityBuyer(id, buyer.entity, true)];
      }
      r := Ok(id);
    }
  }

  // ---------------------------------------------------------------------
  // FarmerFilterSet

  /** The entities linked to the buyer (`EntityBuyer.objects.filter(buyer=…)
      .values_list("entity__id")`). */
  function SuppliersOf(links: seq<EntityBuyer>, buyer: EntityId): (r: set<EntityId>)
    ensures forall e :: e in r <==> exists j :: 0 <= j < |links| && links[j].buyer == buyer && links[j].entity == e
  {
    set j | 0 <= j < |links| && links[j].buyer == buyer :: links[j].entity
  }

  /** FarmerFilterSet.qs: admins see every farmer; anyone else the farmers
      linked to the current entity as buyer (none without one). */
  function VisibleFarmers(qs: set<EntityId>, links: seq<EntityBuyer>, isAdmin: bool, current: Option<EntityId>)
    : (r: set<EntityId>)
    ensures r <= qs
    ensures isAdmin ==> r == qs
    ensures !isAdmin ==> forall e :: e in r <==> e in qs && current.Some? && e in SuppliersOf(links, current.value)
  {
    if isAdmin then qs
    else if current.None? then {}
    else set e | e in qs && e in SuppliersOf(links, current.value)
  }

  /** A farmer created by a user who is not an admin is visible to that
      user's entity. */
  lemma CreatedFarmerVisible(qs: set<EntityId>, links: seq<EntityBuyer>, id: EntityId, current: EntityId)
    requires id in qs
    ensures id in VisibleFarmers(qs, links + [EntityBuyer(id, current, true)], false, Some(current))
  {
    var l := links + [EntityBuyer(id, current, true)];
    assert l[|links|].buyer == current && l[|links|].entity == id;
  }

  /** skip_only_connect_filter: when set, the farmers linked to some buyer
      that is not only-connect. */
  function SkipOnlyConnectFarmers(qs: set<EntityId>, links: seq<EntityBuyer>, onlyConnect: set<EntityId>, value: bool)
    : (r: set<EntityId>)
    ensures !value ==> r == qs
    ensures value ==> forall e :: e in r <==>
              e in qs && exists j :: 0 <= j < |links| && links[j].entity == e && links[j].buyer !in onlyConnect
  {
    if !value then qs
    else set e | e in qs && exists j :: 0 <= j < |links| && links[j].entity == e && links[j].buyer !in onlyConnect
  }

  /** A farmer every one of whose buyers is in the only-connect set is
      skipped; one with any other buyer is kept when the queryset has it. */
  lemma OnlyConnectFarmerSkipped(qs: set<EntityId>, links: seq<EntityBuyer>, onlyConnect: set<EntityId>, e: EntityId)
    ensures (forall j :: 0 <= j < |links| && links[j].entity == e ==> links[j].buyer in onlyConnect)
            <==> e !in SkipOnlyConnectFarmers(qs + {e}, links, onlyConnect, true)
  {
  }

  /** Skipping twice is skipping once. */
  lemma SkipOnlyConnectFarmersIdempotent(qs: set<EntityId>, links: seq<EntityBuyer>, onlyConnect: set<EntityId>, value: bool)
    ensures var once := SkipOnlyConnectFarmers(qs, links, onlyConnect, value);
            SkipOnlyConnectFarmers(once, links, onlyConnect, value) == once
  {
  }

  /** after_farmer_id_filter: ids greater than the given (Hashid) id; text
      that is not an id matches nothing. */
  function AfterFarmer(qs: set<EntityId>, value: string, decodeId: string -> Option<nat>): (r: set<EntityId>)
    ensures decodeId(value).None? ==> r == {}
    ensures decodeId(value).Some? ==> forall e :: e in r <==> e in qs && e > decodeId(value).value
  {
    match decodeId(value)
    case None => {}
    case Some(d) => set e | e in qs && e > d
  }

  /** The id filter keeps nothing at or below its bound: a farmer is never
      listed after itself. */
  lemma AfterSelfExcludesSelf(qs: set<EntityId>, value: string, decodeId: string -> Option<nat>)
    requires decodeId(value).Some?
    ensures decodeId(value).value !in AfterFarmer(qs, value, decodeId)
  {
  }

  /** entity_filter: the farmers linked to the decoded buyer; text that
      does not decode raises ValueError. */
  function FarmersOfBuyer(qs: set<EntityId>, links: seq<EntityBuyer>, value: string, decodeId: string -> Option<nat>)
    : (r: Result<set<EntityId>, Failure>)
    ensures decodeId(value).None? <==> r.Err?
    ensures r.Err? ==> r.error == Uncaught("ValueError")
    ensures r.Ok? ==> r.value == set e | e in qs && e in SuppliersOf(links, decodeId(value).value)
  {
    match decodeId(value)
    case None => Err(Uncaught("ValueError"))
    case Some(d) => Ok(set e | e in qs && e in SuppliersOf(links, d))
  }

  /** For a user who is not an admin, filtering by the current entity keeps
      the whole visible set. */
  lemma OwnEntityFilterKeepsAll(qs: set<EntityId>, links: seq<EntityBuyer>, current: EntityId, value: string,
                                decodeId: string -> Option<nat>)
    requires decodeId(value) == Some(current)
    ensures FarmersOfBuyer(VisibleFarmers(qs, links, false, Some(current)), links, value, decodeId)
            == Ok(VisibleFarmers(qs, links, false, Some(current)))
  {
    var v := VisibleFarmers(qs, links, false, Some(current));
    assert (set e | e in v && e in SuppliersOf(links, current)) == v;
  }
}

=== FILE: form_serializers.dfy ===
/** The create operations of v1/forms/serializers.py over the form tables:
    the field-config upsert, form creation with its fields and configs, and
    the submission with its values. Row ids arriving as text are read as
    Hashids by `decodeId`; text that names no row matches nothing. */
module FormSerializers {
  import opened Wrappers
  import opened Failures
  import opened Entities
  import opened Forms
  import opened CompanyProducts

  /** The config of form f with the key, if there is one. */
  function FindConfig(cs: seq<FormFieldConfig>, f: nat, key: string): (k: Option<nat>)
    ensures k.Some? ==> k.value < |cs| && cs[k.value].form == f && cs[k.value].key == key
    ensures k.None? ==> forall i :: 0 <= i < |cs| ==> cs[i].form != f || cs[i].key != key
  {
    if cs == [] then None
    else if cs[0].form == f && cs[0].key == key then Some(0)
    else match FindConfig(cs[1..], f, key)
      case None => None
      case Some(k) => Some(k + 1)
  }

  /** FormFieldConfigSerializer.create on the config table: `get(form, key)`
      finds at most one row (the pair is unique); it is updated with the
      data, and otherwise a new config is added. */
  function UpsertConfig(cs: seq<FormFieldConfig>, f: nat, d: ConfigData): (r: seq<FormFieldConfig>)
    requires ConfigsUnique(cs)
    ensures ConfigsUnique(r)
    ensures FindConfig(cs, f, d.key).None? ==> r == cs + [NewConfig(f, d)]
    ensures FindConfig(cs, f, d.key).Some? ==>
              var k := FindConfig(cs, f, d.key).value;
              r == cs[k := UpdatedConfig(cs[k], d)]
    ensures FindConfig(r, f, d.key).Some?
  {
    match FindConfig(cs, f, d.key)
    case None =>
      var r := cs + [NewConfig(f, d)];
      assert r[|cs|].form == f && r[|cs|].key == d.key;
      r
    case Some(k) =>
      var r := cs[k := UpdatedConfig(cs[k], d)];
      assert r[k].form == f && r[k].key == d.key;
      r
  }

  /** Upserting the same data twice is upserting it once: no second config
      for the pair. */
  lemma UpsertConfigIdempotent(cs: seq<FormFieldConfig>, f: nat, d: ConfigData)
    requires ConfigsUnique(cs)
    ensures UpsertConfig(UpsertConfig(cs, f, d), f, d) == UpsertConfig(cs, f, d)
    ensures |UpsertConfig(UpsertConfig(cs, f, d), f, d)| == |UpsertConfig(cs, f, d)|
  {
    var once := UpsertConfig(cs, f, d);
    var k := FindConfig(once, f, d.key).value;
    UniqueFind(once, f, d.key, k);
    if FindConfig(cs, f, d.key).None? {
      assert k == |cs|;
    } else {
      var j := FindConfig(cs, f, d.key).value;
      assert once[j].form == f && once[j].key == d.key;
      assert k == j;
    }
  }

  /** One upsert for a form below n keeps every config's form below n. */
  lemma UpsertConfigFormsBelow(cs: seq<FormFieldConfig>, f: nat, d: ConfigData, n: nat)
    requires ConfigsUnique(cs) && f < n
    requires forall i :: 0 <= i < |cs| ==> cs[i].form < n
    ensures forall i :: 0 <= i < |UpsertConfig(cs, f, d)| ==> UpsertConfig(cs, f, d)[i].form < n
  {
  }

  /** With unique pairs, the config found is the only one with its pair. */
  lemma UniqueFind(cs: seq<FormFieldConfig>, f: nat, key: string, k: nat)
    requires ConfigsUnique(cs) && FindConfig(cs, f, key).Some? && k == FindConfig(cs, f, key).value
    ensures forall i :: 0 <= i < |cs| && cs[i].form == f && cs[i].key == key ==> i == k
  {
  }

  /** The configs after upserting the data items one after another. */
  function UpsertConfigs(cs: seq<FormFieldConfig>, f: nat, ds: seq<ConfigData>): (r: seq<FormFieldConfig>)
    requires ConfigsUnique(cs)
    ensures ConfigsUnique(r)
    decreases |ds|
  {
    if ds == [] then cs else UpsertConfigs(UpsertConfig(cs, f, ds[0]), f, ds[1..])
  }

  /** Upserting into a form's configs keeps every stored row's form and
      key, and leaves the rows of other forms as they are. */
  lemma {:induction false} UpsertConfigsKeeps(cs: seq<FormFieldConfig>, f: nat, ds: seq<ConfigData>)
    requires ConfigsUnique(cs)
    ensures |cs| <= |UpsertConfigs(cs, f, ds)|
    ensures forall i :: 0 <= i < |cs| ==>
              UpsertConfigs(cs, f, ds)[i].form == cs[i].form && UpsertConfigs(cs, f, ds)[i].key == cs[i].key
    ensures forall i :: 0 <= i < |cs| && cs[i].form != f ==> UpsertConfigs(cs, f, ds)[i] == cs[i]
    decreases |ds|
  {
    if ds != [] {
      UpsertConfigsKeeps(UpsertConfig(cs, f, ds[0]), f, ds[1..]);
    }
  }

  /** Every key supplied ends up with a config of the form. */
  lemma {:induction false} UpsertConfigsCovers(cs: seq<FormFieldConfig>, f: nat, ds: seq<ConfigData>)
    requires ConfigsUnique(cs)
    ensures forall j :: 0 <= j < |ds| ==> FindConfig(UpsertConfigs(cs, f, ds), f, ds[j].key).Some?
    decreases |ds|
  {
    if ds != [] {
      var next := UpsertConfig(cs, f, ds[0]);
      var r := UpsertConfigs(cs, f, ds);
      assert r == UpsertConfigs(next, f, ds[1..]);
      UpsertConfigsCovers(next, f, ds[1..]);
      UpsertConfigsKeeps(next, f, ds[1..]);
      var k := FindConfig(next, f, ds[0].key).value;
      assert r[k].form == f && r[k].key == ds[0].key;
      forall j | 0 <= j < |ds|
        ensures FindConfig(r, f, ds[j].key).Some?
      {
        if j > 0 {
          assert ds[j] == ds[1..][j - 1];
        }
      }
    }
  }

  /** The fields created for form f from the data, in order. */
  function NewFields(f: nat, ds: seq<FieldData>): (r: seq<FormField>)
    ensures |r| == |ds|
    ensures forall i :: 0 <= i < |ds| ==> r[i] == NewField(f, ds[i])
  {
    if ds == [] then [] else [NewField(f, ds[0])] + NewFields(f, ds[1..])
  }

  /** The company products after a PRODUCT form f of the owner is added to
      every one of the owner's rows. */
  function AttachForm(links: seq<CompanyProduct>, owner: EntityId, f: nat): (r: seq<CompanyProduct>)
    ensures |r| == |links|
    ensures forall i :: 0 <= i < |links| ==>
              r[i] == if links[i].company == owner then links[i].(forms := links[i].forms + {f}) else links[i]
  {
    if links == [] then []
    else
      [if links[0].company == owner then links[0].(forms := links[0].forms + {f}) else links[0]]
      + AttachForm(links[1..], owner, f)
  }

  /** A new PRODUCT form lists exactly the products of its owner's company
      products. */
  lemma ProductFormProducts(links: seq<CompanyProduct>, owner: EntityId, f: nat)
    requires forall i :: 0 <= i < |links| ==> f !in links[i].forms
    ensures forall p :: p in FormProducts(AttachForm(links, owner, f), f) <==>
              exists i :: 0 <= i < |links| && links[i].company == owner && links[i].product == p
  {
    var after := AttachForm(links, owner, f);
    forall p
      ensures p in FormProducts(after, f) ==>
              exists i :: 0 <= i < |links| && links[i].company == owner && links[i].product == p
    {
      if p in FormProducts(after, f) {
        var i :| 0 <= i < |after| && f in after[i].forms && after[i].product == p;
        assert links[i].company == owner;
      }
    }
  }

  /** ResolveField: SubmissionValuesSerializer.create's field lookup,
      `get(pk=text)` and on DoesNotExist `get(key=text)` over every form's
      fields. */
  function CountKey(fields: seq<FormField>, key: string): nat
  {
    if fields == [] then 0 else (if fields[0].key == Some(key) then 1 else 0) + CountKey(fields[1..], key)
  }

  function FindKey(fields: seq<FormField>, key: string): (k: Option<nat>)
    ensures k.Some? ==> k.value < |fields| && fields[k.value].key == Some(key)
    ensures k.None? <==> CountKey(fields, key) == 0
  {
    if fields == [] then None
    else if fields[0].key == Some(key) then Some(0)
    else match FindKey(fields[1..], key)
      case None => None
      case Some(k) => Some(k + 1)
  }

  function ResolveField(fields: seq<FormField>, text: string, decodeId: string -> Option<nat>): (r: Result<nat, Failure>)
    ensures r.Ok? ==> r.value < |fields|
    ensures decodeId(text).Some? && decodeId(text).value < |fields| ==> r == Ok(decodeId(text).value)
    ensures !(decodeId(text).Some? && decodeId(text).value < |fields|) ==>
              && (CountKey(fields, text) == 0 ==> r == Err(Uncaught("DoesNotExist")))
              && (CountKey(fields, text) > 1 ==> r == Err(Uncaught("MultipleObjectsReturned")))
              && (CountKey(fields, text) == 1 ==> r.Ok? && fields[r.value].key == Some(text))
  {
    var d := decodeId(text);
    if d.Some? && d.value < |fields| then Ok(d.value)
    else
      var n := CountKey(fields, text);
      if n == 0 then Err(Uncaught("DoesNotExist"))
      else if n > 1 then Err(Uncaught("MultipleObjectsReturned"))
      else Ok(FindKey(fields, text).value)
  }

  /** One item of a submission's `values`: the field as text and the value. */
  datatype ValueItem = ValueItem(field: string, value: string)

  /** Whether a value row for (s, field) exists. */
  predicate HasValue(vs: seq<SubmissionValue>, s: nat, field: nat)
  {
    exists i :: 0 <= i < |vs| && vs[i].submission == s && vs[i].field == field
  }

  /** The value rows after inserting the items for submission s one after
      another: the first unknown field or repeated (submission, field) pair
      stops with its error. */
  function InsertValues(fields: seq<FormField>, vs: seq<SubmissionValue>, s: nat, items: seq<ValueItem>,
                        decodeId: string -> Option<nat>): (r: Result<seq<SubmissionValue>, Failure>)
    decreases |items|
  {
    if items == [] then Ok(vs)
    else match ResolveField(fields, items[0].field, decodeId)
      case Err(e) => Err(e)
      case Ok(fk) =>
        if HasValue(vs, s, fk) then Err(IntegrityError("unique_submission_field"))
        else InsertValues(fields, vs + [SubmissionValue(s, fk, items[0].value)], s, items[1..], decodeId)
  }

  /** Inserting keeps the (submission, field) pairs unique and only adds rows
      of the submission whose fields exist. */
  lemma {:induction false} InsertValuesShape(fields: seq<FormField>, vs: seq<SubmissionValue>, s: nat,
                                             items: seq<ValueItem>, decodeId: string -> Option<nat>)
    requires ValuesUnique(vs)
    ensures var r := InsertValues(fields, vs, s, items, decodeId);
            r.Ok? ==> && ValuesUnique(r.value) && |r.value| == |vs| + |items| && r.value[..|vs|] == vs
                      && forall i :: |vs| <= i < |r.value| ==> r.value[i].submission == s && r.value[i].field < |fields|
    decreases |items|
  {
    if items != [] {
      match ResolveField(fields, items[0].field, decodeId)
      case Err(_) =>
      case Ok(fk) =>
        if !HasValue(vs, s, fk) {
          var next := vs + [SubmissionValue(s, fk, items[0].value)];
          InsertValuesShape(fields, next, s, items[1..], decodeId);
          var r := InsertValues(fields, next, s, items[1..], decodeId);
          if r.Ok? {
            assert r.value[..|next|][..|vs|] == r.value[..|vs|];
            assert r.value[|vs|] == r.value[..|next|][|vs|];
          }
        }
    }
  }

  /** The form tables. */
  class FormStore {
    var forms: seq<Form>
    var fields: seq<FormField>
    var configs: seq<FormFieldConfig>
    var submissions: seq<Submission>
    var values: seq<SubmissionValue>

    /** Every row refers to rows that exist, and the two unique constraints
        hold. */
    ghost predicate Valid()
      reads this
    {
      && (forall i :: 0 <= i < |fields| ==> fields[i].form < |forms|)
      && (forall i :: 0 <= i < |configs| ==> configs[i].form < |forms|)
      && ConfigsUnique(configs)
      && (forall i :: 0 <= i < |submissions| ==> submissions[i].form < |forms|)
      && (forall i :: 0 <= i < |values| ==> values[i].submission < |submissions| && values[i].field < |fields|)
      && ValuesUnique(values)
    }

    constructor ()
      ensures Valid()
      ensures forms == [] && fields == [] && configs == [] && submissions == [] && values == []
    {
      forms, fields, configs, submissions, values := [], [], [], [], [];
    }

    /** FormFieldConfigSerializer.create for a config of an existing form. */
    method SaveConfig(f: nat, d: ConfigData) returns (k: nat)
      requires Valid() && f < |forms|
      modifies this`configs
      ensures Valid()
      ensures configs == UpsertConfig(old(configs), f, d)
      ensures k < |configs| && configs[k].form == f && configs[k].key == d.key
      ensures old(FindConfig(configs, f, d.key)).Some? ==> |configs| == |old(configs)|
    {
      configs := UpsertConfig(configs, f, d);
      k := FindConfig(configs, f, d.key).value;
    }

    /** FormSerializer.create: the form, then its fields, then its configs
        (each through the upsert), and a PRODUCT form is added to every
        company product of its owner. */
    method CreateForm(store: ProductStore, owner: EntityId, formType: Option<FormType>,
                      fieldData: seq<FieldData>, configData: seq<ConfigData>)
      returns (id: nat)
      requires Valid()
      modifies this`forms, this`fields, this`configs, store`links
      ensures Valid()
      ensures id == |old(forms)| && forms == old(forms) + [NewForm(owner, formType)]
      ensures fields == old(fields) + NewFields(id, fieldData)
      ensures configs == UpsertConfigs(old(configs), id, configData)
      ensures store.links == if NewForm(owner, formType).formType == ProductForm
                             then AttachForm(old(store.links), owner, id) else old(store.links)
    {
      id := AddForm(owner, formType);
      AddFields(id, fieldData);
      AddConfigs(id, configData);
      assert values == old(values) && submissions == old(submissions) && |fields| >= |old(fields)|;
      if forms[id].formType == ProductForm {
        store.links := AttachForm(store.links, owner, id);
      }
    }

    /** The form row itself, appended with the next id. */
    method AddForm(owner: EntityId, formType: Option<FormType>) returns (id: nat)
      requires Valid()
      modifies this`forms
      ensures Valid()
      ensures id == |old(forms)| && forms == old(forms) + [NewForm(owner, formType)]
    {
      forms := forms + [NewForm(owner, formType)];
      id := |forms| - 1;
    }

    /** The nested field serializer's create: one field per item, in
        order. */
    method AddFields(id: nat, fieldData: seq<FieldData>)
      requires id < |forms|
      requires forall i :: 0 <= i < |fields| ==> fields[i].form < |forms|
      modifies this`fields
      ensures fields == old(fields) + NewFields(id, fieldData)
      ensures forall i :: 0 <= i < |fields| ==> fields[i].form < |forms|
    {
      var i := 0;
      while i < |fieldData|
        invariant 0 <= i <= |fieldData|
        invariant fields == old(fields) + NewFields(id, fieldData[..i])
      {
        assert NewFields(id, fieldData[..i + 1]) == NewFields(id, fieldData[..i]) + [NewField(id, fieldData[i])];
        fields := fields + [NewField(id, fieldData[i])];
        i := i + 1;
      }
      assert fieldData[..|fieldData|] == fieldData;
    }

    /** The nested config serializer's create: one upsert per item, in
        order. */
    method AddConfigs(id: nat, configData: seq<ConfigData>)
      requires id < |forms| && ConfigsUnique(configs)
      requires forall i :: 0 <= i < |configs| ==> configs[i].form < |forms|
      modifies this`configs
      ensures configs == UpsertConfigs(old(configs), id, configData)
      ensures forall i :: 0 <= i < |configs| ==> configs[i].form < |forms|
      ensures ConfigsUnique(configs)
    {
      var j := 0;
      while j < |configData|
        invariant 0 <= j <= |configData| && ConfigsUnique(configs)
        invariant forall k :: 0 <= k < |configs| ==> configs[k].form < |forms|
        invariant UpsertConfigs(configs, id, configData[j..]) == UpsertConfigs(old(configs), id, configData)
      {
        assert configData[j..][1..] == configData[j + 1..];
        var next := UpsertConfig(configs, id, configData[j]);
        UpsertConfigFormsBelow(configs, id, configData[j], |forms|);
        assert UpsertConfigs(configs, id, configData[j..]) == UpsertConfigs(next, id, configData[j + 1..]);
        configs := next;
        j := j + 1;
      }
    }

    /** SubmissionSerializer.create, in one database transaction: the
        submission, then each of its values in order; any failure rolls
        both tables back. The result is the submission's id. */
    method CreateSubmission(form: nat, product: Option<nat>, items: seq<ValueItem>, decodeId: string -> Option<nat>)
      returns (r: Result<nat, Failure>)
      requires Valid() && form < |forms|
      modifies this`submissions, this`values
      ensures Valid()
      ensures var ins := InsertValues(fields, old(values), |old(submissions)|, items, decodeId);
              && (ins.Err? ==> r == Err(ins.error) && submissions == old(submissions) && values == old(values))
              && (ins.Ok? ==> r == Ok(|old(submissions)|) && values == ins.value
                              && submissions == old(submissions) + [Submission(form, product)])
    {
      var s := |submissions|;
      NoValuesOfNew(values, s);
      var vs := values;
      var i := 0;
      while i < |items|
        invariant 0 <= i <= |items| && ValuesUnique(vs) && |old(values)| <= |vs|
        invariant values == old(values) && submissions == old(submissions)
        invariant vs[..|old(values)|] == old(values)
        invariant forall k :: |old(values)| <= k < |vs| ==> vs[k].submission == s && vs[k].field < |fields|
        invariant InsertValues(fields, vs, s, items[i..], decodeId) == InsertValues(fields, old(values), s, items, decodeId)
      {
        var fk := ResolveField(fields, items[i].field, decodeId);
        assert items[i..][1..] == items[i + 1..];
        if fk.Err? {
          return Err(fk.error);
        }
        if HasValue(vs, s, fk.value) {
          return Err(IntegrityError("unique_submission_field"));
        }
        AppendUnique(vs, SubmissionValue(s, fk.value, items[i].value));
        vs := vs + [SubmissionValue(s, fk.value, items[i].value)];
        i := i + 1;
      }
      submissions := submissions + [Submission(form, product)];
      values := vs;
      r := Ok(s);
    }
  }

  /** A new submission has no values yet. */
  lemma NoValuesOfNew(vs: seq<SubmissionValue>, s: nat)
    requires forall i :: 0 <= i < |vs| ==> vs[i].submission < s
    ensures forall f :: !HasValue(vs, s, f)
  {
  }

  lemma AppendUnique(vs: seq<SubmissionValue>, v: SubmissionValue)
    requires ValuesUnique(vs) && !HasValue(vs, v.submission, v.field)
    ensures ValuesUnique(vs + [v])
  {
  }

  /** The field text is looked up by key across every form, and clean is
      not run on create: a submission can take a value for a field of
      another form, which clean would refuse. */
  lemma KeyLookupCrossesForms(decodeId: string -> Option<nat>)
    requires decodeId("size").None?
    ensures var fields := [FormField(1, "Size", Some("size"), true)];
            var subs := [Submission(0, None)];
            && ResolveField(fields, "size", decodeId) == Ok(0)
            && Clean(fields, subs, SubmissionValue(0, 0, "4")).Err?
  {
    var fields := [FormField(1, "Size", Some("size"), true)];
    assert CountKey(fields, "size") == 1;
  }
}

=== FILE: forms.dfy ===
/** The form tables of v1/forms/models.py with the choices of
    v1/forms/constants.py. Rows are referred to by their position in their
    table. */
module Forms {
  import opened Wrappers
  import opened Failures
  import opened Entities

  datatype FormType = TransactionForm | FarmerForm | PaymentForm | ProductForm
  {
    function Label(): (s: string)
      ensures |s| > 0
    {
      match this
      case TransactionForm => "TRANSACTION"
      case FarmerForm => "FARMER"
      case PaymentForm => "PAYMENT"
      case ProductForm => "PRODUCT"
    }
  }

  /** The labels tell the form types apart. */
  lemma LabelsDistinct(a: FormType, b: FormType)
    requires a != b
    ensures a.Label() != b.Label()
  {
  }

  datatype Form = Form(owner: EntityId, formType: FormType)

  /** A new form: the type defaults to TRANSACTION. */
  function NewForm(owner: EntityId, formType: Option<FormType>): (f: Form)
    ensures f.owner == owner
    ensures formType.Some? ==> f.formType == formType.value
    ensures formType.None? ==> f.formType == TransactionForm
  {
    Form(owner, formType.UnwrapOr(TransactionForm))
  }

  /** A FormField; the key is optional and not unique. */
  datatype FormField = FormField(form: nat, labelText: string, key: Option<string>, required: bool)

  /** The data of a field to create; `required` left out of the request is
      None. */
  datatype FieldData = FieldData(labelText: string, key: Option<string>, required: Option<bool>)

  /** A new field of form f: required unless the data says otherwise. */
  function NewField(f: nat, d: FieldData): (r: FormField)
    ensures r.form == f && r.labelText == d.labelText && r.key == d.key
    ensures r.required <==> d.required != Some(false)
  {
    FormField(f, d.labelText, d.key, d.required.UnwrapOr(true))
  }

  datatype FormFieldConfig = FormFieldConfig(form: nat, labelText: string, key: string, visibility: bool, required: bool)

  datatype ConfigData = ConfigData(labelText: string, key: string, visibility: Option<bool>, required: Option<bool>)

  /** A new config of form f: visible and not required unless the data says
      otherwise. */
  function NewConfig(f: nat, d: ConfigData): (c: FormFieldConfig)
    ensures c.form == f && c.key == d.key && c.labelText == d.labelText
    ensures c.visibility <==> d.visibility != Some(false)
    ensures c.required <==> d.required == Some(true)
  {
    FormFieldConfig(f, d.labelText, d.key, d.visibility.UnwrapOr(true), d.required.UnwrapOr(false))
  }

  /** The config after `update` with the data: fields left out keep their
      stored values. */
  function UpdatedConfig(c: FormFieldConfig, d: ConfigData): (r: FormFieldConfig)
    ensures r.form == c.form && r.key == d.key && r.labelText == d.labelText
    ensures d.visibility.None? ==> r.visibility == c.visibility
    ensures d.required.None? ==> r.required == c.required
    ensures d.visibility.Some? ==> r.visibility == d.visibility.value
    ensures d.required.Some? ==> r.required == d.required.value
  {
    c.(labelText := d.labelText, key := d.key,
       visibility := d.visibility.UnwrapOr(c.visibility), required := d.required.UnwrapOr(c.required))
  }

  /** The "unique_form_field_config" constraint on (form, key). */
  predicate ConfigsUnique(cs: seq<FormFieldConfig>)
  {
    forall i, j :: 0 <= i < j < |cs| ==> cs[i].form != cs[j].form || cs[i].key != cs[j].key
  }

  datatype Submission = Submission(form: nat, product: Option<nat>)

  datatype SubmissionValue = SubmissionValue(submission: nat, field: nat, value: string)

  /** The "unique_submission_field" constraint on (submission, field). */
  predicate ValuesUnique(vs: seq<SubmissionValue>)
  {
    forall i, j :: 0 <= i < j < |vs| ==> vs[i].submission != vs[j].submission || vs[i].field != vs[j].field
  }

  const NOT_SAME_FORM := ValidationError("Field and Submission must belong to the same Form.")

  /** SubmissionValues.clean: the value's field and its submission must
      belong to the same form. */
  function Clean(fields: seq<FormField>, submissions: seq<Submission>, v: SubmissionValue): (r: Result<(), Failure>)
    requires v.field < |fields| && v.submission < |submissions|
    ensures r.Ok? <==> fields[v.field].form == submissions[v.submission].form
    ensures r.Err? ==> r.error == NOT_SAME_FORM
  {
    if fields[v.field].form != submissions[v.submission].form then Err(NOT_SAME_FORM) else Ok(())
  }
}

=== FILE: functions.dfy ===
/** The general helpers of utilities/functions.py. The clock and the random
    generator are inputs: `today` is the date the server reads, and a
    random draw is an arbitrary integer folded into the requested range. */
module UtilityFunctions {
  import opened Wrappers
  import opened Failures
  import opened JsonValues
  import opened RequestViews

  /** `", ".join(words)` */
  function CommaJoin(words: seq<string>): (r: string)
  {
    if words == [] then "" else if |words| == 1 then words[0] else words[0] + ", " + CommaJoin(words[1..])
  }

  /** `" ".join(words)` */
  function SpaceJoin(words: seq<string>): (r: string)
  {
    if words == [] then "" else if |words| == 1 then words[0] else words[0] + " " + SpaceJoin(words[1..])
  }

  /** The total length of the words. */
  function TotalLength(words: seq<string>): nat
  {
    if words == [] then 0 else |words[0]| + TotalLength(words[1..])
  }

  /** A comma-joined list of n >= 1 words has the words and n - 1 ", "
      separators, and starts with the first word. */
  lemma {:induction false} CommaJoinShape(words: seq<string>)
    requires words != []
    ensures |CommaJoin(words)| == TotalLength(words) + 2 * (|words| - 1)
    ensures CommaJoin(words)[..|words[0]|] == words[0]
  {
    if |words| > 1 {
      CommaJoinShape(words[1..]);
    }
  }

  /** list_to_sentence (the words already turned into text, `andWord` the
      translated "and"): no word or one word is the space-join (so "" or
      the word itself); two or more are "a, b, ... and z". */
  function ListToSentence(words: seq<string>, andWord: string): (r: string)
    ensures words == [] ==> r == ""
    ensures |words| == 1 ==> r == words[0]
    ensures |words| >= 2 ==>
              var n := |words|;
              var tail := " " + andWord + " " + words[n - 1];
              && |r| == TotalLength(words) + 2 * (n - 2) + |andWord| + 2
              && r[..|words[0]|] == words[0]
              && |tail| <= |r| && r[|r| - |tail|..] == tail
  {
    var n := |words|;
    if n <= 1 then SpaceJoin(words)
    else
      var head := CommaJoin(words[..n - 1]);
      CommaJoinShape(words[..n - 1]);
      TotalLengthSplit(words);
      assert words[..n - 1][0] == words[0];
      head + " " + andWord + " " + words[n - 1]
  }

  lemma {:induction false} TotalLengthSplit(words: seq<string>)
    requires words != []
    ensures TotalLength(words) == TotalLength(words[..|words| - 1]) + |words[|words| - 1]|
  {
    if |words| > 1 {
      TotalLengthSplit(words[1..]);
      assert words[1..][..|words| - 2] == words[..|words| - 1][1..];
    }
  }

  /** Two words read "a and b". */
  lemma TwoWords(a: string, b: string, andWord: string)
    ensures ListToSentence([a, b], andWord) == a + " " + andWord + " " + b
  {
    assert [a, b][..1] == [a];
  }

  /** get_ip_from_request: a non-empty X-Forwarded-For header gives its
      first comma-separated entry, untrimmed; otherwise REMOTE_ADDR, or
      None when that is missing too. */
  function GetIpFromRequest(meta: map<string, string>): (r: Option<string>)
    ensures "HTTP_X_FORWARDED_FOR" in meta && meta["HTTP_X_FORWARDED_FOR"] != "" ==>
              var x := meta["HTTP_X_FORWARDED_FOR"];
              && r.Some? && |r.value| <= |x| && x[..|r.value|] == r.value && ',' !in r.value
              && (|r.value| == |x| || x[|r.value|] == ',')
    ensures !("HTTP_X_FORWARDED_FOR" in meta && meta["HTTP_X_FORWARDED_FOR"] != "") ==>
              (r.Some? <==> "REMOTE_ADDR" in meta) && (r.Some? ==> r.value == meta["REMOTE_ADDR"])
  {
    if "HTTP_X_FORWARDED_FOR" in meta && meta["HTTP_X_FORWARDED_FOR"] != "" then
      var x := meta["HTTP_X_FORWARDED_FOR"];
      var parts := Split(x, ',');
      FirstPartIsPrefix(parts, x);
      Some(parts[0])
    else if "REMOTE_ADDR" in meta then Some(meta["REMOTE_ADDR"])
    else None
  }

  /** The first piece of a split is the text up to the first separator. */
  lemma FirstPartIsPrefix(parts: seq<string>, x: string)
    requires |parts| >= 1 && Join(parts, ',') == x && forall i :: 0 <= i < |parts| ==> ',' !in parts[i]
    ensures |parts[0]| <= |x| && x[..|parts[0]|] == parts[0]
    ensures |parts[0]| == |x| || x[|parts[0]|] == ','
  {
    if |parts| > 1 {
      assert x == parts[0] + [','] + Join(parts[1..], ',');
    }
  }

  function Pow10(n: nat): (p: nat)
    ensures p >= 1
  {
    if n == 0 then 1 else 10 * Pow10(n - 1)
  }

  /** The number of decimal digits of a positive number. */
  function DigitCount(n: nat): (d: nat)
    requires n >= 1
  {
    if n < 10 then 1 else 1 + DigitCount(n / 10)
  }

  /** Exactly the numbers from 10^(d-1) to 10^d - 1 have d digits. */
  lemma {:induction false} DigitCountRange(n: nat, d: nat)
    requires d >= 1 && Pow10(d - 1) <= n < Pow10(d)
    ensures DigitCount(n) == d
  {
    if d > 1 {
      assert Pow10(d - 1) == 10 * Pow10(d - 2);
      DigitCountRange(n / 10, d - 1);
    }
  }

  /** generate_random_number: randint(10^(d-1), 10^d - 1), the draw being
      an arbitrary integer folded into that range. With no digits asked
      the lower bound is the float 0.1, which randint refuses. */
  function GenerateRandomNumber(digits: int, draw: int): (r: Result<nat, Failure>)
    ensures digits >= 1 <==> r.Ok?
    ensures r.Ok? ==> Pow10(digits - 1) <= r.value <= Pow10(digits) - 1
    ensures r.Err? ==> r.error == Uncaught("ValueError")
  {
    if digits < 1 then Err(Uncaught("ValueError"))
    else
      var lo := Pow10(digits - 1);
      var hi := Pow10(digits) - 1;
      Ok(lo + draw % (hi - lo + 1))
  }

  /** A generated number has exactly the requested number of digits. */
  lemma RandomNumberDigits(digits: int, draw: int)
    requires digits >= 1
    ensures DigitCount(GenerateRandomNumber(digits, draw).value) == digits
  {
    DigitCountRange(GenerateRandomNumber(digits, draw).value, digits);
  }

  /** serialize_promises: lists keep their shape, tuples become generators
      over their converted elements, dictionaries keep their keys (all text
      here, which the conversion leaves as they are) with converted values,
      lazy strings become plain strings, and everything else is returned
      as it is. */
  function SerializePromises(data: Json): (r: Json)
    ensures data.JList? ==> r.JList? && |r.items| == |data.items|
    ensures data.JTuple? ==> r.JGenerator? && |r.produced| == |data.elems|
    ensures data.JObject? ==> r.JObject? && r.fields.Keys == data.fields.Keys
    ensures data.JLazy? ==> r == JStr(data.text)
    ensures !(data.JList? || data.JTuple? || data.JObject? || data.JLazy?) ==> r == data
    ensures PromiseFree(r)
  {
    match data
    case JList(items) => JList(SerializeAll(items))
    case JTuple(elems) => JGenerator(SerializeAll(elems))
    case JObject(fields) => JObject(map k | k in fields :: SerializePromises(fields[k]))
    case JLazy(text) => JStr(text)
    case _ => data
  }

  function SerializeAll(items: seq<Json>): (r: seq<Json>)
    ensures |r| == |items|
    ensures forall i :: 0 <= i < |items| ==> r[i] == SerializePromises(items[i])
    ensures forall i :: 0 <= i < |r| ==> PromiseFree(r[i])
  {
    if items == [] then [] else [SerializePromises(items[0])] + SerializeAll(items[1..])
  }

  /** No lazy string and no tuple anywhere inside a list or dictionary;
      the items of a generator are not looked into. */
  predicate PromiseFree(j: Json)
  {
    match j
    case JList(items) => forall i :: 0 <= i < |items| ==> PromiseFree(items[i])
    case JTuple(_) => false
    case JObject(fields) => forall k :: k in fields ==> PromiseFree(fields[k])
    case JLazy(_) => false
    case _ => true
  }

  /** Converting a value that has nothing left to convert changes nothing,
      so converting twice is converting once. */
  lemma {:induction false} PromiseFreeUnchanged(j: Json)
    requires PromiseFree(j)
    ensures SerializePromises(j) == j
  {
    match j
    case JList(items) =>
      forall i | 0 <= i < |items|
        ensures SerializePromises(items[i]) == items[i]
      {
        PromiseFreeUnchanged(items[i]);
      }
    case JObject(fields) =>
      forall k | k in fields
        ensures SerializePromises(fields[k]) == fields[k]
      {
        PromiseFreeUnchanged(fields[k]);
      }
    case _ =>
  }

  lemma SerializeIdempotent(j: Json)
    ensures SerializePromises(SerializePromises(j)) == SerializePromises(j)
  {
    PromiseFreeUnchanged(SerializePromises(j));
  }

  /** A date as Python's proleptic Gregorian ordinal: day 1 is Monday
      1 January of year 1. */
  type Ordinal = n: int | n >= 1 witness 1

  /** `date.weekday()`: 0 for Monday through 6 for Sunday. */
  function Weekday(d: Ordinal): (w: nat)
    ensures w <= 6
  {
    (d + 6) % 7
  }

  /** week_start_end: the Monday of today's week and the Sunday six days
      later. */
  function WeekStartEnd(today: Ordinal): (r: (Ordinal, Ordinal))
    ensures Weekday(r.0) == 0 && r.1 == r.0 + 6
    ensures r.0 <= today <= r.1
  {
    var start := today - Weekday(today);
    (start, start + 6)
  }

  /** A calendar date. */
  datatype Date = Date(year: int, month: int, day: int)

  predicate IsLeap(y: int)
  {
    y % 4 == 0 && (y % 100 != 0 || y % 400 == 0)
  }

  /** `calendar.monthrange(year, month)[1]`: the number of days of the
      month. */
  function DaysInMonth(y: int, m: int): (n: int)
    requires 1 <= m <= 12
    ensures 28 <= n <= 31
  {
    if m == 2 then (if IsLeap(y) then 29 else 28)
    else if m == 4 || m == 6 || m == 9 || m == 11 then 30
    else 31
  }

  predicate ValidDate(d: Date)
  {
    1 <= d.year <= 9999 && 1 <= d.month <= 12 && 1 <= d.day <= DaysInMonth(d.year, d.month)
  }

  /** month_start_end: the first and the last day of today's month. */
  function MonthStartEnd(today: Date): (r: (Date, Date))
    requires ValidDate(today)
    ensures ValidDate(r.0) && ValidDate(r.1)
    ensures r.0.year == r.1.year == today.year && r.0.month == r.1.month == today.month
    ensures r.0.day == 1 && r.0.day <= today.day <= r.1.day
    ensures !ValidDate(r.1.(day := r.1.day + 1))
  {
    (Date(today.year, today.month, 1), Date(today.year, today.month, DaysInMonth(today.year, today.month)))
  }
}

=== FILE: geojson.dfy ===
/** The GeoJSON validators of v1/supply_chains/validators.py, run on a
    farmer's plots. The JSON text parser (json.loads) is an input: it gives
    the parsed value or None for text that is not JSON; `show` is the
    text an f-string gives a number. */
module GeoJson {
  import opened Wrappers
  import opened Failures
  import opened JsonValues
  import Urls

  /** How a validator call ends: it returns a value (None is JNull), it
      returns a ValidationError object without raising it, or it raises. */
  datatype Outcome = Returns(value: Json) | ReturnsErrors(messages: seq<string>) | Raises(failure: Failure)

  /** The items a `for` loop over the value visits. A string gives its
      one-character strings; a dictionary gives its keys, which are
      strings (stood for here by "", as no check looks at their text);
      numbers, None and Hashids are not iterable. */
  function Iterated(c: Json): (r: Result<seq<Json>, Failure>)
    ensures r.Err? ==> r.error == Uncaught("TypeError")
    ensures c.JList? ==> r == Ok(c.items)
  {
    match c
    case JList(items) => Ok(items)
    case JTuple(items) => Ok(items)
    case JGenerator(items) => Ok(items)
    case JStr(s) => Ok(seq(|s|, i requires 0 <= i < |s| => JStr([s[i]])))
    case JLazy(s) => Ok(seq(|s|, i requires 0 <= i < |s| => JStr([s[i]])))
    case JObject(fields) => Ok(seq(|fields.Keys|, _ => JStr("")))
    case _ => Err(Uncaught("TypeError"))
  }

  // ---------------------------------------------------------------------
  // validate_geojson_polygon

  const TYPE_MESSAGE := "Invalid type. It should be 'Feature'"
  const GEOMETRY_TYPE_MESSAGE := "Invalid type within 'geometry'. It should be 'Polygon'"
  const LIST_MESSAGE := "'coordinates' should be a list of lists"
  const RING_MESSAGE := "Each coordinate should be a list of length 2"
  const INVALID_JSON := "Invalid JSON"
  const NOT_A_DICTIONARY := ValidationError("JSON data should be a dictionary")

  /** A ring the polygon check accepts: a list of two-element lists. */
  predicate RingWellFormed(ring: Json)
  {
    ring.JList? && forall k :: 0 <= k < |ring.items| ==> ring.items[k].JList? && |ring.items[k].items| == 2
  }

  /** One message per ring that is not well formed, in ring order. */
  function RingErrors(rings: seq<Json>): (r: seq<string>)
    ensures |r| <= |rings|
    ensures forall i :: 0 <= i < |r| ==> r[i] == RING_MESSAGE
  {
    if rings == [] then []
    else RingErrors(rings[..|rings| - 1]) + (if RingWellFormed(rings[|rings| - 1]) then [] else [RING_MESSAGE])
  }

  /** The ring loop reports nothing exactly when every ring is well
      formed. */
  lemma {:induction false} RingErrorsEmptyIff(rings: seq<Json>)
    ensures RingErrors(rings) == [] <==> forall i :: 0 <= i < |rings| ==> RingWellFormed(rings[i])
  {
    if rings != [] {
      var init := rings[..|rings| - 1];
      RingErrorsEmptyIff(init);
      assert forall i :: 0 <= i < |init| ==> init[i] == rings[i];
    }
  }

  /** The checks before the ring loop, on parsed data: the messages they
      collect and the value the loop iterates, or the exception that
      escapes. A missing "geometry" or "coordinates" key is recorded and
      then read anyway, so its KeyError escapes and the message is lost; a
      geometry that is not a dictionary ends in TypeError, at the
      membership test or at the indexing that follows it. */
  function PolygonHead(data: Json): (r: Result<(seq<string>, Json), Failure>)
    requires data.JObject?
  {
    var e1 := if "type" !in data.fields || data.fields["type"] != JStr("Feature") then [TYPE_MESSAGE] else [];
    if "geometry" !in data.fields then Err(Uncaught("KeyError"))
    else
      var g := data.fields["geometry"];
      if !g.JObject? then Err(Uncaught("TypeError"))
      else
        var e2 := if "type" !in g.fields || g.fields["type"] != JStr("Polygon") then [GEOMETRY_TYPE_MESSAGE] else [];
        if "coordinates" !in g.fields then Err(Uncaught("KeyError"))
        else
          var c := g.fields["coordinates"];
          Ok((e1 + e2 + (if !c.JList? then [LIST_MESSAGE] else []), c))
  }

  /** The value the validators work on: text is parsed, anything else is
      taken as it is. */
  function Parsed(d: Json, parse: string -> Option<Json>): Option<Json>
  {
    if d.JStr? then parse(d.s) else Some(d)
  }

  /** The errors the polygon check collects, or the exception that escapes
      it. The text is parsed first; a parse failure is the only exception
      the check catches. */
  function PolygonErrors(d: Json, parse: string -> Option<Json>): (r: Result<seq<string>, Failure>)
  {
    match Parsed(d, parse)
    case None => Ok([INVALID_JSON])
    case Some(data) =>
      if !data.JObject? then Err(NOT_A_DICTIONARY)
      else match PolygonHead(data)
        case Err(e) => Err(e)
        case Ok((es, c)) =>
          match Iterated(c)
          case Err(e) => Err(e)
          case Ok(rings) => Ok(es + RingErrors(rings))
  }

  /** A Feature whose geometry is a Polygon of well-formed rings. */
  function Feature(geometryType: string, rings: seq<Json>): Json
  {
    JObject(map["type" := JStr("Feature"),
                "geometry" := JObject(map["type" := JStr(geometryType), "coordinates" := JList(rings)])])
  }

  /** The example polygon shape passes: no errors are collected. */
  lemma WellFormedPolygonPasses(rings: seq<Json>, parse: string -> Option<Json>)
    requires forall i :: 0 <= i < |rings| ==> RingWellFormed(rings[i])
    ensures PolygonErrors(Feature("Polygon", rings), parse) == Ok([])
  {
    FeatureHead("Polygon", rings);
    RingErrorsEmptyIff(rings);
  }

  /** A feature of another geometry type is reported, and only that. */
  lemma OtherGeometryReported(geometryType: string, rings: seq<Json>, parse: string -> Option<Json>)
    requires geometryType != "Polygon"
    requires forall i :: 0 <= i < |rings| ==> RingWellFormed(rings[i])
    ensures PolygonErrors(Feature(geometryType, rings), parse) == Ok([GEOMETRY_TYPE_MESSAGE])
  {
    FeatureHead(geometryType, rings);
    RingErrorsEmptyIff(rings);
    assert [GEOMETRY_TYPE_MESSAGE] + RingErrors(rings) == [GEOMETRY_TYPE_MESSAGE];
  }

  /** The checks before the ring loop, on a Feature. */
  lemma FeatureHead(geometryType: string, rings: seq<Json>)
    ensures PolygonHead(Feature(geometryType, rings))
            == Ok(((if geometryType == "Polygon" then [] else [GEOMETRY_TYPE_MESSAGE]), JList(rings)))
  {
    var g := JObject(map["type" := JStr(geometryType), "coordinates" := JList(rings)]);
    var f := Feature(geometryType, rings);
    assert f.fields["type"] == JStr("Feature") && f.fields["geometry"] == g;
    assert g.fields["type"] == JStr(geometryType) && g.fields["coordinates"] == JList(rings);
    var e2: seq<string> := if geometryType == "Polygon" then [] else [GEOMETRY_TYPE_MESSAGE];
    assert [] + e2 + [] == e2;
  }

  /** Without a geometry, the KeyError of the next check escapes. */
  lemma MissingGeometryRaises(fields: map<string, Json>, parse: string -> Option<Json>)
    requires "geometry" !in fields
    ensures PolygonErrors(JObject(fields), parse) == Err(Uncaught("KeyError"))
  {
  }

  /** What the validator does with its collected errors, as written: it
      returns them in a ValidationError object instead of raising it. */
  function AsWrittenOutcome(e: Result<seq<string>, Failure>): (r: Outcome)
    ensures e.Err? <==> r.Raises?
    ensures e == Ok([]) <==> r == Returns(JNull)
  {
    match e
    case Err(f) => Raises(f)
    case Ok(es) => if es == [] then Returns(JNull) else ReturnsErrors(es)
  }

  /** validate_geojson_polygon as written: falsy input is returned; the
      checks run in order and the ring loop adds a message per bad ring. */
  method ValidateGeojsonPolygonAsWritten(d: Json, parse: string -> Option<Json>) returns (r: Outcome)
    ensures !Truthy(d) ==> r == Returns(d)
    ensures Truthy(d) ==> r == AsWrittenOutcome(PolygonErrors(d, parse))
  {
    if !Truthy(d) {
      return Returns(d);
    }
    var parsed := Parsed(d, parse);
    if parsed.None? {
      return ReturnsErrors([INVALID_JSON]);
    }
    var data := parsed.value;
    if !data.JObject? {
      return Raises(NOT_A_DICTIONARY);
    }
    var checked := PolygonHead(data);
    if checked.Err? {
      return Raises(checked.error);
    }
    var rings := Iterated(checked.value.1);
    if rings.Err? {
      return Raises(rings.error);
    }
    var ringErrors := CollectRingErrors(rings.value);
    var errors := checked.value.0 + ringErrors;
    assert PolygonErrors(d, parse) == Ok(errors);
    r := if errors == [] then Returns(JNull) else ReturnsErrors(errors);
  }

  /** The ring loop: one message per ring that is not well formed. */
  method CollectRingErrors(rings: seq<Json>) returns (errors: seq<string>)
    ensures errors == RingErrors(rings)
  {
    errors := [];
    var i := 0;
    while i < |rings|
      invariant 0 <= i <= |rings|
      invariant errors == RingErrors(rings[..i])
    {
      assert rings[..i + 1][..i] == rings[..i];
      if !RingWellFormed(rings[i]) {
        errors := errors + [RING_MESSAGE];
      }
      i := i + 1;
    }
    assert rings[..i] == rings;
  }

  /** As written, a feature of the wrong geometry type is not refused:
      the validator returns its error instead of raising. */
  lemma WrongGeometryAcceptedAsWritten(rings: seq<Json>, parse: string -> Option<Json>)
    requires forall i :: 0 <= i < |rings| ==> RingWellFormed(rings[i])
    ensures AsWrittenOutcome(PolygonErrors(Feature("Point", rings), parse)) == ReturnsErrors([GEOMETRY_TYPE_MESSAGE])
  {
    OtherGeometryReported("Point", rings, parse);
  }

  /** The validator with its collected errors raised. */
  function RaisingOutcome(e: Result<seq<string>, Failure>): (r: Outcome)
    ensures r.Raises? <==> e != Ok([])
    ensures e.Ok? && e.value != [] ==> r == Raises(ValidationErrors(e.value))
    ensures !r.ReturnsErrors?
  {
    match e
    case Err(f) => Raises(f)
    case Ok(es) => if es == [] then Returns(JNull) else Raises(ValidationErrors(es))
  }

  /** validate_geojson_polygon raising the ValidationError it builds: a
      truthy value passes exactly when no error is collected. */
  method ValidateGeojsonPolygon(d: Json, parse: string -> Option<Json>) returns (r: Outcome)
    ensures !Truthy(d) ==> r == Returns(d)
    ensures Truthy(d) ==> (r.Raises? <==> PolygonErrors(d, parse) != Ok([]))
    ensures Truthy(d) && PolygonErrors(d, parse).Ok? && PolygonErrors(d, parse).value != [] ==>
              r == Raises(ValidationErrors(PolygonErrors(d, parse).value))
  {
    r := ValidateGeojsonPolygonAsWritten(d, parse);
    if r.ReturnsErrors? {
      r := Raises(ValidationErrors(r.messages));
    }
  }

  /** The raising version refuses the wrong geometry type. */
  lemma WrongGeometryRefused(rings: seq<Json>, parse: string -> Option<Json>)
    requires forall i :: 0 <= i < |rings| ==> RingWellFormed(rings[i])
    ensures RaisingOutcome(PolygonErrors(Feature("Point", rings), parse)) == Raises(ValidationErrors([GEOMETRY_TYPE_MESSAGE]))
  {
    OtherGeometryReported("Point", rings, parse);
  }

  // ---------------------------------------------------------------------
  // validate_coordinates

  /** A number as the range comparisons see it (a bool compares as 0 or
      1); anything else cannot be compared with an int. */
  function Numeric(j: Json): (r: Option<real>)
    ensures r.Some? <==> j.JInt? || j.JFloat? || j.JBool?
  {
    match j
    case JInt(i) => Some(i as real)
    case JFloat(f) => Some(f)
    case JBool(b) => Some(if b then 1.0 else 0.0)
    case _ => None
  }

  /** `for lon, lat in …`: unpacking a point into two values. Two
      characters of a string or two keys of a dictionary unpack, but they
      are strings, so the comparison that follows raises TypeError. */
  function Unpack(p: Json): (r: Result<(Json, Json), Failure>)
    ensures p.JList? && |p.items| == 2 ==> r == Ok((p.items[0], p.items[1]))
  {
    match p
    case JList(items) => if |items| == 2 then Ok((items[0], items[1])) else Err(Uncaught("ValueError"))
    case JTuple(items) => if |items| == 2 then Ok((items[0], items[1])) else Err(Uncaught("ValueError"))
    case JGenerator(items) => if |items| == 2 then Ok((items[0], items[1])) else Err(Uncaught("ValueError"))
    case JStr(s) => if |s| == 2 then Err(Uncaught("TypeError")) else Err(Uncaught("ValueError"))
    case JLazy(s) => if |s| == 2 then Err(Uncaught("TypeError")) else Err(Uncaught("ValueError"))
    case JObject(fields) => if |fields.Keys| == 2 then Err(Uncaught("TypeError")) else Err(Uncaught("ValueError"))
    case _ => Err(Uncaught("TypeError"))
  }

  predicate InRange(lon: real, lat: real)
  {
    -90.0 <= lat <= 90.0 && -180.0 <= lon <= 180.0
  }

  const RANGE_TEXT := "]: Longitude must be between -180 and 180.Latitude must be between -90 and 90. "

  function RangeMessage(lon: string, lat: string): string
  {
    Concat(["[", lon, ", ", lat, RANGE_TEXT])
  }

  /** The pieces, joined. */
  function Concat(parts: seq<string>): string
  {
    if parts == [] then "" else parts[0] + Concat(parts[1..])
  }

  /** A point as the loop reads it: unpacked into longitude and latitude,
      both numbers (the latitude is compared first, so a latitude that is
      not a number raises before the longitude is looked at; either way
      it is a TypeError). */
  function ReadPoint(p: Json): (r: Result<(Json, Json, real, real), Failure>)
    ensures r.Ok? ==> Numeric(r.value.0) == Some(r.value.2) && Numeric(r.value.1) == Some(r.value.3)
  {
    match Unpack(p)
    case Err(e) => Err(e)
    case Ok((lon, lat)) =>
      if Numeric(lat).None? || Numeric(lon).None? then Err(Uncaught("TypeError"))
      else Ok((lon, lat, Numeric(lon).value, Numeric(lat).value))
  }

  /** A point the range check can read: a pair of numbers. */
  predicate NumericPoint(p: Json)
  {
    ReadPoint(p).Ok?
  }

  /** The message for one point, None when it is in range. */
  function PointError(p: Json, show: Json -> string): (r: Result<Option<string>, Failure>)
    ensures r.Ok? <==> NumericPoint(p)
  {
    match ReadPoint(p)
    case Err(e) => Err(e)
    case Ok((lon, lat, x, y)) =>
      if InRange(x, y) then Ok(None) else Ok(Some(RangeMessage(show(lon), show(lat))))
  }

  /** A readable point gets a message exactly when it is out of range, and
      the message names its longitude and latitude. */
  lemma PointErrorIffOutOfRange(p: Json, show: Json -> string)
    requires NumericPoint(p)
    ensures var q := ReadPoint(p).value;
            && (PointError(p, show) == Ok(None) <==> InRange(q.2, q.3))
            && (!InRange(q.2, q.3) ==> PointError(p, show) == Ok(Some(RangeMessage(show(q.0), show(q.1)))))
  {
  }

  /** The messages for the points, in order, or the first exception. */
  function PointErrors(points: seq<Json>, show: Json -> string): (r: Result<seq<string>, Failure>)
    ensures r.Ok? ==> |r.value| <= |points|
  {
    if points == [] then Ok([])
    else
      var p := points[|points| - 1];
      match PointErrors(points[..|points| - 1], show)
      case Err(e) => Err(e)
      case Ok(es) =>
        match PointError(p, show)
        case Err(e) => Err(e)
        case Ok(m) => Ok(es + (if m.Some? then [m.value] else []))
  }

  /** Once a point has raised, later points do not change the
      exception. */
  lemma {:induction false} PointErrorsErrorStays(points: seq<Json>, show: Json -> string, n: nat)
    requires n <= |points| && PointErrors(points[..n], show).Err?
    ensures PointErrors(points, show) == PointErrors(points[..n], show)
    decreases |points| - n
  {
    if n < |points| {
      assert points[..n + 1][..n] == points[..n];
      PointErrorsErrorStays(points, show, n + 1);
    } else {
      assert points[..n] == points;
    }
  }

  /** The loop gets through exactly when every point is a pair of
      numbers. */
  lemma {:induction false} PointErrorsOkIff(points: seq<Json>, show: Json -> string)
    ensures PointErrors(points, show).Ok? <==> forall i :: 0 <= i < |points| ==> NumericPoint(points[i])
  {
    if points != [] {
      var init := points[..|points| - 1];
      assert forall i :: 0 <= i < |init| ==> init[i] == points[i];
      PointErrorsOkIff(init, show);
    }
  }

  /** With readable points, nothing is reported exactly when every point
      is in range. */
  lemma {:induction false} NoErrorsIffInRange(points: seq<Json>, show: Json -> string)
    requires forall i :: 0 <= i < |points| ==> NumericPoint(points[i])
    ensures PointErrors(points, show).Ok?
    ensures PointErrors(points, show).value == [] <==>
              forall i :: 0 <= i < |points| ==> PointError(points[i], show) == Ok(None)
  {
    if points != [] {
      var n := |points| - 1;
      var init := points[..n];
      assert forall i :: 0 <= i < n ==> init[i] == points[i];
      NoErrorsIffInRange(init, show);
      var es := PointErrors(init, show).value;
      var m := PointError(points[n], show);
      assert m.Ok?;
      var extra := if m.value.Some? then [m.value.value] else [];
      assert PointErrors(points, show) == Ok(es + extra);
      assert es + extra == [] <==> es == [] && m == Ok(None);
    }
  }

  /** `value[0]` and the iteration over it: the points of the first ring. */
  function FirstRing(value: Json): (r: Result<seq<Json>, Failure>)
    ensures value.JList? && value.items != [] ==> r == Iterated(value.items[0])
  {
    match value
    case JList(items) => if items == [] then Err(Uncaught("IndexError")) else Iterated(items[0])
    case JTuple(items) => if items == [] then Err(Uncaught("IndexError")) else Iterated(items[0])
    case JStr(s) => if s == [] then Err(Uncaught("IndexError")) else Iterated(JStr([s[0]]))
    case JLazy(s) => if s == [] then Err(Uncaught("IndexError")) else Iterated(JStr([s[0]]))
    case JObject(_) => Err(Uncaught("KeyError"))
    case _ => Err(Uncaught("TypeError"))
  }

  /** `"coordinates" in g`: a key of a dictionary, an item of a list, a
      substring of a string; anything else raises. */
  function HasCoordinates(g: Json): (r: Result<bool, Failure>)
    ensures g.JObject? ==> r == Ok("coordinates" in g.fields)
  {
    match g
    case JObject(fields) => Ok("coordinates" in fields)
    case JList(items) => Ok(JStr("coordinates") in items)
    case JTuple(items) => Ok(JStr("coordinates") in items)
    case JGenerator(items) => Ok(JStr("coordinates") in items)
    case JStr(s) => Ok(Urls.Contains(s, "coordinates"))
    case JLazy(s) => Ok(Urls.Contains(s, "coordinates"))
    case _ => Err(Uncaught("TypeError"))
  }

  /** The checks before the point loop on a parsed dictionary: the
      outcome when they end the call, else the points of the first ring. */
  function CoordinatesHead(data: Json): (r: Result<seq<Json>, Outcome>)
    requires data.JObject?
    ensures "geometry" !in data.fields ==> r == Err(Returns(data))
  {
    if "geometry" !in data.fields then Err(Returns(data))
    else
      var g := data.fields["geometry"];
      match HasCoordinates(g)
      case Err(e) => Err(Raises(e))
      case Ok(has) =>
        if !has then Err(Returns(data))
        else if !g.JObject? then Err(Raises(Uncaught("TypeError")))
        else match FirstRing(g.fields["coordinates"])
          case Err(e) => Err(Raises(e))
          case Ok(points) => Ok(points)
  }

  /** What validate_coordinates does with a parsed dictionary. */
  function CoordinatesOutcome(data: Json, show: Json -> string): (r: Outcome)
    requires data.JObject?
    ensures "geometry" !in data.fields ==> r == Returns(data)
  {
    match CoordinatesHead(data)
    case Err(o) => o
    case Ok(points) =>
      match PointErrors(points, show)
      case Err(e) => Raises(e)
      case Ok(es) => if es == [] then Returns(JNull) else Raises(ValidationErrors(es))
  }

  /** validate_coordinates: falsy input is returned; text is parsed (a
      parse failure escapes); a value that is not a dictionary, or has no
      coordinates, is returned; otherwise every point of the first ring
      out of range gets a message, and the messages are raised. */
  method ValidateCoordinates(d: Json, parse: string -> Option<Json>, show: Json -> string) returns (r: Outcome)
    ensures !Truthy(d) ==> r == Returns(d)
    ensures Truthy(d) && Parsed(d, parse).None? ==> r == Raises(Uncaught("JSONDecodeError"))
    ensures Truthy(d) && Parsed(d, parse).Some? && !Parsed(d, parse).value.JObject? ==> r == Returns(Parsed(d, parse).value)
    ensures Truthy(d) && Parsed(d, parse).Some? && Parsed(d, parse).value.JObject? ==>
              r == CoordinatesOutcome(Parsed(d, parse).value, show)
  {
    if !Truthy(d) {
      return Returns(d);
    }
    var parsed := Parsed(d, parse);
    if parsed.None? {
      return Raises(Uncaught("JSONDecodeError"));
    }
    var data := parsed.value;
    if !data.JObject? {
      return Returns(data);
    }
    var head := CoordinatesHead(data);
    if head.Err? {
      return head.error;
    }
    var collected := CollectPointErrors(head.value, show);
    if collected.Err? {
      return Raises(collected.error);
    }
    r := if collected.value == [] then Returns(JNull) else Raises(ValidationErrors(collected.value));
  }

  /** The loop over the first ring: the range messages of its points in
      order, or the exception of the first point that cannot be read. */
  method CollectPointErrors(points: seq<Json>, show: Json -> string) returns (r: Result<seq<string>, Failure>)
    ensures r == PointErrors(points, show)
  {
    var errors: seq<string> := [];
    var i := 0;
    while i < |points|
      invariant 0 <= i <= |points|
      invariant PointErrors(points[..i], show) == Ok(errors)
    {
      ghost var prefix := points[..i + 1];
      assert prefix[..i] == points[..i] && prefix[i] == points[i];
      var m := PointError(points[i], show);
      if m.Err? {
        assert PointErrors(prefix, show) == Err(m.error);
        PointErrorsErrorStays(points, show, i + 1);
        return Err(m.error);
      }
      if m.value.Some? {
        errors := errors + [m.value.value];
      } else {
        assert errors + [] == errors;
      }
      assert PointErrors(prefix, show) == Ok(errors);
      i := i + 1;
    }
    assert points[..i] == points;
    return Ok(errors);
  }

  /** A geometry with the given coordinates. */
  function Plot(coordinates: Json): Json
  {
    JObject(map["type" := JStr("Feature"),
                "geometry" := JObject(map["type" := JStr("Polygon"), "coordinates" := coordinates])])
  }

  /** Only the first ring is checked: rings after it never change the
      outcome. */
  lemma OnlyFirstRingChecked(first: Json, rest1: seq<Json>, rest2: seq<Json>, show: Json -> string)
    ensures CoordinatesOutcome(Plot(JList([first] + rest1)), show) == CoordinatesOutcome(Plot(JList([first] + rest2)), show)
  {
    assert ([first] + rest1)[0] == first && ([first] + rest2)[0] == first;
  }

  /** A plot whose first ring holds readable points raises exactly when
      one of them is out of range. */
  lemma RaisesIffOutOfRange(points: seq<Json>, rest: seq<Json>, show: Json -> string)
    requires forall i :: 0 <= i < |points| ==> NumericPoint(points[i])
    ensures var r := CoordinatesOutcome(Plot(JList([JList(points)] + rest)), show);
            r.Raises? <==> exists i :: 0 <= i < |points| && PointError(points[i], show) != Ok(None)
  {
    NoErrorsIffInRange(points, show);
    assert ([JList(points)] + rest)[0] == JList(points);
  }
}

=== FILE: json.dfy ===
/** The Python values the response and serialization helpers handle, as a
    JSON-like tree: lists, string-keyed dictionaries, tuples, lazy
    translation strings (Django's Promise), the generators serialize_promises
    builds from tuples, and Hashid objects with their string form. */
module JsonValues {

  datatype Json =
    | JNull
    | JBool(b: bool)
    | JInt(i: int)
    /** A float, as the exact real it denotes. */
    | JFloat(f: real)
    | JStr(s: string)
    | JList(items: seq<Json>)
    | JTuple(elems: seq<Json>)
    | JGenerator(produced: seq<Json>)
    | JObject(fields: map<string, Json>)
    | JLazy(text: string)
    | JHashid(id: nat, text: string)

  /** Python truthiness of the value. A Hashid counts as true (its string
      form is never empty for a stored id). */
  predicate Truthy(j: Json)
  {
    match j
    case JNull => false
    case JBool(b) => b
    case JInt(i) => i != 0
    case JFloat(f) => f != 0.0
    case JStr(s) => s != ""
    case JList(items) => items != []
    case JTuple(elems) => elems != []
    case JGenerator(_) => true
    case JObject(fields) => fields != map[]
    case JLazy(text) => text != ""
    case JHashid(_, _) => true
  }
}

=== FILE: local_session.dfy ===
/** The request-local store of base/authentication/session.py: attributes
    set and read by name on one shared object. One request at a time is
    modelled; the per-thread separation of the store is not. */
module LocalSession {

  /** The values the authentication code keeps in the store: ids, the
      device's registration id, and cached user and company objects
      (identified by primary key, which is what model equality compares). */
  datatype LocalValue =
    | NoneValue
    | IntValue(i: int)
    | StrValue(s: string)
    | UserValue(userId: nat)
    | EntityValue(entityId: nat)

  /** Python truthiness of a stored value. */
  predicate Truthy(v: LocalValue)
  {
    match v
    case NoneValue => false
    case IntValue(i) => i != 0
    case StrValue(s) => s != ""
    case UserValue(_) => true
    case EntityValue(_) => true
  }

  class LocalStore {
    var slots: map<string, LocalValue>

    constructor ()
      ensures slots == map[]
    {
      slots := map[];
    }

    /** set_to_local: stores the value under the key and reports True. */
    method SetToLocal(key: string, value: LocalValue) returns (ok: bool)
      modifies this
      ensures ok
      ensures slots == old(slots)[key := value]
      ensures GetFromLocal(key, NoneValue) == value
      ensures forall k :: k != key ==> GetFromLocal(k, NoneValue) == old(GetFromLocal(k, NoneValue))
    {
      slots := slots[key := value];
      ok := true;
    }

    /** get_from_local: the stored value, or the caller's default (None
        when the caller gives none) for a key never set. */
    function GetFromLocal(key: string, default: LocalValue): (r: LocalValue)
      reads this
      ensures key in slots ==> r == slots[key]
      ensures key !in slots ==> r == default
    {
      if key in slots then slots[key] else default
    }
  }
}

=== FILE: notification_constants.dfy ===
/** NotificationCondition codes (v1/notifications/constants.py) and the
    per-channel preference configuration a notification manager declares. */
module NotificationConstants {

  const ENABLED: int := 101
  const DISABLED: int := 111
  const IF_USER_ACTIVE: int := 121

  /** The key that makes one condition apply to every member type. */
  const ALL_KEY: string := "__all__"

  /** A manager's four preference dictionaries (visibility, push, email, sms),
      each from a key ("__all__" or a member-type label) to a condition code. */
  datatype Channels = Channels(
    visibility: map<string, int>,
    push: map<string, int>,
    email: map<string, int>,
    sms: map<string, int>)

  /** The evaluated preferences, one flag per channel. */
  datatype Prefs = Prefs(visibility: bool, push: bool, email: bool, sms: bool)
  {
    predicate Any() { visibility || push || email || sms }
  }

  /** BaseNotificationManager's class-level defaults. */
  const DEFAULT_CHANNELS: Channels := Channels(
    map[ALL_KEY := ENABLED],
    map[ALL_KEY := IF_USER_ACTIVE],
    map[ALL_KEY := IF_USER_ACTIVE],
    map[ALL_KEY := DISABLED])
}

=== FILE: notifications.dfy ===
/** Notification managers (v1/notifications/manager.py): the start-up check
    of every manager class's preference dictionaries and uid, the gated
    get-or-create of a Notification row in a manager's constructor and its
    action URL; and ReadNotificationSerializer
    (v1/notifications/serializers.py), which marks rows read. */
module Notifications {
  import opened Wrappers
  import opened Failures
  import opened Entities
  import opened NotificationConstants
  import opened JsonValues
  import Accounts

  // ---------------------------------------------------------------------
  // validate_notifications and check_pref

  const MIXED_KEYS_MESSAGE := "Cannot specify '__all__' and Member Types together"
  const MISSING_PREF_PREFIX := "Notification preference not defined for "
  const BLANK_UID_PREFIX := "Blank 'notification_uid' for "
  const BLANK_UID_SUFFIX := ". notification_uid cannot be blank"
  const DUPLICATE_UID_PREFIX := "notification_uid should be Unique. The value '"
  const DUPLICATE_UID_SUFFIX := "' is already in use."

  /** CompanyMemberType, in declaration order. */
  const MEMBER_TYPES: seq<MemberType> := [MemberSuperAdmin, MemberAdmin, MemberReporter]

  /** What check_pref accepts: "__all__" as the only key, or no "__all__"
      and a key for every member type. */
  predicate PrefValid(pref: map<string, int>)
  {
    if ALL_KEY in pref then |pref| == 1
    else MemberSuperAdmin.Label() in pref && MemberAdmin.Label() in pref && MemberReporter.Label() in pref
  }

  /** The first of `types` that has no key in `pref`. */
  function FirstMissing(pref: map<string, int>, types: seq<MemberType>): (r: Option<MemberType>)
    ensures r.None? <==> forall i :: 0 <= i < |types| ==> types[i].Label() in pref
    ensures r.Some? ==> r.value in types && r.value.Label() !in pref
  {
    if types == [] then None
    else if types[0].Label() !in pref then Some(types[0])
    else
      var rest := FirstMissing(pref, types[1..]);
      assert forall i :: 1 <= i < |types| ==> types[i] == types[1..][i - 1];
      rest
  }

  /** check_pref: true when the dictionary is well formed, otherwise the
      AssertionError that names the problem (for a missing member type, its
      label). */
  function CheckPref(pref: map<string, int>): (r: Result<bool, Failure>)
    ensures r.Ok? <==> PrefValid(pref)
    ensures r.Ok? ==> r.value
    ensures ALL_KEY in pref && r.Err? ==> r.error == AssertionFailed(MIXED_KEYS_MESSAGE)
    ensures ALL_KEY !in pref && r.Err? ==>
              exists t: MemberType :: t.Label() !in pref && r.error == AssertionFailed(MISSING_PREF_PREFIX + t.DisplayName())
  {
    if ALL_KEY in pref then
      if |pref| == 1 then Ok(true)
      else
        Err(AssertionFailed(MIXED_KEYS_MESSAGE))
    else
      match FirstMissing(pref, MEMBER_TYPES)
      case None =>
        assert MEMBER_TYPES[0].Label() in pref && MEMBER_TYPES[1].Label() in pref && MEMBER_TYPES[2].Label() in pref;
        Ok(true)
      case Some(t) => Err(AssertionFailed(MISSING_PREF_PREFIX + t.DisplayName()))
  }

  /** The manager's class-level defaults pass the check. */
  lemma DefaultChannelsValid()
    ensures ChannelsValid(DEFAULT_CHANNELS)
  {
  }

  /** A dictionary keyed by every member type and nothing else passes. */
  lemma PerMemberTypePrefValid(superAdmin: int, admin: int, reporter: int)
    ensures CheckPref(map["SUPER_ADMIN" := superAdmin, "ADMIN" := admin, "REPORTER" := reporter]) == Ok(true)
  {
    var pref := map["SUPER_ADMIN" := superAdmin, "ADMIN" := admin, "REPORTER" := reporter];
    assert ALL_KEY !in pref;
  }

  /** "__all__" next to a member type is refused. */
  lemma MixedPrefRefused(all: int, t: MemberType, c: int)
    ensures CheckPref(map[ALL_KEY := all, t.Label() := c]) == Err(AssertionFailed(MIXED_KEYS_MESSAGE))
  {
    var pref := map[ALL_KEY := all, t.Label() := c];
    assert t.Label() != ALL_KEY;
    assert t.Label() in pref.Keys && t.Label() !in {ALL_KEY};
  }

  /** All four dictionaries of a manager pass check_pref. */
  predicate ChannelsValid(c: Channels)
  {
    PrefValid(c.visibility) && PrefValid(c.push) && PrefValid(c.email) && PrefValid(c.sms)
  }

  /** A BaseNotificationManager subclass as validate_notifications reads
      it: its class name, notification_uid and preference dictionaries. */
  datatype ManagerDecl = ManagerDecl(name: string, uid: string, channels: Channels)

  /** The checks of one class against the registrations so far, in the
      order the loop makes them: the four dictionaries, then the uid. Every
      failure is an AssertionError. */
  function CheckDecl(types: map<string, ManagerDecl>, d: ManagerDecl): (r: Option<Failure>)
    ensures r.None? <==> ChannelsValid(d.channels) && d.uid != "" && d.uid !in types
    ensures r.Some? ==> r.value.AssertionFailed?
  {
    var c := d.channels;
    if CheckPref(c.visibility).Err? then Some(CheckPref(c.visibility).error)
    else if CheckPref(c.push).Err? then Some(CheckPref(c.push).error)
    else if CheckPref(c.email).Err? then Some(CheckPref(c.email).error)
    else if CheckPref(c.sms).Err? then Some(CheckPref(c.sms).error)
    else if d.uid == "" then Some(AssertionFailed(BLANK_UID_PREFIX + d.name + BLANK_UID_SUFFIX))
    else if d.uid in types then Some(AssertionFailed(DUPLICATE_UID_PREFIX + d.uid + DUPLICATE_UID_SUFFIX))
    else None
  }

  /** The registry after validate_notifications walks `decls` from
      `types`, and the AssertionError that stopped it, if any; classes
      before the failing one stay registered. */
  function Registered(types: map<string, ManagerDecl>, decls: seq<ManagerDecl>): (map<string, ManagerDecl>, Option<Failure>)
  {
    if decls == [] then (types, None)
    else
      var d := decls[|decls| - 1];
      var (m, e) := Registered(types, decls[..|decls| - 1]);
      if e.Some? then (m, e)
      else match CheckDecl(m, d)
        case Some(f) => (m, Some(f))
        case None => (m[d.uid := d], None)
  }

  /** The uids of `decls`. */
  function Uids(decls: seq<ManagerDecl>): set<string>
  {
    set i | 0 <= i < |decls| :: decls[i].uid
  }

  /** Every class can be registered: its dictionaries are well formed, its
      uid is non-blank and not yet taken, and no two classes share a uid. */
  predicate Registrable(types: map<string, ManagerDecl>, decls: seq<ManagerDecl>)
  {
    (forall i :: 0 <= i < |decls| ==> ChannelsValid(decls[i].channels) && decls[i].uid != "" && decls[i].uid !in types)
    && (forall i, j :: 0 <= i < j < |decls| ==> decls[i].uid != decls[j].uid)
  }

  /** Adding one class to a list adds its uid. */
  lemma UidsSnoc(decls: seq<ManagerDecl>)
    requires decls != []
    ensures Uids(decls) == Uids(decls[..|decls| - 1]) + {decls[|decls| - 1].uid}
  {
    var n := |decls| - 1;
    var init := decls[..n];
    forall u | u in Uids(decls) ensures u in Uids(init) + {decls[n].uid} {
      var i :| 0 <= i < |decls| && decls[i].uid == u;
      if i < n { assert init[i].uid == u; }
    }
    forall u | u in Uids(init) + {decls[n].uid} ensures u in Uids(decls) {
      if u != decls[n].uid {
        var i :| 0 <= i < n && init[i].uid == u;
        assert decls[i].uid == u;
      }
    }
  }

  /** After a run without failure the registry holds the old entries and
      each class under its uid. */
  lemma RegisteredContents(types: map<string, ManagerDecl>, decls: seq<ManagerDecl>)
    requires Registered(types, decls).1.None?
    ensures Registered(types, decls).0.Keys == types.Keys + Uids(decls)
    ensures forall i :: 0 <= i < |decls| ==>
              decls[i].uid in Registered(types, decls).0 && Registered(types, decls).0[decls[i].uid] == decls[i]
    ensures forall k :: k in types && k !in Uids(decls) ==>
              k in Registered(types, decls).0 && Registered(types, decls).0[k] == types[k]
  {
    RegisteredKeys(types, decls);
    RegisteredHolds(types, decls);
    RegisteredKeepsOld(types, decls);
  }

  /** The last step of a run without failure adds the last class. */
  lemma RegisteredSnoc(types: map<string, ManagerDecl>, decls: seq<ManagerDecl>)
    requires decls != [] && Registered(types, decls).1.None?
    ensures Registered(types, decls[..|decls| - 1]).1.None?
    ensures decls[|decls| - 1].uid !in Registered(types, decls[..|decls| - 1]).0
    ensures Registered(types, decls).0
         == Registered(types, decls[..|decls| - 1]).0[decls[|decls| - 1].uid := decls[|decls| - 1]]
  {
  }

  /** The keys after a run without failure: the old ones and the uids. */
  lemma {:induction false} RegisteredKeys(types: map<string, ManagerDecl>, decls: seq<ManagerDecl>)
    requires Registered(types, decls).1.None?
    ensures Registered(types, decls).0.Keys == types.Keys + Uids(decls)
    decreases |decls|
  {
    if decls == [] {
      assert Uids(decls) == {};
    } else {
      RegisteredSnoc(types, decls);
      RegisteredKeys(types, decls[..|decls| - 1]);
      UidsSnoc(decls);
    }
  }

  /** After a run without failure each class is under its uid. */
  lemma {:induction false} RegisteredHolds(types: map<string, ManagerDecl>, decls: seq<ManagerDecl>)
    requires Registered(types, decls).1.None?
    ensures forall i :: 0 <= i < |decls| ==>
              decls[i].uid in Registered(types, decls).0 && Registered(types, decls).0[decls[i].uid] == decls[i]
    decreases |decls|
  {
    if decls != [] {
      var n := |decls| - 1;
      var init := decls[..n];
      RegisteredSnoc(types, decls);
      RegisteredHolds(types, init);
      var m := Registered(types, init).0;
      var r := Registered(types, decls).0;
      forall i | 0 <= i < |decls|
        ensures decls[i].uid in r && r[decls[i].uid] == decls[i]
      {
        if i < n {
          assert init[i] == decls[i];
          assert decls[i].uid in m;
        }
      }
    }
  }

  /** After a run without failure an old entry whose uid no class takes is
      unchanged. */
  lemma {:induction false} RegisteredKeepsOld(types: map<string, ManagerDecl>, decls: seq<ManagerDecl>)
    requires Registered(types, decls).1.None?
    ensures forall k :: k in types && k !in Uids(decls) ==>
              k in Registered(types, decls).0 && Registered(types, decls).0[k] == types[k]
    decreases |decls|
  {
    if decls != [] {
      var n := |decls| - 1;
      RegisteredSnoc(types, decls);
      RegisteredKeepsOld(types, decls[..n]);
      UidsSnoc(decls);
    }
  }

  /** A list is registrable when its first part is and its last class is
      well formed with a uid taken neither before nor in that part. */
  lemma RegistrableSnoc(types: map<string, ManagerDecl>, decls: seq<ManagerDecl>)
    requires decls != []
    ensures Registrable(types, decls) <==>
              Registrable(types, decls[..|decls| - 1])
              && ChannelsValid(decls[|decls| - 1].channels) && decls[|decls| - 1].uid != ""
              && decls[|decls| - 1].uid !in types && decls[|decls| - 1].uid !in Uids(decls[..|decls| - 1])
  {
    var n := |decls| - 1;
    var init := decls[..n];
    var d := decls[n];
    if Registrable(types, decls) {
      assert Registrable(types, init) by {
        assert forall i :: 0 <= i < n ==> init[i] == decls[i];
      }
    }
    if Registrable(types, init) && ChannelsValid(d.channels) && d.uid != ""
       && d.uid !in types && d.uid !in Uids(init) {
      forall i | 0 <= i < |decls|
        ensures ChannelsValid(decls[i].channels) && decls[i].uid != "" && decls[i].uid !in types
      {
        if i < n { assert init[i] == decls[i]; }
      }
      forall i, j | 0 <= i < j < |decls|
        ensures decls[i].uid != decls[j].uid
      {
        assert init[i] == decls[i];
        if j < n { assert init[j] == decls[j]; } else { assert init[i].uid in Uids(init); }
      }
    }
  }

  /** Validation gets through every class exactly when they are all
      registrable. */
  lemma {:induction false} RegisteredIff(types: map<string, ManagerDecl>, decls: seq<ManagerDecl>)
    ensures Registered(types, decls).1.None? <==> Registrable(types, decls)
    decreases |decls|
  {
    if decls != [] {
      var n := |decls| - 1;
      var init := decls[..n];
      var d := decls[n];
      var prev := Registered(types, init);
      RegisteredIff(types, init);
      RegistrableSnoc(types, decls);
      if prev.1.None? {
        RegisteredContents(types, init);
      }
    }
  }

  /** Once a class has failed, the later ones change nothing. */
  lemma {:induction false} RegisteredErrorStays(types: map<string, ManagerDecl>, decls: seq<ManagerDecl>, n: nat)
    requires n <= |decls|
    requires Registered(types, decls[..n]).1.Some?
    ensures Registered(types, decls) == Registered(types, decls[..n])
    decreases |decls| - n
  {
    if n < |decls| {
      assert decls[..n + 1][..n] == decls[..n];
      RegisteredErrorStays(types, decls, n + 1);
    } else {
      assert decls[..n] == decls;
    }
  }

  /** NOTIFICATION_TYPES, the module-level registry of manager classes by
      uid. */
  class Registry {
    var types: map<string, ManagerDecl>

    constructor ()
      ensures types == map[]
    {
      types := map[];
    }

    /** validate_notifications over the manager classes `decls`, in order:
        each is checked and registered under its uid; the first failure
        is returned, with the classes before it left registered. */
    method ValidateNotifications(decls: seq<ManagerDecl>) returns (error: Option<Failure>)
      modifies this
      ensures (types, error) == Registered(old(types), decls)
    {
      var i := 0;
      while i < |decls|
        invariant 0 <= i <= |decls|
        invariant Registered(old(types), decls[..i]) == (types, None)
      {
        var d := decls[i];
        assert decls[..i + 1][..i] == decls[..i];
        var e := CheckDecl(types, d);
        if e.Some? {
          RegisteredErrorStays(old(types), decls, i + 1);
          return e;
        }
        types := types[d.uid := d];
        i := i + 1;
      }
      assert decls[..i] == decls;
      return None;
    }
  }

  // ---------------------------------------------------------------------
  // BaseNotificationManager.__init__ and get_action_url

  /** A Notification row (v1/notifications/models.py) with the fields the
      manager fills in; title and body are not modelled. */
  datatype Notification = Notification(
    id: nat,
    user: Accounts.UserId,
    kind: string,
    visibility: bool,
    push: bool,
    email: bool,
    sms: bool,
    eventId: nat,
    token: Option<nat>,
    isRead: bool,
    actionUrl: string,
    actorEntity: Option<EntityId>,
    targetEntity: Option<EntityId>,
    sendTo: string,
    redirectType: string)

  /** The fields the constructor's get_or_create looks up. */
  datatype Lookup = Lookup(user: Accounts.UserId, kind: string, prefs: Prefs, eventId: nat, token: Option<nat>)

  predicate Matches(n: Notification, k: Lookup)
  {
    n.user == k.user && n.kind == k.kind
    && n.visibility == k.prefs.visibility && n.push == k.prefs.push
    && n.email == k.prefs.email && n.sms == k.prefs.sms
    && n.eventId == k.eventId && n.token == k.token
  }

  /** The positions of the rows the lookup finds, in table order. */
  function MatchIndices(rows: seq<Notification>, k: Lookup): (r: seq<nat>)
    ensures forall i: nat :: i in r <==> i < |rows| && Matches(rows[i], k)
  {
    if rows == [] then []
    else
      var n := |rows| - 1;
      MatchIndices(rows[..n], k) + (if Matches(rows[n], k) then [n] else [])
  }

  /** The row get_or_create makes: the looked-up fields, the model's
      defaults elsewhere (unread, blank URL, no entities). */
  function FreshRow(id: nat, k: Lookup): (n: Notification)
    ensures n.id == id && Matches(n, k) && !n.isRead
  {
    Notification(id, k.user, k.kind, k.prefs.visibility, k.prefs.push, k.prefs.email, k.prefs.sms,
                 k.eventId, k.token, false, "", None, None, "", "")
  }

  /** get_or_create: the one matching row, or a new row appended under
      `nextId`; more than one match raises MultipleObjectsReturned. The
      result is the table and the position of the row. */
  function GetOrCreate(rows: seq<Notification>, nextId: nat, k: Lookup): (r: Result<(seq<Notification>, nat), Failure>)
    ensures r.Ok? <==> |MatchIndices(rows, k)| <= 1
    ensures r.Ok? ==> r.value.1 < |r.value.0| && Matches(r.value.0[r.value.1], k)
    ensures r.Ok? && |MatchIndices(rows, k)| == 1 ==> r.value.0 == rows
    ensures r.Ok? && MatchIndices(rows, k) == [] ==> r.value.0 == rows + [FreshRow(nextId, k)]
  {
    var found := MatchIndices(rows, k);
    if |found| == 0 then Ok((rows + [FreshRow(nextId, k)], |rows|))
    else if |found| == 1 then
      assert found[0] in found;
      Ok((rows, found[0]))
    else Err(Uncaught("MultipleObjectsReturned"))
  }

  /** A second get_or_create with the same lookup finds the row the first
      one made or found, and adds nothing. */
  lemma GetOrCreateIdempotent(rows: seq<Notification>, nextId: nat, k: Lookup, laterId: nat)
    requires GetOrCreate(rows, nextId, k).Ok?
    ensures GetOrCreate(GetOrCreate(rows, nextId, k).value.0, laterId, k)
            == Ok(GetOrCreate(rows, nextId, k).value)
  {
    var found := MatchIndices(rows, k);
    if found == [] {
      var row := FreshRow(nextId, k);
      var rows1 := rows + [row];
      assert rows1[..|rows|] == rows;
      assert MatchIndices(rows1, k) == found + [|rows|];
      assert GetOrCreate(rows, nextId, k).value == (rows1, |rows|);
    } else {
      assert |found| == 1;
      assert GetOrCreate(rows, nextId, k).value == (rows, found[0]);
    }
  }

  /** The hooks a concrete manager provides. The base class's
      get_target_entity and get_actor_entity raise NotImplementedError;
      `urlPath` is what get_url_path returns (None for a value that is not
      text). */
  datatype Manager = Manager(
    uid: string,
    channels: Channels,
    target: Result<Option<EntityId>, Failure>,
    actor: Result<Option<EntityId>, Failure>,
    urlPath: Option<string>,
    redirectType: string)

  /** A membership of the user in the target entity. */
  predicate IsMember(members: seq<Member>, userId: Accounts.UserId, target: Option<EntityId>)
  {
    exists i :: 0 <= i < |members| && target == Some(members[i].company) && members[i].user == userId
  }

  /** The preferences the constructor reads. A member of the target entity
      is asked, but CompanyMember has no get_notification_pref (it is
      commented out), so that raises AttributeError; otherwise the user's
      preferences are used, and their ValueError escapes. */
  function ManagerPrefs(m: Manager, user: Accounts.User, userId: Accounts.UserId, members: seq<Member>, target: Option<EntityId>): (r: Result<Prefs, Failure>)
    ensures IsMember(members, userId, target) ==> r == Err(Uncaught("AttributeError"))
    ensures !IsMember(members, userId, target) ==>
              (r.Ok? <==> Accounts.NotificationPref(m.channels, user.status).Ok?)
              && (r.Ok? ==> r.value == Accounts.NotificationPref(m.channels, user.status).value)
  {
    if IsMember(members, userId, target) then Err(Uncaught("AttributeError"))
    else match Accounts.NotificationPref(m.channels, user.status)
      case Err(_) => Err(Uncaught("ValueError"))
      case Ok(p) => Ok(p)
  }

  /** get_action_url. The root URL setting plus the path is a plain string
      (URL is a str subclass without its own "+"), and a plain string has
      no add_params, so for text operands the AttributeError escapes; only
      a non-text operand raises the TypeError that is turned into "". */
  function ActionUrl(rootUrl: Option<string>, urlPath: Option<string>): (r: Result<string, Failure>)
    ensures r.Ok? <==> rootUrl.None? || urlPath.None?
    ensures r.Ok? ==> r.value == ""
    ensures r.Err? ==> r.error == Uncaught("AttributeError")
  {
    if rootUrl.None? || urlPath.None? then Ok("") else Err(Uncaught("AttributeError"))
  }

  /** The constructor up to get_or_create: the target entity, then the
      preferences; the lookup for the row when one preference is true,
      None when all are false. */
  function Gate(m: Manager, user: Accounts.User, userId: Accounts.UserId, members: seq<Member>,
                eventId: nat, token: Option<nat>): (r: Result<Option<Lookup>, Failure>)
    ensures m.target.Err? ==> r == Err(m.target.error)
    ensures m.target.Ok? && ManagerPrefs(m, user, userId, members, m.target.value).Err? ==>
              r == Err(ManagerPrefs(m, user, userId, members, m.target.value).error)
    ensures r.Ok? && r.value.Some? <==>
              m.target.Ok? && ManagerPrefs(m, user, userId, members, m.target.value).Ok?
              && ManagerPrefs(m, user, userId, members, m.target.value).value.Any()
    ensures r.Ok? && r.value.Some? ==>
              r.value.value == Lookup(userId, m.uid, ManagerPrefs(m, user, userId, members, m.target.value).value, eventId, token)
  {
    if m.target.Err? then Err(m.target.error)
    else
      var prefs := ManagerPrefs(m, user, userId, members, m.target.value);
      if prefs.Err? then Err(prefs.error)
      else if !prefs.value.Any() then Ok(None)
      else Ok(Some(Lookup(userId, m.uid, prefs.value, eventId, token)))
  }

  /** The fields the constructor sets on the row before saving it. */
  function Filled(n: Notification, url: string, actor: Option<EntityId>, target: Option<EntityId>, sendTo: string, redirectType: string): (r: Notification)
    ensures r.id == n.id && r.isRead == n.isRead
    ensures r.actionUrl == url && r.actorEntity == actor && r.targetEntity == target
    ensures r.sendTo == sendTo && r.redirectType == redirectType
    ensures r.(actionUrl := "", actorEntity := None, targetEntity := None, sendTo := "", redirectType := "")
            == n.(actionUrl := "", actorEntity := None, targetEntity := None, sendTo := "", redirectType := "")
  {
    n.(actionUrl := url, actorEntity := actor, targetEntity := target, sendTo := sendTo, redirectType := redirectType)
  }

  /** What the constructor leaves from get_or_create on: the result and
      the rows. The row got or created stays even when a later step fails;
      on success it is filled in; no other row changes. */
  function RecordedRows(rows: seq<Notification>, nextId: nat, k: Lookup, m: Manager, sendTo: string,
                        rootUrl: Option<string>): (r: (Result<nat, Failure>, seq<Notification>))
    requires m.target.Ok?
    ensures GetOrCreate(rows, nextId, k).Err? ==> r.0.Err? && r.1 == rows
    ensures GetOrCreate(rows, nextId, k).Ok? ==> |r.1| == |GetOrCreate(rows, nextId, k).value.0|
    ensures r.0.Ok? <==> GetOrCreate(rows, nextId, k).Ok? && ActionUrl(rootUrl, m.urlPath).Ok? && m.actor.Ok?
    ensures forall i :: 0 <= i < |rows| && !(r.0.Ok? && i == r.0.value) ==> i < |r.1| && r.1[i] == rows[i]
    ensures r.0.Ok? ==> r.0.value < |r.1| && Matches(r.1[r.0.value], k)
                        && r.1[r.0.value] == Filled(GetOrCreate(rows, nextId, k).value.0[r.0.value], "",
                                                    m.actor.value, m.target.value, sendTo, m.redirectType)
  {
    match GetOrCreate(rows, nextId, k)
    case Err(f) => (Err(f), rows)
    case Ok(got) =>
      var url := ActionUrl(rootUrl, m.urlPath);
      if url.Err? then (Err(url.error), got.0)
      else if m.actor.Err? then (Err(m.actor.error), got.0)
      else (Ok(got.1), got.0[got.1 := Filled(got.0[got.1], url.value, m.actor.value, m.target.value, sendTo, m.redirectType)])
  }

  /** No rollback: when nothing matched the lookup and the action URL then
      fails, the row get_or_create made stays in the table, unfilled. */
  lemma FailedRecordKeepsFreshRow(rows: seq<Notification>, nextId: nat, k: Lookup, m: Manager, sendTo: string,
                                  rootUrl: Option<string>)
    requires m.target.Ok? && MatchIndices(rows, k) == [] && ActionUrl(rootUrl, m.urlPath).Err?
    ensures var r := RecordedRows(rows, nextId, k, m, sendTo, rootUrl);
            r.0.Err? && r.1 == rows + [FreshRow(nextId, k)]
  {
  }

  // ---------------------------------------------------------------------
  // ReadNotificationSerializer

  const IDS_OR_ALL_MESSAGE := "Either 'ids' should be mentioned or 'all' should be True"

  /** The serializer's input: the optional ids (resolved to existing rows)
      and `all`, which defaults to false. */
  datatype ReadRequest = ReadRequest(ids: Option<seq<nat>>, all: bool)

  /** Non-empty ids were given. */
  predicate HasIds(req: ReadRequest)
  {
    req.ids.Some? && |req.ids.value| > 0
  }

  /** validate: the input is passed on when it has non-empty ids or `all`
      is true, otherwise it is refused. */
  function ValidateRead(req: ReadRequest): (r: Result<ReadRequest, Failure>)
    ensures r.Ok? <==> HasIds(req) || req.all
    ensures r.Ok? ==> r.value == req
    ensures r.Err? ==> r.error == ValidationError(IDS_OR_ALL_MESSAGE)
  {
    if HasIds(req) then Ok(req)
    else if req.all then Ok(req)
    else Err(ValidationError(IDS_OR_ALL_MESSAGE))
  }

  /** The rows create marks read: those with the given ids, or every row
      of the table (every user's) when no ids are given. */
  predicate MarkedBy(n: Notification, req: ReadRequest)
  {
    !HasIds(req) || n.id in req.ids.value
  }

  /** The table after create's update. */
  function MarkRead(rows: seq<Notification>, req: ReadRequest): (r: seq<Notification>)
    ensures |r| == |rows|
    ensures forall i :: 0 <= i < |rows| ==> (r[i].isRead <==> rows[i].isRead || MarkedBy(rows[i], req))
    ensures forall i :: 0 <= i < |rows| ==> r[i].(isRead := false) == rows[i].(isRead := false)
  {
    seq(|rows|, i requires 0 <= i < |rows| => if MarkedBy(rows[i], req) then rows[i].(isRead := true) else rows[i])
  }

  /** Marking twice is marking once. */
  lemma MarkReadIdempotent(rows: seq<Notification>, req: ReadRequest)
    ensures MarkRead(MarkRead(rows, req), req) == MarkRead(rows, req)
  {
    var once := MarkRead(rows, req);
    var twice := MarkRead(once, req);
    forall i | 0 <= i < |rows|
      ensures twice[i] == once[i]
    {
      assert once[i].id == rows[i].id by {
        assert once[i].(isRead := false).id == rows[i].(isRead := false).id;
      }
    }
  }

  /** A request with `all` and no ids marks every row of the table read,
      whoever it belongs to. */
  lemma ReadAllMarksEveryUser(rows: seq<Notification>, req: ReadRequest, u: Accounts.UserId)
    requires ValidateRead(req).Ok? && !HasIds(req)
    ensures forall i :: 0 <= i < |rows| && rows[i].user == u ==> MarkRead(rows, req)[i].isRead
    ensures req.all
  {
  }

  /** The Notification table. Ids are unique and below `nextId`. */
  class NotificationTable {
    var rows: seq<Notification>
    var nextId: nat

    ghost predicate Valid()
      reads this
    {
      (forall i :: 0 <= i < |rows| ==> rows[i].id < nextId)
      && (forall i, j :: 0 <= i < j < |rows| ==> rows[i].id != rows[j].id)
    }

    constructor ()
      ensures rows == [] && Valid()
    {
      rows := [];
      nextId := 0;
    }

    /** BaseNotificationManager(user, action_object, token): past the
        gate, the row is got or created, filled in (action URL, actor and
        target entity, recipient email, redirect type) and saved. The
        result is the position of the row the manager keeps, or None when
        the gate is closed. A failure after get_or_create leaves the row
        it created. */
    method Notify(m: Manager, userId: Accounts.UserId, user: Accounts.User, members: seq<Member>,
                  eventId: nat, token: Option<nat>, rootUrl: Option<string>)
      returns (r: Result<Option<nat>, Failure>)
      requires Valid()
      modifies this
      ensures Valid()
      ensures Gate(m, user, userId, members, eventId, token).Err? ==>
                r == Err(Gate(m, user, userId, members, eventId, token).error) && rows == old(rows)
      ensures Gate(m, user, userId, members, eventId, token) == Ok(None) ==> r == Ok(None) && rows == old(rows)
      ensures var k := Gate(m, user, userId, members, eventId, token);
              k.Ok? && k.value.Some? ==>
                var rec := RecordedRows(old(rows), old(nextId), k.value.value, m, user.email, rootUrl);
                rows == rec.1 && r == (if rec.0.Ok? then Ok(Some(rec.0.value)) else Err(rec.0.error))
      ensures r.Ok? && r.value.Some? ==>
                var k := Gate(m, user, userId, members, eventId, token);
                && k.Ok? && k.value.Some? && m.target.Ok? && m.actor.Ok?
                && r.value.value < |rows| && Matches(rows[r.value.value], k.value.value)
                && rows[r.value.value].sendTo == user.email
                && rows[r.value.value].targetEntity == m.target.value
                && rows[r.value.value].actorEntity == m.actor.value
      ensures |old(rows)| <= |rows| <= |old(rows)| + 1
    {
      var gate := Gate(m, user, userId, members, eventId, token);
      if gate.Err? {
        return Err(gate.error);
      }
      if gate.value.None? {
        return Ok(None);
      }
      var k := gate.value.value;
      var saved := Record(k, m, user.email, rootUrl);
      if saved.Err? {
        return Err(saved.error);
      }
      return Ok(Some(saved.value));
    }

    /** The constructor from get_or_create on: the row is got or created
        (and stays, whatever follows), then its action URL, actor and
        target entity, recipient and redirect type are set and it is
        saved. The result is the row's position. */
    method Record(k: Lookup, m: Manager, sendTo: string, rootUrl: Option<string>) returns (r: Result<nat, Failure>)
      requires Valid() && m.target.Ok?
      modifies this
      ensures Valid()
      ensures GetOrCreate(old(rows), old(nextId), k).Err? ==> r.Err? && rows == old(rows)
      ensures (r, rows) == RecordedRows(old(rows), old(nextId), k, m, sendTo, rootUrl)
      ensures r.Ok? ==> r.value < |rows| && Matches(rows[r.value], k) && rows[r.value].sendTo == sendTo
                        && m.actor.Ok? && rows[r.value].actorEntity == m.actor.value
                        && rows[r.value].targetEntity == m.target.value
      ensures |old(rows)| <= |rows| <= |old(rows)| + 1
    {
      var got := GetOrCreateRow(k);
      if got.Err? {
        return Err(got.error);
      }
      var i := got.value;
      var url := ActionUrl(rootUrl, m.urlPath);
      if url.Err? {
        return Err(url.error);
      }
      if m.actor.Err? {
        return Err(m.actor.error);
      }
      var filled := Filled(rows[i], url.value, m.actor.value, m.target.value, sendTo, m.redirectType);
      SameIdsKeepValid(rows, rows[i := filled], nextId);
      rows := rows[i := filled];
      return Ok(i);
    }

    /** Notification.objects.get_or_create on the table: the result is the
        position of the row found or appended. */
    method GetOrCreateRow(k: Lookup) returns (r: Result<nat, Failure>)
      requires Valid()
      modifies this
      ensures Valid()
      ensures GetOrCreate(old(rows), old(nextId), k).Err? ==>
                r == Err(GetOrCreate(old(rows), old(nextId), k).error) && rows == old(rows)
      ensures r.Ok? <==> GetOrCreate(old(rows), old(nextId), k).Ok?
      ensures r.Ok? ==> GetOrCreate(old(rows), old(nextId), k) == Ok((rows, r.value))
      ensures |old(rows)| <= |rows| <= |old(rows)| + 1
    {
      var got := GetOrCreate(rows, nextId, k);
      if got.Err? {
        return Err(got.error);
      }
      if MatchIndices(rows, k) == [] {
        FreshKeepsValid(rows, nextId, k);
        nextId := nextId + 1;
      }
      rows := got.value.0;
      return Ok(got.value.1);
    }

    /** ReadNotificationSerializer.create (after validate): mark the
        selected rows read in one update; the response body is the empty
        dictionary, which to_representation returns unchanged. */
    method ReadNotifications(req: ReadRequest) returns (body: Json)
      requires ValidateRead(req).Ok?
      modifies this`rows
      ensures rows == MarkRead(old(rows), req)
      ensures body == JObject(map[])
    {
      rows := MarkRead(rows, req);
      body := JObject(map[]);
    }
  }

  /** Rewriting rows without touching their ids keeps the ids unique and
      below the next one. */
  lemma SameIdsKeepValid(rows: seq<Notification>, rows2: seq<Notification>, nextId: nat)
    requires |rows2| == |rows| && forall i :: 0 <= i < |rows| ==> rows2[i].id == rows[i].id
    requires forall i :: 0 <= i < |rows| ==> rows[i].id < nextId
    requires forall i, j :: 0 <= i < j < |rows| ==> rows[i].id != rows[j].id
    ensures forall i :: 0 <= i < |rows2| ==> rows2[i].id < nextId
    ensures forall i, j :: 0 <= i < j < |rows2| ==> rows2[i].id != rows2[j].id
  {
  }

  /** Appending a fresh row under `nextId` keeps the ids unique and below
      the next one. */
  lemma FreshKeepsValid(rows: seq<Notification>, nextId: nat, k: Lookup)
    requires forall i :: 0 <= i < |rows| ==> rows[i].id < nextId
    requires forall i, j :: 0 <= i < j < |rows| ==> rows[i].id != rows[j].id
    ensures forall i :: 0 <= i < |rows + [FreshRow(nextId, k)]| ==> (rows + [FreshRow(nextId, k)])[i].id < nextId + 1
    ensures forall i, j :: 0 <= i < j < |rows + [FreshRow(nextId, k)]| ==>
              (rows + [FreshRow(nextId, k)])[i].id != (rows + [FreshRow(nextId, k)])[j].id
  {
  }

  /** With the default channels the row is always visible, so the
      constructor of a non-member goes on to get-or-create the row. */
  lemma DefaultManagerNotifies(m: Manager, user: Accounts.User, userId: Accounts.UserId, members: seq<Member>, target: Option<EntityId>)
    requires m.channels == DEFAULT_CHANNELS && !IsMember(members, userId, target)
    ensures ManagerPrefs(m, user, userId, members, target).Ok?
    ensures ManagerPrefs(m, user, userId, members, target).value.Any()
    ensures ManagerPrefs(m, user, userId, members, target).value.visibility
  {
    Accounts.DefaultPrefs(user.status);
  }
}

=== FILE: oauth.dfy ===
/** The OAuth2 client models of v1/oauth/models.py and the token validator
    of v1/oauth/validators.py. A client server (an OAuth application) is
    owned by a user and serves the companies linked to it; an access token
    it obtains with the client-credentials grant (section 4.4 of RFC 6749)
    is bound to one company. Expiry and the library's own scope check are
    inputs: what the OAuth toolkit answers for the token. */
module OAuthClients {
  import opened Wrappers
  import opened Failures
  import opened Entities
  import opened Accounts

  /** ClientServer: its owning user and its space-separated scope. */
  datatype ClientServer = ClientServer(user: UserId, scope: string)

  /** A ClientAccessToken row. */
  datatype AccessToken = AccessToken(
    user: Option<UserId>,
    application: nat,
    company: EntityId,
    scope: string,
    token: string,
    expires: int)

  /** ClientServerCompany rows: (client server, company), unique. */
  predicate Linked(links: seq<(nat, EntityId)>, app: nat, company: EntityId)
  {
    (app, company) in links
  }

  /** company_allowed: the token's company is one of its application's
      companies. */
  function CompanyAllowed(t: AccessToken, links: seq<(nat, EntityId)>): (b: bool)
    ensures b <==> exists i :: 0 <= i < |links| && links[i] == (t.application, t.company)
  {
    Linked(links, t.application, t.company)
  }

  /** allow_scopes: nothing requested is refused; exactly the
      authentication scope is allowed; anything else is the library's
      answer `baseAllows`. */
  function AllowScopes(scopes: seq<string>, authScope: string, baseAllows: bool): (b: bool)
    ensures scopes == [] ==> !b
    ensures scopes == [authScope] ==> b
    ensures scopes != [] && scopes != [authScope] ==> b == baseAllows
  {
    if scopes == [] then false
    else if |scopes| == 1 && scopes[0] == authScope then true
    else baseAllows
  }

  /** is_valid: the library's validity (not expired, and the scopes
      allowed, through the allow_scopes above) and the company allowed. */
  function IsValid(t: AccessToken, expired: bool, scopes: seq<string>, authScope: string, baseAllows: bool,
                   links: seq<(nat, EntityId)>): (b: bool)
    ensures b ==> CompanyAllowed(t, links) && !expired && scopes != []
    ensures scopes == [authScope] ==> (b <==> !expired && CompanyAllowed(t, links))
  {
    !expired && AllowScopes(scopes, authScope, baseAllows) && CompanyAllowed(t, links)
  }

  /** A token whose company was unlinked from its application is no longer
      valid, whatever it is asked for. */
  lemma UnlinkedCompanyInvalid(t: AccessToken, expired: bool, scopes: seq<string>, authScope: string, baseAllows: bool,
                               links: seq<(nat, EntityId)>)
    requires !Linked(links, t.application, t.company)
    ensures !IsValid(t, expired, scopes, authScope, baseAllows, links)
  {
  }

  /** The membership of u in company c, if any (unique by constraint). */
  function MemberIndex(ms: seq<Member>, c: EntityId, u: UserRef): (k: Option<nat>)
    ensures k.Some? ==> k.value < |ms| && ms[k.value].company == c && ms[k.value].user == u
    ensures k.None? ==> forall i :: 0 <= i < |ms| ==> !(ms[i].company == c && ms[i].user == u)
  {
    if ms == [] then None
    else if ms[0].company == c && ms[0].user == u then Some(0)
    else
      match MemberIndex(ms[1..], c, u)
      case None => None
      case Some(k) => Some(k + 1)
  }

  /** The lookup reads only the company and user of each membership. */
  lemma {:induction false} SameKeysSameIndex(ms: seq<Member>, ms': seq<Member>, c: EntityId, u: UserRef)
    requires |ms| == |ms'|
    requires forall i :: 0 <= i < |ms| ==> ms'[i].company == ms[i].company && ms'[i].user == ms[i].user
    ensures MemberIndex(ms', c, u) == MemberIndex(ms, c, u)
  {
    if ms != [] {
      SameKeysSameIndex(ms[1..], ms'[1..], c, u);
    }
  }

  /** is_valid_entity: the client's user has a membership in the entity
      and it is active; no membership (or no entity id) is simply false. */
  function IsValidEntity(ms: seq<Member>, client: ClientServer, entityId: Option<EntityId>): (b: bool)
    ensures b <==> entityId.Some? && exists i :: 0 <= i < |ms| && ms[i].company == entityId.value
                                                 && ms[i].user == client.user && ms[i].isActive
    requires MembersUnique(ms)
  {
    entityId.Some? && MemberIndex(ms, entityId.value, client.user).Some?
    && ms[MemberIndex(ms, entityId.value, client.user).value].isActive
  }

  /** What get_default_scopes returns: the common scopes, in no particular
      order, or the backend's defaults as they are. */
  datatype DefaultScopes = Common(scopes: set<string>) | BackendDefaults(list: seq<string>)

  /** get_default_scopes: the backend's default scopes that the application
      also has; when there are none, the backend's defaults. */
  function GetDefaultScopes(backend: seq<string>, appScopes: seq<string>): (r: DefaultScopes)
    ensures r.Common? ==> r.scopes != {} && forall s :: s in r.scopes <==> s in backend && s in appScopes
    ensures r.BackendDefaults? ==> r.list == backend && forall s :: s in backend ==> s !in appScopes
  {
    var common := set s | s in backend && s in appScopes;
    if common != {} then Common(common)
    else
      assert forall s :: s in backend ==> s !in appScopes by {
        forall s | s in backend ensures s !in appScopes {
          assert s in appScopes ==> s in common;
        }
      }
      BackendDefaults(backend)
  }

  /** The OAuth tables: applications, their company links and the access
      tokens issued. */
  class OAuthTables {
    var apps: map<nat, ClientServer>
    var links: seq<(nat, EntityId)>
    var tokens: seq<AccessToken>

    constructor ()
      ensures apps == map[] && links == [] && tokens == []
    {
      apps, links, tokens := map[], [], [];
    }

    /** ClientServerCompany.save: the client's user first becomes an ADMIN
        member of the company (the membership is made if missing), then
        the link is stored; an existing link violates unique_together. */
    method SaveLink(dir: Directory, app: nat, company: EntityId) returns (r: Result<nat, Failure>)
      requires dir.Valid() && app in apps && apps[app].user in dir.users
      requires company in dir.entities && dir.entities[company].kind.CompanyEntity?
      modifies this`links, dir`members
      ensures dir.Valid()
      ensures var k := MemberIndex(dir.members, company, apps[app].user);
              k.Some? && dir.members[k.value].kind == MemberAdmin
      ensures |old(dir.members)| <= |dir.members| <= |old(dir.members)| + 1
      ensures forall i :: 0 <= i < |old(dir.members)| && !(old(dir.members)[i].company == company && old(dir.members)[i].user == apps[app].user) ==>
                dir.members[i] == old(dir.members)[i]
      ensures r.Ok? <==> (app, company) !in old(links)
      ensures r.Ok? ==> links == old(links) + [(app, company)] && r.value == |old(links)|
      ensures r.Err? ==> links == old(links) && r.error == IntegrityError("client_server, company")
    {
      var u := apps[app].user;
      var k := MemberIndex(dir.members, company, u);
      if k.None? {
        dir.members := dir.members + [Member(company, u, MemberAdmin, true)];
        assert MemberIndex(dir.members, company, u).Some? by {
          assert dir.members[|dir.members| - 1].company == company;
        }
      } else {
        dir.members := dir.members[k.value := dir.members[k.value].(kind := MemberAdmin)];
        SameKeysSameIndex(old(dir.members), dir.members, company, u);
      }
      if (app, company) in links {
        return Err(IntegrityError("client_server, company"));
      }
      links := links + [(app, company)];
      r := Ok(|links| - 1);
    }

    /** _create_access_token: an entity that is not an active membership of
        the client's user is refused and nothing is created; otherwise the
        token is stored for the client's user and the requested entity. */
    method CreateAccessToken(dir: Directory, app: nat, entityId: Option<EntityId>, scope: string, token: string, expires: int)
      returns (r: Result<nat, Failure>)
      requires MembersUnique(dir.members) && app in apps
      modifies this`tokens
      ensures !IsValidEntity(dir.members, apps[app], entityId) ==>
                r == Err(InvalidRequestFatal("Invalid entity ID. Or entity is not active.")) && tokens == old(tokens)
      ensures r.Ok? ==> && IsValidEntity(dir.members, apps[app], entityId)
                        && tokens == old(tokens) + [AccessToken(Some(apps[app].user), app, entityId.value, scope, token, expires)]
                        && r.value == |old(tokens)|
      ensures IsValidEntity(dir.members, apps[app], entityId) ==> r.Ok?
    {
      if !IsValidEntity(dir.members, apps[app], entityId) {
        return Err(InvalidRequestFatal("Invalid entity ID. Or entity is not active."));
      }
      var t := SavedToken(AccessToken(Some(apps[app].user), app, entityId.value, scope, token, expires), false, apps);
      tokens := tokens + [t];
      r := Ok(|tokens| - 1);
    }
  }

  /** ClientAccessToken.save: a new token without a user gets its
      application's user; nothing else changes. */
  function SavedToken(t: AccessToken, hasPk: bool, apps: map<nat, ClientServer>): (r: AccessToken)
    requires t.application in apps
    ensures !hasPk && t.user.None? ==> r == t.(user := Some(apps[t.application].user))
    ensures hasPk || t.user.Some? ==> r == t
    ensures r.user.Some? || hasPk
  {
    if !hasPk && t.user.None? then t.(user := Some(apps[t.application].user)) else t
  }
}

=== FILE: permissions.dfy ===
/** The permission classes of base/permissions.py. CombinedPermission picks
    the check by the class of the request's token; BaseTOTP checks a
    time-based one-time password (RFC 6238), whose computation is the
    parameter `totpVerify(secret, otp)`: whether the OTP matches at the
    current time step or one step either side. */
module Permissions {
  import opened Wrappers
  import opened Failures
  import opened JsonValues

  /** The permission classes CombinedPermission can delegate to. */
  datatype Check = IsAuthenticated | TokenMatchesOASRequirements

  /** CombinedPermission.permission: simple-JWT token classes need an
      authenticated user; SSO token classes too, but only when SSO_ENABLED
      is "1"; every other token (even None, whose class is NoneType)
      goes to the OAuth scope check. */
  function PermissionFor(tokenClass: string, jwtClasses: seq<string>, ssoClasses: seq<string>, ssoEnabled: string): (c: Check)
    ensures c == IsAuthenticated <==> tokenClass in jwtClasses || (ssoEnabled == "1" && tokenClass in ssoClasses)
    ensures tokenClass !in jwtClasses && ssoEnabled != "1" ==> c == TokenMatchesOASRequirements
  {
    if tokenClass in jwtClasses then IsAuthenticated
    else if ssoEnabled == "1" && tokenClass in ssoClasses then IsAuthenticated
    else TokenMatchesOASRequirements
  }

  /** has_permission (and has_object_permission) answer with the chosen
      check: `authenticated` is what IsAuthenticated answers, `scopesMatch`
      what the OAuth scope check answers. */
  function HasPermission(tokenClass: string, jwtClasses: seq<string>, ssoClasses: seq<string>, ssoEnabled: string,
                         authenticated: bool, scopesMatch: bool): (b: bool)
    ensures tokenClass in jwtClasses ==> (b <==> authenticated)
    ensures tokenClass !in jwtClasses && ssoEnabled == "1" && tokenClass in ssoClasses ==> (b <==> authenticated)
    ensures tokenClass !in jwtClasses && !(ssoEnabled == "1" && tokenClass in ssoClasses) ==> (b <==> scopesMatch)
  {
    match PermissionFor(tokenClass, jwtClasses, ssoClasses, ssoEnabled)
    case IsAuthenticated => authenticated
    case TokenMatchesOASRequirements => scopesMatch
  }

  /** An SSO token counts as authenticated only while SSO is enabled. */
  lemma SsoTokenNeedsSso(tokenClass: string, jwtClasses: seq<string>, ssoClasses: seq<string>,
                         authenticated: bool, scopesMatch: bool)
    requires tokenClass in ssoClasses && tokenClass !in jwtClasses
    ensures HasPermission(tokenClass, jwtClasses, ssoClasses, "1", authenticated, scopesMatch) == authenticated
    ensures HasPermission(tokenClass, jwtClasses, ssoClasses, "0", authenticated, scopesMatch) == scopesMatch
  {
  }

  const FAILED_OTP: Failure := AuthenticationFailed("Failed OTP.", "authentication_failed")
  const NO_OTP: Failure := BadRequest("Can not find OTP in the request header.")
  const INVALID_OTP: Failure := AuthenticationFailed("Invalid OTP.", "authentication_failed")

  /** The keyword arguments of the view being checked. */
  class ViewKwargs {
    var kwargs: map<string, Json>

    constructor (kwargs: map<string, Json>)
      ensures this.kwargs == kwargs
    {
      this.kwargs := kwargs;
    }
  }

  /** `request.META.get(key)` as a value: the text, or None. */
  function MetaValue(meta: map<string, string>, key: string): (j: Json)
    ensures key in meta <==> j.JStr?
    ensures key in meta ==> j == JStr(meta[key])
  {
    if key in meta then JStr(meta[key]) else JNull
  }

  /** What activating the request's Timezone and Language headers raises,
      if anything: the timezone and translation libraries are inputs. A
      header that is absent or empty is not activated. */
  function ActivationFailure(meta: map<string, string>, activateTimezone: string -> Option<Failure>,
                             activateTranslation: string -> Option<Failure>): (f: Option<Failure>)
    ensures "HTTP_TIMEZONE" in meta && meta["HTTP_TIMEZONE"] != "" && activateTimezone(meta["HTTP_TIMEZONE"]).Some? ==>
              f == activateTimezone(meta["HTTP_TIMEZONE"])
    ensures f.Some? && !("HTTP_TIMEZONE" in meta && meta["HTTP_TIMEZONE"] != "" && activateTimezone(meta["HTTP_TIMEZONE"]).Some?) ==>
              "HTTP_LANGUAGE" in meta && f == activateTranslation(meta["HTTP_LANGUAGE"])
    ensures f.None? <==>
              && ("HTTP_TIMEZONE" in meta && meta["HTTP_TIMEZONE"] != "" ==> activateTimezone(meta["HTTP_TIMEZONE"]).None?)
              && ("HTTP_LANGUAGE" in meta && meta["HTTP_LANGUAGE"] != "" ==> activateTranslation(meta["HTTP_LANGUAGE"]).None?)
  {
    if "HTTP_TIMEZONE" in meta && meta["HTTP_TIMEZONE"] != "" && activateTimezone(meta["HTTP_TIMEZONE"]).Some? then
      activateTimezone(meta["HTTP_TIMEZONE"])
    else if "HTTP_LANGUAGE" in meta && meta["HTTP_LANGUAGE"] != "" then activateTranslation(meta["HTTP_LANGUAGE"])
    else None
  }

  /** BaseTOTP.has_permission: always granted in the "local" environment.
      Otherwise the class needs a secret and the request an Otp header;
      the Timezone and Language headers are then activated, which may
      raise; the Language header (or None) is written into the view's
      kwargs before the OTP is checked, and a wrong OTP is refused. */
  method HasTotpPermission(view: ViewKwargs, environment: string, otpSecret: Option<string>, meta: map<string, string>,
                           activateTimezone: string -> Option<Failure>, activateTranslation: string -> Option<Failure>,
                           totpVerify: (string, string) -> bool) returns (r: Result<bool, Failure>)
    modifies view
    ensures environment == "local" ==> r == Ok(true) && view.kwargs == old(view.kwargs)
    ensures environment != "local" && (otpSecret.None? || otpSecret.value == "") ==>
              r == Err(FAILED_OTP) && view.kwargs == old(view.kwargs)
    ensures environment != "local" && otpSecret.Some? && otpSecret.value != "" && ("HTTP_OTP" !in meta || meta["HTTP_OTP"] == "") ==>
              r == Err(NO_OTP) && view.kwargs == old(view.kwargs)
    ensures environment != "local" && otpSecret.Some? && otpSecret.value != "" && "HTTP_OTP" in meta && meta["HTTP_OTP"] != "" ==>
              var failure := ActivationFailure(meta, activateTimezone, activateTranslation);
              && (failure.Some? ==> r == Err(failure.value) && view.kwargs == old(view.kwargs))
              && (failure.None? ==>
                    && view.kwargs == old(view.kwargs)["language" := MetaValue(meta, "HTTP_LANGUAGE")]
                    && (r == Ok(true) <==> totpVerify(otpSecret.value, meta["HTTP_OTP"]))
                    && (r.Err? ==> r.error == INVALID_OTP))
    ensures r.Ok? ==> r.value
  {
    if environment == "local" {
      return Ok(true);
    }
    if otpSecret.None? || otpSecret.value == "" {
      return Err(FAILED_OTP);
    }
    if "HTTP_OTP" !in meta || meta["HTTP_OTP"] == "" {
      return Err(NO_OTP);
    }
    if "HTTP_TIMEZONE" in meta && meta["HTTP_TIMEZONE"] != "" {
      var f := activateTimezone(meta["HTTP_TIMEZONE"]);
      if f.Some? {
        return Err(f.value);
      }
    }
    if "HTTP_LANGUAGE" in meta && meta["HTTP_LANGUAGE"] != "" {
      var f := activateTranslation(meta["HTTP_LANGUAGE"]);
      if f.Some? {
        return Err(f.value);
      }
    }
    view.kwargs := view.kwargs["language" := MetaValue(meta, "HTTP_LANGUAGE")];
    if totpVerify(otpSecret.value, meta["HTTP_OTP"]) {
      return Ok(true);
    }
    r := Err(INVALID_OTP);
  }
}

=== FILE: request_views.dfy ===
/** The constants endpoint and the id-lookup mixin of
    base/request_handler/views.py. Every IntegerChoices class is listed under
    the app its module belongs to and under a snake_case form of its name.
    Python's `lower()` is modelled on ASCII letters only. */
module RequestViews {
  import opened Wrappers
  import opened Failures

  predicate IsUpper(c: char)
  {
    'A' <= c <= 'Z'
  }

  function LowerChar(c: char): (r: char)
    ensures !IsUpper(r)
    ensures IsUpper(c) ==> r as int == c as int + 32
    ensures !IsUpper(c) ==> r == c
  {
    if IsUpper(c) then (c as int + 32) as char else c
  }

  function Lowered(s: string): (r: string)
    ensures |r| == |s| && forall i :: 0 <= i < |s| ==> r[i] == LowerChar(s[i])
  {
    seq(|s|, i requires 0 <= i < |s| => LowerChar(s[i]))
  }

  /** `re.sub(r"(?<!^)(?=[A-Z])", "_", s)`: an underscore before every
      uppercase letter except one at the very start. */
  function Underscored(s: string, atStart: bool): (r: string)
    ensures |r| >= |s|
  {
    if s == [] then []
    else (if IsUpper(s[0]) && !atStart then "_" else "") + [s[0]] + Underscored(s[1..], false)
  }

  /** The snake_case name of a choices class. */
  function ChoiceName(className: string): (r: string)
    ensures forall i :: 0 <= i < |r| ==> !IsUpper(r[i])
  {
    Lowered(Underscored(className, true))
  }

  /** s with every underscore removed. */
  function StripUnderscores(s: string): (r: string)
    ensures '_' !in r
  {
    if s == [] then [] else (if s[0] == '_' then [] else [s[0]]) + StripUnderscores(s[1..])
  }

  lemma {:induction false} StripAppend(a: string, b: string)
    ensures StripUnderscores(a + b) == StripUnderscores(a) + StripUnderscores(b)
  {
    if a != [] {
      assert (a + b)[1..] == a[1..] + b;
      StripAppend(a[1..], b);
    } else {
      assert a + b == b;
    }
  }

  lemma {:induction false} LoweredAppend(a: string, b: string)
    ensures Lowered(a + b) == Lowered(a) + Lowered(b)
  {
  }

  /** Lowering a letter never makes or removes an underscore, so removing
      underscores and lowering commute. */
  lemma {:induction false} StripLoweredCommute(x: string)
    ensures StripUnderscores(Lowered(x)) == Lowered(StripUnderscores(x))
  {
    if x != [] {
      assert x == [x[0]] + x[1..];
      LoweredAppend([x[0]], x[1..]);
      StripAppend(Lowered([x[0]]), Lowered(x[1..]));
      StripLoweredCommute(x[1..]);
      var head := if x[0] == '_' then [] else [x[0]];
      assert StripUnderscores(x) == head + StripUnderscores(x[1..]);
      LoweredAppend(head, StripUnderscores(x[1..]));
    }
  }

  /** The underscores Underscored inserts are the only change it makes. */
  lemma {:induction false} StripUnderscored(s: string, atStart: bool)
    ensures StripUnderscores(Underscored(s, atStart)) == StripUnderscores(s)
  {
    if s != [] {
      var pre: string := if IsUpper(s[0]) && !atStart then "_" else "";
      var rest := Underscored(s[1..], false);
      assert Underscored(s, atStart) == pre + ([s[0]] + rest);
      StripAppend(pre, [s[0]] + rest);
      StripAppend([s[0]], rest);
      StripUnderscored(s[1..], false);
      assert s == [s[0]] + s[1..];
      StripAppend([s[0]], s[1..]);
    }
  }

  lemma UnderscoredOnlyInserts(s: string, atStart: bool)
    ensures StripUnderscores(Lowered(Underscored(s, atStart))) == StripUnderscores(Lowered(s))
  {
    StripLoweredCommute(Underscored(s, atStart));
    StripUnderscored(s, atStart);
    StripLoweredCommute(s);
  }

  /** Deleting the underscores from a choice name gives back the lowered
      class name (without its own underscores): the derivation only inserts
      separators and lowers letters. */
  lemma ChoiceNameOnlyInserts(className: string)
    ensures StripUnderscores(ChoiceName(className)) == StripUnderscores(Lowered(className))
  {
    UnderscoredOnlyInserts(className, true);
  }

  /** `s.split(c)`: the pieces between the separators. */
  function Split(s: string, c: char): (r: seq<string>)
    ensures |r| >= 1
    ensures forall i :: 0 <= i < |r| ==> c !in r[i]
    ensures Join(r, c) == s
  {
    if s == [] then [""]
    else
      var rest := Split(s[1..], c);
      if s[0] == c then [""] + rest
      else [[s[0]] + rest[0]] + rest[1..]
  }

  /** `c.join(parts)` */
  function Join(parts: seq<string>, c: char): string
    requires |parts| >= 1
  {
    if |parts| == 1 then parts[0] else parts[0] + [c] + Join(parts[1..], c)
  }

  /** `module.split(".")[1]`: the app a choices class belongs to; a module
      path without a dot raises IndexError. */
  function AppName(modulePath: string): (r: Result<string, Failure>)
    ensures r.Err? <==> '.' !in modulePath
    ensures r.Ok? ==> '.' !in r.value && r.value == Split(modulePath, '.')[1]
  {
    var parts := Split(modulePath, '.');
    if |parts| < 2 then
      assert modulePath == parts[0];
      Err(Uncaught("IndexError"))
    else
      assert '.' in modulePath by { SplitMany(modulePath, '.'); }
      Ok(parts[1])
  }

  lemma {:induction false} SplitMany(s: string, c: char)
    requires |Split(s, c)| >= 2
    ensures c in s
  {
    if s != [] && s[0] != c {
      SplitMany(s[1..], c);
    }
  }

  datatype ChoicesClass = ChoicesClass(modulePath: string, name: string, choices: seq<(int, string)>)

  /** One `{"name": label, "id": value}` entry. */
  datatype ChoiceEntry = ChoiceEntry(name: string, id: int)

  type Config = map<string, map<string, seq<ChoiceEntry>>>

  /** The entries of one class, in declared order. */
  function Entries(c: ChoicesClass): (r: seq<ChoiceEntry>)
    ensures |r| == |c.choices|
    ensures forall i :: 0 <= i < |r| ==> r[i] == ChoiceEntry(c.choices[i].1, c.choices[i].0)
  {
    seq(|c.choices|, i requires 0 <= i < |c.choices| => ChoiceEntry(c.choices[i].1, c.choices[i].0))
  }

  /** One loop step: the class is stored under its app and choice name,
      replacing an earlier class with the same names. */
  function AddClass(cfg: Config, app: string, c: ChoicesClass): Config
  {
    cfg[app := (if app in cfg then cfg[app] else map[])[ChoiceName(c.name) := Entries(c)]]
  }

  /** The configuration after the loop over the given classes. */
  function ConfigOf(cs: seq<ChoicesClass>): Result<Config, Failure>
  {
    if cs == [] then Ok(map[])
    else
      match ConfigOf(cs[..|cs| - 1])
      case Err(e) => Err(e)
      case Ok(cfg) =>
        match AppName(cs[|cs| - 1].modulePath)
        case Err(e) => Err(e)
        case Ok(app) => Ok(AddClass(cfg, app, cs[|cs| - 1]))
  }

  /** Constants.get: fills the two-level dictionary class by class. */
  method GetConstants(cs: seq<ChoicesClass>) returns (r: Result<Config, Failure>)
    ensures r == ConfigOf(cs)
  {
    var cfg: Config := map[];
    var i := 0;
    while i < |cs|
      invariant 0 <= i <= |cs|
      invariant ConfigOf(cs[..i]) == Ok(cfg)
    {
      assert cs[..i + 1][..i] == cs[..i];
      var app := AppName(cs[i].modulePath);
      if app.Err? {
        r := Err(app.error);
        ConfigErrPersists(cs, i + 1);
        return;
      }
      cfg := AddClass(cfg, app.value, cs[i]);
      i := i + 1;
    }
    assert cs[..i] == cs;
    r := Ok(cfg);
  }

  /** Once a prefix fails, the whole loop fails with the same error. */
  lemma {:induction false} ConfigErrPersists(cs: seq<ChoicesClass>, n: nat)
    requires n <= |cs| && ConfigOf(cs[..n]).Err?
    ensures ConfigOf(cs) == ConfigOf(cs[..n])
    decreases |cs| - n
  {
    if n < |cs| {
      assert cs[..n + 1][..n] == cs[..n];
      ConfigErrPersists(cs, n + 1);
    } else {
      assert cs[..n] == cs;
    }
  }

  /** The loop fails exactly when some class's module has no dot. */
  lemma {:induction false} ConfigErrIffBadModule(cs: seq<ChoicesClass>)
    ensures ConfigOf(cs).Err? <==> exists i :: 0 <= i < |cs| && '.' !in cs[i].modulePath
  {
    if cs != [] {
      var init := cs[..|cs| - 1];
      ConfigErrIffBadModule(init);
      assert forall i :: 0 <= i < |init| ==> init[i] == cs[i];
    }
  }

  /** Every class ends up listed under its app and choice name, with its
      entries in declared order, unless a later class has the same app and
      choice name. */
  lemma {:induction false} ConfigListsClass(cs: seq<ChoicesClass>, k: nat)
    requires ConfigOf(cs).Ok? && k < |cs|
    requires forall j :: k < j < |cs| ==>
               !(AppName(cs[j].modulePath) == AppName(cs[k].modulePath) && ChoiceName(cs[j].name) == ChoiceName(cs[k].name))
    ensures AppName(cs[k].modulePath).Ok?
    ensures var app := AppName(cs[k].modulePath).value;
            app in ConfigOf(cs).value && ChoiceName(cs[k].name) in ConfigOf(cs).value[app]
            && ConfigOf(cs).value[app][ChoiceName(cs[k].name)] == Entries(cs[k])
  {
    var init := cs[..|cs| - 1];
    if k < |cs| - 1 {
      forall j | k < j < |init|
        ensures !(AppName(init[j].modulePath) == AppName(init[k].modulePath) && ChoiceName(init[j].name) == ChoiceName(init[k].name))
      {
        assert init[j] == cs[j] && init[k] == cs[k];
      }
      ConfigListsClass(init, k);
      assert init[k] == cs[k];
    }
  }

  /** `str(b)` for a bool. */
  function BoolText(b: bool): string
  {
    if b then "True" else "False"
  }

  predicate AllDigits(s: string)
  {
    forall i :: 0 <= i < |s| ==> '0' <= s[i] <= '9'
  }

  /** IDEncodeLookupMixin.get_object's rewrite of kwargs: the test negates
      the string "True" or "False", which is never empty, and the branch
      would only reassign the same value, so kwargs never change. */
  function LookupKwargs(kwargs: map<string, string>): (r: map<string, string>)
    ensures r == kwargs
  {
    if "id" in kwargs && BoolText(AllDigits(kwargs["id"])) == "" then kwargs  // the same value stored back
    else kwargs
  }
}

=== FILE: response.dfy ===
/** The response envelope of base/request_handler/response.py: the renderer
    that wraps plain data in {success, detail, code, data}, the explicit
    SuccessResponse body, and the Hashid hook of the JSON encoder. Byte-level
    JSON encoding is not part of this model. */
module ApiResponse {
  import opened Wrappers
  import opened JsonValues

  /** The envelope every wrapped response carries. */
  function Envelope(detail: string, code: int, data: Json): (r: Json)
    ensures r.JObject? && r.fields.Keys == {"success", "detail", "code", "data"}
    ensures r.fields["success"] == JBool(true) && r.fields["detail"] == JStr(detail)
    ensures r.fields["code"] == JInt(code) && r.fields["data"] == data
  {
    JObject(map["success" := JBool(true), "detail" := JStr(detail), "code" := JInt(code), "data" := data])
  }

  /** `data["success"]` evaluates without raising: data is a dict holding
      that key (a list, a string, None or a dict without the key raise). */
  predicate HasSuccessKey(data: Json)
  {
    data.JObject? && "success" in data.fields
  }

  /** ApiRenderer.render, before byte encoding: data that already has a
      "success" key is passed through whatever its value; anything else is
      wrapped with detail "Success" and the response's status code. */
  function Render(data: Json, status: int): (r: Json)
    ensures HasSuccessKey(r)
    ensures HasSuccessKey(data) ==> r == data
    ensures !HasSuccessKey(data) ==> r == Envelope("Success", status, data)
  {
    if HasSuccessKey(data) then data else Envelope("Success", status, data)
  }

  /** Rendering is idempotent, whatever status the second pass sees. */
  lemma RenderIdempotent(data: Json, status: int, status2: int)
    ensures Render(Render(data, status), status2) == Render(data, status)
  {
  }

  /** The body SuccessResponse builds: a falsy response becomes {}, a falsy
      message becomes "Success."; the default status is 200. */
  function SuccessBody(response: Json, message: Option<string>, status: int): (r: Json)
    ensures r.JObject? && r.fields.Keys == {"success", "detail", "code", "data"}
    ensures r.fields["success"] == JBool(true) && r.fields["code"] == JInt(status)
    ensures Truthy(response) ==> r.fields["data"] == response
    ensures !Truthy(response) ==> r.fields["data"] == JObject(map[])
    ensures message.Some? && message.value != "" ==> r.fields["detail"] == JStr(message.value)
    ensures message.None? || message.value == "" ==> r.fields["detail"] == JStr("Success.")
  {
    var data := if Truthy(response) then response else JObject(map[]);
    var detail := if message.Some? && message.value != "" then message.value else "Success.";
    Envelope(detail, status, data)
  }

  const HTTP_200_OK: int := 200

  /** A SuccessResponse body is rendered unchanged. */
  lemma SuccessBodyRendersAsIs(response: Json, message: Option<string>, status: int, renderStatus: int)
    ensures Render(SuccessBody(response, message, status), renderStatus) == SuccessBody(response, message, status)
  {
  }

  /** HashidJSONEncoder.default: a Hashid is encoded as its string form;
      every other object is left to the framework's encoder (None here). */
  function EncodeDefault(o: Json): (r: Option<Json>)
    ensures o.JHashid? <==> r.Some?
    ensures r.Some? ==> r.value == JStr(o.text)
  {
    match o
    case JHashid(_, text) => Some(JStr(text))
    case _ => None
  }
}

=== FILE: semver.dfy ===
/** The version-string helpers of base/drf/utils.py: the semantic-version
    validator (a subset of items 2 and 9 of Semantic Versioning 2.0.0:
    MAJOR.MINOR.PATCH with an optional "-alpha.N", "-beta.N" or "-rc.N")
    and the server version derived from the branch name. */
module SemVer {
  import opened Wrappers
  import opened Failures

  predicate IsDigit(c: char)
  {
    '0' <= c <= '9'
  }

  predicate IsDigits(s: string)
  {
    |s| > 0 && forall i :: 0 <= i < |s| ==> IsDigit(s[i])
  }

  /** `0|[1-9]\d*`: a decimal number without leading zeros. */
  predicate IsNumber(s: string)
  {
    s == "0" || (IsDigits(s) && s[0] != '0')
  }

  /** `-(alpha|beta|rc)\.\d+` */
  predicate IsPreRelease(p: string)
  {
    (|p| > 7 && p[..7] == "-alpha." && IsDigits(p[7..]))
    || (|p| > 6 && p[..6] == "-beta." && IsDigits(p[6..]))
    || (|p| > 4 && p[..4] == "-rc." && IsDigits(p[4..]))
  }

  /** The dots at i and j split s into three numbers, and from k on comes
      nothing or a pre-release suffix. */
  predicate IsVersionAt(s: string, i: nat, j: nat, k: nat)
  {
    i < j < k <= |s| && s[i] == '.' && s[j] == '.'
    && IsNumber(s[..i]) && IsNumber(s[i + 1..j]) && IsNumber(s[j + 1..k])
    && (k == |s| || IsPreRelease(s[k..]))
  }

  /** The accepted grammar: some split of the string fits. */
  ghost predicate IsVersion(s: string)
  {
    exists i: nat, j: nat, k: nat :: IsVersionAt(s, i, j, k)
  }

  /** The length of the leading run of digits. */
  function DigitRun(s: string): (n: nat)
    ensures n <= |s|
  {
    if s == [] || !IsDigit(s[0]) then 0 else 1 + DigitRun(s[1..])
  }

  lemma {:induction false} DigitRunExact(s: string, n: nat)
    requires n <= |s| && (forall i :: 0 <= i < n ==> IsDigit(s[i]))
    requires n < |s| ==> !IsDigit(s[n])
    ensures DigitRun(s) == n
  {
    if n > 0 {
      DigitRunExact(s[1..], n - 1);
    }
  }

  /** The regular expression read left to right: a number is always the
      whole run of digits (a shorter one would be followed by a digit, not
      by the dot or the end the pattern needs next), so the scan fixes
      where the dots must be. Anchored at both ends. */
  function MatchCore(s: string): bool
  {
    var i := DigitRun(s);
    i < |s| && MatchAfterMajor(s, i)
  }

  function MatchAfterMajor(s: string, i: nat): bool
    requires i < |s|
  {
    var j := i + 1 + DigitRun(s[i + 1..]);
    j < |s| && MatchAfterMinor(s, i, j)
  }

  function MatchAfterMinor(s: string, i: nat, j: nat): bool
    requires i < j < |s|
  {
    IsVersionAt(s, i, j, j + 1 + DigitRun(s[j + 1..]))
  }

  /** A number that ends at `hi` (followed by a non-digit or the end) is
      exactly the digit run starting at `lo`. */
  lemma NumberIsRun(s: string, lo: nat, hi: nat)
    requires lo <= hi <= |s| && IsNumber(s[lo..hi])
    requires hi < |s| ==> !IsDigit(s[hi])
    ensures DigitRun(s[lo..]) == hi - lo
  {
    forall t | 0 <= t < hi - lo
      ensures IsDigit(s[lo..][t])
    {
      assert s[lo..hi][t] == s[lo..][t];
    }
    assert hi < |s| ==> s[lo..][hi - lo] == s[hi];
    DigitRunExact(s[lo..], hi - lo);
  }

  lemma FirstNumberIsRun(s: string, i: nat)
    requires i < |s| && IsNumber(s[..i]) && s[i] == '.'
    ensures DigitRun(s) == i
  {
    forall t | 0 <= t < i
      ensures IsDigit(s[t])
    {
      assert s[..i][t] == s[t];
    }
    DigitRunExact(s, i);
  }

  lemma VersionMatches(s: string)
    requires IsVersion(s)
    ensures MatchCore(s)
  {
    var i: nat, j: nat, k: nat :| IsVersionAt(s, i, j, k);
    FirstNumberIsRun(s, i);
    MajorStage(s, i, j, k);
  }

  lemma MajorStage(s: string, i: nat, j: nat, k: nat)
    requires IsVersionAt(s, i, j, k)
    ensures MatchAfterMajor(s, i)
  {
    NumberIsRun(s, i + 1, j);
    MinorStage(s, i, j, k);
  }

  lemma MinorStage(s: string, i: nat, j: nat, k: nat)
    requires IsVersionAt(s, i, j, k)
    ensures MatchAfterMinor(s, i, j)
  {
    if k < |s| {
      PreReleaseStartsWithDash(s[k..]);
      assert s[k] == s[k..][0];
      assert !IsDigit(s[k]);
    }
    NumberIsRun(s, j + 1, k);
    assert j + 1 + DigitRun(s[j + 1..]) == k;
  }

  lemma PreReleaseStartsWithDash(p: string)
    requires IsPreRelease(p)
    ensures p[0] == '-'
  {
    if |p| > 7 && p[..7] == "-alpha." {
      assert p[0] == p[..7][0];
    } else if |p| > 6 && p[..6] == "-beta." {
      assert p[0] == p[..6][0];
    } else {
      assert p[0] == p[..4][0];
    }
  }

  /** The scanner accepts exactly the grammar. */
  lemma MatchCoreIsVersion(s: string)
    ensures MatchCore(s) <==> IsVersion(s)
  {
    if IsVersion(s) {
      VersionMatches(s);
    }
    if MatchCore(s) {
      MatchedIsVersion(s);
    }
  }

  lemma MatchedIsVersion(s: string)
    requires MatchCore(s)
    ensures IsVersion(s)
  {
    var i := DigitRun(s);
    assert MatchAfterMajor(s, i);
    var j := i + 1 + DigitRun(s[i + 1..]);
    assert MatchAfterMinor(s, i, j);
    VersionAt(s, i, j, j + 1 + DigitRun(s[j + 1..]));
  }

  lemma VersionAt(s: string, i: nat, j: nat, k: nat)
    requires IsVersionAt(s, i, j, k)
    ensures IsVersion(s)
  {
  }

  /** `re.match(semver_regex, version)` as written: `$` also matches just
      before a final newline, so one trailing "\n" is tolerated. */
  predicate SemVerMatches(v: string)
  {
    MatchCore(v) || (|v| > 0 && v[|v| - 1] == '\n' && MatchCore(v[..|v| - 1]))
  }

  /** The pattern with full-string anchoring, as its comment intends. */
  predicate SemVerFullMatch(v: string)
  {
    MatchCore(v)
  }

  /** validate_semantic_version: returns nothing for an accepted string and
      raises ValueError otherwise (not a DRF ValidationError, so it escapes
      the serializer's error collection). */
  function ValidateSemanticVersion(v: string): (r: Result<(), Failure>)
    ensures r.Ok? <==> IsVersion(v) || (|v| > 0 && v[|v| - 1] == '\n' && IsVersion(v[..|v| - 1]))
    ensures r.Err? ==> r.error == Uncaught("ValueError")
  {
    SemVerMatchesGrammar(v);
    if SemVerMatches(v) then Ok(()) else Err(Uncaught("ValueError"))
  }

  /** The as-written match accepts the grammar, optionally followed by one
      newline. */
  lemma SemVerMatchesGrammar(v: string)
    ensures SemVerMatches(v) <==> IsVersion(v) || (|v| > 0 && v[|v| - 1] == '\n' && IsVersion(v[..|v| - 1]))
  {
    MatchCoreIsVersion(v);
    if |v| > 0 {
      MatchCoreIsVersion(v[..|v| - 1]);
    }
  }

  /** The corrected validator accepts exactly the grammar. */
  lemma FullMatchIsVersion(v: string)
    ensures SemVerFullMatch(v) <==> IsVersion(v)
  {
    MatchCoreIsVersion(v);
  }

  /** "1.0.0\n" shows the difference: not a version, yet accepted. */
  lemma TrailingNewlineAccepted()
    ensures SemVerMatches("1.0.0\n") && !SemVerFullMatch("1.0.0\n") && !IsVersion("1.0.0\n")
  {
    var v := "1.0.0\n";
    assert v[..|v| - 1] == "1.0.0";
    assert DigitRun("1.0.0") == 1 by { DigitRunExact("1.0.0", 1); }
    assert DigitRun("1.0.0"[2..]) == 1 by { DigitRunExact("1.0.0"[2..], 1); }
    assert DigitRun("1.0.0"[4..]) == 1 by { DigitRunExact("1.0.0"[4..], 1); }
    assert "1.0.0"[..1] == "0"[..0] + "1";
    assert DigitRun(v) == 1 by { DigitRunExact(v, 1); }
    assert DigitRun(v[2..]) == 1 by { DigitRunExact(v[2..], 1); }
    assert DigitRun(v[4..]) == 1 by { DigitRunExact(v[4..], 1); }
    assert !IsPreRelease(v[5..]);
    FullMatchIsVersion(v);
  }

  /** Python's `str.replace(pat, "")`: every non-overlapping occurrence of
      pat, scanning left to right, is removed. */
  function RemoveAll(s: string, pat: string): (r: string)
    requires |pat| > 0
    ensures |r| <= |s|
    ensures forall c :: c in r ==> c in s
    decreases |s|
  {
    if |s| < |pat| then s
    else if s[..|pat|] == pat then RemoveAll(s[|pat|..], pat)
    else
      var rest := RemoveAll(s[1..], pat);
      assert forall c :: c in s[1..] ==> c in s;
      [s[0]] + rest
  }

  /** pat occurs in s at position i. */
  predicate OccursAt(s: string, pat: string, i: nat)
  {
    i + |pat| <= |s| && s[i..i + |pat|] == pat
  }

  /** A string without the pattern is left as it is. */
  lemma {:induction false} RemoveAllAbsent(s: string, pat: string)
    requires |pat| > 0
    requires forall i: nat :: !OccursAt(s, pat, i)
    ensures RemoveAll(s, pat) == s
    decreases |s|
  {
    if |s| >= |pat| {
      assert !OccursAt(s, pat, 0);
      assert s[0..|pat|] == s[..|pat|];
      forall i: nat
        ensures !OccursAt(s[1..], pat, i)
      {
        assert !OccursAt(s, pat, i + 1);
        if i + |pat| <= |s[1..]| {
          assert s[1..][i..i + |pat|] == s[i + 1..i + 1 + |pat|];
        }
      }
      RemoveAllAbsent(s[1..], pat);
      assert s == [s[0]] + s[1..];
    }
  }

  /** Removing a one-character pattern leaves no such character. */
  lemma {:induction false} RemoveCharGone(s: string, c: char)
    ensures c !in RemoveAll(s, [c])
    decreases |s|
  {
    if |s| >= 1 {
      RemoveCharGone(s[1..], c);
    }
  }

  /** get_server_version: the branch name (an input here; the source asks
      git for it) with every "V" and then every "-staging" removed. */
  function ServerVersion(branch: string): (r: string)
    ensures 'V' !in r
    ensures |r| <= |branch|
  {
    RemoveCharGone(branch, 'V');
    RemoveAll(RemoveAll(branch, "V"), "-staging")
  }
}

=== FILE: sso_authentication.dfy ===
/** SSOJWTAuthentication of base/sso/authentication.py: the raw token is
    turned into a validated token by the first token class that accepts it,
    the user is found by the token's user-id claim, the handshake session is
    found by the nonce headers (optionally checking an HMAC signature of the
    body), and the session's device must be an active device of the user.
    The HMAC itself (HMAC-SHA256 of RFC 2104, in base64 per section 4 of
    RFC 4648) is a parameter `hmacB64(key, body)`, and the header parsing of
    the JWT library (`get_raw_token`) is a parameter too. */
module SsoAuthentication {
  import opened Wrappers
  import opened Failures
  import opened JsonValues
  import opened Accounts
  import opened AuthSessions
  import opened SsoTokens
  import opened RequestViews
  import opened UserSerializer

  const NOT_VALID_FOR_ANY: string := "Given token not valid for any token type"
  const NO_USER_CLAIM: Failure := InvalidToken(["Token contained no recognizable user identification"])
  const USER_NOT_FOUND: Failure := AuthenticationFailed("User not found", "user_not_found")
  const USER_INACTIVE: Failure := AuthenticationFailed("User is inactive", "user_inactive")
  const NONCES_REQUIRED: Failure :=
    AuthenticationFailed("'Client-Nonce' and 'Server-Nonce' headers are required", "authentication_failed")
  const NO_SESSION: Failure :=
    AuthenticationFailed("HMAC validation failed: No matching session found for the provided nonces.", "authentication_failed")
  const SIGNATURE_REQUIRED: Failure :=
    AuthenticationFailed("HMAC validation failed: 'HMAC-Signature' header required", "authentication_failed")
  /** The only failure validate_hmac_signature lets out: its own "Signature
      mismatch" failure is raised inside the `try` and replaced by this one. */
  const HMAC_FAILED: Failure :=
    AuthenticationFailed("HMAC validation failed: An unexpected error occurred during validation.", "authentication_failed")
  const DEVICE_FAILED: Failure := AuthenticationFailed("Device authentication failed", "authentication_failed")
  const DEVICE_DEACTIVATED: Failure := AccessForbidden("Device deactivated login again.")

  /** An entry of AUTH_TOKEN_CLASSES: its class name, its token_type, and
      what constructing it from a raw token gives (the claims, or the
      exception the constructor raises). */
  datatype TokenClass = TokenClass(name: string, tokenType: string, build: string -> Result<map<string, Json>, Failure>)

  /** The configured SSO AccessToken as a token class: constructing it from
      a raw token decodes and verifies it. */
  function AccessTokenClass(s: SsoSettings, decode: string -> Option<map<string, Json>>, now: int,
                            outstanding: seq<Outstanding>, blacklisted: seq<nat>): (c: TokenClass)
    ensures c.tokenType == TOKEN_TYPE
    ensures forall raw :: c.build(raw).Ok? <==> MakeToken(s, Some(raw), true, decode, now, "", outstanding, blacklisted).Ok?
  {
    TokenClass("AccessToken", TOKEN_TYPE,
      raw =>
        match MakeToken(s, Some(raw), true, decode, now, "", outstanding, blacklisted)
        case Ok(t) => Ok(t.payload)
        case Err(e) => Err(e))
  }

  predicate IsTokenError(r: Result<map<string, Json>, Failure>)
  {
    r.Err? && r.error.TokenError?
  }

  /** The first n token classes all refused the raw token with a TokenError. */
  predicate FailedBefore(classes: seq<TokenClass>, raw: string, n: nat)
  {
    n <= |classes| && forall j :: 0 <= j < n ==> IsTokenError(classes[j].build(raw))
  }

  function MessageOf(c: TokenClass, raw: string): TokenMessage
    requires IsTokenError(c.build(raw))
  {
    TokenMessage(c.name, c.tokenType, c.build(raw).error.detail)
  }

  /** The messages collected from the first n token classes. */
  function MessagesUpTo(classes: seq<TokenClass>, raw: string, n: nat): seq<TokenMessage>
    requires FailedBefore(classes, raw, n)
  {
    if n == 0 then [] else MessagesUpTo(classes, raw, n - 1) + [MessageOf(classes[n - 1], raw)]
  }

  /** One message per refusing class, in the order the classes are tried. */
  lemma {:induction false} MessagesInOrder(classes: seq<TokenClass>, raw: string, n: nat)
    requires FailedBefore(classes, raw, n)
    ensures |MessagesUpTo(classes, raw, n)| == n
    ensures forall j :: 0 <= j < n ==> MessagesUpTo(classes, raw, n)[j] == MessageOf(classes[j], raw)
  {
    if n > 0 {
      MessagesInOrder(classes, raw, n - 1);
    }
  }

  /** The verdict of the token classes from the i-th on: the first that
      does not refuse with a TokenError decides; when all refuse, the
      InvalidToken error carries every class's message. */
  function TokenVerdict(classes: seq<TokenClass>, raw: string, i: nat): (r: Result<map<string, Json>, Failure>)
    requires FailedBefore(classes, raw, i)
    ensures FailedBefore(classes, raw, |classes|) ==> r == Err(TokenNotValid(NOT_VALID_FOR_ANY, MessagesUpTo(classes, raw, |classes|)))
    decreases |classes| - i
  {
    if i == |classes| then Err(TokenNotValid(NOT_VALID_FOR_ANY, MessagesUpTo(classes, raw, |classes|)))
    else if IsTokenError(classes[i].build(raw)) then TokenVerdict(classes, raw, i + 1)
    else classes[i].build(raw)
  }

  /** A verdict that accepts comes from a class that accepts after every
      class before it refused with a TokenError. */
  lemma {:induction false} TokenVerdictFromClass(classes: seq<TokenClass>, raw: string, i: nat)
    requires FailedBefore(classes, raw, i) && TokenVerdict(classes, raw, i).Ok?
    ensures exists j :: i <= j < |classes| && FailedBefore(classes, raw, j) && classes[j].build(raw) == TokenVerdict(classes, raw, i)
    decreases |classes| - i
  {
    if IsTokenError(classes[i].build(raw)) {
      TokenVerdictFromClass(classes, raw, i + 1);
    } else {
      assert classes[i].build(raw) == TokenVerdict(classes, raw, i);
    }
  }

  /** A class that accepts after every class before it refused decides
      the verdict. */
  lemma {:induction false} ClassDecidesVerdict(classes: seq<TokenClass>, raw: string, i: nat, j: nat)
    requires i <= j < |classes| && FailedBefore(classes, raw, j) && classes[j].build(raw).Ok?
    ensures TokenVerdict(classes, raw, i) == classes[j].build(raw)
    decreases j - i
  {
    if i < j {
      assert IsTokenError(classes[i].build(raw));
      ClassDecidesVerdict(classes, raw, i + 1, j);
    }
  }

  /** get_validated_token: the claims of the first class that accepts the
      raw token. A TokenError moves on to the next class; any other
      exception escapes at once; when every class refuses, InvalidToken
      carries all their messages. */
  method GetValidatedToken(classes: seq<TokenClass>, raw: string) returns (r: Result<map<string, Json>, Failure>)
    ensures forall i :: 0 <= i < |classes| && FailedBefore(classes, raw, i) && !IsTokenError(classes[i].build(raw)) ==>
              r == classes[i].build(raw)
    ensures FailedBefore(classes, raw, |classes|) ==>
              r == Err(TokenNotValid(NOT_VALID_FOR_ANY, MessagesUpTo(classes, raw, |classes|)))
    ensures r == TokenVerdict(classes, raw, 0)
  {
    var messages: seq<TokenMessage> := [];
    var i := 0;
    while i < |classes|
      invariant 0 <= i <= |classes|
      invariant FailedBefore(classes, raw, i)
      invariant messages == MessagesUpTo(classes, raw, i)
      invariant TokenVerdict(classes, raw, 0) == TokenVerdict(classes, raw, i)
    {
      var built := classes[i].build(raw);
      if !IsTokenError(built) {
        return built;
      }
      messages := messages + [MessageOf(classes[i], raw)];
      i := i + 1;
    }
    r := Err(TokenNotValid(NOT_VALID_FOR_ANY, messages));
  }

  /** The value of a user's column, for the columns USER_ID_FIELD may name;
      None for any other name, which the query rejects. */
  function UserField(id: UserId, u: User, field: string): (v: Option<Json>)
    ensures v.Some? <==> field in {"id", "email", "username", "phone"}
  {
    if field == "id" then Some(JInt(id))
    else if field == "email" then Some(JStr(u.email))
    else if field == "username" then Some(JStr(u.username))
    else if field == "phone" then Some(JStr(u.phone))
    else None
  }

  /** The users whose column `field` holds the claim's value. */
  function Matching(users: map<UserId, User>, field: string, value: Json): (m: set<UserId>)
    ensures forall u :: u in m <==> u in users && UserField(u, users[u], field) == Some(value)
  {
    set u | u in users && UserField(u, users[u], field) == Some(value)
  }

  /** get_user: the user-id claim must be present, exactly one user must
      hold it in USER_ID_FIELD (`objects.get`), and that user must be
      active. */
  function GetUser(s: SsoSettings, payload: map<string, Json>, users: map<UserId, User>): (r: Result<UserId, Failure>)
    ensures s.userIdClaim !in payload ==> r == Err(NO_USER_CLAIM)
    ensures s.userIdClaim in payload && s.userIdField in {"id", "email", "username", "phone"} ==>
              var m := Matching(users, s.userIdField, payload[s.userIdClaim]);
              && (m == {} ==> r == Err(USER_NOT_FOUND))
              && (r.Ok? <==> exists u :: m == {u} && users[u].isActive)
              && (r == Err(USER_INACTIVE) <==> exists u :: m == {u} && !users[u].isActive)
    ensures r.Ok? ==> r.value in users && users[r.value].isActive
                      && UserField(r.value, users[r.value], s.userIdField) == Some(payload[s.userIdClaim])
  {
    if s.userIdClaim !in payload then Err(NO_USER_CLAIM)
    else if s.userIdField !in {"id", "email", "username", "phone"} then Err(Uncaught("FieldError"))
    else
      var m := Matching(users, s.userIdField, payload[s.userIdClaim]);
      if m == {} then Err(USER_NOT_FOUND)
      else
        var u := FirstOf(m);
        if m != {u} then Err(Uncaught("MultipleObjectsReturned"))
        else if !users[u].isActive then Err(USER_INACTIVE)
        else Ok(u)
  }

  /** The parts of the request the pipeline reads. `headers` holds the
      header values by their canonical names; `view` is the view in the
      parser context, if any, with the two flags it may set. */
  datatype ViewFlags = ViewFlags(validatePayloadSignature: bool, excludeDeviceValidation: bool)
  datatype SsoRequest = SsoRequest(verb: string, headers: map<string, string>, body: string, view: Option<ViewFlags>)

  /** `request.headers.get(name)` tested for truth. */
  predicate HasHeader(req: SsoRequest, name: string)
  {
    name in req.headers && req.headers[name] != ""
  }

  predicate IsAscii(s: string)
  {
    forall i :: 0 <= i < |s| ==> s[i] as int < 128
  }

  /** validate_hmac_signature as written: `session_token` is a UUIDField,
      so the session's token is a uuid.UUID, which has no `encode`. The
      AttributeError raised while keying the HMAC is caught by the
      `except Exception` and comes out as HMAC_FAILED, so no signature is
      ever accepted. */
  function ValidateHmacSignatureAsWritten(sessionToken: string, received: string, body: string,
                                         hmacB64: (string, string) -> string): (r: Result<bool, Failure>)
    ensures r == Err(HMAC_FAILED)
  {
    Err(HMAC_FAILED)
  }

  /** validate_hmac_signature as intended, keyed by the token's text: the
      base64 HMAC of the body must equal the received signature.
      `compare_digest` refuses non-ASCII text with a TypeError, and every
      failure, even a plain mismatch, comes out as HMAC_FAILED. */
  function ValidateHmacSignatureIntended(sessionToken: string, received: string, body: string,
                                 hmacB64: (string, string) -> string): (r: Result<bool, Failure>)
    ensures r.Ok? <==> IsAscii(received) && IsAscii(hmacB64(sessionToken, body)) && hmacB64(sessionToken, body) == received
    ensures r.Ok? ==> r.value
    ensures r.Err? ==> r.error == HMAC_FAILED
  {
    var computed := hmacB64(sessionToken, body);
    if !IsAscii(received) || !IsAscii(computed) || computed != received then Err(HMAC_FAILED)
    else Ok(true)
  }

  /** `filter(client_nonce=..., server_nonce=...).first()`. AuthSession
      declares no Meta, so it keeps the ("-created_on",) ordering of
      AbstractBaseModel and `.first()` is the most recently created session
      for the nonce pair: the last one in the table, which is in creation
      order. */
  function SessionFor(ss: seq<AuthSession>, clientNonce: string, serverNonce: string): (k: Option<nat>)
    ensures k.Some? ==> k.value < |ss| && ss[k.value].clientNonce == clientNonce && ss[k.value].serverNonce == serverNonce
    ensures k.Some? ==> forall j :: k.value < j < |ss| ==> !(ss[j].clientNonce == clientNonce && ss[j].serverNonce == serverNonce)
    ensures k.None? ==> forall j :: 0 <= j < |ss| ==> !(ss[j].clientNonce == clientNonce && ss[j].serverNonce == serverNonce)
  {
    if ss == [] then None
    else if ss[|ss| - 1].clientNonce == clientNonce && ss[|ss| - 1].serverNonce == serverNonce then Some(|ss| - 1)
    else SessionFor(ss[..|ss| - 1], clientNonce, serverNonce)
  }

  /** What get_user_session returns: the session, or the bare True it
      returns for a GET request when HMAC validation is on. */
  datatype SessionOutcome = SessionRow(k: nat) | GetShortcut

  /** The view asks for the payload signature to be checked. */
  predicate ValidatesPayload(req: SsoRequest)
  {
    req.view.Some? && req.view.value.validatePayloadSignature
  }

  /** get_user_session as written. Both nonce headers are required and a
      session must match them; its expiry is never looked at. With HMAC
      validation on, a GET returns True; any other method must carry an
      HMAC-Signature header, which is checked only when the view asks for
      it, and that check never passes. */
  function GetUserSession(ss: seq<AuthSession>, req: SsoRequest, validateHmac: bool, hmacB64: (string, string) -> string)
    : (r: Result<SessionOutcome, Failure>)
    ensures !HasHeader(req, "Client-Nonce") || !HasHeader(req, "Server-Nonce") ==> r == Err(NONCES_REQUIRED)
    ensures r.Ok? ==> HasHeader(req, "Client-Nonce") && HasHeader(req, "Server-Nonce")
                      && SessionFor(ss, req.headers["Client-Nonce"], req.headers["Server-Nonce"]).Some?
    ensures r.Ok? && r.value.SessionRow? ==>
              r.value.k == SessionFor(ss, req.headers["Client-Nonce"], req.headers["Server-Nonce"]).value
    ensures r == Ok(GetShortcut) <==>
              && HasHeader(req, "Client-Nonce") && HasHeader(req, "Server-Nonce")
              && SessionFor(ss, req.headers["Client-Nonce"], req.headers["Server-Nonce"]).Some?
              && validateHmac && Lowered(req.verb) == "get"
    ensures r.Ok? && validateHmac && Lowered(req.verb) != "get" ==>
              HasHeader(req, "HMAC-Signature") && !ValidatesPayload(req)
  {
    if !HasHeader(req, "Client-Nonce") || !HasHeader(req, "Server-Nonce") then Err(NONCES_REQUIRED)
    else
      match SessionFor(ss, req.headers["Client-Nonce"], req.headers["Server-Nonce"])
      case None => Err(NO_SESSION)
      case Some(k) =>
        if !validateHmac then Ok(SessionRow(k))
        else if Lowered(req.verb) == "get" then Ok(GetShortcut)
        else if !HasHeader(req, "HMAC-Signature") then Err(SIGNATURE_REQUIRED)
        else if ValidatesPayload(req) then
          match ValidateHmacSignatureAsWritten(ss[k].sessionToken, req.headers["HMAC-Signature"], req.body, hmacB64)
          case Err(e) => Err(e)
          case Ok(_) => Ok(SessionRow(k))
        else Ok(SessionRow(k))
  }

  /** get_user_session with the intended signature check. */
  function GetUserSessionIntended(ss: seq<AuthSession>, req: SsoRequest, validateHmac: bool,
                                  hmacB64: (string, string) -> string): (r: Result<SessionOutcome, Failure>)
    ensures !HasHeader(req, "Client-Nonce") || !HasHeader(req, "Server-Nonce") ==> r == Err(NONCES_REQUIRED)
    ensures r.Ok? ==> HasHeader(req, "Client-Nonce") && HasHeader(req, "Server-Nonce")
                      && SessionFor(ss, req.headers["Client-Nonce"], req.headers["Server-Nonce"]).Some?
    ensures r.Ok? && r.value.SessionRow? ==>
              r.value.k == SessionFor(ss, req.headers["Client-Nonce"], req.headers["Server-Nonce"]).value
    ensures r.Ok? && validateHmac && Lowered(req.verb) != "get" ==>
              HasHeader(req, "HMAC-Signature")
              && (ValidatesPayload(req) ==>
                    var k := SessionFor(ss, req.headers["Client-Nonce"], req.headers["Server-Nonce"]).value;
                    ValidateHmacSignatureIntended(ss[k].sessionToken, req.headers["HMAC-Signature"], req.body, hmacB64).Ok?)
  {
    if !HasHeader(req, "Client-Nonce") || !HasHeader(req, "Server-Nonce") then Err(NONCES_REQUIRED)
    else
      match SessionFor(ss, req.headers["Client-Nonce"], req.headers["Server-Nonce"])
      case None => Err(NO_SESSION)
      case Some(k) =>
        if !validateHmac then Ok(SessionRow(k))
        else if Lowered(req.verb) == "get" then Ok(GetShortcut)
        else if !HasHeader(req, "HMAC-Signature") then Err(SIGNATURE_REQUIRED)
        else if ValidatesPayload(req) then
          match ValidateHmacSignatureIntended(ss[k].sessionToken, req.headers["HMAC-Signature"], req.body, hmacB64)
          case Err(e) => Err(e)
          case Ok(_) => Ok(SessionRow(k))
        else Ok(SessionRow(k))
  }

  /** The two differ only where the signature is checked: there the code
      as written fails with HMAC_FAILED even when the intended check passes,
      and otherwise both give the same error. */
  lemma SignatureCheckOnlyDifference(ss: seq<AuthSession>, req: SsoRequest, validateHmac: bool,
                                     hmacB64: (string, string) -> string)
    ensures !(validateHmac && Lowered(req.verb) != "get" && ValidatesPayload(req)) ==>
              GetUserSession(ss, req, validateHmac, hmacB64) == GetUserSessionIntended(ss, req, validateHmac, hmacB64)
    ensures validateHmac && Lowered(req.verb) != "get" && ValidatesPayload(req) ==>
              GetUserSession(ss, req, validateHmac, hmacB64).Err?
              && (GetUserSessionIntended(ss, req, validateHmac, hmacB64).Err? ==>
                    GetUserSession(ss, req, validateHmac, hmacB64) == GetUserSessionIntended(ss, req, validateHmac, hmacB64))
              && (GetUserSessionIntended(ss, req, validateHmac, hmacB64).Ok? ==>
                    GetUserSession(ss, req, validateHmac, hmacB64) == Err(HMAC_FAILED))
  {
  }

  /** As written, with HMAC validation on, a request other than a GET to a
      view that validates payload signatures never gets a session, however
      it is signed. */
  lemma SignedRequestsRefused(ss: seq<AuthSession>, ds: seq<Device>, req: SsoRequest, u: UserId,
                              hmacB64: (string, string) -> string)
    requires Lowered(req.verb) != "get" && ValidatesPayload(req)
    ensures GetUserSession(ss, req, true, hmacB64).Err?
    ensures SessionDevice(ss, ds, req, u, true, hmacB64).Err?
    ensures HasHeader(req, "Client-Nonce") && HasHeader(req, "Server-Nonce") && HasHeader(req, "HMAC-Signature")
            && SessionFor(ss, req.headers["Client-Nonce"], req.headers["Server-Nonce"]).Some? ==>
              GetUserSession(ss, req, true, hmacB64) == Err(HMAC_FAILED)
  {
  }

  /** As intended, such a request carrying a signature the check accepts
      for its session gets that session, where SignedRequestsRefused shows
      the code as written refusing it with HMAC_FAILED. */
  lemma IntendedSignedAccepted(ss: seq<AuthSession>, req: SsoRequest, hmacB64: (string, string) -> string, k: nat)
    requires Lowered(req.verb) != "get" && ValidatesPayload(req)
    requires k < |ss| && SessionFor(ss, ss[k].clientNonce, ss[k].serverNonce) == Some(k)
    requires ss[k].clientNonce != "" && ss[k].serverNonce != ""
    requires "Client-Nonce" in req.headers && req.headers["Client-Nonce"] == ss[k].clientNonce
    requires "Server-Nonce" in req.headers && req.headers["Server-Nonce"] == ss[k].serverNonce
    requires HasHeader(req, "HMAC-Signature")
    requires ValidateHmacSignatureIntended(ss[k].sessionToken, req.headers["HMAC-Signature"], req.body, hmacB64).Ok?
    ensures GetUserSessionIntended(ss, req, true, hmacB64) == Ok(SessionRow(k))
  {
    assert HasHeader(req, "Client-Nonce") && HasHeader(req, "Server-Nonce");
  }

  /** The session lookup never depends on when sessions expire. */
  lemma {:induction false} SessionExpiryIgnored(ss: seq<AuthSession>, req: SsoRequest, validateHmac: bool,
                                                hmacB64: (string, string) -> string, expiries: seq<Option<int>>)
    requires |expiries| == |ss|
    ensures var ss' := seq(|ss|, i requires 0 <= i < |ss| => ss[i].(expiresAt := expiries[i]));
            GetUserSession(ss', req, validateHmac, hmacB64) == GetUserSession(ss, req, validateHmac, hmacB64)
  {
    var ss' := seq(|ss|, i requires 0 <= i < |ss| => ss[i].(expiresAt := expiries[i]));
    if HasHeader(req, "Client-Nonce") && HasHeader(req, "Server-Nonce") {
      SessionForIgnoresExpiry(ss, ss', req.headers["Client-Nonce"], req.headers["Server-Nonce"]);
    }
  }

  lemma {:induction false} SessionForIgnoresExpiry(ss: seq<AuthSession>, ss': seq<AuthSession>, c: string, s: string)
    requires |ss| == |ss'|
    requires forall i :: 0 <= i < |ss| ==> ss'[i] == ss[i].(expiresAt := ss'[i].expiresAt)
    ensures SessionFor(ss', c, s) == SessionFor(ss, c, s)
  {
    if ss != [] {
      SessionForIgnoresExpiry(ss[..|ss| - 1], ss'[..|ss| - 1], c, s);
    }
  }

  /** get_device: the session's device id; on the True of a GET the
      attribute lookup fails. */
  function GetDevice(ss: seq<AuthSession>, o: SessionOutcome): (r: Result<Option<string>, Failure>)
    requires o.SessionRow? ==> o.k < |ss|
    ensures o.GetShortcut? <==> r == Err(Uncaught("AttributeError"))
    ensures o.SessionRow? ==> r == Ok(ss[o.k].deviceId)
  {
    match o
    case GetShortcut => Err(Uncaught("AttributeError"))
    case SessionRow(k) => Ok(ss[k].deviceId)
  }

  /** validate_device: skipped when the view excludes it; otherwise the
      user's first device with the session's registration id must exist
      (no device has a null registration id) and be active. */
  function ValidateDevice(view: Option<ViewFlags>, deviceId: Option<string>, u: UserId, ds: seq<Device>): (r: Result<(), Failure>)
    ensures view.Some? && view.value.excludeDeviceValidation ==> r.Ok?
    ensures !(view.Some? && view.value.excludeDeviceValidation) ==>
              && (r.Ok? <==> deviceId.Some? && DeviceWithDeviceId(ds, deviceId.value, u).Some?
                             && ds[DeviceWithDeviceId(ds, deviceId.value, u).value].active)
              && (deviceId.None? || DeviceWithDeviceId(ds, deviceId.value, u).None? ==> r == Err(DEVICE_FAILED))
              && (r.Err? && deviceId.Some? && DeviceWithDeviceId(ds, deviceId.value, u).Some? ==> r == Err(DEVICE_DEACTIVATED))
  {
    if view.Some? && view.value.excludeDeviceValidation then Ok(())
    else if deviceId.None? then Err(DEVICE_FAILED)
    else
      match DeviceWithDeviceId(ds, deviceId.value, u)
      case None => Err(DEVICE_FAILED)
      case Some(k) => if !ds[k].active then Err(DEVICE_DEACTIVATED) else Ok(())
  }

  /** The session part of authenticate once the user is known:
      get_user_session, get_device and validate_device, as written. */
  function SessionDevice(ss: seq<AuthSession>, ds: seq<Device>, req: SsoRequest, u: UserId, validateHmac: bool,
                         hmacB64: (string, string) -> string): (r: Result<Option<string>, Failure>)
    ensures r.Ok? ==> exists k: nat :: GetUserSession(ss, req, validateHmac, hmacB64) == Ok(SessionRow(k))
                                  && k < |ss| && r.value == ss[k].deviceId
                                  && ValidateDevice(req.view, ss[k].deviceId, u, ds).Ok?
    ensures GetUserSession(ss, req, validateHmac, hmacB64).Err? ==> r == Err(GetUserSession(ss, req, validateHmac, hmacB64).error)
    ensures GetUserSession(ss, req, validateHmac, hmacB64) == Ok(GetShortcut) ==> r == Err(Uncaught("AttributeError"))
    ensures forall k: nat :: GetUserSession(ss, req, validateHmac, hmacB64) == Ok(SessionRow(k)) && k < |ss| ==>
              (r.Ok? <==> ValidateDevice(req.view, ss[k].deviceId, u, ds).Ok?)
              && (r.Err? ==> r.error == ValidateDevice(req.view, ss[k].deviceId, u, ds).error)
  {
    match GetUserSession(ss, req, validateHmac, hmacB64)
    case Err(e) => Err(e)
    case Ok(o) =>
      match GetDevice(ss, o)
      case Err(e) => Err(e)
      case Ok(d) =>
        match ValidateDevice(req.view, d, u, ds)
        case Err(e) => Err(e)
        case Ok(_) => Ok(d)
  }

  /** With HMAC validation on, no GET request gets through: either a check
      before it fails, or the True returned for the GET reaches get_device. */
  lemma GetRequestsRefused(ss: seq<AuthSession>, ds: seq<Device>, req: SsoRequest, u: UserId,
                           hmacB64: (string, string) -> string)
    requires Lowered(req.verb) == "get"
    ensures SessionDevice(ss, ds, req, u, true, hmacB64).Err?
    ensures GetUserSession(ss, req, true, hmacB64).Ok? ==>
              SessionDevice(ss, ds, req, u, true, hmacB64) == Err(Uncaught("AttributeError"))
  {
  }

  /** The session part as evidently intended: a GET skips only the
      signature check and goes on with the session it found, and the
      signature is keyed by the token's text. */
  function SessionDeviceIntended(ss: seq<AuthSession>, ds: seq<Device>, req: SsoRequest, u: UserId, validateHmac: bool,
                                 hmacB64: (string, string) -> string): (r: Result<Option<string>, Failure>)
    ensures r.Ok? ==> HasHeader(req, "Client-Nonce") && HasHeader(req, "Server-Nonce")
                      && var k := SessionFor(ss, req.headers["Client-Nonce"], req.headers["Server-Nonce"]);
                         k.Some? && r.value == ss[k.value].deviceId && ValidateDevice(req.view, r.value, u, ds).Ok?
    ensures GetUserSessionIntended(ss, req, validateHmac, hmacB64).Err? ==> r == Err(GetUserSessionIntended(ss, req, validateHmac, hmacB64).error)
    ensures GetUserSessionIntended(ss, req, validateHmac, hmacB64).Ok? ==>
              var k := SessionFor(ss, req.headers["Client-Nonce"], req.headers["Server-Nonce"]).value;
              var v := ValidateDevice(req.view, ss[k].deviceId, u, ds);
              (r.Ok? <==> v.Ok?) && (v.Err? ==> r == Err(v.error))
  {
    match GetUserSessionIntended(ss, req, validateHmac, hmacB64)
    case Err(e) => Err(e)
    case Ok(o) =>
      var k := SessionFor(ss, req.headers["Client-Nonce"], req.headers["Server-Nonce"]).value;
      match ValidateDevice(req.view, ss[k].deviceId, u, ds)
      case Err(e) => Err(e)
      case Ok(_) => Ok(ss[k].deviceId)
  }

  /** As intended, a GET with the nonces of a session whose device is an
      active device of the user is let through, with that device. */
  lemma IntendedGetAccepted(ss: seq<AuthSession>, ds: seq<Device>, req: SsoRequest, u: UserId,
                            hmacB64: (string, string) -> string, k: nat, j: nat)
    requires Lowered(req.verb) == "get" && req.view.None?
    requires k < |ss| && SessionFor(ss, ss[k].clientNonce, ss[k].serverNonce) == Some(k)
    requires req.headers == map["Client-Nonce" := ss[k].clientNonce, "Server-Nonce" := ss[k].serverNonce]
    requires ss[k].clientNonce != "" && ss[k].serverNonce != ""
    requires ss[k].deviceId.Some? && DeviceWithDeviceId(ds, ss[k].deviceId.value, u) == Some(j) && ds[j].active
    ensures SessionDeviceIntended(ss, ds, req, u, true, hmacB64) == Ok(ss[k].deviceId)
    ensures SessionDevice(ss, ds, req, u, true, hmacB64) == Err(Uncaught("AttributeError"))
  {
    assert HasHeader(req, "Client-Nonce") && HasHeader(req, "Server-Nonce");
  }

  /** The steps of authenticate after the token was validated: the user,
      then the session's device. */
  function AfterToken(token: Result<map<string, Json>, Failure>, s: SsoSettings, users: map<UserId, User>,
                      ss: seq<AuthSession>, ds: seq<Device>, req: SsoRequest, validateHmac: bool,
                      hmacB64: (string, string) -> string): (r: Result<Option<(UserId, map<string, Json>)>, Failure>)
    ensures r.Ok? ==> r.value.Some?
    ensures r.Ok? <==> token.Ok? && GetUser(s, token.value, users).Ok?
                       && SessionDevice(ss, ds, req, GetUser(s, token.value, users).value, validateHmac, hmacB64).Ok?
    ensures r.Ok? ==> r.value.value == (GetUser(s, token.value, users).value, token.value)
  {
    match token
    case Err(e) => Err(e)
    case Ok(p) =>
      match GetUser(s, p, users)
      case Err(e) => Err(e)
      case Ok(u) =>
        match SessionDevice(ss, ds, req, u, validateHmac, hmacB64)
        case Err(e) => Err(e)
        case Ok(_) => Ok(Some((u, p)))
  }

  /** The answer of SSOJWTAuthentication.authenticate: None without an
      Authorization header or without a token in it, else the verdict of
      every step in turn. */
  function AuthenticateResult(req: SsoRequest, header: Option<string>, rawTokenOf: string -> Result<Option<string>, Failure>,
                              classes: seq<TokenClass>, s: SsoSettings, users: map<UserId, User>, ss: seq<AuthSession>,
                              ds: seq<Device>, validateHmac: bool, hmacB64: (string, string) -> string)
    : (r: Result<Option<(UserId, map<string, Json>)>, Failure>)
  {
    if header.None? then Ok(None)
    else match rawTokenOf(header.value)
      case Err(e) => Err(e)
      case Ok(None) => Ok(None)
      case Ok(Some(raw)) => AfterToken(TokenVerdict(classes, raw, 0), s, users, ss, ds, req, validateHmac, hmacB64)
  }

  /** A request is let through with user u and claims p exactly when it
      carries a token some class accepts (every class before it refusing),
      whose claims name the active user u, and whose session device passes. */
  lemma AcceptedIff(req: SsoRequest, header: Option<string>, rawTokenOf: string -> Result<Option<string>, Failure>,
                    classes: seq<TokenClass>, s: SsoSettings, users: map<UserId, User>, ss: seq<AuthSession>,
                    ds: seq<Device>, validateHmac: bool, hmacB64: (string, string) -> string, u: UserId, p: map<string, Json>)
    ensures AuthenticateResult(req, header, rawTokenOf, classes, s, users, ss, ds, validateHmac, hmacB64) == Ok(Some((u, p)))
            <==> && header.Some? && rawTokenOf(header.value).Ok? && rawTokenOf(header.value).value.Some?
                 && (exists j :: 0 <= j < |classes| && FailedBefore(classes, rawTokenOf(header.value).value.value, j)
                                 && classes[j].build(rawTokenOf(header.value).value.value) == Ok(p))
                 && GetUser(s, p, users) == Ok(u)
                 && SessionDevice(ss, ds, req, u, validateHmac, hmacB64).Ok?
  {
    if header.Some? && rawTokenOf(header.value).Ok? && rawTokenOf(header.value).value.Some? {
      var raw := rawTokenOf(header.value).value.value;
      if TokenVerdict(classes, raw, 0) == Ok(p) {
        TokenVerdictFromClass(classes, raw, 0);
      }
      if exists j :: 0 <= j < |classes| && FailedBefore(classes, raw, j) && classes[j].build(raw) == Ok(p) {
        var j :| 0 <= j < |classes| && FailedBefore(classes, raw, j) && classes[j].build(raw) == Ok(p);
        ClassDecidesVerdict(classes, raw, 0, j);
      }
    }
  }

  /** What set_section was called with; the mixin that stores it is not
      part of this model, so the calls are recorded in order. */
  datatype Section =
    | SsoSection(user: UserId, token: map<string, Json>, device: Option<string>)
    | JwtSection(user: UserId, token: map<string, Json>)
    | OAuthSection(clientUser: Option<UserId>, accessToken: nat)

  class SectionLog {
    var calls: seq<Section>

    constructor ()
      ensures calls == []
    {
      calls := [];
    }

    method SetSection(s: Section)
      modifies this
      ensures calls == old(calls) + [s]
    {
      calls := calls + [s];
    }
  }

  /** SSOJWTAuthentication.authenticate. No Authorization header, or one
      the library finds no token in, means "not this scheme" (None);
      otherwise every step must pass, the session is recorded, and the
      user with the token's claims is returned. */
  method Authenticate(log: SectionLog, req: SsoRequest, header: Option<string>, rawTokenOf: string -> Result<Option<string>, Failure>,
                      classes: seq<TokenClass>, s: SsoSettings, users: map<UserId, User>, ss: seq<AuthSession>,
                      ds: seq<Device>, validateHmac: bool, hmacB64: (string, string) -> string)
    returns (r: Result<Option<(UserId, map<string, Json>)>, Failure>)
    modifies log
    ensures header.None? ==> r == Ok(None) && log.calls == old(log.calls)
    ensures header.Some? && rawTokenOf(header.value) == Ok(None) ==> r == Ok(None) && log.calls == old(log.calls)
    ensures r.Ok? && r.value.Some? ==>
              && header.Some? && rawTokenOf(header.value).Ok? && rawTokenOf(header.value).value.Some?
              && var raw := rawTokenOf(header.value).value.value;
                 var (u, p) := r.value.value;
                 && (exists i :: 0 <= i < |classes| && FailedBefore(classes, raw, i) && classes[i].build(raw) == Ok(p))
                 && GetUser(s, p, users) == Ok(u)
                 && SessionDevice(ss, ds, req, u, validateHmac, hmacB64).Ok?
                 && log.calls == old(log.calls) + [SsoSection(u, p, SessionDevice(ss, ds, req, u, validateHmac, hmacB64).value)]
    ensures !(r.Ok? && r.value.Some?) ==> log.calls == old(log.calls)
    ensures validateHmac && Lowered(req.verb) == "get" ==> !(r.Ok? && r.value.Some?)
    ensures r == AuthenticateResult(req, header, rawTokenOf, classes, s, users, ss, ds, validateHmac, hmacB64)
  {
    if header.None? {
      return Ok(None);
    }
    var raw := rawTokenOf(header.value);
    if raw.Err? {
      return Err(raw.error);
    }
    if raw.value.None? {
      return Ok(None);
    }
    var token := GetValidatedToken(classes, raw.value.value);
    if token.Err? {
      return Err(token.error);
    }
    var user := GetUser(s, token.value, users);
    if user.Err? {
      return Err(user.error);
    }
    var device := SessionDevice(ss, ds, req, user.value, validateHmac, hmacB64);
    if device.Err? {
      return Err(device.error);
    }
    FirstAccepting(classes, raw.value.value, token.value);
    log.SetSection(SsoSection(user.value, token.value, device.value));
    r := Ok(Some((user.value, token.value)));
  }

  /** A token GetValidatedToken returned came from the first class that did
      not refuse with a TokenError. */
  lemma FirstAccepting(classes: seq<TokenClass>, raw: string, p: map<string, Json>)
    requires forall i :: 0 <= i < |classes| && FailedBefore(classes, raw, i) && !IsTokenError(classes[i].build(raw)) ==>
               Ok(p) == classes[i].build(raw)
    requires !FailedBefore(classes, raw, |classes|)
    ensures exists i :: 0 <= i < |classes| && FailedBefore(classes, raw, i) && classes[i].build(raw) == Ok(p)
  {
    var i := 0;
    while i < |classes| && IsTokenError(classes[i].build(raw))
      invariant 0 <= i <= |classes| && FailedBefore(classes, raw, i)
    {
      i := i + 1;
    }
    assert i < |classes|;
  }
}

=== FILE: sso_tokens.dfy ===
/** The single-sign-on access token of base/sso/tokens.py and its blacklist
    ledger. A token is its claims (the decoded JWT payload) plus the encoded
    text it was built from, if any. Signature checking and decoding belong
    to the token backend and are a parameter (`decode`); the `exp` claim
    (section 4.1.4 of RFC 7519) and the `jti` claim (section 4.1.7) are
    checked here. Times are whole seconds. */
module SsoTokens {
  import opened Wrappers
  import opened Failures
  import opened JsonValues

  /** The SSO_AUTH settings the tokens read. A None claim name switches the
      corresponding check off. `blacklistInstalled` says whether the
      token_blacklist app is installed, which decides whether the mixin
      defines its methods at all. */
  datatype SsoSettings = SsoSettings(
    jtiClaim: Option<string>,
    typeClaim: Option<string>,
    userIdClaim: string,
    userIdField: string,
    lifetime: Option<int>,
    blacklistInstalled: bool)

  /** The defaults of base/sso/settings.py, with the blacklist app
      installed: a one-day lifetime, no token-type claim. */
  const DEFAULT_SETTINGS: SsoSettings := SsoSettings(Some("jti"), None, "email", "email", Some(86400), true)

  const TOKEN_TYPE: string := "access"

  /** The claim a new token stores its type under: the configured name, or
      Python's None key, which JSON encoding writes as "null". */
  function TypeKey(s: SsoSettings): string
  {
    if s.typeClaim.Some? then s.typeClaim.value else "null"
  }

  datatype AccessToken = AccessToken(encoded: Option<string>, payload: map<string, Json>, currentTime: int)

  /** `str(token)`: the encoded text the token was built from; a token made
      from scratch has none, and `str` then raises TypeError. */
  function TokenText(t: AccessToken): (r: Result<string, Failure>)
    ensures r.Ok? <==> t.encoded.Some?
    ensures r.Ok? ==> r.value == t.encoded.value
    ensures r.Err? ==> r.error == Uncaught("TypeError")
  {
    if t.encoded.Some? then Ok(t.encoded.value) else Err(Uncaught("TypeError"))
  }

  /** OutstandingToken: `jti` is unique. */
  datatype Outstanding = Outstanding(user: Option<nat>, jti: string, token: string, createdAt: Option<int>, expiresAt: real)

  /** The blacklist test on ledger contents: some blacklist entry points
      at an outstanding token with the jti. */
  predicate JtiBlacklisted(outstanding: seq<Outstanding>, blacklisted: seq<nat>, jti: string)
  {
    exists i :: 0 <= i < |blacklisted| && blacklisted[i] < |outstanding| && outstanding[blacklisted[i]].jti == jti
  }

  /** check_blacklist: the jti claim is read (a KeyError without one) and
      a blacklisted jti is refused. */
  function CheckBlacklist(s: SsoSettings, payload: map<string, Json>, outstanding: seq<Outstanding>, blacklisted: seq<nat>)
    : (r: Result<(), Failure>)
    ensures (s.jtiClaim.None? || s.jtiClaim.value !in payload) ==> r == Err(Uncaught("KeyError"))
    ensures s.jtiClaim.Some? && s.jtiClaim.value in payload ==>
              (r.Err? <==> JtiBlacklisted(outstanding, blacklisted, TextOfClaim(payload[s.jtiClaim.value])))
    ensures r.Err? ==> r.error in {Uncaught("KeyError"), TokenError("Token is blacklisted")}
  {
    if s.jtiClaim.None? || s.jtiClaim.value !in payload then Err(Uncaught("KeyError"))
    else if JtiBlacklisted(outstanding, blacklisted, TextOfClaim(payload[s.jtiClaim.value])) then
      Err(TokenError("Token is blacklisted"))
    else Ok(())
  }

  /** The text a string claim holds ("" for other values, which match no
      stored jti written by set_jti). */
  function TextOfClaim(j: Json): string
  {
    if j.JStr? then j.s else ""
  }

  /** datetime_from_epoch reads a claim as seconds since the epoch: an
      int or a float (a bool is an int in Python); any other value makes
      it raise TypeError. */
  function EpochSeconds(j: Json): (t: Option<real>)
    ensures t.Some? <==> j.JInt? || j.JFloat? || j.JBool?
    ensures j.JInt? ==> t == Some(j.i as real)
    ensures j.JFloat? ==> t == Some(j.f)
  {
    match j
    case JInt(i) => Some(i as real)
    case JFloat(f) => Some(f)
    case JBool(b) => Some(if b then 1.0 else 0.0)
    case _ => None
  }

  /** check_exp, with the backend's leeway of 0: a token whose exp is not
      after now has expired. */
  function CheckExp(payload: map<string, Json>, now: int): (r: Result<(), Failure>)
    ensures r.Ok? <==> "exp" in payload && EpochSeconds(payload["exp"]).Some?
                       && EpochSeconds(payload["exp"]).value > now as real
    ensures "exp" !in payload ==> r == Err(TokenError("Token has no 'exp' claim"))
    ensures "exp" in payload && EpochSeconds(payload["exp"]).None? ==> r == Err(Uncaught("TypeError"))
    ensures "exp" in payload && EpochSeconds(payload["exp"]).Some? && EpochSeconds(payload["exp"]).value <= now as real ==>
              r == Err(TokenError("Token 'exp' claim has expired"))
  {
    if "exp" !in payload then Err(TokenError("Token has no 'exp' claim"))
    else
      var t := EpochSeconds(payload["exp"]);
      if t.None? then Err(Uncaught("TypeError"))
      else if t.value <= now as real then Err(TokenError("Token 'exp' claim has expired"))
      else Ok(())
  }

  /** verify_token_type: the type claim must be present and be "access". */
  function CheckType(payload: map<string, Json>, claim: string): (r: Result<(), Failure>)
    ensures r.Ok? <==> claim in payload && payload[claim] == JStr(TOKEN_TYPE)
  {
    if claim !in payload then Err(TokenError("Token has no type"))
    else if payload[claim] != JStr(TOKEN_TYPE) then Err(TokenError("Token has wrong type"))
    else Ok(())
  }

  /** AccessToken.verify, in order: expiry, presence of the jti claim
      (when one is configured), the token type (only when a type claim is
      configured), then the blacklist, whose method exists only when the
      blacklist app is installed. */
  function Verify(s: SsoSettings, payload: map<string, Json>, now: int, outstanding: seq<Outstanding>, blacklisted: seq<nat>)
    : (r: Result<(), Failure>)
    ensures CheckExp(payload, now).Err? ==> r == CheckExp(payload, now)
    ensures CheckExp(payload, now).Ok? && s.jtiClaim.Some? && s.jtiClaim.value !in payload ==>
              r == Err(TokenError("Token has no id"))
    ensures r.Ok? <==>
              && CheckExp(payload, now).Ok?
              && s.jtiClaim.Some? && s.jtiClaim.value in payload
              && (s.typeClaim.Some? ==> CheckType(payload, s.typeClaim.value).Ok?)
              && s.blacklistInstalled
              && !JtiBlacklisted(outstanding, blacklisted, TextOfClaim(payload[s.jtiClaim.value]))
  {
    var e := CheckExp(payload, now);
    if e.Err? then e
    else if s.jtiClaim.Some? && s.jtiClaim.value !in payload then Err(TokenError("Token has no id"))
    else if s.typeClaim.Some? && CheckType(payload, s.typeClaim.value).Err? then CheckType(payload, s.typeClaim.value)
    else if !s.blacklistInstalled then Err(Uncaught("AttributeError"))
    else CheckBlacklist(s, payload, outstanding, blacklisted)
  }

  /** The claims of a token made from scratch: its type, exp = now +
      lifetime, iat = now and a fresh jti. */
  function NewPayload(s: SsoSettings, lifetime: int, now: int, jti: string): (p: map<string, Json>)
    ensures p.Keys == {TypeKey(s), "exp", "iat", "jti"}
  {
    map[TypeKey(s) := JStr(TOKEN_TYPE)]["exp" := JInt(now + lifetime)]["iat" := JInt(now)]["jti" := JStr(jti)]
  }

  /** AccessToken.__init__: without a type or lifetime nothing is built;
      given encoded text, the backend decodes it (any failure becomes "Token
      is invalid or expired") and, when asked, the claims are verified;
      otherwise a new token is made without any verification. */
  function MakeToken(s: SsoSettings, encoded: Option<string>, verify: bool, decode: string -> Option<map<string, Json>>,
                     now: int, freshJti: string, outstanding: seq<Outstanding>, blacklisted: seq<nat>)
    : (r: Result<AccessToken, Failure>)
    ensures s.lifetime.None? ==> r == Err(TokenError("Cannot create token with no type or lifetime"))
    ensures s.lifetime.Some? && encoded.Some? && decode(encoded.value).None? ==>
              r == Err(TokenError("Token is invalid or expired"))
    ensures s.lifetime.Some? && encoded.Some? && decode(encoded.value).Some? ==>
              (r.Ok? <==> !verify || Verify(s, decode(encoded.value).value, now, outstanding, blacklisted).Ok?)
    ensures r.Ok? && encoded.Some? ==> r.value.payload == decode(encoded.value).value && r.value.encoded == encoded
    ensures s.lifetime.Some? && encoded.None? ==>
              r == Ok(AccessToken(None, NewPayload(s, s.lifetime.value, now, freshJti), now))
    ensures r.Ok? ==> r.value.currentTime == now
  {
    if s.lifetime.None? then Err(TokenError("Cannot create token with no type or lifetime"))
    else if encoded.Some? then
      match decode(encoded.value)
      case None => Err(TokenError("Token is invalid or expired"))
      case Some(p) =>
        if verify && Verify(s, p, now, outstanding, blacklisted).Err? then
          Err(Verify(s, p, now, outstanding, blacklisted).error)
        else Ok(AccessToken(encoded, p, now))
    else Ok(AccessToken(None, NewPayload(s, s.lifetime.value, now, freshJti), now))
  }

  /** A token made from scratch passes verification until it expires, when
      its jti is not blacklisted, under the default claim settings. */
  lemma NewTokenVerifies(s: SsoSettings, lifetime: int, now: int, later: int, jti: string,
                         outstanding: seq<Outstanding>, blacklisted: seq<nat>)
    requires s.jtiClaim == Some("jti") && s.typeClaim.None? && s.blacklistInstalled
    requires now <= later < now + lifetime
    requires !JtiBlacklisted(outstanding, blacklisted, jti)
    ensures Verify(s, NewPayload(s, lifetime, now, jti), later, outstanding, blacklisted).Ok?
    ensures Verify(s, NewPayload(s, lifetime, now, jti), now + lifetime, outstanding, blacklisted)
              == Err(TokenError("Token 'exp' claim has expired"))
  {
    var p := NewPayload(s, lifetime, now, jti);
    assert p["exp"] == JInt(now + lifetime) && p["jti"] == JStr(jti);
  }

  /** The user id as the user object holds it. */
  datatype UserIdValue = IntId(i: int) | TextId(s: string) | HashidId(id: nat, text: string)

  /** AccessToken.for_user's id claim: an int stays an int, anything else
      becomes its string form. */
  function UserIdClaim(v: UserIdValue): (j: Json)
    ensures v.IntId? <==> j.JInt?
    ensures v.IntId? ==> j == JInt(v.i)
    ensures v.TextId? ==> j == JStr(v.s)
    ensures v.HashidId? ==> j == JStr(v.text)
  {
    match v
    case IntId(i) => JInt(i)
    case TextId(t) => JStr(t)
    case HashidId(_, text) => JStr(text)
  }

  /** AccessToken.for_user: a new token carrying the user id claim. It
      overrides the mixin's for_user and does not call it, so nothing is
      recorded in the outstanding list. */
  function ForUser(s: SsoSettings, v: UserIdValue, now: int, freshJti: string): (r: Result<AccessToken, Failure>)
    ensures s.lifetime.None? <==> r.Err?
    ensures r.Ok? ==> r.value.payload == NewPayload(s, s.lifetime.value, now, freshJti)[s.userIdClaim := UserIdClaim(v)]
    ensures r.Ok? ==> r.value.encoded.None?
  {
    var t := MakeToken(s, None, true, _ => None, now, freshJti, [], []);
    match t
    case Err(e) => Err(e)
    case Ok(tok) => Ok(tok.(payload := tok.payload[s.userIdClaim := UserIdClaim(v)]))
  }

  /** The OutstandingToken and BlacklistedToken tables. */
  class Ledger {
    var outstanding: seq<Outstanding>
    /** BlacklistedToken rows, each the index of its outstanding token. */
    var blacklisted: seq<nat>

    /** The jti of outstanding tokens is unique and every blacklist row
        points at a distinct outstanding token. */
    ghost predicate Valid()
      reads this
    {
      (forall i, j :: 0 <= i < j < |outstanding| ==> outstanding[i].jti != outstanding[j].jti)
      && (forall i :: 0 <= i < |blacklisted| ==> blacklisted[i] < |outstanding|)
      && (forall i, j :: 0 <= i < j < |blacklisted| ==> blacklisted[i] != blacklisted[j])
    }

    constructor ()
      ensures Valid() && outstanding == [] && blacklisted == []
    {
      outstanding := [];
      blacklisted := [];
    }

    function IsBlacklisted(jti: string): bool
      reads this
    {
      JtiBlacklisted(outstanding, blacklisted, jti)
    }

    /** OutstandingToken.objects.get_or_create(jti=…): the row with the
        jti, or a new row with the token text and expiry. */
    method OutstandingRow(jti: string, text: string, exp: real) returns (row: nat)
      requires Valid()
      modifies this`outstanding
      ensures Valid() && row < |outstanding| && outstanding[row].jti == jti
      ensures old(FindJti(jti)).Some? ==> row == old(FindJti(jti)).value && outstanding == old(outstanding)
      ensures old(FindJti(jti)).None? ==>
                row == |old(outstanding)| && outstanding == old(outstanding) + [Outstanding(None, jti, text, None, exp)]
    {
      var k := FindJti(jti);
      if k.Some? {
        row := k.value;
      } else {
        row := |outstanding|;
        outstanding := outstanding + [Outstanding(None, jti, text, None, exp)];
      }
    }

    /** The outstanding row with the jti, if any. */
    function FindJti(jti: string): (k: Option<nat>)
      reads this
      ensures k.Some? ==> k.value < |outstanding| && outstanding[k.value].jti == jti
      ensures k.None? ==> forall i :: 0 <= i < |outstanding| ==> outstanding[i].jti != jti
    {
      FindJtiIn(outstanding, jti)
    }

    /** blacklist(): get-or-create the outstanding row keyed by jti (its
        defaults, including `str(self)`, are evaluated first), then
        get-or-create the blacklist row. A second call adds nothing. */
    method Blacklist(s: SsoSettings, t: AccessToken) returns (r: Result<(nat, bool), Failure>)
      requires Valid()
      modifies this
      ensures Valid()
      ensures r.Err? ==> outstanding == old(outstanding) && blacklisted == old(blacklisted)
      ensures r.Ok? ==> s.jtiClaim.Some? && s.jtiClaim.value in t.payload && t.encoded.Some?
      ensures r.Ok? ==> IsBlacklisted(TextOfClaim(t.payload[s.jtiClaim.value]))
      ensures r.Ok? && old(IsBlacklisted(TextOfClaim(t.payload[s.jtiClaim.value]))) ==>
                outstanding == old(outstanding) && blacklisted == old(blacklisted) && !r.value.1
      ensures r.Ok? ==> old(outstanding) <= outstanding && old(blacklisted) <= blacklisted
      ensures |outstanding| <= |old(outstanding)| + 1 && |blacklisted| <= |old(blacklisted)| + 1
    {
      if s.jtiClaim.None? || s.jtiClaim.value !in t.payload || "exp" !in t.payload {
        return Err(Uncaught("KeyError"));
      }
      var text := TokenText(t);
      if text.Err? {
        return Err(text.error);
      }
      var exp := EpochSeconds(t.payload["exp"]);
      if exp.None? {
        return Err(Uncaught("TypeError"));
      }
      var jti := TextOfClaim(t.payload[s.jtiClaim.value]);
      var row := OutstandingRow(jti, text.value, exp.value);
      var b := FindRow(blacklisted, row);
      if b.Some? {
        BlacklistedByRow(outstanding, blacklisted, b.value, jti);
        r := Ok((b.value, false));
      } else {
        blacklisted := blacklisted + [row];
        BlacklistedByRow(outstanding, blacklisted, |blacklisted| - 1, jti);
        r := Ok((|blacklisted| - 1, true));
      }
    }

    /** The mixin's for_user: records a newly issued token as outstanding.
        It is shadowed by AccessToken.for_user; were it reached, the token's
        missing text would make it raise TypeError. */
    method RecordIssued(s: SsoSettings, user: nat, t: AccessToken) returns (r: Result<nat, Failure>)
      requires Valid()
      modifies this
      ensures Valid()
      ensures t.encoded.None? ==> r.Err? && outstanding == old(outstanding)
      ensures r.Err? ==> outstanding == old(outstanding)
      ensures r.Ok? ==> r.value == |old(outstanding)| && |outstanding| == |old(outstanding)| + 1
                        && outstanding[r.value].user == Some(user) && outstanding[r.value].createdAt == Some(t.currentTime)
                        && outstanding[..r.value] == old(outstanding)
      ensures blacklisted == old(blacklisted)
    {
      if s.jtiClaim.None? || s.jtiClaim.value !in t.payload || "exp" !in t.payload {
        return Err(Uncaught("KeyError"));
      }
      var text := TokenText(t);
      if text.Err? {
        return Err(text.error);
      }
      var exp := EpochSeconds(t.payload["exp"]);
      if exp.None? {
        return Err(Uncaught("TypeError"));
      }
      var jti := TextOfClaim(t.payload[s.jtiClaim.value]);
      if FindJti(jti).Some? {
        return Err(IntegrityError("jti"));
      }
      outstanding := outstanding + [Outstanding(Some(user), jti, text.value, Some(t.currentTime), exp.value)];
      r := Ok(|outstanding| - 1);
    }
  }

  function FindJtiIn(os: seq<Outstanding>, jti: string): (k: Option<nat>)
    ensures k.Some? ==> k.value < |os| && os[k.value].jti == jti
    ensures k.None? ==> forall i :: 0 <= i < |os| ==> os[i].jti != jti
  {
    if os == [] then None
    else if os[0].jti == jti then Some(0)
    else
      match FindJtiIn(os[1..], jti)
      case None => None
      case Some(k) => Some(k + 1)
  }

  /** The blacklist row pointing at the outstanding row, if any. */
  function FindRow(bs: seq<nat>, row: nat): (k: Option<nat>)
    ensures k.Some? ==> k.value < |bs| && bs[k.value] == row
    ensures k.None? ==> row !in bs
  {
    if bs == [] then None
    else if bs[0] == row then Some(0)
    else
      match FindRow(bs[1..], row)
      case None => None
      case Some(k) => Some(k + 1)
  }

  lemma BlacklistedByRow(os: seq<Outstanding>, bs: seq<nat>, i: nat, jti: string)
    requires i < |bs| && bs[i] < |os| && os[bs[i]].jti == jti
    ensures JtiBlacklisted(os, bs, jti)
  {
  }
}

=== FILE: text.dfy ===
/** Decimal text of natural numbers, as Python's `str(n)` writes it and
    `int(s)` reads it back. */
module Text {

  predicate IsDigitChar(c: char)
  {
    '0' <= c <= '9'
  }

  function DigitChar(d: nat): (c: char)
    requires d < 10
    ensures IsDigitChar(c) && c as int - '0' as int == d
  {
    ('0' as int + d) as char
  }

  /** `str(n)`: decimal digits, no leading zero. */
  function NatToString(n: nat): (s: string)
    ensures |s| >= 1
    ensures forall i :: 0 <= i < |s| ==> IsDigitChar(s[i])
    ensures s[0] == '0' ==> n == 0
    decreases n
  {
    if n < 10 then [DigitChar(n)] else NatToString(n / 10) + [DigitChar(n % 10)]
  }

  /** `int(s)` on a string of digits. */
  function DecimalValue(s: string): nat
    requires forall i :: 0 <= i < |s| ==> IsDigitChar(s[i])
  {
    if s == [] then 0
    else
      assert IsDigitChar(s[|s| - 1]);
      DecimalValue(s[..|s| - 1]) * 10 + (s[|s| - 1] as int - '0' as int) as nat
  }

  /** Reading back what `str` wrote gives the number. */
  lemma {:induction false} DecimalRoundTrip(n: nat)
    ensures DecimalValue(NatToString(n)) == n
    decreases n
  {
    if n >= 10 {
      DecimalRoundTrip(n / 10);
      var s := NatToString(n);
      assert s[..|s| - 1] == NatToString(n / 10);
    }
  }

  /** A number of at least 1000 is written with at least four digits. */
  lemma {:induction false} FourDigits(n: nat)
    requires n >= 1000
    ensures |NatToString(n)| >= 4
  {
    assert NatToString(n) == NatToString(n / 10) + [DigitChar(n % 10)];
    assert NatToString(n / 10) == NatToString(n / 100) + [DigitChar(n / 10 % 10)];
    assert NatToString(n / 100) == NatToString(n / 1000) + [DigitChar(n / 100 % 10)];
  }
}

=== FILE: transactions.dfy ===
/** Product transactions and their payments (v1/transactions): what saving
    a payment derives from its transaction, the quantities and amounts a
    transaction reports, the serializer's checks and row creation, the
    soft delete of the view set, and the filter sets. Quantities, amounts
    and coordinates are reals; times are integers (the filter's
    unix_to_datetime is the identity on them). */
module Transactions {
  import opened Wrappers
  import opened Failures
  import opened Entities
  import DbModels

  datatype PaymentType = TransactionPayment | PremiumPayment | TransactionPremiumPayment
  {
    function Label(): (s: string)
      ensures |s| > 0
    {
      match this
      case TransactionPayment => "TRANSACTION"
      case PremiumPayment => "PREMIUM"
      case TransactionPremiumPayment => "TRANSACTION_PREMIUM"
    }
  }

  datatype VerificationMethod = CardMethod | InvoiceMethod | NoMethod

  /** _update_verification_method (of both models): CARD with a card, else
      INVOICE with an invoice file (an empty name is no file), else NONE. */
  function MethodFor(card: Option<nat>, invoice: string): (m: VerificationMethod)
    ensures m == CardMethod <==> card.Some?
    ensures m == InvoiceMethod <==> card.None? && invoice != ""
    ensures m == NoMethod <==> card.None? && invoice == ""
  {
    if card.Some? then CardMethod else if invoice != "" then InvoiceMethod else NoMethod
  }

  const PAYMENT_TYPE_UNKNOWN: Failure := Uncaught("Exception")

  /** _update_payment_status: the type follows which of a transaction and
      a premium the payment has; with neither it raises. */
  function PaymentTypeFor(hasTransaction: bool, hasPremium: bool): (r: Result<PaymentType, Failure>)
    ensures r == Ok(TransactionPremiumPayment) <==> hasTransaction && hasPremium
    ensures r == Ok(TransactionPayment) <==> hasTransaction && !hasPremium
    ensures r == Ok(PremiumPayment) <==> !hasTransaction && hasPremium
    ensures r.Err? <==> !hasTransaction && !hasPremium
    ensures r.Err? ==> r.error == PAYMENT_TYPE_UNKNOWN
  {
    if hasTransaction && hasPremium then Ok(TransactionPremiumPayment)
    else if hasTransaction then Ok(TransactionPayment)
    else if hasPremium then Ok(PremiumPayment)
    else Err(PAYMENT_TYPE_UNKNOWN)
  }

  /** Where a transaction was verified (verification_latitude and
      verification_longitude). */
  datatype Location = Location(latitude: real, longitude: real)

  /** A ProductTransaction row. `parents` is the many-to-many relation to
      other transactions, in link order; `invoice` is the stored file
      name, "" for none. */
  datatype ProductTransaction = ProductTransaction(
    number: string,
    source: EntityId,
    destination: EntityId,
    date: int,
    createdOn: int,
    card: Option<nat>,
    invoice: string,
    invoiceNumber: Option<string>,
    location: Location,
    verification: VerificationMethod,
    parents: seq<nat>,
    product: nat,
    quantity: Option<real>,
    isDeleted: bool,
    creator: Option<nat>,
    updater: Option<nat>,
    submissions: seq<nat>)

  /** A stored PaymentTransaction row. */
  datatype PaymentRecord = PaymentRecord(
    paymentType: PaymentType,
    premium: Option<nat>,
    amount: real,
    selectedOption: Option<string>,
    currency: Option<nat>,
    transaction: Option<nat>,
    source: EntityId,
    destination: EntityId,
    date: int,
    createdOn: int,
    card: Option<nat>,
    invoice: string,
    invoiceNumber: Option<string>,
    location: Location,
    verification: VerificationMethod)

  /** A payment object before save: what the caller set, the source and
      destination possibly unset. */
  datatype PaymentDraft = PaymentDraft(
    premium: Option<nat>,
    amount: real,
    selectedOption: Option<string>,
    currency: Option<nat>,
    transaction: Option<nat>,
    source: Option<EntityId>,
    destination: Option<EntityId>,
    date: int,
    createdOn: int,
    card: Option<nat>,
    invoice: string,
    invoiceNumber: Option<string>,
    location: Location)

  /** The draft after _update_from_transaction: with a transaction, the
      payment runs the opposite way (its source is the transaction's
      destination and its destination the transaction's source), takes
      the transaction's date, creation time, card, invoice number and
      coordinates, and its invoice only when it has none of its own. */
  function FromTransaction(d: PaymentDraft, txs: map<nat, ProductTransaction>): (r: PaymentDraft)
    requires d.transaction.Some? ==> d.transaction.value in txs
    ensures d.transaction.None? ==> r == d
    ensures d.transaction.Some? ==>
              var t := txs[d.transaction.value];
              && r.source == Some(t.destination) && r.destination == Some(t.source)
              && r.card == t.card && (d.invoice != "" ==> r.invoice == d.invoice)
              && r.premium == d.premium && r.amount == d.amount && r.currency == d.currency
              && r.transaction == d.transaction && r.createdOn == t.createdOn
  {
    if d.transaction.None? then d
    else
      var t := txs[d.transaction.value];
      PaymentDraft(d.premium, d.amount, d.selectedOption, d.currency, d.transaction, Some(t.destination), Some(t.source),
                   t.date, t.createdOn, t.card, if d.invoice == "" then t.invoice else d.invoice, t.invoiceNumber,
                   t.location)
  }

  /** PaymentTransaction.save on a draft: the three helpers in turn, then
      the insert, which needs a source and a destination (NOT NULL). */
  function SavedPayment(d: PaymentDraft, txs: map<nat, ProductTransaction>): (r: Result<PaymentRecord, Failure>)
    requires d.transaction.Some? ==> d.transaction.value in txs
    ensures d.transaction.None? && d.premium.None? ==> r == Err(PAYMENT_TYPE_UNKNOWN)
    ensures r.Ok? ==> && r.value.paymentType == PaymentTypeFor(d.transaction.Some?, d.premium.Some?).value
                      && r.value.verification == MethodFor(r.value.card, r.value.invoice)
                      && r.value.transaction == d.transaction && r.value.amount == d.amount
                      && r.value.premium == d.premium && r.value.currency == d.currency
    ensures r.Ok? && d.transaction.Some? ==>
              var t := txs[d.transaction.value];
              r.value.source == t.destination && r.value.destination == t.source && r.value.card == t.card
              && r.value.createdOn == t.createdOn
    ensures d.transaction.Some? ==> r.Ok?
  {
    var f := FromTransaction(d, txs);
    match PaymentTypeFor(f.transaction.Some?, f.premium.Some?)
    case Err(e) => Err(e)
    case Ok(kind) =>
      if f.source.None? then Err(IntegrityError("source_id"))
      else if f.destination.None? then Err(IntegrityError("destination_id"))
      else Ok(PaymentRecord(kind, f.premium, f.amount, f.selectedOption, f.currency, f.transaction,
                            f.source.value, f.destination.value, f.date, f.createdOn, f.card, f.invoice,
                            f.invoiceNumber, f.location, MethodFor(f.card, f.invoice)))
  }

  /** A payment of a transaction is the transaction turned around: the
      payment flows back from the buyer to the seller. */
  lemma PaymentReversesTransaction(d: PaymentDraft, txs: map<nat, ProductTransaction>)
    requires d.transaction.Some? && d.transaction.value in txs
    ensures var t := txs[d.transaction.value];
            var p := SavedPayment(d, txs).value;
            p.source == t.destination && p.destination == t.source
            && p.paymentType != PremiumPayment && (p.verification == CardMethod <==> t.card.Some?)
  {
  }

  /** The payment tables: transactions by id and payments in id order. */
  class TransactionStore {
    var txs: map<nat, ProductTransaction>
    var payments: seq<PaymentRecord>

    /** Every payment's transaction and every parent is a stored row. */
    ghost predicate Valid()
      reads this
    {
      && (forall i :: 0 <= i < |payments| && payments[i].transaction.Some? ==> payments[i].transaction.value in txs)
      && (forall id :: id in txs ==> forall k :: 0 <= k < |txs[id].parents| ==> txs[id].parents[k] in txs)
    }

    constructor ()
      ensures Valid() && txs == map[] && payments == []
    {
      txs, payments := map[], [];
    }
  }

  /** A PaymentTransaction object being saved: its fields change step by
      step as the save helpers run. */
  class Payment {
    var paymentType: PaymentType
    var premium: Option<nat>
    var amount: real
    var selectedOption: Option<string>
    var currency: Option<nat>
    var transaction: Option<nat>
    var source: Option<EntityId>
    var destination: Option<EntityId>
    var date: int
    var createdOn: int
    var card: Option<nat>
    var invoice: string
    var invoiceNumber: Option<string>
    var location: Location
    var verification: Option<VerificationMethod>

    /** A new object from the caller's values; the type takes its default
        and the method is unset. */
    constructor (d: PaymentDraft)
      ensures Draft() == d && paymentType == TransactionPremiumPayment && verification.None?
    {
      paymentType := TransactionPremiumPayment;
      premium, amount, selectedOption, currency, transaction := d.premium, d.amount, d.selectedOption, d.currency, d.transaction;
      source, destination, date, createdOn := d.source, d.destination, d.date, d.createdOn;
      card, invoice, invoiceNumber, location := d.card, d.invoice, d.invoiceNumber, d.location;
      verification := None;
    }

    function Draft(): PaymentDraft
      reads this
    {
      PaymentDraft(premium, amount, selectedOption, currency, transaction, source, destination, date, createdOn,
                   card, invoice, invoiceNumber, location)
    }

    /** _update_from_transaction */
    method UpdateFromTransaction(txs: map<nat, ProductTransaction>)
      requires transaction.Some? ==> transaction.value in txs
      modifies this`source, this`destination, this`date, this`createdOn, this`invoice, this`card, this`invoiceNumber,
               this`location
      ensures Draft() == FromTransaction(old(Draft()), txs)
    {
      if transaction.Some? {
        var t := txs[transaction.value];
        source, destination, date, createdOn := Some(t.destination), Some(t.source), t.date, t.createdOn;
        invoice, card, invoiceNumber, location := if invoice == "" then t.invoice else invoice, t.card, t.invoiceNumber, t.location;
      }
    }

    /** _update_payment_status */
    method UpdatePaymentStatus() returns (r: Result<(), Failure>)
      modifies this`paymentType
      ensures PaymentTypeFor(transaction.Some?, premium.Some?).Ok? ==>
                r.Ok? && paymentType == PaymentTypeFor(transaction.Some?, premium.Some?).value
      ensures PaymentTypeFor(transaction.Some?, premium.Some?).Err? ==>
                r == Err(PAYMENT_TYPE_UNKNOWN) && paymentType == old(paymentType)
    {
      if transaction.Some? && premium.Some? {
        paymentType := TransactionPremiumPayment;
      } else if transaction.Some? {
        paymentType := TransactionPayment;
      } else if premium.Some? {
        paymentType := PremiumPayment;
      } else {
        return Err(PAYMENT_TYPE_UNKNOWN);
      }
      r := Ok(());
    }

    /** _update_verification_method */
    method UpdateVerificationMethod()
      modifies this`verification
      ensures verification == Some(MethodFor(card, invoice))
    {
      if card.Some? {
        verification := Some(CardMethod);
      } else if invoice != "" {
        verification := Some(InvoiceMethod);
      } else {
        verification := Some(NoMethod);
      }
    }

    /** save: the helpers in turn, then the row is inserted; a failure
        stores nothing. */
    method Save(store: TransactionStore) returns (r: Result<nat, Failure>)
      requires store.Valid() && (transaction.Some? ==> transaction.value in store.txs)
      modifies this, store`payments
      ensures store.Valid()
      ensures SavedPayment(old(Draft()), store.txs).Ok? ==>
                && r == Ok(|old(store.payments)|)
                && store.payments == old(store.payments) + [SavedPayment(old(Draft()), store.txs).value]
      ensures SavedPayment(old(Draft()), store.txs).Err? ==>
                r == Err(SavedPayment(old(Draft()), store.txs).error) && store.payments == old(store.payments)
    {
      ghost var d0 := Draft();
      UpdateFromTransaction(store.txs);
      ghost var f := Draft();
      var status := UpdatePaymentStatus();
      if status.Err? {
        return Err(status.error);
      }
      UpdateVerificationMethod();
      assert Draft() == f;
      if source.None? {
        return Err(IntegrityError("source_id"));
      }
      if destination.None? {
        return Err(IntegrityError("destination_id"));
      }
      var row := PaymentRecord(paymentType, premium, amount, selectedOption, currency, transaction, source.value,
                               destination.value, date, createdOn, card, invoice, invoiceNumber, location,
                               verification.value);
      assert SavedPayment(d0, store.txs) == Ok(row);
      store.payments := store.payments + [row];
      r := Ok(|store.payments| - 1);
    }
  }

  /** The transactions that list `id` among their parents (the reverse
      relation `children`). */
  function Children(txs: map<nat, ProductTransaction>, id: nat): (cs: set<nat>)
    ensures forall c :: c in cs <==> c in txs && id in txs[c].parents
  {
    set c | c in txs && id in txs[c].parents
  }

  /** current_quantity: 0 once any transaction uses this one as a parent,
      else its own quantity. */
  function CurrentQuantity(txs: map<nat, ProductTransaction>, id: nat): (q: Option<real>)
    requires id in txs
    ensures (exists c :: c in txs && id in txs[c].parents) ==> q == Some(0.0)
    ensures (forall c :: c in txs ==> id !in txs[c].parents) ==> q == txs[id].quantity
  {
    if Children(txs, id) != {} then Some(0.0) else txs[id].quantity
  }

  /** `Sum("quantity")` over rows: NULLs are skipped, and a sum over no
      non-NULL value is NULL. */
  function SumQuantities(qs: seq<Option<real>>): (r: Option<real>)
    ensures r.None? <==> forall i :: 0 <= i < |qs| ==> qs[i].None?
  {
    if qs == [] then None
    else
      var rest := SumQuantities(qs[1..]);
      if qs[0].None? then rest
      else if rest.None? then qs[0]
      else Some(qs[0].value + rest.value)
  }

  /** A sum of non-negative quantities is non-negative, and zero only when
      every quantity given is zero. */
  lemma {:induction false} SumOfNonNegative(qs: seq<Option<real>>)
    requires forall i :: 0 <= i < |qs| && qs[i].Some? ==> qs[i].value >= 0.0
    ensures SumQuantities(qs).Some? ==> SumQuantities(qs).value >= 0.0
    ensures SumQuantities(qs) == Some(0.0) ==> forall i :: 0 <= i < |qs| && qs[i].Some? ==> qs[i].value == 0.0
  {
    if qs != [] {
      SumOfNonNegative(qs[1..]);
      assert forall i :: 1 <= i < |qs| ==> qs[i] == qs[1..][i - 1];
    }
  }

  function ParentQuantities(txs: map<nat, ProductTransaction>, parents: seq<nat>): (qs: seq<Option<real>>)
    requires forall k :: 0 <= k < |parents| ==> parents[k] in txs
    ensures |qs| == |parents|
    ensures forall k :: 0 <= k < |parents| ==> qs[k] == txs[parents[k]].quantity
  {
    if parents == [] then [] else [txs[parents[0]].quantity] + ParentQuantities(txs, parents[1..])
  }

  /** source_quantity: the parents' total quantity, or the transaction's
      own quantity when that total is NULL or zero. */
  function SourceQuantity(txs: map<nat, ProductTransaction>, id: nat): (q: Option<real>)
    requires id in txs && forall k :: 0 <= k < |txs[id].parents| ==> txs[id].parents[k] in txs
    ensures var s := SumQuantities(ParentQuantities(txs, txs[id].parents));
            && (s.None? || s == Some(0.0) ==> q == txs[id].quantity)
            && (s.Some? && s != Some(0.0) ==> q == s)
    ensures (forall k :: 0 <= k < |txs[id].parents| ==> txs[txs[id].parents[k]].quantity.None?) ==> q == txs[id].quantity
  {
    var s := SumQuantities(ParentQuantities(txs, txs[id].parents));
    if s.None? || s == Some(0.0) then txs[id].quantity else s
  }

  /** Whether p is one of transaction id's payments of type TRANSACTION,
      the rows base_payment filters. */
  predicate IsTransactionPayment(p: PaymentRecord, id: nat)
  {
    p.transaction == Some(id) && p.paymentType == TransactionPayment
  }

  /** Whether transaction id has a TRANSACTION payment at all. */
  predicate HasTransactionPayment(ps: seq<PaymentRecord>, id: nat)
  {
    exists j :: 0 <= j < |ps| && IsTransactionPayment(ps[j], id)
  }

  /** The newest creation time among transaction id's TRANSACTION
      payments, None when it has none. */
  function NewestCreated(ps: seq<PaymentRecord>, id: nat): (m: Option<int>)
    ensures m.None? <==> forall j :: 0 <= j < |ps| ==> !IsTransactionPayment(ps[j], id)
    ensures m.Some? ==> forall j :: 0 <= j < |ps| && IsTransactionPayment(ps[j], id) ==> ps[j].createdOn <= m.value
  {
    if ps == [] then None
    else
      var rest := NewestCreated(ps[..|ps| - 1], id);
      var p := ps[|ps| - 1];
      assert forall j :: 0 <= j < |ps| - 1 ==> ps[..|ps| - 1][j] == ps[j];
      if !IsTransactionPayment(p, id) then rest
      else if rest.None? || rest.value < p.createdOn then Some(p.createdOn)
      else rest
  }

  /** The newest creation time is that of one of the payments. */
  lemma {:induction false} NewestCreatedAttained(ps: seq<PaymentRecord>, id: nat)
    requires NewestCreated(ps, id).Some?
    ensures exists j :: 0 <= j < |ps| && IsTransactionPayment(ps[j], id) && ps[j].createdOn == NewestCreated(ps, id).value
  {
    var rest := NewestCreated(ps[..|ps| - 1], id);
    var p := ps[|ps| - 1];
    if !(IsTransactionPayment(p, id) && (rest.None? || rest.value < p.createdOn)) {
      NewestCreatedAttained(ps[..|ps| - 1], id);
      var j :| 0 <= j < |ps| - 1 && IsTransactionPayment(ps[..|ps| - 1][j], id) && ps[..|ps| - 1][j].createdOn == rest.value;
      assert ps[..|ps| - 1][j] == ps[j];
    }
  }

  /** The TRANSACTION payments of transaction id created at time m, in
      creation order. */
  function CreatedAt(ps: seq<PaymentRecord>, id: nat, m: int): (ks: seq<nat>)
    ensures forall i :: 0 <= i < |ks| ==> ks[i] < |ps| && IsTransactionPayment(ps[ks[i]], id) && ps[ks[i]].createdOn == m
  {
    if ps == [] then []
    else
      var rest := CreatedAt(ps[..|ps| - 1], id, m);
      var p := ps[|ps| - 1];
      assert forall j :: 0 <= j < |ps| - 1 ==> ps[..|ps| - 1][j] == ps[j];
      if IsTransactionPayment(p, id) && p.createdOn == m then rest + [|ps| - 1] else rest
  }

  /** Every TRANSACTION payment of id created at m is listed. */
  lemma {:induction false} CreatedAtComplete(ps: seq<PaymentRecord>, id: nat, m: int, j: nat)
    requires j < |ps| && IsTransactionPayment(ps[j], id) && ps[j].createdOn == m
    ensures j in CreatedAt(ps, id, m)
  {
    if j < |ps| - 1 {
      assert ps[..|ps| - 1][j] == ps[j];
      CreatedAtComplete(ps[..|ps| - 1], id, m, j);
    }
  }

  /** base_payment: `.first()` of the transaction's TRANSACTION payments
      under the ("-created_on",) ordering PaymentTransaction inherits from
      AbstractBaseModel (base/db/models.py:48-52). Saving a payment copies
      its transaction's created_on (payment_models.py:91), so the payments
      of one transaction tie on that key, and which of the tied rows the
      database returns first is not fixed: `pick` stands for that choice.
      The result is always one of the newest TRANSACTION payments, and any
      of them can be the one (NewestCanBeFirst). */
  function BasePayment(ps: seq<PaymentRecord>, id: nat, pick: nat): (k: Option<nat>)
    ensures k.Some? ==> k.value < |ps| && IsTransactionPayment(ps[k.value], id)
    ensures k.Some? ==> forall j :: 0 <= j < |ps| && IsTransactionPayment(ps[j], id) ==> ps[j].createdOn <= ps[k.value].createdOn
    ensures k.None? <==> forall j :: 0 <= j < |ps| ==> !IsTransactionPayment(ps[j], id)
  {
    match NewestCreated(ps, id)
    case None => None
    case Some(m) =>
      NewestListed(ps, id);
      var ks := CreatedAt(ps, id, m);
      Some(ks[pick % |ks|])
  }

  /** Some payment was created at the newest time, so the list of the
      newest ones is not empty. */
  lemma NewestListed(ps: seq<PaymentRecord>, id: nat)
    requires NewestCreated(ps, id).Some?
    ensures CreatedAt(ps, id, NewestCreated(ps, id).value) != []
  {
    var m := NewestCreated(ps, id).value;
    NewestCreatedAttained(ps, id);
    var j :| 0 <= j < |ps| && IsTransactionPayment(ps[j], id) && ps[j].createdOn == m;
    CreatedAtComplete(ps, id, m, j);
  }

  /** A base payment exists exactly when the transaction has a
      TRANSACTION payment, whatever the choice among ties. */
  lemma BasePaymentExists(ps: seq<PaymentRecord>, id: nat, pick: nat)
    ensures BasePayment(ps, id, pick).Some? <==> HasTransactionPayment(ps, id)
  {
    if BasePayment(ps, id, pick).None? {
      assert forall j :: 0 <= j < |ps| ==> !IsTransactionPayment(ps[j], id);
    } else {
      var k := BasePayment(ps, id, pick).value;
      assert 0 <= k < |ps| && IsTransactionPayment(ps[k], id);
    }
  }

  lemma BasePaymentAmongNewest(ps: seq<PaymentRecord>, id: nat, m: int, pick: nat)
    requires NewestCreated(ps, id) == Some(m)
    ensures CreatedAt(ps, id, m) != []
    ensures BasePayment(ps, id, pick) == Some(CreatedAt(ps, id, m)[pick % |CreatedAt(ps, id, m)|])
  {
    NewestListed(ps, id);
  }

  lemma SmallRemainder(i: nat, n: nat)
    requires i < n
    ensures i % n == i
  {
  }

  /** Every newest TRANSACTION payment of a transaction is the base
      payment for some choice among the tied rows. */
  lemma NewestCanBeFirst(ps: seq<PaymentRecord>, id: nat, k: nat)
    requires k < |ps| && IsTransactionPayment(ps[k], id)
    requires forall j :: 0 <= j < |ps| && IsTransactionPayment(ps[j], id) ==> ps[j].createdOn <= ps[k].createdOn
    ensures exists pick :: BasePayment(ps, id, pick) == Some(k)
  {
    var m := NewestCreated(ps, id).value;
    NewestCreatedAttained(ps, id);
    var w :| 0 <= w < |ps| && IsTransactionPayment(ps[w], id) && ps[w].createdOn == m;
    assert ps[k].createdOn == m;
    var ks := CreatedAt(ps, id, m);
    CreatedAtComplete(ps, id, m, k);
    var i :| 0 <= i < |ks| && ks[i] == k;
    BasePaymentAmongNewest(ps, id, m, i);
    SmallRemainder(i, |ks|);
  }

  /** A transaction's only TRANSACTION payment is its base payment,
      whatever the choice among ties. */
  lemma SoleIsBase(ps: seq<PaymentRecord>, id: nat, n: nat, pick: nat)
    requires n < |ps| && IsTransactionPayment(ps[n], id)
    requires forall j :: 0 <= j < |ps| && j != n ==> !IsTransactionPayment(ps[j], id)
    ensures BasePayment(ps, id, pick) == Some(n)
  {
  }

  /** The amount and currency properties read the base payment; without
      one, reading them fails on None. */
  function Amount(ps: seq<PaymentRecord>, id: nat, pick: nat): (r: Result<real, Failure>)
    ensures r.Ok? <==> BasePayment(ps, id, pick).Some?
    ensures r.Ok? ==> r.value == ps[BasePayment(ps, id, pick).value].amount
    ensures r.Err? ==> r.error == Uncaught("AttributeError")
  {
    match BasePayment(ps, id, pick)
    case None => Err(Uncaught("AttributeError"))
    case Some(k) => Ok(ps[k].amount)
  }

  function Currency(ps: seq<PaymentRecord>, id: nat, pick: nat): (r: Result<Option<nat>, Failure>)
    ensures r.Ok? <==> BasePayment(ps, id, pick).Some?
    ensures r.Ok? ==> r.value == ps[BasePayment(ps, id, pick).value].currency
    ensures r.Err? ==> r.error == Uncaught("AttributeError")
  {
    match BasePayment(ps, id, pick)
    case None => Err(Uncaught("AttributeError"))
    case Some(k) => Ok(ps[k].currency)
  }

  /** ProductTransaction.save writes the verification method from the
      card and invoice on every save. */
  function SavedTransaction(t: ProductTransaction): (r: ProductTransaction)
    ensures r.verification == MethodFor(t.card, t.invoice)
    ensures r.(verification := t.verification) == t
  {
    t.(verification := MethodFor(t.card, t.invoice))
  }

  /** Making p a parent of c adds c to p's children and nothing to p's
      own parents: the relation is not symmetrical. */
  lemma ParentsOneWay(txs: map<nat, ProductTransaction>, c: nat, p: nat)
    requires c in txs && p in txs && c != p
    ensures var txs' := txs[c := txs[c].(parents := txs[c].parents + [p])];
            c in Children(txs', p) && txs'[p].parents == txs[p].parents
  {
  }

  const OUTGOING: string := "OUTGOING"
  const INCOMING: string := "INCOMING"

  /** get_type (of both serializers): OUTGOING when the row's source is the
      current entity, else INCOMING; with no current entity reading its id
      fails. */
  function GetType(source: EntityId, entity: Option<EntityId>): (r: Result<string, Failure>)
    ensures entity.None? <==> r.Err?
    ensures r.Ok? ==> (r.value == OUTGOING <==> source == entity.value) && (r.value == INCOMING <==> source != entity.value)
  {
    if entity.None? then Err(Uncaught("AttributeError"))
    else if source == entity.value then Ok(OUTGOING)
    else Ok(INCOMING)
  }

  const PARENTS_REQUIRED: Failure := FieldError("parents", "This field is required for sending.")

  function ForeignParent(number: string, sourceText: string): Failure
  {
    FieldError("parents", "parent batch " + number + " not belongs to " + sourceText)
  }

  /** The first parent delivered somewhere other than the source. */
  function FirstForeignParent(parents: seq<ProductTransaction>, source: EntityId): (k: Option<nat>)
    ensures k.Some? ==> k.value < |parents| && parents[k.value].destination != source
                        && forall j :: 0 <= j < k.value ==> parents[j].destination == source
    ensures k.None? ==> forall j :: 0 <= j < |parents| ==> parents[j].destination == source
  {
    if parents == [] then None
    else if parents[0].destination != source then Some(0)
    else match FirstForeignParent(parents[1..], source)
      case None => None
      case Some(k) => Some(k + 1)
  }

  /** _check_parents: the parents are required and non-empty, and every
      parent must have been delivered to the source; the first that was
      not is reported. `sourceText` is how the source entity prints. */
  method CheckParents(parents: Option<seq<ProductTransaction>>, source: EntityId, sourceText: string)
    returns (r: Result<(), Failure>)
    ensures parents.None? || parents.value == [] ==> r == Err(PARENTS_REQUIRED)
    ensures parents.Some? && parents.value != [] ==>
              && (r.Ok? <==> forall j :: 0 <= j < |parents.value| ==> parents.value[j].destination == source)
              && (r.Err? ==> var k := FirstForeignParent(parents.value, source).value;
                             r.error == ForeignParent(parents.value[k].number, sourceText))
  {
    if parents.None? || parents.value == [] {
      return Err(PARENTS_REQUIRED);
    }
    var ps := parents.value;
    var i := 0;
    while i < |ps|
      invariant 0 <= i <= |ps|
      invariant forall j :: 0 <= j < i ==> ps[j].destination == source
    {
      if ps[i].destination != source {
        assert FirstForeignParent(ps, source) == Some(i);
        return Err(ForeignParent(ps[i].number, sourceText));
      }
      i := i + 1;
    }
    r := Ok(());
  }

  /** ProductTransactionSerializer.validate: parents are checked only when
      the transaction is sent by the current entity. */
  method Validate(source: Option<EntityId>, entity: Option<EntityId>, parents: Option<seq<ProductTransaction>>,
                  sourceText: string) returns (r: Result<(), Failure>)
    ensures source.None? ==> r == Ok(())
    ensures source.Some? && entity.None? ==> r == Err(Uncaught("AttributeError"))
    ensures source.Some? && entity.Some? && source.value != entity.value ==> r == Ok(())
    ensures source.Some? && entity.Some? && source.value == entity.value ==>
              (r.Ok? <==> parents.Some? && parents.value != []
                          && forall j :: 0 <= j < |parents.value| ==> parents.value[j].destination == source.value)
  {
    if source.None? {
      return Ok(());
    }
    if entity.None? {
      return Err(Uncaught("AttributeError"));
    }
    if source.value == entity.value {
      r := CheckParents(parents, source.value, sourceText);
    } else {
      r := Ok(());
    }
  }

  /** A Currency row. */
  datatype CurrencyRow = CurrencyRow(id: nat, code: Option<string>)

  function CountById(cs: seq<CurrencyRow>, id: nat): nat
  {
    if cs == [] then 0 else (if cs[0].id == id then 1 else 0) + CountById(cs[1..], id)
  }

  function CountByCode(cs: seq<CurrencyRow>, code: string): nat
  {
    if cs == [] then 0 else (if cs[0].code == Some(code) then 1 else 0) + CountByCode(cs[1..], code)
  }

  /** The row matching, when exactly one matches. */
  function FindByCode(cs: seq<CurrencyRow>, code: string): (k: Option<nat>)
    ensures k.Some? ==> k.value < |cs| && cs[k.value].code == Some(code)
    ensures k.None? <==> CountByCode(cs, code) == 0
  {
    if cs == [] then None
    else if cs[0].code == Some(code) then Some(0)
    else match FindByCode(cs[1..], code)
      case None => None
      case Some(k) => Some(k + 1)
  }

  function FindById(cs: seq<CurrencyRow>, id: nat): (k: Option<nat>)
    ensures k.Some? ==> k.value < |cs| && cs[k.value].id == id
    ensures k.None? <==> CountById(cs, id) == 0
  {
    if cs == [] then None
    else if cs[0].id == id then Some(0)
    else match FindById(cs[1..], id)
      case None => None
      case Some(k) => Some(k + 1)
  }

  /** The currency lookup of both create methods: `get(id=key)` (the key
      read as a Hashid; text that decodes to no row matches nothing), and
      on DoesNotExist `get(code=key)`, which raises when no row or several
      rows have the code. The result is the currency's id. */
  function LookupCurrency(cs: seq<CurrencyRow>, key: string, decodeId: string -> Option<nat>): (r: Result<nat, Failure>)
    requires forall i, j :: 0 <= i < j < |cs| ==> cs[i].id != cs[j].id
    ensures decodeId(key).Some? && CountById(cs, decodeId(key).value) > 0 ==> r == Ok(decodeId(key).value)
    ensures !(decodeId(key).Some? && CountById(cs, decodeId(key).value) > 0) ==>
              && (CountByCode(cs, key) == 0 ==> r == Err(Uncaught("DoesNotExist")))
              && (CountByCode(cs, key) > 1 ==> r == Err(Uncaught("MultipleObjectsReturned")))
              && (CountByCode(cs, key) == 1 ==> r.Ok? && exists i :: 0 <= i < |cs| && cs[i].code == Some(key) && cs[i].id == r.value)
  {
    if decodeId(key).Some? && CountById(cs, decodeId(key).value) > 0 then Ok(decodeId(key).value)
    else
      var n := CountByCode(cs, key);
      if n == 0 then Err(Uncaught("DoesNotExist"))
      else if n > 1 then Err(Uncaught("MultipleObjectsReturned"))
      else Ok(cs[FindByCode(cs, key).value].id)
  }

  /** PaymentTransactionsSerializer.create's currency: a given currency
      text is replaced by the currency it names; an absent or empty one
      leaves the currency unset. */
  function PaymentCurrency(cs: seq<CurrencyRow>, key: Option<string>, decodeId: string -> Option<nat>)
    : (r: Result<Option<nat>, Failure>)
    requires forall i, j :: 0 <= i < j < |cs| ==> cs[i].id != cs[j].id
    ensures key.None? || key.value == "" ==> r == Ok(None)
    ensures key.Some? && key.value != "" ==>
              (r.Ok? <==> LookupCurrency(cs, key.value, decodeId).Ok?)
              && (r.Ok? ==> r.value == Some(LookupCurrency(cs, key.value, decodeId).value))
  {
    if key.None? || key.value == "" then Ok(None)
    else match LookupCurrency(cs, key.value, decodeId)
      case Err(e) => Err(e)
      case Ok(c) => Ok(Some(c))
  }

  /** One item of the transaction_payments list. */
  datatype PaymentItem = PaymentItem(premium: Option<nat>, selectedOption: Option<string>, amount: real)

  /** The draft _create_payments builds for an item of transaction t. */
  function ItemDraft(item: PaymentItem, t: nat, currency: nat): PaymentDraft
  {
    PaymentDraft(item.premium, item.amount, item.selectedOption, Some(currency), Some(t), None, None, 0, 0,
                 None, "", None, Location(0.0, 0.0))
  }

  /** The draft of the payment carrying the transaction's own amount. */
  function BaseDraft(t: nat, amount: real, currency: nat): PaymentDraft
  {
    PaymentDraft(None, amount, None, Some(currency), Some(t), None, None, 0, 0, None, "", None, Location(0.0, 0.0))
  }

  /** _create_payments: one payment per item, then the payment of type
      TRANSACTION that carries the amount, all in the given currency. */
  method CreatePayments(store: TransactionStore, items: seq<PaymentItem>, t: nat, amount: real, currency: nat)
    requires store.Valid() && t in store.txs
    modifies store`payments
    ensures store.Valid()
    ensures |store.payments| == |old(store.payments)| + |items| + 1
    ensures store.payments[..|old(store.payments)|] == old(store.payments)
    ensures forall i :: 0 <= i < |items| ==>
              store.payments[|old(store.payments)| + i] == SavedPayment(ItemDraft(items[i], t, currency), store.txs).value
    ensures store.payments[|store.payments| - 1] == SavedPayment(BaseDraft(t, amount, currency), store.txs).value
    ensures store.payments == old(store.payments) + ItemPayments(store.txs, items, t, currency)
                              + [SavedPayment(BaseDraft(t, amount, currency), store.txs).value]
  {
    SaveItemPayments(store, items, t, currency);
    store.payments := store.payments + [SavedPayment(BaseDraft(t, amount, currency), store.txs).value];
  }

  /** The loop of _create_payments over the premium and charge items. */
  method SaveItemPayments(store: TransactionStore, items: seq<PaymentItem>, t: nat, currency: nat)
    requires store.Valid() && t in store.txs
    modifies store`payments
    ensures store.Valid()
    ensures store.payments == old(store.payments) + ItemPayments(store.txs, items, t, currency)
  {
    var i := 0;
    while i < |items|
      invariant 0 <= i <= |items| && store.Valid()
      invariant |store.payments| == |old(store.payments)| + i
      invariant store.payments[..|old(store.payments)|] == old(store.payments)
      invariant forall j :: 0 <= j < i ==>
                  store.payments[|old(store.payments)| + j] == SavedPayment(ItemDraft(items[j], t, currency), store.txs).value
    {
      store.payments := store.payments + [SavedPayment(ItemDraft(items[i], t, currency), store.txs).value];
      i := i + 1;
    }
    assert store.payments == old(store.payments) + ItemPayments(store.txs, items, t, currency);
  }

  /** Every payment created for a transaction runs opposite to it and is in
      the one currency; the last is of type TRANSACTION with the amount. */
  lemma CreatedPaymentsShape(txs: map<nat, ProductTransaction>, items: seq<PaymentItem>, t: nat, amount: real,
                             currency: nat)
    requires t in txs
    ensures var p := SavedPayment(BaseDraft(t, amount, currency), txs).value;
            p.paymentType == TransactionPayment && p.amount == amount && p.currency == Some(currency)
            && p.source == txs[t].destination && p.destination == txs[t].source
    ensures forall i :: 0 <= i < |items| ==>
              var p := SavedPayment(ItemDraft(items[i], t, currency), txs).value;
              p.currency == Some(currency) && p.transaction == Some(t)
              && (p.paymentType == TransactionPayment <==> items[i].premium.None?)
  {
  }

  /** The payments create stores for transaction t after `before`, none
      of which belongs to t. */
  function CreatedList(txs: map<nat, ProductTransaction>, before: seq<PaymentRecord>, items: seq<PaymentItem>,
                       t: nat, amount: real, currency: nat): seq<PaymentRecord>
    requires t in txs
  {
    before + ItemPayments(txs, items, t, currency) + [SavedPayment(BaseDraft(t, amount, currency), txs).value]
  }

  /** Every payment created for t is in the one currency, so the currency
      property reads back what create was given, whichever tied row comes
      first. */
  lemma CurrencyReadsBack(txs: map<nat, ProductTransaction>, before: seq<PaymentRecord>, items: seq<PaymentItem>,
                          t: nat, amount: real, currency: nat, pick: nat)
    requires t in txs
    requires forall i :: 0 <= i < |before| ==> before[i].transaction != Some(t)
    ensures Currency(CreatedList(txs, before, items, t, amount, currency), t, pick) == Ok(Some(currency))
  {
    var ps := CreatedList(txs, before, items, t, amount, currency);
    CreatedPaymentsShape(txs, items, t, amount, currency);
    assert IsTransactionPayment(ps[|ps| - 1], t);
    var k := BasePayment(ps, t, pick).value;
    if k < |ps| - 1 {
      assert k >= |before|;
      assert ps[k] == ItemPayments(txs, items, t, currency)[k - |before|];
    }
  }

  /** The amount property reads back either the amount create was given or
      the amount of an item without a premium: such an item is also saved
      as a TRANSACTION payment with the same creation time. */
  lemma AmountReadsBackAmong(txs: map<nat, ProductTransaction>, before: seq<PaymentRecord>, items: seq<PaymentItem>,
                             t: nat, amount: real, currency: nat, pick: nat)
    requires t in txs
    requires forall i :: 0 <= i < |before| ==> before[i].transaction != Some(t)
    ensures var a := Amount(CreatedList(txs, before, items, t, amount, currency), t, pick);
            a.Ok? && (a.value == amount || exists i :: 0 <= i < |items| && items[i].premium.None? && items[i].amount == a.value)
  {
    var ps := CreatedList(txs, before, items, t, amount, currency);
    CreatedPaymentsShape(txs, items, t, amount, currency);
    assert IsTransactionPayment(ps[|ps| - 1], t);
    var k := BasePayment(ps, t, pick).value;
    if k < |ps| - 1 {
      assert k >= |before|;
      var i := k - |before|;
      assert ps[k] == ItemPayments(txs, items, t, currency)[i];
      assert items[i].premium.None? && items[i].amount == ps[k].amount;
    }
  }

  /** When every item carries a premium, the payment carrying the amount is
      the transaction's only TRANSACTION payment, so the amount property
      reads back exactly what create was given. */
  lemma AmountReadsBack(txs: map<nat, ProductTransaction>, before: seq<PaymentRecord>, items: seq<PaymentItem>,
                        t: nat, amount: real, currency: nat, pick: nat)
    requires t in txs
    requires forall i :: 0 <= i < |before| ==> before[i].transaction != Some(t)
    requires forall i :: 0 <= i < |items| ==> items[i].premium.Some?
    ensures Amount(CreatedList(txs, before, items, t, amount, currency), t, pick) == Ok(amount)
  {
    var ps := CreatedList(txs, before, items, t, amount, currency);
    CreatedPaymentsShape(txs, items, t, amount, currency);
    forall j | 0 <= j < |ps| - 1
      ensures !IsTransactionPayment(ps[j], t)
    {
      if j >= |before| {
        assert ps[j] == ItemPayments(txs, items, t, currency)[j - |before|];
      }
    }
    SoleIsBase(ps, t, |ps| - 1, pick);
  }

  /** A transaction created with amount 100 and one item of amount 5
      without a premium has two tied TRANSACTION payments, and its amount
      reads 5 or 100 depending on which of them the database returns
      first. */
  lemma ItemWithoutPremiumTies(txs: map<nat, ProductTransaction>, t: nat, currency: nat)
    requires t in txs
    ensures var ps := CreatedList(txs, [], [PaymentItem(None, None, 5.0)], t, 100.0, currency);
            Amount(ps, t, 0) == Ok(5.0) && Amount(ps, t, 1) == Ok(100.0)
  {
    var item := PaymentItem(None, None, 5.0);
    var ps := CreatedList(txs, [], [item], t, 100.0, currency);
    CreatedPaymentsShape(txs, [item], t, 100.0, currency);
    assert ps == [SavedPayment(ItemDraft(item, t, currency), txs).value,
                  SavedPayment(BaseDraft(t, 100.0, currency), txs).value];
    var m := txs[t].createdOn;
    assert IsTransactionPayment(ps[0], t) && IsTransactionPayment(ps[1], t);
    assert ps[0].createdOn == m && ps[1].createdOn == m;
    assert NewestCreated(ps, t) == Some(m);
    assert ps[..1][..0] == [] && ps[..1] == [ps[0]];
    assert CreatedAt(ps[..1], t, m) == [0];
    assert CreatedAt(ps, t, m) == [0, 1];
  }

  /** The payments CreatePayments stores for the items, as a list. */
  function ItemPayments(txs: map<nat, ProductTransaction>, items: seq<PaymentItem>, t: nat, currency: nat)
    : (ps: seq<PaymentRecord>)
    requires t in txs
    ensures |ps| == |items|
    ensures forall i :: 0 <= i < |items| ==> ps[i] == SavedPayment(ItemDraft(items[i], t, currency), txs).value
  {
    if items == [] then []
    else [SavedPayment(ItemDraft(items[0], t, currency), txs).value] + ItemPayments(txs, items[1..], t, currency)
  }

  /** What the caller supplies to ProductTransactionSerializer.create. */
  datatype TransactionInput = TransactionInput(
    source: EntityId,
    destination: EntityId,
    date: int,
    createdOn: int,
    card: Option<nat>,
    invoice: string,
    invoiceNumber: Option<string>,
    location: Location,
    parents: seq<nat>,
    product: nat,
    quantity: Option<real>)

  /** The row create inserts: numbered from its id, its method derived,
      the current user as creator and updater. */
  function NewTransaction(input: TransactionInput, id: nat, user: Option<nat>, submissions: seq<nat>)
    : (t: ProductTransaction)
    ensures t.verification == MethodFor(input.card, input.invoice) && !t.isDeleted
    ensures t.source == input.source && t.destination == input.destination && t.parents == input.parents
    ensures t.number == DbModels.DisplayNumber(id)
  {
    ProductTransaction(DbModels.DisplayNumber(id), input.source, input.destination, input.date, input.createdOn,
                       input.card, input.invoice, input.invoiceNumber, input.location,
                       MethodFor(input.card, input.invoice), input.parents, input.product, input.quantity, false,
                       user, user, submissions)
  }

  /** ProductTransactionSerializer.create, in one database transaction:
      the currency is required (popped without a default), the row is
      created, the currency is looked up, the payments are created and the
      submissions linked. Any failure rolls everything back. */
  method CreateTransaction(store: TransactionStore, input: TransactionInput, items: seq<PaymentItem>,
                           currencyKey: Option<string>, amount: real, cs: seq<CurrencyRow>,
                           decodeId: string -> Option<nat>, newId: nat, user: Option<nat>, submissions: seq<nat>)
    returns (r: Result<nat, Failure>)
    requires store.Valid() && newId !in store.txs
    requires forall k :: 0 <= k < |input.parents| ==> input.parents[k] in store.txs
    requires forall i, j :: 0 <= i < j < |cs| ==> cs[i].id != cs[j].id
    modifies store
    ensures store.Valid()
    ensures currencyKey.None? ==> r == Err(Uncaught("KeyError"))
    ensures currencyKey.Some? && LookupCurrency(cs, currencyKey.value, decodeId).Err? ==>
              r == Err(LookupCurrency(cs, currencyKey.value, decodeId).error)
    ensures r.Err? ==> store.txs == old(store.txs) && store.payments == old(store.payments)
    ensures r.Ok? <==> currencyKey.Some? && LookupCurrency(cs, currencyKey.value, decodeId).Ok?
    ensures r.Ok? ==> var c := LookupCurrency(cs, currencyKey.value, decodeId).value;
                      && r.value == newId
                      && store.txs == old(store.txs)[newId := NewTransaction(input, newId, user, submissions)]
                      && store.payments == old(store.payments) + ItemPayments(store.txs, items, newId, c)
                                           + [SavedPayment(BaseDraft(newId, amount, c), store.txs).value]
                      && (forall pick :: Currency(store.payments, newId, pick) == Ok(Some(c)))
    ensures r.Ok? ==> forall pick :: var a := Amount(store.payments, newId, pick);
                        a.Ok? && (a.value == amount
                                  || exists i :: 0 <= i < |items| && items[i].premium.None? && items[i].amount == a.value)
    ensures r.Ok? && (forall i :: 0 <= i < |items| ==> items[i].premium.Some?) ==>
              forall pick :: Amount(store.payments, newId, pick) == Ok(amount)
  {
    if currencyKey.None? {
      return Err(Uncaught("KeyError"));
    }
    var currency := LookupCurrency(cs, currencyKey.value, decodeId);
    if currency.Err? {
      return Err(currency.error);
    }
    store.txs := store.txs[newId := NewTransaction(input, newId, user, submissions)];
    CreatePayments(store, items, newId, amount, currency.value);
    assert store.payments == CreatedList(store.txs, old(store.payments), items, newId, amount, currency.value);
    forall pick: nat
      ensures Currency(store.payments, newId, pick) == Ok(Some(currency.value))
      ensures var a := Amount(store.payments, newId, pick);
              a.Ok? && (a.value == amount
                        || exists i :: 0 <= i < |items| && items[i].premium.None? && items[i].amount == a.value)
      ensures (forall i :: 0 <= i < |items| ==> items[i].premium.Some?) ==> Amount(store.payments, newId, pick) == Ok(amount)
    {
      CurrencyReadsBack(store.txs, old(store.payments), items, newId, amount, currency.value, pick);
      AmountReadsBackAmong(store.txs, old(store.payments), items, newId, amount, currency.value, pick);
      if forall i :: 0 <= i < |items| ==> items[i].premium.Some? {
        AmountReadsBack(store.txs, old(store.payments), items, newId, amount, currency.value, pick);
      }
    }
    r := Ok(newId);
  }

  /** ProductTransactionViewSet.get_queryset: deleted rows are left out
      unless the request carries a non-empty reverse_sync parameter (any
      text, even "false"). */
  function Queryset(txs: map<nat, ProductTransaction>, reverseSync: Option<string>): (ids: set<nat>)
    ensures ids <= txs.Keys
    ensures reverseSync.Some? && reverseSync.value != "" ==> ids == txs.Keys
    ensures !(reverseSync.Some? && reverseSync.value != "") ==>
              forall id :: id in ids <==> id in txs && !txs[id].isDeleted
  {
    if reverseSync.Some? && reverseSync.value != "" then txs.Keys
    else set id | id in txs && !txs[id].isDeleted
  }

  /** The row a soft delete leaves: marked deleted and saved again (its
      method recomputed, the current user recorded as updater). */
  function SoftDeleted(t: ProductTransaction, user: Option<nat>): (r: ProductTransaction)
    ensures r.isDeleted
    ensures r == SavedTransaction(t).(isDeleted := true, updater := if user.Some? then user else t.updater)
  {
    SavedTransaction(t).(isDeleted := true, updater := if user.Some? then user else t.updater)
  }

  const HAS_CHILDREN: Failure := ValidationError("Cannot delete transaction with child transactions.")

  /** perform_destroy: a transaction that some other transaction uses as
      a parent cannot be deleted; otherwise it is soft-deleted. */
  method PerformDestroy(store: TransactionStore, id: nat, user: Option<nat>) returns (r: Result<(), Failure>)
    requires store.Valid() && id in store.txs
    modifies store`txs
    ensures store.Valid()
    ensures Children(old(store.txs), id) != {} ==> r == Err(HAS_CHILDREN) && store.txs == old(store.txs)
    ensures Children(old(store.txs), id) == {} ==>
              r.Ok? && store.txs == old(store.txs)[id := SoftDeleted(old(store.txs)[id], user)]
  {
    if Children(store.txs, id) != {} {
      return Err(HAS_CHILDREN);
    }
    store.txs := store.txs[id := SoftDeleted(store.txs[id], user)];
    r := Ok(());
  }

  /** destroy: the row must be in the view's (filtered) queryset, then it
      is soft-deleted and the answer is 200 with no body. */
  method Destroy(store: TransactionStore, id: nat, visible: set<nat>, user: Option<nat>) returns (r: Result<int, Failure>)
    requires store.Valid() && visible <= store.txs.Keys
    modifies store`txs
    ensures store.Valid()
    ensures id !in visible ==> r == Err(Http404("Not found.")) && store.txs == old(store.txs)
    ensures id in visible && Children(old(store.txs), id) != {} ==> r == Err(HAS_CHILDREN) && store.txs == old(store.txs)
    ensures id in visible && Children(old(store.txs), id) == {} ==>
              r == Ok(200) && store.txs == old(store.txs)[id := SoftDeleted(old(store.txs)[id], user)]
  {
    if id !in visible {
      return Err(Http404("Not found."));
    }
    var d := PerformDestroy(store, id, user);
    if d.Err? {
      return Err(d.error);
    }
    r := Ok(200);
  }

  /** A soft-deleted row drops out of the default queryset and stays in
      the reverse-sync one. */
  lemma DeletedHiddenUnlessReverseSync(txs: map<nat, ProductTransaction>, id: nat, user: Option<nat>, flag: string)
    requires id in txs && flag != ""
    ensures var txs' := txs[id := SoftDeleted(txs[id], user)];
            id !in Queryset(txs', None) && id in Queryset(txs', Some(flag))
  {
  }

  /** update: never allowed on this view set. */
  function Update(): (r: Result<(), Failure>)
    ensures r.Err? && r.error.MethodNotAllowed?
  {
    Err(MethodNotAllowed)
  }

  /** ProductTransactionFilterSet.qs: admins see the whole queryset; other
      users the transactions they created from or to the current entity. */
  function ProductFilter(txs: map<nat, ProductTransaction>, qs: set<nat>, isAdmin: bool, user: nat,
                         entity: Option<EntityId>): (r: set<nat>)
    requires qs <= txs.Keys
    ensures r <= qs
    ensures isAdmin ==> r == qs
    ensures !isAdmin ==> forall id :: id in r <==>
              id in qs && txs[id].creator == Some(user) && entity.Some?
              && (txs[id].source == entity.value || txs[id].destination == entity.value)
  {
    if isAdmin then qs
    else set id | id in qs && txs[id].creator == Some(user) && entity.Some?
                  && (txs[id].source == entity.value || txs[id].destination == entity.value)
  }

  /** Without a current entity a non-admin sees no transaction at all. */
  lemma NoEntityNoTransactions(txs: map<nat, ProductTransaction>, qs: set<nat>, user: nat)
    requires qs <= txs.Keys
    ensures ProductFilter(txs, qs, false, user, None) == {}
  {
  }

  /** The filter set's `qs` and the date filters are chained querysets, so
      the order they run in does not matter. */
  lemma ProductFilterCommutesWithDates(txs: map<nat, ProductTransaction>, qs: set<nat>, isAdmin: bool, user: nat,
                                       entity: Option<EntityId>, t: int)
    requires qs <= txs.Keys
    ensures ProductFilter(txs, CreatedAfter(txs, qs, t), isAdmin, user, entity)
         == CreatedAfter(txs, ProductFilter(txs, qs, isAdmin, user, entity), t)
  {
  }

  /** A non-admin sees a subset of what an admin sees. */
  lemma ProductFilterWithinAdmin(txs: map<nat, ProductTransaction>, qs: set<nat>, user: nat, entity: Option<EntityId>)
    requires qs <= txs.Keys
    ensures ProductFilter(txs, qs, false, user, entity) <= ProductFilter(txs, qs, true, user, entity)
  {
  }

  /** The created_after / updated_after filters (inclusive) and the
      updated_before filter (strict), all on created_on. */
  function CreatedAfter(txs: map<nat, ProductTransaction>, qs: set<nat>, t: int): (r: set<nat>)
    requires qs <= txs.Keys
    ensures forall id :: id in r <==> id in qs && txs[id].createdOn >= t
  {
    set id | id in qs && txs[id].createdOn >= t
  }

  function CreatedBefore(txs: map<nat, ProductTransaction>, qs: set<nat>, t: int): (r: set<nat>)
    requires qs <= txs.Keys
    ensures forall id :: id in r <==> id in qs && txs[id].createdOn < t
  {
    set id | id in qs && txs[id].createdOn < t
  }

  /** The two bounds at one instant split the queryset: every row is in
      exactly one of them. */
  lemma AfterBeforePartition(txs: map<nat, ProductTransaction>, qs: set<nat>, t: int)
    requires qs <= txs.Keys
    ensures CreatedAfter(txs, qs, t) + CreatedBefore(txs, qs, t) == qs
    ensures CreatedAfter(txs, qs, t) * CreatedBefore(txs, qs, t) == {}
  {
  }

  /** only_quantity_available: when set, the transactions with no
      children, received by the current entity, with a positive quantity;
      when not set, the queryset unchanged. */
  function QuantityAvailable(txs: map<nat, ProductTransaction>, qs: set<nat>, value: bool, entity: Option<EntityId>)
    : (r: set<nat>)
    requires qs <= txs.Keys
    ensures !value ==> r == qs
    ensures value ==> forall id :: id in r <==>
              id in qs && Children(txs, id) == {} && entity.Some? && txs[id].destination == entity.value
              && txs[id].quantity.Some? && txs[id].quantity.value > 0.0
  {
    if !value then qs
    else set id | id in qs && Children(txs, id) == {} && entity.Some? && txs[id].destination == entity.value
                  && txs[id].quantity.Some? && txs[id].quantity.value > 0.0
  }

  /** What the filter keeps is what still has stock: its current quantity
      is its own, positive quantity. */
  lemma AvailableHasStock(txs: map<nat, ProductTransaction>, qs: set<nat>, entity: Option<EntityId>, id: nat)
    requires qs <= txs.Keys && id in QuantityAvailable(txs, qs, true, entity)
    ensures CurrentQuantity(txs, id) == txs[id].quantity && CurrentQuantity(txs, id).value > 0.0
  {
    assert Children(txs, id) == {};
  }

  /** PaymentTransactionFilterSet.qs: only PREMIUM payments; for non-admins
      only those from or to the current entity. Payments are indices into
      the payment list. */
  function PaymentFilter(ps: seq<PaymentRecord>, qs: set<nat>, isAdmin: bool, entity: Option<EntityId>): (r: set<nat>)
    ensures forall k :: k in r ==> k in qs && k < |ps| && ps[k].paymentType == PremiumPayment
    ensures isAdmin ==> forall k :: k in r <==> k in qs && k < |ps| && ps[k].paymentType == PremiumPayment
    ensures !isAdmin ==> forall k :: k in r <==>
              k in qs && k < |ps| && ps[k].paymentType == PremiumPayment && entity.Some?
              && (ps[k].source == entity.value || ps[k].destination == entity.value)
  {
    if isAdmin then set k | k in qs && k < |ps| && ps[k].paymentType == PremiumPayment
    else set k | k in qs && k < |ps| && ps[k].paymentType == PremiumPayment && entity.Some?
                 && (ps[k].source == entity.value || ps[k].destination == entity.value)
  }

  /** No base payment is ever listed by the payment filter: base payments
      are of type TRANSACTION and the filter keeps only PREMIUM ones. */
  lemma BasePaymentNeverListed(ps: seq<PaymentRecord>, qs: set<nat>, isAdmin: bool, entity: Option<EntityId>,
                                id: nat, pick: nat)
    requires BasePayment(ps, id, pick).Some?
    ensures BasePayment(ps, id, pick).value !in PaymentFilter(ps, qs, isAdmin, entity)
  {
  }

  /** A non-admin sees a subset of the PREMIUM payments an admin sees, and
      none at all without a current entity. */
  lemma PaymentFilterWithinAdmin(ps: seq<PaymentRecord>, qs: set<nat>, entity: Option<EntityId>)
    ensures PaymentFilter(ps, qs, false, entity) <= PaymentFilter(ps, qs, true, entity)
    ensures PaymentFilter(ps, qs, false, None) == {}
  {
  }
}

=== FILE: url.dfy ===
/** The URL builder of utilities/url_utils.py. Encoding a host to IDNA
    (RFC 5891) and the percent-encoding of query values are inputs: whether
    the encoding succeeds, and the quoting function urlencode applies. */
module Urls {
  import opened Wrappers
  import opened Failures
  import opened RequestViews
  import SemVer

  /** The values to_unicode is given: None, bytes, or anything else, here
      by its str() text. */
  datatype PyValue = PyNone | PyBytes(bytes: seq<bv8>) | PyOther(text: string)

  /** to_unicode: None stays None, bytes are decoded (a decoding error is
      raised), anything else becomes its text. */
  function ToUnicode(obj: PyValue, decode: seq<bv8> -> Result<string, Failure>): (r: Result<Option<string>, Failure>)
    ensures obj.PyNone? ==> r == Ok(None)
    ensures obj.PyOther? ==> r == Ok(Some(obj.text))
    ensures obj.PyBytes? ==> (r.Ok? <==> decode(obj.bytes).Ok?) && (r.Ok? ==> r.value == Some(decode(obj.bytes).value))
  {
    match obj
    case PyNone => Ok(None)
    case PyOther(text) => Ok(Some(text))
    case PyBytes(b) =>
      match decode(b)
      case Ok(s) => Ok(Some(s))
      case Err(e) => Err(e)
  }

  /** Text is a fixed point: converting the result of a conversion again
      gives it back. */
  lemma ToUnicodeFixedPoint(obj: PyValue, decode: seq<bv8> -> Result<string, Failure>)
    requires ToUnicode(obj, decode).Ok? && ToUnicode(obj, decode).value.Some?
    ensures ToUnicode(PyOther(ToUnicode(obj, decode).value.value), decode) == ToUnicode(obj, decode)
  {
  }

  function StripStart(s: string, c: char): (r: string)
    ensures |r| <= |s| && r == s[|s| - |r|..]
    ensures r == [] || r[0] != c
    ensures forall i :: 0 <= i < |s| - |r| ==> s[i] == c
  {
    if s != [] && s[0] == c then StripStart(s[1..], c) else s
  }

  function StripEnd(s: string, c: char): (r: string)
    ensures |r| <= |s| && r == s[..|r|]
    ensures r == [] || r[|r| - 1] != c
    ensures forall i :: |r| <= i < |s| ==> s[i] == c
  {
    if s != [] && s[|s| - 1] == c then StripEnd(s[..|s| - 1], c) else s
  }

  /** `s.strip(c)`: s without its leading and trailing runs of c. */
  function Strip(s: string, c: char): (r: string)
    ensures r == [] || (r[0] != c && r[|r| - 1] != c)
    ensures exists i: nat :: SemVer.OccursAt(s, r, i)
    ensures s == [] || (s[0] != c && s[|s| - 1] != c) ==> r == s
  {
    var t := StripStart(s, c);
    var r := StripEnd(t, c);
    assert s[|s| - |t|..][..|r|] == r;
    assert SemVer.OccursAt(s, r, |s| - |t|);
    assert s != [] && s[0] != c && s[|s| - 1] != c ==> |t| == |s| && t[|t| - 1] == s[|s| - 1];
    r
  }

  /** Stripping twice is stripping once. */
  lemma StripIdempotent(s: string, c: char)
    ensures Strip(Strip(s, c), c) == Strip(s, c)
  {
  }

  /** `pat in s` on strings. */
  predicate Contains(s: string, pat: string)
  {
    exists i :: 0 <= i <= |s| - |pat| && SemVer.OccursAt(s, pat, i)
  }

  /** The host as the constructor stores it: stripped of "/", and given
      "<scheme>://" unless "http" occurs anywhere in it. */
  function WithScheme(host: string, scheme: string): (r: string)
    ensures Contains(host, "http") ==> r == host
    ensures !Contains(host, "http") ==> r == scheme + "://" + host
  {
    if Contains(host, "http") then host else scheme + "://" + host
  }

  /** An occurrence inside a part is an occurrence in the whole. */
  lemma ContainsInSuffix(a: string, b: string, pat: string)
    requires Contains(b, pat)
    ensures Contains(a + b, pat)
  {
    var i :| 0 <= i <= |b| - |pat| && SemVer.OccursAt(b, pat, i);
    assert (a + b)[|a| + i..|a| + i + |pat|] == b[i..i + |pat|];
    assert SemVer.OccursAt(a + b, pat, |a| + i);
  }

  lemma ContainsInPrefix(a: string, b: string, pat: string)
    requires Contains(a, pat)
    ensures Contains(a + b, pat)
  {
    var i :| 0 <= i <= |a| - |pat| && SemVer.OccursAt(a, pat, i);
    assert (a + b)[i..i + |pat|] == a[i..i + |pat|];
    assert SemVer.OccursAt(a + b, pat, i);
  }

  /** With an http scheme (the default "https"), the stored URL always
      contains "http", so applying the rule again adds nothing. */
  lemma SchemeAddedOnce(host: string, scheme: string)
    requires Contains(scheme, "http")
    ensures Contains(WithScheme(host, scheme), "http")
    ensures WithScheme(WithScheme(host, scheme), scheme) == WithScheme(host, scheme)
  {
    if !Contains(host, "http") {
      ContainsInPrefix(scheme, "://" + host, "http");
      assert scheme + "://" + host == scheme + ("://" + host);
    }
  }

  /** A dictionary of query parameters, in insertion order: no key
      appears twice. */
  predicate KeysUnique(ps: seq<(string, string)>)
  {
    ps == [] || (Lookup(ps[1..], ps[0].0).None? && KeysUnique(ps[1..]))
  }

  function Lookup(ps: seq<(string, string)>, k: string): (r: Option<string>)
    ensures r.None? <==> forall i :: 0 <= i < |ps| ==> ps[i].0 != k
    ensures r.Some? ==> exists i :: 0 <= i < |ps| && ps[i] == (k, r.value)
  {
    if ps == [] then None
    else if ps[0].0 == k then Some(ps[0].1)
    else Lookup(ps[1..], k)
  }

  /** `d[k] = v`: an existing key keeps its place with the new value; a new
      key is added at the end. */
  function Put(ps: seq<(string, string)>, k: string, v: string): (r: seq<(string, string)>)
    ensures Lookup(r, k) == Some(v)
    ensures forall k' :: k' != k ==> Lookup(r, k') == Lookup(ps, k')
    ensures |r| == |ps| || |r| == |ps| + 1
  {
    if ps == [] then [(k, v)]
    else if ps[0].0 == k then [(k, v)] + ps[1..]
    else [ps[0]] + Put(ps[1..], k, v)
  }

  /** Putting keeps the keys distinct. */
  lemma {:induction false} PutKeepsUnique(ps: seq<(string, string)>, k: string, v: string)
    ensures KeysUnique(ps) ==> KeysUnique(Put(ps, k, v))
  {
    if ps != [] && ps[0].0 != k {
      PutKeepsUnique(ps[1..], k, v);
      assert Put(ps, k, v)[1..] == Put(ps[1..], k, v);
    }
  }

  /** `d.update(**kwargs)`: each keyword argument put in turn. */
  function UpdateAll(ps: seq<(string, string)>, kwargs: seq<(string, string)>): (r: seq<(string, string)>)
    ensures KeysUnique(ps) ==> KeysUnique(r)
    decreases kwargs
  {
    if kwargs == [] then ps
    else
      PutKeepsUnique(ps, kwargs[0].0, kwargs[0].1);
      UpdateAll(Put(ps, kwargs[0].0, kwargs[0].1), kwargs[1..])
  }

  /** After an update a key has its keyword value when one was given (the
      keyword arguments of one call have distinct names), and its old value
      otherwise. */
  lemma {:induction false} UpdateAllLookup(ps: seq<(string, string)>, kwargs: seq<(string, string)>, k: string)
    requires KeysUnique(kwargs)
    ensures Lookup(kwargs, k).Some? ==> Lookup(UpdateAll(ps, kwargs), k) == Lookup(kwargs, k)
    ensures Lookup(kwargs, k).None? ==> Lookup(UpdateAll(ps, kwargs), k) == Lookup(ps, k)
    decreases kwargs
  {
    if kwargs != [] {
      UpdateAllLookup(Put(ps, kwargs[0].0, kwargs[0].1), kwargs[1..], k);
    }
  }

  /** The "k=v" pieces urlencode joins, each side quoted. */
  function EncodedPairs(ps: seq<(string, string)>, quote: string -> string): (r: seq<string>)
    ensures |r| == |ps|
    ensures forall i :: 0 <= i < |ps| ==> r[i] == quote(ps[i].0) + "=" + quote(ps[i].1)
  {
    if ps == [] then [] else [quote(ps[0].0) + "=" + quote(ps[0].1)] + EncodedPairs(ps[1..], quote)
  }

  /** `urlencode(params)`: the pieces joined by "&"; no parameters give "". */
  function UrlEncode(ps: seq<(string, string)>, quote: string -> string): (r: string)
    ensures ps == [] <==> r == ""
  {
    if ps == [] then "" else Join(EncodedPairs(ps, quote), '&')
  }

  /** Text without the separator splits into itself. */
  lemma {:induction false} SplitWhole(w: string, c: char)
    requires c !in w
    ensures Split(w, c) == [w]
  {
    if w != [] {
      SplitWhole(w[1..], c);
    }
  }

  /** A piece without the separator, then the separator, splits off
      first. */
  lemma {:induction false} SplitFirst(w: string, t: string, c: char)
    requires c !in w
    ensures Split(w + [c] + t, c) == [w] + Split(t, c)
  {
    if w == [] {
      assert w + [c] + t == [c] + t;
      assert ([c] + t)[1..] == t;
    } else {
      var s := w + [c] + t;
      SplitFirst(w[1..], t, c);
      assert s[1..] == w[1..] + [c] + t;
      assert s[0] == w[0] && s[0] != c;
      var rest := Split(s[1..], c);
      assert rest == [w[1..]] + Split(t, c);
      assert Split(s, c) == [[s[0]] + rest[0]] + rest[1..];
      assert [w[0]] + w[1..] == w;
    }
  }

  /** Splitting undoes joining pieces that do not contain the separator. */
  lemma {:induction false} SplitJoin(parts: seq<string>, c: char)
    requires |parts| >= 1 && forall i :: 0 <= i < |parts| ==> c !in parts[i]
    ensures Split(Join(parts, c), c) == parts
  {
    if |parts| == 1 {
      SplitWhole(parts[0], c);
    } else {
      SplitJoin(parts[1..], c);
      SplitFirst(parts[0], Join(parts[1..], c), c);
    }
  }

  /** One quoted "k=v" piece has no "&" and splits at its "=". */
  lemma PieceSplits(qk: string, qv: string)
    requires '&' !in qk && '=' !in qk && '&' !in qv && '=' !in qv
    ensures '&' !in qk + "=" + qv
    ensures Split(qk + "=" + qv, '=') == [qk, qv]
  {
    SplitWhole(qv, '=');
    SplitFirst(qk, qv, '=');
  }

  /** With a quoting function that escapes "&" and "=" (as quote_plus
      does), the query string splits back into its pieces, and each piece
      into its quoted key and value. */
  lemma QueryRoundTrip(ps: seq<(string, string)>, quote: string -> string)
    requires ps != []
    requires forall s :: '&' !in quote(s) && '=' !in quote(s)
    ensures Split(UrlEncode(ps, quote), '&') == EncodedPairs(ps, quote)
    ensures forall i :: 0 <= i < |ps| ==> Split(EncodedPairs(ps, quote)[i], '=') == [quote(ps[i].0), quote(ps[i].1)]
  {
    var pieces := EncodedPairs(ps, quote);
    forall i | 0 <= i < |ps|
      ensures '&' !in pieces[i]
      ensures Split(pieces[i], '=') == [quote(ps[i].0), quote(ps[i].1)]
    {
      PieceSplits(quote(ps[i].0), quote(ps[i].1));
    }
    SplitJoin(pieces, '&');
  }

  /** A URL being built: the scheme and host with the path so far, and the
      query parameters. */
  class Url {
    var fullUrl: string
    var queryParams: seq<(string, string)>

    ghost predicate Valid()
      reads this
    {
      KeysUnique(queryParams)
    }

    /** The constructor once the host is accepted; the scheme is always
        the default "https" (see NewUrl). */
    constructor (host: string)
      ensures Valid()
      ensures fullUrl == WithScheme(Strip(host, '/'), "https") && queryParams == []
    {
      fullUrl := WithScheme(Strip(host, '/'), "https");
      queryParams := [];
    }

    /** `url / value`: appends "/" and the segment stripped of "/" to this
        same object, and returns it. */
    method Append(value: string) returns (self: Url)
      modifies this`fullUrl
      ensures self == this
      ensures fullUrl == old(fullUrl) + "/" + Strip(value, '/')
    {
      fullUrl := fullUrl + "/" + Strip(value, '/');
      self := this;
    }

    /** add_params: every keyword argument is put into the parameters. */
    method AddParams(kwargs: seq<(string, string)>)
      requires Valid()
      modifies this`queryParams
      ensures Valid()
      ensures queryParams == UpdateAll(old(queryParams), kwargs)
    {
      queryParams := UpdateAll(queryParams, kwargs);
    }

    /** `str(url)`: the URL, "?", and the encoded parameters; the "?" is
        there even without parameters. */
    function ToString(quote: string -> string): (r: string)
      reads this
      ensures |r| > |fullUrl| && r[..|fullUrl| + 1] == fullUrl + "?"
      ensures queryParams == [] <==> r == fullUrl + "?"
    {
      fullUrl + "?" + UrlEncode(queryParams, quote)
    }
  }

  /** URL(host[, scheme]): URL subclasses str and defines no `__new__`, so
      an explicit scheme, positional or keyword, reaches `str.__new__`,
      which raises TypeError before `__init__` runs. Without one, the host
      must convert to text and encode to IDNA (a None host or a failed
      encoding raise ValueError "Invalid host"); whether it also matches
      the domain pattern is never looked at. */
  method NewUrl(host: Option<string>, scheme: Option<string>, idnaEncodes: string -> bool) returns (r: Result<Url, Failure>)
    ensures scheme.Some? ==> r == Err(Uncaught("TypeError"))
    ensures scheme.None? ==> (host.None? || !idnaEncodes(host.value) <==> r.Err?)
    ensures scheme.None? && r.Err? ==> r.error == Uncaught("ValueError")
    ensures r.Ok? ==> scheme.None? && fresh(r.value) && r.value.Valid() && r.value.queryParams == []
                      && r.value.fullUrl == WithScheme(Strip(host.value, '/'), "https")
  {
    if scheme.Some? {
      return Err(Uncaught("TypeError"));
    }
    if host.None? || !idnaEncodes(host.value) {
      return Err(Uncaught("ValueError"));
    }
    var u := new Url(host.value);
    r := Ok(u);
  }
}

=== FILE: user_serializer.dfy ===
/** UserSerializer of v1/accounts/serializers/user.py: the current-policy
    field, and the helper that finds or prepares the user account of an
    entity's contact person. The user serializer that finally validates and
    saves the prepared data is not part of this model: the helper's outcome
    is the data it hands over. */
module UserSerializer {
  import opened Wrappers
  import opened Failures
  import opened JsonValues
  import opened Accounts
  import opened Handshake
  import opened RequestViews
  import opened DbModels

  /** get_current_policy: the current privacy policy's id, or None. */
  function CurrentPolicyId(ps: seq<Policy>, today: int): (r: Option<nat>)
    ensures r.Some? <==> exists p :: p in ps && PolicyInForce(p, today)
    ensures r.Some? ==> exists p :: p in ps && PolicyInForce(p, today) && p.id == r.value
                                    && forall q :: q in ps && PolicyInForce(q, today) ==> q.version <= p.version
  {
    match CurrentPrivacyPolicy(ps, today)
    case None => None
    case Some(p) => Some(p.id)
  }

  /** Every non-empty set of ids has a least element. */
  lemma {:induction false} Least(s: set<nat>) returns (m: nat)
    requires s != {}
    ensures m in s && forall x :: x in s ==> m <= x
    decreases |s|
  {
    var y :| y in s;
    if s - {y} == {} {
      m := y;
      forall x | x in s ensures m <= x {
        assert x !in s - {y};
      }
    } else {
      var k := Least(s - {y});
      m := if y < k then y else k;
      forall x | x in s ensures m <= x {
        if x != y { assert x in s - {y}; }
      }
    }
  }

  /** `queryset.first()` on an unordered query (CustomUser's own Meta sets
      no ordering): the matching row with the smallest primary key. */
  function FirstOf(s: set<nat>): (m: nat)
    requires s != {}
    ensures m in s && forall x :: x in s ==> m <= x
  {
    assert exists m :: m in s && forall x :: x in s ==> m <= x by {
      var m := Least(s);
    }
    var m :| m in s && forall x :: x in s ==> m <= x;
    m
  }

  /** The contact column a lookup filters on. */
  datatype Contact = ByEmail | ByPhone
  {
    function Of(u: User): string
    {
      match this
      case ByEmail => u.email
      case ByPhone => u.phone
    }
  }

  /** `CustomUser.objects.filter(email=…)` or `filter(phone=…)`: the users
      whose contact column holds the value. */
  function WithContact(users: map<UserId, User>, c: Contact, value: string): (s: set<UserId>)
    ensures forall u :: u in s <==> u in users && c.Of(users[u]) == value
  {
    set u | u in users && c.Of(users[u]) == value
  }

  /** The text of a validated string entry; other values match no user. */
  function TextOf(j: Json): string
  {
    if j.JStr? then j.s else ""
  }

  /** The contact name: `contact_name` when truthy, else `name`, else " ". */
  function ContactName(vd: map<string, Json>): (r: Json)
    ensures "contact_name" in vd && Truthy(vd["contact_name"]) ==> r == vd["contact_name"]
    ensures !("contact_name" in vd && Truthy(vd["contact_name"])) && "name" in vd ==> r == vd["name"]
    ensures !("contact_name" in vd && Truthy(vd["contact_name"])) && "name" !in vd ==> r == JStr(" ")
  {
    if "contact_name" in vd && Truthy(vd["contact_name"]) then vd["contact_name"]
    else if "name" in vd then vd["name"]
    else JStr(" ")
  }

  /** `name.strip().split(" ")`, then the first piece and the rest joined
      by spaces. */
  function NameParts(name: string): (r: (string, string))
    ensures ' ' !in r.0
    ensures ' ' in Trim(name) ==> r.0 + " " + r.1 == Trim(name)
    ensures ' ' !in Trim(name) ==> r.0 == Trim(name) && r.1 == ""
  {
    var t := Trim(name);
    var parts := Split(t, ' ');
    if |parts| == 1 then
      (parts[0], "")
    else
      assert ' ' in t by { SplitMany(t, ' '); }
      (parts[0], Join(parts[1..], ' '))
  }

  /** What create_update_user does: hand back a matching user, give up
      without contact details, or prepare the data for a new or updated
      user. */
  datatype Outcome = Matched(user: UserId) | NoContact | Prepared(userData: map<string, Json>)

  /** create_update_user. Without an instance, a truthy email decides the
      lookup (the phone is then ignored); a truthy phone is used only
      without one; with neither the result is None. Otherwise the contact
      name is chosen, the data is cleaned to the user fields and the name
      is split into first and last name; a contact name that is not text
      raises AttributeError at `strip`. */
  function CreateUpdateUser(users: map<UserId, User>, vd: map<string, Json>, hasInstance: bool, userFields: set<string>)
    : (r: Result<Outcome, Failure>)
    ensures !hasInstance && "email" in vd && Truthy(vd["email"]) && WithContact(users, ByEmail, TextOf(vd["email"])) != {} ==>
              r == Ok(Matched(FirstOf(WithContact(users, ByEmail, TextOf(vd["email"])))))
    ensures !hasInstance && !("email" in vd && Truthy(vd["email"])) && "phone" in vd && Truthy(vd["phone"])
              && WithContact(users, ByPhone, TextOf(vd["phone"])) != {} ==>
              r == Ok(Matched(FirstOf(WithContact(users, ByPhone, TextOf(vd["phone"])))))
    ensures !hasInstance && !("email" in vd && Truthy(vd["email"])) && !("phone" in vd && Truthy(vd["phone"])) ==>
              r == Ok(NoContact)
    ensures r.Ok? && r.value.Matched? ==> r.value.user in users
    ensures r.Err? ==> r == Err(Uncaught("AttributeError")) && !ContactName(vd).JStr?
    ensures hasInstance && ContactName(vd).JStr? ==> r.Ok? && r.value.Prepared?
    ensures (!hasInstance && "email" in vd && Truthy(vd["email"]) && WithContact(users, ByEmail, TextOf(vd["email"])) == {}
             && ContactName(vd).JStr?) ==> r.Ok? && r.value.Prepared?
    ensures (!hasInstance && !("email" in vd && Truthy(vd["email"])) && "phone" in vd && Truthy(vd["phone"])
             && WithContact(users, ByPhone, TextOf(vd["phone"])) == {} && ContactName(vd).JStr?) ==> r.Ok? && r.value.Prepared?
    ensures r.Ok? && r.value.Matched? <==>
              !hasInstance
              && (if "email" in vd && Truthy(vd["email"]) then WithContact(users, ByEmail, TextOf(vd["email"])) != {}
                  else "phone" in vd && Truthy(vd["phone"]) && WithContact(users, ByPhone, TextOf(vd["phone"])) != {})
    ensures r.Ok? && r.value.Prepared? ==> ContactName(vd).JStr?
    ensures r.Ok? && r.value.Prepared? && ContactName(vd).JStr? ==>
              var parts := NameParts(ContactName(vd).s);
              r.value.userData == Cleaned(vd["contact_name" := ContactName(vd)], userFields)["first_name" := JStr(parts.0)]["last_name" := JStr(parts.1)]
  {
    var lookup: Option<Outcome> :=
      if hasInstance then None
      else if "email" in vd && Truthy(vd["email"]) then
        var m := WithContact(users, ByEmail, TextOf(vd["email"]));
        if m != {} then Some(Matched(FirstOf(m))) else None
      else if "phone" in vd && Truthy(vd["phone"]) then
        var m := WithContact(users, ByPhone, TextOf(vd["phone"]));
        if m != {} then Some(Matched(FirstOf(m))) else None
      else Some(NoContact);
    if lookup.Some? then Ok(lookup.value)
    else
      var contact := ContactName(vd);
      var data := Cleaned(vd["contact_name" := contact], userFields);
      if !contact.JStr? then Err(Uncaught("AttributeError"))
      else
        var parts := NameParts(contact.s);
        Ok(Prepared(data["first_name" := JStr(parts.0)]["last_name" := JStr(parts.1)]))
  }
}

=== FILE: validation_tokens.dfy ===
/** The ValidationToken lifecycle (v1/accounts/models.py): key generation,
    expiry from the validity table, validity, validation, refresh and
    invalidation. Times are seconds; the validity table is in minutes. */
module ValidationTokens {
  import opened Wrappers
  import opened AccountConstants

  type UserId = nat

  datatype Token = Token(
    user: Option<UserId>,
    key: string,
    status: TokenStatus,
    expiry: int,
    kind: TokenType,
    updater: Option<UserId>,
    ip: string,
    location: string,
    device: string)

  /** get_expiry: now plus the validity period of the token's type. */
  function ExpiryFor(kind: TokenType, now: int): (e: int)
    ensures e - now == 60 * ValidityMinutes(kind)
    ensures now + 60 * MINUTES_30 <= e <= now + 60 * DAYS_365
  {
    ValidityTableTotal();
    now + 60 * ValidityMinutes(kind)
  }

  /** is_valid: not yet expired and still UNUSED. */
  predicate IsValid(t: Token, now: int)
  {
    t.expiry > now && t.status == Unused
  }

  /** A key is taken when an UNUSED token of the same type already has it. */
  predicate KeyTaken(ts: seq<Token>, key: string, kind: TokenType)
  {
    exists i :: 0 <= i < |ts| && ts[i].key == key && ts[i].kind == kind && ts[i].status == Unused
  }

  /** AbstractBaseModel.save: when a user is signed in, the saved row
      records them as its updater; otherwise the updater stays as it is. */
  function SavedBy(t: Token, current: Option<UserId>): (r: Token)
    ensures r.updater == (if current.Some? then current else t.updater)
    ensures r.(updater := t.updater) == t
  {
    if current.Some? then t.(updater := current) else t
  }

  /** invalidate: the token is marked USED and expires now; both saves
      record the signed-in user as updater. */
  function Invalidated(t: Token, now: int, current: Option<UserId>): (r: Token)
    ensures r.status == Used && r.expiry == now
    ensures r.key == t.key && r.kind == t.kind && r.user == t.user
    ensures r.updater == (if current.Some? then current else t.updater)
    ensures r == t.(status := Used, expiry := now, updater := r.updater)
    ensures !IsValid(r, now)
  {
    SavedBy(t.(status := Used, expiry := now), current)
  }

  /** `validate` as written: `not self.is_valid` tests the bound method, which
      is always truthy, so the result is True and the token becomes USED
      whatever its state. The token's user is set as updater, and the save
      replaces it with the signed-in user when there is one. */
  function ValidatedAsWritten(t: Token, now: int, current: Option<UserId>): (r: (bool, Token))
    ensures r.0
    ensures r.1 == t.(status := Used, updater := if current.Some? then current else t.user)
  {
    (true, SavedBy(t.(status := Used, updater := t.user), current))
  }

  /** `validate` as evidently intended: the result is whether the token was
      valid before it was used up. */
  function ValidatedIntended(t: Token, now: int, current: Option<UserId>): (r: (bool, Token))
    ensures r.0 <==> IsValid(t, now)
    ensures r.1 == t.(status := Used, updater := if current.Some? then current else t.user)
    ensures !IsValid(r.1, now)
  {
    (IsValid(t, now), SavedBy(t.(status := Used, updater := t.user), current))
  }

  /** Both versions leave the same token behind; only the answer differs,
      and only for a token that was no longer valid. */
  lemma ValidateVersionsAgree(t: Token, now: int, current: Option<UserId>)
    ensures ValidatedAsWritten(t, now, current).1 == ValidatedIntended(t, now, current).1
    ensures ValidatedAsWritten(t, now, current).0 == ValidatedIntended(t, now, current).0 <==> IsValid(t, now)
  {
  }

  /** An expired token shows the difference: the source reports it valid. */
  lemma ValidateAcceptsExpiredToken()
    ensures var t := Token(None, "k", Unused, 0, VerifyEmail, None, "", "", "");
            !IsValid(t, 10) && ValidatedAsWritten(t, 10, None).0 && !ValidatedIntended(t, 10, None).0
  {
  }

  /** `refresh` as written: `not self.is_valid` is never true, so the branch
      that would draw a new key and reset the status never runs. Only the
      expiry and the updater change: an UNUSED token is valid again under its
      old key, and a USED one stays USED and so stays invalid. */
  function RefreshedAsWritten(t: Token, now: int, current: Option<UserId>): (r: Token)
    ensures r.key == t.key && r.kind == t.kind && r.user == t.user && r.status == t.status
    ensures r.expiry == ExpiryFor(t.kind, now) && r.updater == (if current.Some? then current else t.user)
    ensures r == t.(expiry := r.expiry, updater := r.updater)
    ensures IsValid(r, now) <==> t.status == Unused
  {
    SavedBy(t.(expiry := ExpiryFor(t.kind, now), updater := t.user), current)
  }

  /** An expired UNUSED token shows the difference: refreshing renews it
      under its old key, which the intended version would have replaced. */
  lemma RefreshKeepsExpiredKey()
    ensures var t := Token(None, "k", Unused, 0, Otp, None, "", "", "");
            !IsValid(t, 10) && IsValid(RefreshedAsWritten(t, 10, None), 10)
            && RefreshedAsWritten(t, 10, None).key == t.key
  {
  }

  /** A USED token cannot be brought back by refresh as written. */
  lemma RefreshLeavesUsedInvalid(t: Token, now: int, later: int, current: Option<UserId>)
    requires t.status == Used
    ensures !IsValid(RefreshedAsWritten(t, now, current), later)
  {
  }

  /** The token table, in creation order; a position is a token's id. */
  class TokenTable {
    var tokens: seq<Token>

    /** Every stored token has a key: save generates one when it is empty. */
    ghost predicate Valid()
      reads this
    {
      forall i :: 0 <= i < |tokens| ==> tokens[i].key != ""
    }

    constructor ()
      ensures Valid() && tokens == []
    {
      tokens := [];
    }

    /** generate_unique_key: draws keys from the random source until one is
        not held by an UNUSED token of the same type. The source recurses
        without bound; `draws` is the finite stream of random keys, and None
        means it ran dry. */
    method GenerateUniqueKey(kind: TokenType, draws: seq<string>) returns (r: Option<string>)
      ensures r.Some? ==> !KeyTaken(tokens, r.value, kind)
      ensures r.Some? ==> exists j :: 0 <= j < |draws| && draws[j] == r.value
                             && forall k :: 0 <= k < j ==> KeyTaken(tokens, draws[k], kind)
      ensures r.None? <==> forall k :: 0 <= k < |draws| ==> KeyTaken(tokens, draws[k], kind)
    {
      var i := 0;
      while i < |draws|
        invariant 0 <= i <= |draws|
        invariant forall k :: 0 <= k < i ==> KeyTaken(tokens, draws[k], kind)
      {
        if !KeyTaken(tokens, draws[i], kind) {
          return Some(draws[i]);
        }
        i := i + 1;
      }
      return None;
    }

    /** ValidationToken.initialize: a new UNUSED token whose first save gives
        it a unique key and an expiry from the validity table; the second
        save stores ip, location and device and keeps key and expiry. Both
        saves record the signed-in user, if any, as updater. */
    method Initialize(u: Option<UserId>, kind: TokenType, ip: string, location: string,
                      device: string, now: int, draws: seq<string>, current: Option<UserId>)
      returns (k: Option<nat>)
      requires Valid()
      requires forall j :: 0 <= j < |draws| ==> draws[j] != ""
      modifies this
      ensures Valid()
      ensures k.None? ==> tokens == old(tokens)
      ensures k.Some? ==> k.value == |old(tokens)| && |tokens| == |old(tokens)| + 1
                          && tokens[..k.value] == old(tokens)
      ensures k.Some? ==> var t := tokens[k.value];
                          t.user == u && t.kind == kind && t.status == Unused
                          && t.expiry == ExpiryFor(kind, now) && IsValid(t, now)
                          && !KeyTaken(old(tokens), t.key, kind)
                          && t.ip == ip && t.location == location && t.device == device
                          && t.updater == current
    {
      var key := GenerateUniqueKey(kind, draws);
      if key.None? {
        return None;
      }
      var t := Token(u, key.value, Unused, ExpiryFor(kind, now), kind, current, ip, location, device);
      tokens := tokens + [t];
      k := Some(|tokens| - 1);
    }

    /** ValidationToken.validate, as written (see ValidatedAsWritten). */
    method Validate(k: nat, now: int, current: Option<UserId>) returns (status: bool)
      requires Valid() && k < |tokens|
      modifies this
      ensures Valid() && status
      ensures tokens == old(tokens)[k := ValidatedAsWritten(old(tokens[k]), now, current).1]
      ensures tokens[k].status == Used
    {
      var r := ValidatedAsWritten(tokens[k], now, current);
      tokens := tokens[k := r.1];
      status := r.0;
    }

    /** ValidationToken.refresh, as written (see RefreshedAsWritten); the
        result is True and no other token changes. */
    method Refresh(k: nat, now: int, current: Option<UserId>) returns (b: bool)
      requires Valid() && k < |tokens|
      modifies this
      ensures Valid() && b
      ensures tokens == old(tokens)[k := RefreshedAsWritten(old(tokens[k]), now, current)]
    {
      tokens := tokens[k := RefreshedAsWritten(tokens[k], now, current)];
      b := true;
    }

    /** refresh as evidently intended: a token that is no longer valid gets a
        new unique key and becomes UNUSED before it is renewed. `b` is false
        only when the random source runs dry. */
    method RefreshIntended(k: nat, now: int, draws: seq<string>, current: Option<UserId>) returns (b: bool)
      requires Valid() && k < |tokens|
      requires forall j :: 0 <= j < |draws| ==> draws[j] != ""
      modifies this
      ensures Valid()
      ensures !b <==> !IsValid(old(tokens[k]), now)
                      && forall j :: 0 <= j < |draws| ==> KeyTaken(old(tokens), draws[j], old(tokens[k]).kind)
      ensures b ==> |tokens| == |old(tokens)| && tokens == old(tokens)[k := old(tokens[k]).(key := tokens[k].key, status := Unused,
                                                                expiry := ExpiryFor(old(tokens[k]).kind, now),
                                                                updater := if current.Some? then current
                                                                           else old(tokens[k]).user)]
      ensures b ==> IsValid(tokens[k], now)
      ensures b && !IsValid(old(tokens[k]), now) ==> !KeyTaken(old(tokens), tokens[k].key, tokens[k].kind)
      ensures b && IsValid(old(tokens[k]), now) ==> tokens[k].key == old(tokens[k]).key
      ensures !b ==> tokens == old(tokens)
    {
      var t := tokens[k];
      var key := t.key;
      if !IsValid(t, now) {
        var drawn := GenerateUniqueKey(t.kind, draws);
        if drawn.None? {
          return false;
        }
        key := drawn.value;
      }
      tokens := tokens[k := SavedBy(t.(key := key, status := Unused, expiry := ExpiryFor(t.kind, now), updater := t.user),
                                    current)];
      b := true;
    }

    /** mark_as_used: USED, saved by the signed-in user if any. */
    method MarkAsUsed(k: nat, current: Option<UserId>)
      requires Valid() && k < |tokens|
      modifies this
      ensures Valid()
      ensures tokens == old(tokens)[k := SavedBy(old(tokens[k]).(status := Used), current)]
    {
      tokens := tokens[k := SavedBy(tokens[k].(status := Used), current)];
    }

    /** invalidate: USED and expiring now, so no longer valid. */
    method Invalidate(k: nat, now: int, current: Option<UserId>) returns (b: bool)
      requires Valid() && k < |tokens|
      modifies this
      ensures Valid() && b
      ensures tokens == old(tokens)[k := Invalidated(old(tokens[k]), now, current)]
      ensures !IsValid(tokens[k], now)
    {
      MarkAsUsed(k, current);
      tokens := tokens[k := SavedBy(tokens[k].(expiry := now), current)];
      b := true;
    }
  }
}

=== FILE: wrappers.dfy ===
/** Optional values and error-or-value results, standing in for Python's
    `None` and for the exceptions the server raises. */
module Wrappers {

  datatype Option<T> = None | Some(value: T)
  {
    function UnwrapOr(default: T): (r: T)
      ensures this.Some? ==> r == value
      ensures this.None? ==> r == default
    {
      match this
      case Some(v) => v
      case None => default
    }
  }

  datatype Result<T, E> = Ok(value: T) | Err(error: E)
}
